=== FILE: README.md ===
# Shopify × Facebook Ads optimizer, modelled in Dafny

This project models the decision logic of a Shopify app that runs Facebook ad
campaigns for a shop's products and tunes them. The centre is the rule-based
campaign optimizer. It works in four steps:

- it aggregates a campaign's performance samples into rates, each guarded
  against a zero denominator;
- four rules (budget, bidding, creative, targeting) propose at most one
  change each;
- each proposal is applied, leaving a history record that ends `applied`
  (with one alert unless the alert write throws) or `failed` with none;
- an hourly cycle runs the whole pipeline over every active campaign, under
  a run guard, so that one campaign's exception does not stop the rest.

Around it sit the app's smaller pure pieces:

- the subscription plans, quotas and billing;
- the Facebook targeting, budget and catalog formatting;
- the Shopify product projections and order analytics;
- webhook attribution and the conversion payload;
- the AI service's fragment extraction and fallbacks;
- the analytics, campaign, AI, dashboard and auth controllers;
- the root, install and embedded-app routes with their CORS and framing
  filters;
- the response middleware;
- the browser's notification and relative-time helpers.

Every entity is an immutable datatype, and every operation is a pure
function. Effects become inputs:

- a database query's rows are a sequence;
- a write is a new store value;
- a Facebook, Shopify or Gemini call is a `Result` outcome;
- the clock is a millisecond parameter;
- hashes, `JSON.parse` and date formatting are function parameters.

Money and rates are exact `real`s. JavaScript's `Math.round` (half up),
`Math.ceil` and `toFixed(2)` are written out in `Numeric`. JavaScript
falsiness (`x || d`) is written out as an explicit test for absence, zero
or the empty string.

Modules follow the source files:

| module | source |
|---|---|
| `Metrics`, `Rules`, `Apply`, `Cycle` | services/optimizationService.js |
| `Facebook` | services/facebookService.js |
| `Subscriptions` | models/Subscription.js |
| `Billing` | services/billingService.js |
| `ProductSync` | services/productSyncService.js |
| `Shopify` | services/shopifyService.js |
| `Webhooks` | services/webhookService.js |
| `AiService` | services/aiService.js |
| `Analytics` | controllers/analyticsController.js |
| `Campaigns` | controllers/campaignController.js |
| `AiController` | controllers/aiController.js |
| `Dashboard` | controllers/dashboardController.js |
| `Auth` | controllers/authController.js |
| `AppRoutes` | app.js |
| `Performance` | middleware/performance.js |
| `ClientFormat` | public/js/app.js |
| `Wrappers`, `Strings`, `Numeric`, `Ranking`, `Schema`, `Http` | shared helpers and the column value sets of config/database.js |

Where the documented behaviour and the code differ, the model follows the
code:

- applying a targeting change makes no Facebook request, and applying a
  bidding change sends an empty update, so no request is made either;
- a failed apply marks every pending record of the same campaign and kind
  as failed, not only the new one;
- when the final save fails, the campaign as held in memory keeps the
  fields already assigned;
- the creative rule flags a creative only above 1000 impressions
  (strictly), and puts no impression precondition on the set.

## Model

| member | source | states |
|---|---|---|
| Numeric.Round | services/optimizationService.js:172 | the nearest whole number, halves going up |
| Numeric.RoundCents | services/optimizationService.js:172 | within half a cent of the value, with at most two decimals |
| Numeric.RoundCentsFixesCents | services/optimizationService.js:172 | rounding a value that already has two decimals gives it back |
| Numeric.RoundCentsMonotone | services/optimizationService.js:172 | rounding to cents preserves order |
| Numeric.Ceil | controllers/campaignController.js:58 | the least whole number not below the value |
| Ranking.SortDesc | controllers/dashboardController.js:83 | a permutation of the list, highest key first |
| Ranking.CutRanking | controllers/dashboardController.js:84 | the head of a ranking is ranked, and nothing in the tail ranks above anything in the head |
| Ranking.Top | controllers/dashboardController.js:83-84 | as many as there are up to the limit, highest key first, drawn from the list, none left out ranking above one kept |
| Metrics.Aggregate | services/optimizationService.js:480-512 | no samples give the all-zero aggregate; otherwise the totals, each ratio exactly its quotient or 0 when the denominator is 0, frequency the per-sample mean, days running the sample count |
| Metrics.SumAppend | services/optimizationService.js:489-497 | the totals of joined sample lists are the sums of their totals |
| Metrics.SumSplit | services/optimizationService.js:489-497 | taking one sample out removes exactly its contribution |
| Metrics.SumPermutation | services/optimizationService.js:489-497 | the totals do not depend on the order of the rows |
| Metrics.AggregatePermutation | services/optimizationService.js:480-512 | neither does the aggregate |
| Metrics.SumNonNegative | services/optimizationService.js:489-497 | non-negative columns give non-negative totals |
| Metrics.AggregateNonNegative | services/optimizationService.js:480-512 | non-negative columns give non-negative rates |
| Metrics.Flatten | services/optimizationService.js:515 | no campaigns give no samples |
| Metrics.AccountTotals | services/optimizationService.js:514-517 | pooling every campaign's samples gives the campaign totals added up |
| Metrics.AccountMetrics | services/optimizationService.js:514-517 | the account aggregate counts every pooled sample and its money totals are the campaigns' totals added up |
| Rules.BudgetTarget | services/optimizationService.js:149-169 | the unrounded target is the budget scaled by 1 + 10% per ROAS point above 4 (capped at +50% from a ROAS of 9) on the increase branch, by 1 - 10% per point below 1.5 (capped at -30%) on the decrease branch, and the budget itself otherwise; it stays within 0.7 and 1.5 times the budget |
| Rules.BudgetRule | services/optimizationService.js:144-185 | a proposal carries the old budget and the target rounded to cents as the new one, with confidence `score \|\| 75`; there is no proposal exactly when the rounded target equals the budget; it raises on the increase branch and lowers on the decrease branch; no branch, or a ROAS of exactly 4, gives no proposal |
| Rules.BudgetRuleFollowsFraction | services/optimizationService.js:149-182 | against a piecewise reference fraction (10% per point, clamped at 50% and 30%), the proposed budget is the scaled budget rounded to cents, within half a cent of it, and nothing is proposed exactly when rounding gives the budget back |
| Rules.BudgetRaiseExample | services/optimizationService.js:153-158 | a ROAS of 5 after 3 days raises a budget of 100 to 110 |
| Rules.BudgetLowerExample | services/optimizationService.js:162-167 | a ROAS of 0.5 after 2 days lowers a budget of 100 to 90, and a zero score falls back to 75 |
| Rules.BiddingRule | services/optimizationService.js:188-217 | a proposal exists exactly when the CPC branch fires on without-cap, or the conversion-rate branch fires on any strategy but target-cost; first match wins; confidence `score \|\| 70` |
| Rules.BiddingSettles | services/optimizationService.js:188-217 | under unchanged metrics, acting on the rule at most twice leaves nothing more to propose |
| Rules.ScoreOf | services/optimizationService.js:235-239 | a creative's score keeps its id, carries the summed impressions of its samples and their ROAS (revenue over spend, 0 without spend) |
| Rules.Scores | services/optimizationService.js:235-239 | one score per creative, in order |
| Rules.FlaggedIds | services/optimizationService.js:245-248 | an id is flagged exactly when its creative's ROAS is below the threshold and it has more than 1000 impressions |
| Rules.DecideCreatives | services/optimizationService.js:232-263 | fewer than two creatives give nothing; otherwise a proposal exists exactly when some creative underperforms, lists exactly those ids, asks for new creatives and has confidence 80 |
| Rules.CreativeRule | services/optimizationService.js:220-264 | every paused id belongs to one of the campaign's creatives |
| Rules.NotAllFlagged | services/optimizationService.js:242-248 | with non-negative ROAS values some creative is never flagged |
| Rules.TargetingRule | services/optimizationService.js:267-299 | a proposal exists exactly when one branch fires; expanding wins with confidence 75; otherwise a CTR above 2 with a conversion rate below 1.5 gives the narrowing with confidence 70 |
| Apply.RewriteTargeting | services/optimizationService.js:347-362 | only the age bounds change; expanding raises the upper bound by 5 (from 55 by default) up to 65; narrowing raises the lower bound by 2 (from 25) to at least 18 and lowers the upper by 2 (from 55) to at least 25 |
| Apply.ExpandSettles | services/optimizationService.js:352 | expanding again changes nothing once the upper bound is 65 |
| Apply.NarrowDrift | services/optimizationService.js:354-358 | from an unset range, k narrowings give 25+2k and 55-2k, so after 8 the lower bound exceeds the upper |
| Apply.MarkFailed | services/optimizationService.js:386-389 | every pending record of this campaign and kind becomes failed; every other record is unchanged |
| Apply.MarkFailedSettles | services/optimizationService.js:386-389 | afterwards no such pending record is left, and repeating the update changes nothing |
| Apply.Assign | services/optimizationService.js:316-362 | a budget change sets the budget, a bidding change the strategy, a targeting change the rewritten targeting; a creative change leaves the campaign alone |
| Apply.ApplyProposal | services/optimizationService.js:302-391 | on success one `applied` record with the time is added and, when the alert write succeeds, one alert; a throwing alert write still runs the catch, which marks the campaign's other pending records of that kind failed while the new record stays applied; any earlier throw marks the pending records failed and adds no alert; the campaign is changed only when the record was created and the Facebook step did not throw |
| Apply.MarkFailedAppend | services/optimizationService.js:386-389 | the bulk update leaves a record that is no longer pending where it is |
| Apply.TargetingRuleMovesAges | services/optimizationService.js:267-299 | acting on the targeting rule's proposal moves only the age range: an expansion keeps the lower age and never lowers an upper age within the cap; a narrowing strictly raises the lower age and strictly lowers an upper age of 27 or more |
| Apply.ApplyOutcomes | services/optimizationService.js:302-391 | the budget and strategy change only after their Facebook step; at most one alert is added, exactly on full success; a failed apply leaves only failed new records |
| Apply.NoRemoteFailureForBiddingOrTargeting | services/optimizationService.js:325-362 | a bidding change sends an empty body and so no request, and a targeting change makes no call, so neither fails at the Facebook step |
| Cycle.HourlyTick | services/optimizationService.js:34-42 | a tick starts a cycle exactly when none is running, and the guard is set afterwards either way |
| Cycle.Present | services/optimizationService.js:113-129 | the proposals kept are exactly the present ones, in slot order |
| Cycle.Proposals | services/optimizationService.js:113-129 | at most four proposals, exactly those the four rules return, in the order budget, bidding, creative, targeting |
| Cycle.ApplyAll | services/optimizationService.js:132-134 | applying each proposal in turn keeps the campaign's id, adds only success alerts for it, at most one per proposal, and leaves other campaigns' records in place |
| Cycle.OptimizeCampaign | services/optimizationService.js:97-141 | fewer than two samples change nothing; a throwing creative query aborts before any write; otherwise the campaign is stamped with the time, and the call throws exactly when the final save fails |
| Cycle.CampaignIsolated | services/optimizationService.js:82-88 | a campaign's outcome does not depend on what earlier campaigns wrote |
| Cycle.ApplyAllCampaign | services/optimizationService.js:132-134 | the campaign after applying depends only on the campaign before, not on the tables |
| Cycle.CycleDb | services/optimizationService.js:76-91 | the tables after visiting the campaigns in order, each optimized against what the ones before it wrote: existing alerts are kept as a prefix and existing records keep their place and campaign |
| Cycle.CycleFailures | services/optimizationService.js:82-88 | the number of eligible campaigns whose creative query or final save throws, at most the number of campaigns |
| Cycle.CycleKeepsOthers | services/optimizationService.js:76-91 | a record of a campaign that the cycle does not optimize is left in place and unchanged |
| Cycle.RunCycle | services/optimizationService.js:60-94 | the guard is cleared on every path; a failed query changes nothing; every eligible campaign is optimized in order whatever happened to the ones before it; the tables written are exactly `CycleDb` of the fetched campaigns and the failure count is exactly `CycleFailures` |
| Cycle.HighSpendAlwaysFires | services/optimizationService.js:530 | as written, the high-spend test holds for every spend and every threshold |
| Cycle.HighSpend | services/optimizationService.js:530 | corrected: the alert fires exactly when spend exceeds the user's threshold, or 1000 without one |
| Cycle.PerformanceAlerts | services/optimizationService.js:525-559 | the high-spend alert exactly when the corrected test holds, the low-ROAS alert exactly when ROAS is below 2 on more than 50 spent; nothing else, and each needs action |
| Cycle.PerformanceAlertsAsWritten | services/optimizationService.js:525-559 | as written, the high-spend alert always comes first; the low-ROAS alert is unchanged |
| Cycle.DailyAnalysisBy | services/optimizationService.js:442-469 | under any alert rule, an alert is raised exactly when some user with an active campaign gets it from that rule on their pooled metrics |
| Cycle.DailyAnalysisAsWritten | services/optimizationService.js:442-469 | as written (it calls the as-written alert rule), every user with an active campaign gets the high-spend alert, and the low-ROAS alert exactly when their ROAS is below 2 on more than 50 spent |
| Cycle.AsWrittenUserAlerts | services/optimizationService.js:525-550 | one user's as-written alerts: high spend whenever they have an active campaign, low ROAS on its condition, only for that user |
| Cycle.DailyAnalysis | services/optimizationService.js:442-469 | corrected: the high-spend alert for a user exactly when their pooled spend exceeds their threshold (1000 by default), the low-ROAS alert on its condition; users without active campaigns get nothing |
| Cycle.CorrectedDailyWithdrawsOnly | services/optimizationService.js:530 | the corrected analysis raises a subset of the as-written alerts: the fix only withdraws high-spend alerts |
| AiService.ExtractBetween | services/aiService.js:127-130 | a fragment exists exactly when some opening brace precedes some closing brace; it then runs from the first opening brace to the last closing brace, inclusive |
| AiService.ExtractFramed | services/aiService.js:185-188 | a reply that wraps one fragment in prose with no brace outside it yields exactly that fragment |
| AiService.Generate | services/aiService.js:121-136 | a failed call, a reply with no fragment or an unparsable fragment all give the fallback; otherwise the parsed fragment |
| AiService.GenerateIsParsedOrFallback | services/aiService.js:121-136 | every answer is the fallback or the parse of a fragment of a successful reply |
| AiService.PromptDescription | services/aiService.js:31 | the description is never empty and holds no tag; it is the tag-stripped body when that is non-empty, else "No description" |
| AiService.PromptFields | services/aiService.js:31-35 | five non-empty product facts, with "General" for a missing type and "Unknown" for a missing vendor |
| AiService.ExistingAngles | services/aiService.js:141 | no creatives give the empty list; one creative gives its angle, or "" when it has none |
| AiService.ExistingAnglesSplit | services/aiService.js:141 | the joined list is the first angle, ", ", then the joined rest: every angle appears, in order |
| AiService.Headline | services/aiService.js:450 | the headline is a prefix of the title of at most 40 characters, the whole title when it fits |
| AiService.FallbackStrategy | services/aiService.js:430-472 | the conversions objective, one audience and one shop-now creative whose headline starts the title |
| AiService.FallbackCreatives | services/aiService.js:474-486 | one shop-now creative with the transformation angle whose headline starts the title |
| AiService.FallbackHeadlines | services/aiService.js:450-477 | every fallback creative's headline starts the title and fits the 40-character limit, whatever the title |
| AiService.FallbackAudiences | services/aiService.js:488-512 | one audience, aged 25 to 55 |
| AiService.FallbackAnalysis | services/aiService.js:514-544 | average health with a score of 50, inside the 0..100 scale |
| AiService.FallbackBudget | services/aiService.js:546-570 | keep a budget of 50 with no change, meeting goals |
| AiService.AnalysisFigures | services/aiService.js:268-295 | totals over at most the 30 newest samples; CTR, CPC, conversion rate and ROAS are the defining quotients, each 0 when its denominator is 0 |
| AiService.AnalysisAgreesWithOptimizer | services/aiService.js:285-295 | on a non-empty window the analysis quotes exactly the optimizer's aggregate figures |
| AiService.AnalyzeCampaignPerformance | services/aiService.js:264-365 | a missing campaign gives the fallback analysis; otherwise the figures are computed, and the analysis is the parse of the first `{...}` fragment of the reply, the fallback when the call fails, no fragment is found or the parse fails |
| Analytics.CalculateMetrics | controllers/analyticsController.js:329-349 | the totals of the samples with nulls as 0, each money figure and rate to two decimals, each rate 0 when its denominator is not positive |
| Analytics.MetricsAgreeWithOptimizer | controllers/analyticsController.js:329-349 | on a non-empty list the report is the optimizer's aggregate rounded to cents, counts unchanged |
| Analytics.Change | controllers/analyticsController.js:355-358 | from 0 the change is 100 exactly when the figure grew and 0 otherwise; from any other base it is the percentage change to within the one-decimal rounding |
| Analytics.ChangeFollowsDirection | controllers/analyticsController.js:355-358 | from a positive base the reported change is non-negative on growth, non-positive on decline and 0 when nothing changed |
| Analytics.CalculateTrends | controllers/analyticsController.js:352-367 | no trends exactly when there is no previous period; otherwise each figure's change from the previous to the current value |
| Analytics.TrendsOfSamePeriod | controllers/analyticsController.js:352-367 | comparing a period with itself reports no change in any figure |
| Analytics.CurrentWindow | controllers/analyticsController.js:17-18 | the window ends now and spans the requested number of days |
| Analytics.PreviousWindow | controllers/analyticsController.js:25-27 | the comparison window ends before the current one starts and spans the same number of days |
| Analytics.WindowsTile | controllers/analyticsController.js:17-27 | the two windows are equally long, never share an instant and leave no instant between them uncovered |
| Analytics.OverviewOf | controllers/analyticsController.js:7-32 | the current window's metrics, with trends exactly when the comparison is with the previous period, against that period's metrics |
| Analytics.TopCampaigns | controllers/analyticsController.js:369-393 | at most the limit, highest reported ROAS first, a sub-multiset of the user's campaigns with their window metrics (so none repeated beyond its count), none left out ranking above one kept |
| Analytics.Benchmarks | controllers/analyticsController.js:461-470 | the ROAS row (4.0, 2.5, 1.5), CTR row (2.0, 1.2, 0.8), CPC row (1.0, 2.0, 3.5) and conversion-rate row (4.0, 2.0, 1.0) for their names; the ROAS row for any other name |
| Analytics.BenchmarksOrdered | controllers/analyticsController.js:461-470 | good beats average beats poor for every metric: lower is better for CPC, higher for the rest |
| Analytics.Keys | controllers/analyticsController.js:540 | an object's keys in insertion order |
| Analytics.Lookup | controllers/analyticsController.js:545 | a key the object lacks reads as undefined; a present key reads the value of its first entry |
| Analytics.Cells | controllers/analyticsController.js:544-548 | one cell per header, each the rendered value under that header |
| Analytics.CsvLines | controllers/analyticsController.js:539-551 | the header line of the first row's keys, then one line per row with its cells under those keys |
| Analytics.FormatAsCsv | controllers/analyticsController.js:537-554 | the text is empty exactly when there are no rows |
| Analytics.CsvSplitsIntoLines | controllers/analyticsController.js:537-554 | with comma- and newline-free data, splitting the text at newlines gives back the header line and the row lines |
| Analytics.CsvLineSplitsIntoCells | controllers/analyticsController.js:539-551 | with such data, splitting the header at commas gives the keys and splitting a row line gives its cells |
| Analytics.ExportRow | controllers/analyticsController.js:524-533 | six fixed keys in order, then creatives and performances exactly when each was asked for |
| Analytics.ExportData | controllers/analyticsController.js:255-307 | CSV or JSON with the matching type and file extension; any other format is a 500 with 'Unsupported export format' |
| Analytics.OverviewRoute | app.js:363 | 401 without a session; detached, a 500 with the TypeError of its first `this.getPeriodData`; bound, the window's overview |
| Analytics.ExportRoute | app.js:367 | 401 without a session; detached, a 500 with the TypeError of its first `this.prepareExportData`; bound, the export |
| Analytics.AnalyticsRoutesFailAsWritten | app.js:363-367 | as registered, a signed-in user gets a 500 from the overview and from every export, CSV and JSON included |
| Analytics.BoundAnalyticsRoutesServe | controllers/analyticsController.js:7-307 | called on the controller, the overview is the window's report and a CSV or JSON export is a download of its format |
| Analytics.ExportCsvReadsBack | controllers/analyticsController.js:255-307 | reading a CSV export back with plain values: one header line plus one line per campaign, the header splits into the export keys, and each campaign's second cell is its quoted title |
| Analytics.ExportTitle | controllers/analyticsController.js:524-533 | the second export key is `productTitle`, and under it a campaign row holds its title |
| Campaigns.Find | controllers/campaignController.js:240-249 | a row is found exactly when it exists and the requesting user owns it |
| Campaigns.Pages | controllers/campaignController.js:58 | no finite count for a page size of 0; otherwise the fewest pages of that size that cover the total |
| Campaigns.CeilBounds | controllers/campaignController.js:58 | the rounded-up quotient covers the total and one page fewer does not |
| Campaigns.PageRows | controllers/campaignController.js:29-31 | a negative offset or limit is refused; otherwise at most `limit` rows |
| Campaigns.PageLocation | controllers/campaignController.js:29-31 | every row appears, as item `i % limit` of page `i / limit + 1`, and that page is within the page count |
| Campaigns.Filter | controllers/campaignController.js:14-21 | a row is kept exactly when it belongs to the user and matches the status and search conditions |
| Campaigns.List | controllers/campaignController.js:8-62 | the page lists only matching rows of the user: exactly the requested page of the matching rows in newest-first order, with the page and limit asked for; the total counts all matching rows and the page count follows from it; a bad offset or limit fails |
| Campaigns.ListAsWritten | controllers/campaignController.js:16-21 | as written: without a search the listing is the corrected one |
| Campaigns.SearchAlwaysFailsAsWritten | controllers/campaignController.js:17 | as written, any non-empty search fails, because the operator object is never imported |
| Campaigns.SearchFindsMatches | controllers/campaignController.js:14-21 | corrected: every matching row of the user is listed on some page |
| Campaigns.OrElse | controllers/campaignController.js:190-192 | the first text when it is non-empty, else the second |
| Campaigns.DraftRow | controllers/campaignController.js:124-179 | a draft of the user without a Facebook id, with the request's product id, title, handle and budget, objective and budget-type defaults, and with AI the AI's content and first audience's targeting (else the client's); the client's content and targeting otherwise |
| Campaigns.Create | controllers/campaignController.js:118-229 | 400 without the required fields; 500 when the product fetch fails; with both in order a campaign is always created: the draft row of the request, draft unless published, active with the Facebook id or failed by the Facebook outcome, only that row added, with one creative per content item appended |
| Campaigns.CreateThenDelete | controllers/campaignController.js:118-325 | after a create the owner finds the new row and no one else does; deleting it gives back the campaigns as they were, calling Facebook exactly when publishing succeeded |
| Campaigns.ApplyUpdate | controllers/campaignController.js:251-260 | each of the five allowed fields takes the body's value when given, and every other field is unchanged |
| Campaigns.Update | controllers/campaignController.js:233-283 | 404 for a row the user does not own; otherwise only that row changes, and Facebook is called exactly when the campaign is live there |
| Campaigns.UpdateProtects | controllers/campaignController.js:251-260 | an update never changes owner, status, Facebook id, product or objective, ignores fields outside the allowed five and leaves other rows and the creatives alone |
| Campaigns.SetStatus | controllers/campaignController.js:328-370 | 404 for a row the user does not own; otherwise only that row's status changes, and Facebook is called exactly when it has a Facebook id |
| Campaigns.Pause | controllers/campaignController.js:328-370 | 404 changing nothing for a row the user does not own; otherwise 200, only that row's status becomes paused, and Facebook is called exactly when the row has a Facebook id |
| Campaigns.Resume | controllers/campaignController.js:372-414 | 404 changing nothing for a row the user does not own; otherwise 200, only that row's status becomes active, and Facebook is called exactly when the row has a Facebook id |
| Campaigns.PauseResume | controllers/campaignController.js:344-357 | the Facebook outcome changes nothing, and pausing then resuming leaves the row as it was but active |
| Campaigns.Delete | controllers/campaignController.js:286-325 | 404 for a row the user does not own; otherwise exactly that row is removed, with Facebook called exactly when it was live |
| Campaigns.CopyOf | controllers/campaignController.js:433-446 | the copy is a draft without Facebook ids, its title followed by " (Copy)", every other field as in the original |
| Campaigns.CopyCreatives | controllers/campaignController.js:451-462 | exactly the original's creatives, one for one and in stored order, each pointing at the copy and without a Facebook creative id |
| Campaigns.CreativesOf | controllers/campaignController.js:422-425 | the creatives a campaign includes are exactly those stored under its id |
| Campaigns.CopiedCreativesBelongToCopy | controllers/campaignController.js:447-462 | after a duplicate the copy's own creatives are exactly the copied ones, in the original's order |
| Campaigns.CreativesOfAppend | controllers/campaignController.js:459 | the creatives of a campaign in a joined list are those of each part, joined |
| Campaigns.CreativesOfAll | controllers/campaignController.js:459 | a list whose creatives all belong to the campaign is kept whole |
| Campaigns.CreativesOfNone | controllers/campaignController.js:459 | a list without creatives of the campaign gives none |
| Campaigns.Duplicate | controllers/campaignController.js:416-478 | 404 for a row the user does not own; otherwise the original is kept and the copy and its creatives are added |
| Campaigns.CopyIsNeverLive | controllers/campaignController.js:433-446 | a copy is never live on Facebook and keeps its owner and content |
| AiController.ProductGate | controllers/aiController.js:19-33 | 400 without a product id and no lookup; for a product id, 500 with the lookup's error when the lookup throws, else the product it returned; never 404 |
| AiController.GateIgnoresLookupWithoutId | controllers/aiController.js:19-23 | without a product id the answer is 400 whatever the lookup would have said |
| AiController.Slice | controllers/aiController.js:210 | a prefix of the list: `count` items (or all) for a non-negative count, all but the last `-count` for a negative one |
| AiController.GenerateCreatives | controllers/aiController.js:135-221 | at most `count` creatives: exactly the first `count` the model generated, or all of them when it gave fewer; the count of existing creatives only when they are excluded for a campaign |
| AiController.DefaultCountCaps | controllers/aiController.js:142 | with the default count at most five creatives, exactly the first five when the model gave more |
| AiController.OptimizeCampaign | controllers/aiController.js:77-131 | (corrected: the history is written) 400 without a campaign id and 404 for a campaign the user does not own, both changing nothing; otherwise exactly one unapplied analysis entry is appended, the time stamped, and its index returned |
| AiController.OptimizationIdIndexesEntry | controllers/aiController.js:104-122 | in the corrected controller, two runs add two entries with consecutive ids, each id pointing at its own analysis |
| AiController.OptimizeCampaignAsWritten | controllers/aiController.js:104-122 | as written the reply and status are those of the corrected call, but a stored history list is left as it was and only the time is written; a null column gets the one-entry list |
| AiController.OptimizationLostAsWritten | controllers/aiController.js:104-122 | as written two runs on a campaign with a stored list leave it unchanged and return the same id, the list's length, which indexes no stored entry |
| AiController.RecentPerformance | controllers/aiController.js:325-342 | zeros without samples; otherwise over the newest seven at most: daily spend the mean spend, ROAS revenue over spend, CPC spend per click, conversion rate and CTR as percentages, each 0 when its denominator is not positive |
| AiController.BudgetInputs | controllers/aiController.js:286-342 | without an owned campaign the request's budget, objective (CONVERSIONS by default), target ROAS (3 by default) and 7 running days; with one its budget, objective, whole days running rounded up, and recent figures |
| AiController.RecentAgreesWithOptimizer | controllers/aiController.js:325-342 | over at most seven samples the rates are the optimizer's own and the daily spend is the mean spend per sample |
| AiController.ContentPreview | controllers/aiController.js:451-467 | "No content" without content; else the creative count, else the audience count, each only when positive; else "Campaign strategy" for a campaign, and "AI generated content" otherwise |
| AiController.PreviewIdentifiesCase | controllers/aiController.js:451-467 | the preview ends in " ad creatives" exactly in the creatives case and in " audience suggestions" exactly in the audiences case |
| AiController.HistoryPage | controllers/aiController.js:365-401 | a negative offset or limit fails; otherwise the page's generations in order, each with its product id and preview, at most `limit` of them, and the page count of the whole history |
| AiController.HistoryListsEveryGeneration | controllers/aiController.js:365-401 | every generation appears on the page its position gives, with its own product id and preview |
| AiController.RateGeneration | controllers/aiController.js:410-447 | 400 for a missing, zero or out-of-range rating before any lookup; 404 for a generation the user does not own; a valid rating on an owned generation always answers 200 and stores the whole part of the rating and the feedback (empty read as null), changing nothing else |
| AiController.RatingReadBack | controllers/aiController.js:410-447 | a stored rating reads back as the whole part of the one given; repeating the request changes nothing, and another user gets 404 without a change |
| Performance.CachePolicy | middleware/performance.js:4-20 | assets are cached for 24 times the default with an expiry time, and the asset test comes first; other API paths for 300 seconds; pages for the default |
| Performance.ApplyCache | middleware/performance.js:9-18 | Cache-Control always carries the decided age, Expires only for assets, and no other header changes |
| Performance.AssetTestWins | middleware/performance.js:9-12 | a script under /api/ is still cached as an asset |
| Performance.ApiPathsShortLived | middleware/performance.js:12-14 | an API path without an asset extension gets 300 seconds whatever the default |
| Performance.SecurityHeaders | middleware/performance.js:39-52 | the three protective headers and DNS prefetching are set, X-Powered-By is gone, and no other header is added or changed |
| Performance.SecurityHeadersIdempotent | middleware/performance.js:39-52 | applying the security headers twice is applying them once |
| Performance.ETagged | middleware/performance.js:69-83 | a 200 response with a body gets the quoted hash as its tag, and becomes a bodiless 304 exactly when the request holds that tag; anything else passes through |
| Performance.ETagRoundTrip | middleware/performance.js:72-81 | sending back the tag received for a body yields 304 for the same body |
| Performance.Preload | middleware/performance.js:86-100 | for HTML the preload links follow the request's Link value (what `ctx.get` reads) or stand alone, replacing any Link the response carried; other responses and other headers are untouched |
| Performance.PreloadIgnoresResponseLink | middleware/performance.js:96-98 | a Link an inner handler set on the response is dropped when the request has none |
| Performance.ResourceHintsAsWritten | middleware/performance.js:23-36 | as written, for HTML the Link header is replaced by the preconnect hints |
| Performance.PreloadLostAsWritten | app.js:114-115 | as registered, the hints run after the preloads on the way out, so an HTML response never carries the preload links |
| Performance.ResourceHints | middleware/performance.js:23-36 | corrected: for HTML the hints follow any existing Link value; other responses are untouched |
| Performance.MergedLinksKeepBoth | app.js:114-115 | with the corrected hints an HTML response carries the preload links and then the hints |
| Performance.NonSpaceAppend | middleware/performance.js:108-111 | the text of a concatenation is the concatenation of the texts |
| Performance.TrimKeepsText | middleware/performance.js:111 | trimming removes whitespace only |
| Performance.Collapse | middleware/performance.js:109 | whitespace runs become single spaces: the non-space text is unchanged, the only whitespace left is a space and no two whitespace characters are adjacent |
| Performance.DropTagGaps | middleware/performance.js:110 | removing gaps between tags changes whitespace only |
| Performance.Minify | middleware/performance.js:103-113 | only a non-empty HTML body in production is rewritten, by collapsing, dropping gaps between tags and trimming |
| Performance.MinifyKeepsText | middleware/performance.js:103-113 | minifying changes whitespace only and leaves no whitespace at either end |
| Facebook.OptimizationGoal | services/facebookService.js:265-274 | a known objective gets its goal from the table, any other objective the conversions goal; the goal is always a table value |
| Facebook.ObjectiveGoals | services/facebookService.js:265-274 | every declared objective is in the table; only conversions maps to the default goal, and every objective except conversions and traffic maps to itself |
| Facebook.GenderCode | services/facebookService.js:285 | 'male' is 1 and everything else 2 |
| Facebook.GenderCodes | services/facebookService.js:285 | one code per gender, in order |
| Facebook.Wrap | services/facebookService.js:288-298 | one `{name}` object per string, in order |
| Facebook.FormatTargeting | services/facebookService.js:276-302 | countries default to US and ages to 18-65; genders appear exactly when the list is non-empty and lacks 'all', interests and behaviors exactly when non-empty, each one to one and in order |
| Facebook.GendersRoundTrip | services/facebookService.js:285 | a list of 'male' and 'female' is recovered from its codes |
| Facebook.WrapRoundTrip | services/facebookService.js:288-298 | the wrapped names read back to the original list |
| Facebook.Cents | services/facebookService.js:40 | the budget in cents is within half a cent of budget × 100 |
| Facebook.CentsRoundTrip | services/facebookService.js:40 | a whole number of cents converts back exactly, and cents over 100 is the budget rounded to cents |
| Facebook.UpdatePayload | services/facebookService.js:116-118 | the body has a name exactly when a non-empty title is given, and a daily budget in cents exactly when a non-zero budget is given |
| Facebook.BidStrategyNotForwarded | services/facebookService.js:116-118 | a bid strategy never reaches the body; an update without title and budget sends an empty body |
| Facebook.UpdateCampaign | services/facebookService.js:112-135 | an empty body makes no request and succeeds; otherwise the call fails exactly when the request fails |
| Facebook.ProductUrl | services/facebookService.js:316-318 | the link is the shop's products prefix followed by the handle |
| Facebook.ProductUrlInjective | services/facebookService.js:316-318 | within one shop, distinct handles give distinct links |
| Facebook.FormatPerformance | services/facebookService.js:329-341 | the row carries the campaign id and every metric Facebook gave (impressions, clicks, spend, CTR, CPC, CPM, reach, frequency, conversions), 0 for a missing one |
| Facebook.SyncPerformance | services/facebookService.js:321-352 | every row comes from a campaign with a Facebook id whose request succeeded, every such campaign gives a row, and a single campaign gives its row or none |
| Facebook.SyncPerformanceAppend | services/facebookService.js:321-352 | the rows come in campaign order: syncing a list is syncing its first part followed by its second |
| Facebook.SyncCount | services/facebookService.js:321-352 | the number of rows is exactly the number of such campaigns |
| Subscriptions.ParsePlan | models/Subscription.js:124-189 | a key names a plan exactly when it is one of the four table keys, and the plan found has that key |
| Subscriptions.FeatureMap | models/Subscription.js:130-139 | a plan's feature object lists all eight feature names, each true exactly when the plan enables it |
| Subscriptions.PlanTableOrdered | models/Subscription.js:124-189 | each plan up the table costs more, enables every feature of the one below and has higher limits (unlimited counts as highest) |
| Subscriptions.UnlimitedOnlyForEnterprise | models/Subscription.js:173-188 | only enterprise has the -1 sentinel, for both limits; every other plan has positive limits; enterprise enables every feature |
| Subscriptions.NewRow | models/Subscription.js:23-97 | a row created from a user id alone has the column defaults: free plan, pending, zero usage, the free plan's limits and features |
| Subscriptions.PlanFeatures | models/Subscription.js:192-194 | a feature reads as on in a plan's feature object exactly when the plan enables it, and it stays on one plan up |
| Subscriptions.FeatureDefaultsOff | models/Subscription.js:192-194 | a missing feature object, a missing flag or any flag other than `true` reads as off |
| Subscriptions.IncrementUsage | models/Subscription.js:206-213 | 'ai' adds one to the generation counter, 'campaign' to the campaign counter, any other kind changes nothing; no other field moves |
| Subscriptions.ResetUsage | models/Subscription.js:215-219 | both counters become 0 and no other field moves |
| Subscriptions.UseTimesCounts | models/Subscription.js:206-213 | k AI uses in a row move the generation counter by exactly k and nothing else |
| Subscriptions.QuotaAfterReset | models/Subscription.js:196-199 | after a reset, AI generation stays allowed for exactly `limit` uses, or forever when unlimited |
| Subscriptions.ExhaustedStaysExhausted | models/Subscription.js:196-213 | an exhausted quota stays exhausted after any further use, and a use of one kind leaves the other quota's answer unchanged |
| Subscriptions.ResetReopens | models/Subscription.js:196-219 | after a reset a quota is open exactly when its limit is unlimited or positive |
| Subscriptions.ActivityIsCutOff | models/Subscription.js:221-228 | active and in-trial hold up to a cut-off instant and never after it; a status other than 'active' is never active |
| Billing.Attr | services/billingService.js:13 | reading a property the user model does not define yields nothing; a defined one yields a non-empty value or nothing |
| Billing.ChargeTokenAsWrittenRejectsAll | services/billingService.js:12-15 | the guard as written reads `accessToken`, which no user row has, so it rejects every user |
| Billing.ChargeToken | services/billingService.js:12-15 | the corrected guard passes exactly when the user exists and has a non-empty Shopify token |
| Billing.Token | services/billingService.js:13 | the token the service checks and sends: none at all as written, the stored Shopify token once corrected |
| Billing.ChargePrice | services/billingService.js:22-24 | the price is cents-exact; a yearly price is twelve months at 80 % rounded to the cent |
| Billing.ChargePrices | services/billingService.js:22-24 | a monthly charge is the listed price; the yearly prices are 0, 287.90, 767.90 and 1919.90 |
| Billing.TrialDays | services/billingService.js:31 | no trial exactly for the free plan, 14 days for every paid plan |
| Billing.PlanLimits | services/billingService.js:229-236 | as written every call throws reading `PLANS` of the undefined model; once the import is corrected a known plan yields its limits and feature object and an unknown plan throws |
| Billing.PendingRow | services/billingService.js:50-66 | (reached only with the import corrected) the new charge's row is pending with the plan, cycle, charge id, trial end, price, limits and features, and keeps an existing row's usage |
| Billing.CreateRecurringCharge | services/billingService.js:10-78 | without a token the guard's message; with a token but the model not imported the `PLANS` TypeError; then the plan check; success exactly for the corrected service, a Shopify token, a known plan and a Shopify reply, returning that charge's id, request and row |
| Billing.CreateRecurringChargeAsWrittenFails | services/billingService.js:10-17 | as written, every call fails with "User not found or not authenticated"; with only the token corrected, a connected user's call fails reading `PLANS` |
| Billing.CreateRecurringChargeSucceeds | services/billingService.js:10-78 | in the corrected service, a connected user buying a known plan gets a pending row with the plan's limits and zero usage, and a paid plan gets a 14-day trial |
| Billing.CallbackStatus | services/billingService.js:106 | an accepted charge becomes 'active'; any other status is stored as Shopify gave it |
| Billing.HandleBillingCallback | services/billingService.js:81-123 | as written the subscription lookup throws; with the import corrected but not the token the charge fetch is refused with 401; success exactly for the corrected service with the user, the row, a Shopify token and the charge, changing only the status and the period bounds |
| Billing.CallbackActivates | services/billingService.js:93-111 | in the corrected service the callback succeeds exactly for a user with a Shopify token, and the subscription is then active exactly when Shopify reports the charge accepted (or active) and its billing date, if any, lies ahead |
| Billing.CancelSubscription | services/billingService.js:126-161 | as written the lookup throws; otherwise cancelling needs the user and an active row, and, when a charge id is stored, a token and a successful Shopify delete; the row becomes cancelled at that time |
| Billing.CancelledIsInactive | services/billingService.js:138-153 | a cancelled subscription is inactive at every later instant, and the corrected service cancels a connected user's charged subscription exactly when Shopify's delete returns |
| Billing.ShopifyCallsNeedToken | services/billingService.js:93-146 | with only the import corrected, the callback's charge fetch and the cancel's delete go out without a token and fail with 401 |
| Billing.GetCurrentSubscription | services/billingService.js:164-186 | as written always "Failed to get subscription" with the `findOne` TypeError; corrected, the stored row when there is one, a query error with the prefix, or a new active free row with the free plan's limits when the create succeeds |
| Billing.DefaultSubscription | services/billingService.js:171-178 | in the corrected service a user with no subscription gets an active free plan with both quotas open, AI campaign generation on and every other feature off |
| Billing.CheckFeatureAccess | services/billingService.js:189-197 | access exactly when the subscription loads and has the feature; any error reads as no access |
| Billing.CheckUsageLimit | services/billingService.js:200-215 | 'ai' and 'campaign' consult their own quota; any other kind and any error are refused |
| Billing.CheckThenIncrement | services/billingService.js:200-226 | on a loaded subscription (the corrected service), a check granted after a use was granted before it, and the use that reaches a finite AI limit closes the check |
| Billing.ServiceFailsAsWritten | services/billingService.js:2 | as written every entry point fails whatever the database and Shopify would answer: creation, callback, cancel, the current-subscription lookup, the plan limits and the usage report, and both checks deny |
| Billing.UsageAnalytics | services/billingService.js:239-270 | the current subscription's error is rethrown as it is; as written the plan table read throws; corrected, the report names the plan, gives the usage, limits and both percentages and says whether the subscription is active and in trial |
| ProductSync.ActiveOnly | services/productSyncService.js:62 | the kept products are exactly the active ones, and nothing else |
| ProductSync.RemoveTags | services/productSyncService.js:177 | removing tags never lengthens the text, adds no character and leaves no '<' with a '>' after it |
| ProductSync.RemoveTagsDropsTag | services/productSyncService.js:177 | a tag is removed whole: plain text before it is kept, everything from its '<' to the first '>' is dropped, and the rest is stripped the same way |
| ProductSync.RemoveTagsKeepsTagFree | services/productSyncService.js:177 | text without tags passes through unchanged |
| ProductSync.RemoveTagsIdempotent | services/productSyncService.js:177 | stripping tags twice gives the same as once |
| ProductSync.StripHtml | services/productSyncService.js:175-178 | falsy input gives ''; otherwise the tag-stripped, trimmed text cut to its first 5000 characters, so tag-free and not starting with whitespace |
| ProductSync.TrimTagFree | services/productSyncService.js:177 | trimming keeps text tag-free |
| ProductSync.FirstKeyIn | services/productSyncService.js:196-200 | the position found is the first table key the text contains; none is found only when no key occurs |
| ProductSync.MapProductType | services/productSyncService.js:181-203 | the lower-cased type gets the category of the first key, in table order, that it contains, else 'General' |
| ProductSync.FeedIdInjective | services/productSyncService.js:158 | distinct products get distinct feed ids |
| ProductSync.FirstTag | services/productSyncService.js:169 | the text before the first comma of the tags, trimmed; '' without tags; never a comma |
| ProductSync.FirstTagOfList | services/productSyncService.js:169 | the label of a tag list is its first tag trimmed, whatever follows; a list without commas is one tag |
| ProductSync.Stock | services/productSyncService.js:161-170 | the first variant's count (0 when it has none); no variants gives 0; positive exactly when the first variant has a positive count |
| ProductSync.ImageLink | services/productSyncService.js:165 | the first image's source, '' when it has none or there are no images |
| ProductSync.Description | services/productSyncService.js:160 | the body stripped of tags, or the title when the body is empty; always tag-free and at most 5000 characters |
| ProductSync.FormatProduct | services/productSyncService.js:152-171 | the feed item's id, name, condition, link, description, image link, price (first variant's price or 0, then the currency or USD), category, labels, brand fallbacks, stock and inventory are those of the product; in stock exactly when the first variant has stock |
| ProductSync.FeedItemIdentifiesProduct | services/productSyncService.js:152-171 | a feed item names its product: equal ids mean the same product, the link ends in the product's handle, and a stocked first variant gives 'in stock' with its count |
| ProductSync.Chunks | services/productSyncService.js:104-108 | the slices are non-empty, at most n long, all full but the last, and concatenate back to the input |
| ProductSync.ChunkCounts | services/productSyncService.js:102-108 | no products make no batch, up to fifty make one, fifty-one make two |
| ProductSync.SyncProductBatch | services/productSyncService.js:114-149 | a thrown request fails every product with its message; an answer maps entry i to product i, succeeding exactly when its code is 200; an answer longer than the batch fails every product |
| ProductSync.Mapped | services/productSyncService.js:135-140 | one result per answer entry, carrying product i's id, the entry's Facebook id and error, and success iff code 200 |
| ProductSync.AllFailed | services/productSyncService.js:143-147 | one failed result per product, in order, with the error message |
| ProductSync.ResultIds | services/productSyncService.js:136 | the ids reported, in result order |
| ProductSync.ProductIds | services/productSyncService.js:136 | the product ids, in order |
| ProductSync.ProductIdsConcat | services/productSyncService.js:104-108 | the ids of joined lists are the joined ids |
| ProductSync.SyncBatchesReportsAll | services/productSyncService.js:100-111 | when every batch answer is a failure or one entry per product, the results report every product once, in order |
| ProductSync.SyncReportsEveryProduct | services/productSyncService.js:100-111 | when every batch answer is a thrown request or has one entry per product, the whole sync reports each product exactly once, in input order |
| ProductSync.EnsureFacebookCatalog | services/productSyncService.js:70-97 | a stored catalog id is returned without creating a catalog; otherwise the created id, or the failure |
| ProductSync.CatalogReused | services/productSyncService.js:70-97 | a created catalog id, once stored, is returned again by the next lookup whatever a new creation would answer |
| ProductSync.SyncProductsToFacebook | services/productSyncService.js:7-38 | a missing user or token fails before anything else; then a failed fetch and a failed catalog each fail with their message, and a failed save fails with the save's own error; with all of them succeeding the sync succeeds with that catalog, syncs the active products, counts the results and marks the user onboarded with the catalog id |
| ProductSync.ResyncKeepsCatalog | services/productSyncService.js:7-97 | with both tokens, fetched products and a catalog that is found or created, the sync succeeds; running it again on the user row it saved keeps the same catalog, results and user row, whatever a new catalog creation would answer |
| Shopify.Guarded | services/shopifyService.js:6-57 | without a user or token every fetch throws "Shopify access token not found" before any request; otherwise Shopify's answer, a failure's message prefixed by the method's |
| Shopify.ValidateConnection | services/shopifyService.js:394-426 | the check never throws: valid exactly when there is a token and the request succeeds, with the shop; otherwise the reason |
| Shopify.ValidateAgreesWithGuard | services/shopifyService.js:394-426 | the connection is valid exactly when the guarded shop-information fetch would succeed |
| Shopify.ListProduct | services/shopifyService.js:28-53 | a listed product keeps the id, title, handle and status, and every image and variant in order |
| Shopify.SearchHitOf | services/shopifyService.js:272-286 | a search hit keeps the id, title and handle, at most the first image, and every variant in order |
| Shopify.ListProducts | services/shopifyService.js:28 | one listed product per product, same order |
| Shopify.SearchProducts | services/shopifyService.js:272 | one hit per product, same order |
| Shopify.SearchAgreesWithListing | services/shopifyService.js:28-53 | search and listing agree on the id, the title and the first image of each product |
| Shopify.ProductOrders | services/shopifyService.js:323-325 | the kept orders are exactly those with a line item for the product |
| Shopify.NoMatchContributesNothing | services/shopifyService.js:328-342 | an order without the product adds no revenue and no units |
| Shopify.FilterKeepsTotals | services/shopifyService.js:323-342 | filtering the orders first changes neither total |
| Shopify.ProductAnalyticsOf | services/shopifyService.js:301-354 | the window ends now and starts `days` earlier; the counts and totals are over the matching orders; the average is 0 without orders and the revenue over the count otherwise; at most ten matching orders are listed |
| Shopify.AverageOrderValue | services/shopifyService.js:351 | 0 without orders, otherwise the mean rounded to cents |
| Shopify.FirstOrders | services/shopifyService.js:353 | the first ten orders, or all when there are fewer |
| Shopify.GetProductAnalytics | services/shopifyService.js:294-359 | a missing token fails with the prefixed token message; a failed order fetch fails with the prefixed message; otherwise the analytics of the paid orders returned |
| Webhooks.FacebookSignatureShape | services/webhookService.js:115-124 | a Facebook signature is accepted exactly when it is 'sha256=' followed by the body's digest; a bare digest is refused |
| Webhooks.HandleAppUninstall | services/webhookService.js:6-33 | unverified calls get 401; a known shop's user is deactivated and loses its Shopify token; an unknown shop still gets 200; a failed save gets 500 |
| Webhooks.UninstallIdempotent | services/webhookService.js:6-33 | after an uninstall the user is inactive without a Shopify token, a second uninstall stores the same row, and nothing else about the user changed |
| Webhooks.MatchingCampaigns | services/webhookService.js:134-140 | the campaigns found are exactly the user's active campaigns for the product |
| Webhooks.RecordsFor | services/webhookService.js:142-152 | one conversion record per matching campaign, with the item's quantity and price times quantity |
| Webhooks.AttributionShape | services/webhookService.js:127-157 | one record per (line item, matching campaign) pair, each crediting an active campaign of this user that sells an ordered product |
| Webhooks.ProcessOrderAttribution | services/webhookService.js:127-157 | without line items nothing is written; a failure keeps the records written before it and stops; without a failure every record is written |
| Webhooks.UserData | services/webhookService.js:226-248 | each identity field is present exactly when the order has it; email is hashed lower-cased and phone as its digits |
| Webhooks.PhoneHashIgnoresPunctuation | services/webhookService.js:230 | phone numbers with the same digits hash the same |
| Webhooks.ProductIdsOf | services/webhookService.js:236 | the order's product ids, in line-item order |
| Webhooks.ConversionPayload | services/webhookService.js:220-241 | a 'Purchase' website event stamped with the whole second of now, for the shop's URL, with the hashed identity, the order's currency and total price, the order id, its product ids and its total quantity |
| Webhooks.TotalQuantityAppend | services/webhookService.js:238 | the quantities of a split order add up |
| Webhooks.AsLoaded | services/webhookService.js:251 | the row the handler reads differs from the user only in the pixel id, which the User model does not define and so is never loaded |
| Webhooks.SendFacebookConversion | services/webhookService.js:251-264 | corrected (a stored pixel id): the event is sent exactly when the user has a pixel id, and it is the order's purchase payload |
| Webhooks.HandleOrderWebhook | services/webhookService.js:36-72 | corrected (a stored pixel id): 401 when unverified, 404 for an unknown shop; otherwise attribution runs, a conversion is sent exactly when the user has a Facebook token and a pixel id, and it is the order's conversion payload; the answer is 200 |
| Webhooks.HandleOrderWebhookAsWritten | services/webhookService.js:36-72 | as written, the handler runs on the loaded row, which has no pixel id |
| Webhooks.ConversionNeverSentAsWritten | services/webhookService.js:251 | as written, no conversion is ever sent, while the answer and the attribution are those of the intended handler |
| Webhooks.ConversionSentWithPixel | services/webhookService.js:60-62 | corrected: a verified order from a user with a Facebook token and a pixel id sends the order's purchase event |
| Webhooks.UninstallRoute | app.js:428-431 | called detached, the uninstall route answers 500 and writes nothing; called on the service, it is the uninstall handler |
| Webhooks.OrderRoute | app.js:433-441 | called detached, both order routes answer 500 and write nothing; called on the service, they are the order handler |
| Webhooks.FacebookRoute | app.js:443-446 | called detached, the Facebook route answers 500 and dispatches nothing; called on the service, it is the Facebook handler |
| Webhooks.RoutesAlwaysFailAsWritten | app.js:428-446 | as registered (handlers destructured and called detached), every webhook request answers 500 before its signature is checked, whatever it carries |
| Webhooks.BoundRoutesVerify | services/webhookService.js:6-72 | corrected (called on the service): unverified requests answer 401 on every route, and a verified order from a known shop answers 200 with its attribution |
| Webhooks.HandlerFor | services/webhookService.js:174-194 | 'ads', 'campaigns' and 'adsets' each get their own handler, every other field none |
| Webhooks.EntryHandlers | services/webhookService.js:160-171 | an entry without changes dispatches nothing; otherwise one handler per change, in order |
| Webhooks.HandleFacebookWebhook | services/webhookService.js:75-100 | 401 when unverified; only page objects are dispatched, entry by entry; a page object without entries fails with 500 |
| Webhooks.DispatchCount | services/webhookService.js:87-91 | one handler call per change of every entry that has changes |
| Auth.CheckShop | controllers/authController.js:21-35 | a missing or empty shop is rejected as missing; otherwise the shop is accepted, lower-cased and trimmed, exactly when that cleaned form matches the shop-domain pattern |
| Auth.PatternContainsSuffix | controllers/authController.js:30 | the pattern test implies the `.myshopify.com` containment test, which therefore rejects nothing extra |
| Auth.AcceptsLabel | controllers/authController.js:29-30 | any name of letters, digits and dashes before `.myshopify.com`, in any letter case, is accepted as its lower-cased domain |
| Auth.CheckShopIdempotent | controllers/authController.js:29-30 | an accepted domain is accepted again unchanged |
| Auth.FacebookAuth | controllers/authController.js:132-149 | without a signed-in user the answer is a redirect home; otherwise the dialog opens with the user id as its state |
| Auth.FacebookCallback | controllers/authController.js:152-195 | a missing code, no signed-in user or a state other than the user's id fails before the exchange; success needs the exchange and the user row, and then stores the token, the Facebook user id and the first ad account when there is one |
| Auth.StateRoundTrip | controllers/authController.js:146-155 | the state the dialog was opened with is accepted for the same user and refused for any other |
| Auth.RequireAuth | controllers/authController.js:227-238 | the handler runs exactly for a signed-in user; otherwise 401 for JSON clients and a redirect home for the rest |
| Auth.RequireFacebookAuth | controllers/authController.js:241-254 | the handler runs, with the user row, exactly when the row exists and holds a token; otherwise 403 for JSON clients and a redirect to the dashboard for the rest |
| Auth.ConnectedUserPasses | controllers/authController.js:180-253 | a user the callback connected with a non-empty token passes the Facebook gate |
| AppRoutes.OrString | app.js:200 | the text when it is non-empty, else the default |
| AppRoutes.CorsOrigin | app.js:122-128 | the origin is allowed, and echoed, exactly when it is non-empty and contains `shopify.com` |
| AppRoutes.SuffixSubsumed | app.js:124 | the `.myshopify.com` alternative is implied by the `shopify.com` one |
| AppRoutes.CorsAcceptsLookalike | app.js:124 | a look-alike host such as `https://notshopify.com` passes the origin test |
| AppRoutes.EmbeddingHeaders | app.js:150-174 | the frame blocker is removed and the three security headers set; the frame policy is set for the query's shop, else the session's, exactly when it is a `.myshopify.com` shop; no other header changes |
| AppRoutes.ValidShopGetsPolicy | app.js:156 | every shop the OAuth start accepts gets the frame policy |
| AppRoutes.RootRoute | app.js:179-209 | without a shop the install page; an invalid shop the install page with the error; a valid one the OAuth start with the cleaned shop, the host (empty by default) and the embedded flag (1 by default) |
| AppRoutes.RootForwardsAcceptedShop | app.js:189-200 | the shop the root route forwards is accepted unchanged by the OAuth start |
| AppRoutes.InstallRoute | app.js:212-227 | with a shop, on to the root route with the shop and the host (empty by default); else the install page |
| AppRoutes.InstallThenRoot | app.js:212-219 | following the install redirect lands where the root route would have sent the original request |
| AppRoutes.AppRoute | app.js:230-279 | 400 exactly without a shop; the OAuth start exactly for an unknown shop; 500 when the lookup throws; for a found user, 500 exactly when the API key read throws, else the app with the user's id, the shop's name (its domain by default), currency (USD by default), onboarding flag (false by default), the host and the environment's key |
| AppRoutes.AppNeverRendersAsWritten | app.js:273-279 | as written the key (which lines 87-92 never declare) is undeclared: the app never renders, and every found user gets the 500 |
| AppRoutes.AppShowsStoredUser | app.js:252-274 | with the key read from the environment, a user with a stored name and currency sees exactly those, its onboarding flag, the shop asked for and the key |
| AppRoutes.AppNamesShop | app.js:262 | with the key read from the environment, a rendered app always names its shop |
| Dashboard.Recent | controllers/dashboardController.js:47-71 | the kept samples are exactly those taken at or after the cutoff, and each is one of the input's |
| Dashboard.RecentSplit | controllers/dashboardController.js:47-71 | filtering a joined list filters each part and joins the results, so the kept samples keep their order and repeats |
| Dashboard.RecentDropsAllOld | controllers/dashboardController.js:47-71 | samples all older than the cutoff are all dropped |
| Dashboard.RecentKeepsAllRecent | controllers/dashboardController.js:71 | samples that are all recent are kept whole |
| Dashboard.RecentGroups | controllers/dashboardController.js:45-55 | each campaign's recent samples, in campaign order |
| Dashboard.ActiveCount | controllers/dashboardController.js:35 | the number of active campaigns, at most the number of campaigns |
| Dashboard.ActiveCountBounds | controllers/dashboardController.js:35 | the count equals the number of campaigns exactly when all are active, and is 0 exactly when none is |
| Dashboard.Overview | controllers/dashboardController.js:20-98 | the campaign counts, and totals over every campaign's recent samples to two decimals, each rate 0 when its denominator is 0 |
| Dashboard.OverviewAgreesWithOptimizer | controllers/dashboardController.js:45-59 | over the pooled recent samples the figures are the optimizer's account aggregate rounded to cents |
| Dashboard.FiguresOf | controllers/dashboardController.js:70-81 | a campaign's recent spend and revenue, each the sum over its recent samples, with ROAS as their quotient, 0 without spend |
| Dashboard.FiguresAll | controllers/dashboardController.js:69-82 | the figures of every campaign, in order |
| Dashboard.TopCampaigns | controllers/dashboardController.js:69-84 | at most five, highest recent ROAS first, each one of the user's campaigns, none left out ranking above one kept |
| Dashboard.FiguresAddUpToTotal | controllers/dashboardController.js:45-81 | the per-campaign spends add up to the overview's total spend: both use the same window |
| ClientFormat.Color | public/js/app.js:130-138 | any kind other than success, error and warning gets the info colour |
| ClientFormat.Icon | public/js/app.js:141-149 | any kind other than success, error and warning gets the info icon |
| ClientFormat.KindsDistinct | public/js/app.js:130-149 | the four kinds differ from one another in colour and in icon |
| ClientFormat.RelativeTime | public/js/app.js:346-358 | the first positive unit among days, hours and minutes, with a plural s above one; else "Just now" |
| ClientFormat.UnitsAreWhole | public/js/app.js:348-352 | each unit is the whole number of that unit in the difference |
| ClientFormat.JustNowUnderAMinute | public/js/app.js:346-358 | "Just now" exactly when less than a whole minute has passed, or the time lies ahead |

## Left out

- Timers: node-cron scheduling is not modelled; only the run guard it consults is (`Cycle.HourlyTick`).
- Database: Sequelize queries, saves and associations become input sequences, result outcomes and store values. Transactions, the foreign-key cascade of a delete, and the effect of a failing `Campaign.create` or `AdGeneration.create` are not modelled.
- Remote calls: requests to Shopify, Facebook and Gemini are success-or-error outcomes passed in. Prompt texts, and the `Math.ceil` running-days figure quoted in the analysis prompt, are not modelled.
- Hashing and serialisation: HMAC, SHA-256, MD5, base64 and `JSON.stringify` are uninterpreted function parameters.
- Rendering: `toFixed`, `toISOString`, `toUTCString`, `encodeURIComponent` and template rendering are not modelled. Figures are exact reals rounded to the shown precision, and redirects and rendered pages are structured values rather than URLs or HTML.
- AiService.Headline, ProductSync.StripHtml, ProductSync.Description: lengths are counted in Unicode scalar values, because a Dafny string is a sequence of them. JavaScript's `substring(0, 40)` and `substring(0, 5000)` count UTF-16 code units, so a text with characters outside the Basic Multilingual Plane (emoji) is cut at a different place, and JavaScript can split a surrogate pair.
- Strings.ToLower: lower-cases ASCII letters only, because JavaScript's full Unicode case mapping is not modelled.
- Campaigns.MatchesSearch: reads the search as plain text. The `%` and `_` wildcards of `ILIKE` are not modelled.
- Campaigns.ApplyUpdate: a body field explicitly set to `null` is treated like an absent one. The source would copy the `null`.
- Ranking.SortDesc: sorts stably by construction, but stability (ties keep query order) is not proved.
- Performance.Minify: the tag-gap step is stated on already-collapsed text, where every whitespace run is one space. The regular expression's behaviour on raw text is not modelled separately.
- Clock-only middleware: `responseTime`, `webVitalsMonitoring` and their headers measure elapsed time only and are not modelled.
- Shopify fetches: `getShopifyProduct`, orders, customers, collections and `createWebhook` share the modelled token guard (`Shopify.Guarded`). Their payloads are not projected further.
- Browser code: the DOM, modals, tooltips, the CSRF fetch patch, storage, and debounce and throttle are not modelled.
- Auth flows: the Shopify OAuth callback upsert, logout and the Shopify token exchange are library and database glue, and are not modelled.
- Campaign get: the metrics of the single-campaign endpoint are not modelled. They repeat the aggregate that `Metrics.Aggregate` states.
- AiController.GenerateCreatives: the query for existing creatives is a count passed in. Its scope (a campaign id that the user may not own) is not checked.
- Lookup tables: keys such as `constructor` that JavaScript objects inherit are not modelled.
- Apply.ApplyProposal, Cycle.ApplyAll: the catch's mark-failed update (services/optimizationService.js:386-389) is taken to succeed. It writes `failed` into a status column declared ENUM('pending','applied','reverted') (config/database.js:234); on PostgreSQL that update would throw out of the catch, so the campaign's remaining proposals would not be applied, its `lastOptimizedAt` would not be saved and the cycle would count a failure. Database enum enforcement is not modelled.
- Schema: `aiConfidence` is declared DECIMAL(3,2) while 70 to 80 is stored; the mismatch is recorded but not resolved.
- Campaigns.List: the total and the page count count campaigns. The source's `findAndCountAll` includes the has-many creatives and performance rows without `distinct: true` (controllers/campaignController.js:23-32), so Sequelize counts joined rows and both can exceed the number of matching campaigns; how the count query joins is library behaviour and is not modelled.
- AiController.ProductGate: the `if (!product)` 404 branch (controllers/aiController.js:29-33) has no case. `getShopifyProduct` (services/shopifyService.js:61-110) returns a product or throws, so a product the shop lacks answers 500 through the catch.
- The creative branch of the apply step is a stub in the source: pausing is an empty block, and the generated creatives are neither stored nor sent. It is modelled as a fetch-and-generate step that may fail and otherwise leaves the campaign unchanged.
- Cycle.DailyAnalysis: every alert write is taken to succeed. The source runs the whole user loop in one `try` (services/optimizationService.js:442-475), so a throwing `Alert.create` ends the analysis for every later user; that early stop is not modelled, and neither is `generateDailyInsights`, which returns an empty list.
- AI history and rating: `getGenerationHistory` and `rateGeneration` have no route in app.js. They are modelled as the controller defines them, called on the controller.
- Analytics routes: only the overview and the export are modelled with their registration (`Analytics.OverviewRoute`, `Analytics.ExportRoute`). The campaign, performance and insights routes are registered the same way and also call helpers through `this`.
- Billing.Unauthorized: a Shopify Admin request sent without an access token is taken to be refused with HTTP 401, which the HTTP client throws as "Request failed with status code 401"; Shopify's reply is not modelled beyond that.
- AiController.OptimizeCampaignAsWritten: the Sequelize change detection it rests on (a JSON field is written only when its new value is not deeply equal to the held one) is stated as a modelling decision, not derived from the library.
- Product sync: `getSyncStatus`, `setupWebhooks` and `createShopifyWebhook` are not modelled. They only read or register state.

## Findings

| source | as written | input that shows it | evidently intended | confidence | as-written member | corrected member |
|---|---|---|---|---|---|---|
| services/optimizationService.js:530 | `metrics.spend > user.settings?.budgetAlertThreshold \|\| 1000` parses as `(spend > threshold) \|\| 1000`, which is always truthy | any spend, e.g. 0 with no threshold, raises the high-spend alert | alert only when spend exceeds the threshold, 1000 by default | high, not executed | Cycle.HighSpendAlwaysFires | Cycle.HighSpend |
| services/billingService.js:2 | `Subscription` is destructured from the database module (config/database.js:341-352), which exports no such model, so every `Subscription.PLANS`, `findOne` and `create` throws a TypeError | any call: the current-subscription lookup always fails, both checks always deny, and creation (once the token is fixed), the callback, the cancel, the plan limits and the usage report all fail | import the Subscription model | high, not executed | Billing.ServiceFailsAsWritten | Billing.DefaultSubscription |
| services/billingService.js:13 | the guard reads `user.accessToken`, which the user model does not define (config/database.js:30 names it `shopifyAccessToken`) | any existing user with a Shopify token is rejected with 'User not found or not authenticated' | check the stored Shopify access token (with the import of line 2 also corrected) | high, not executed | Billing.CreateRecurringChargeAsWrittenFails | Billing.CreateRecurringChargeSucceeds |
| services/billingService.js:97 | the charge fetch of the callback, and the charge delete of the cancel (line 143), send `user.accessToken`, which is undefined, as the Shopify token | with the import corrected, any callback, and any cancel of a subscription with a charge id, is refused with 401 | send the stored Shopify access token | high, not executed | Billing.ShopifyCallsNeedToken | Billing.CallbackActivates |
| controllers/aiController.js:104-115 | the new entry is pushed onto the loaded `aiOptimizations` array in place and the same array is passed to `update`; Sequelize marks a field changed only when the new value is not deeply equal to the one it holds, so the column is not written (framework semantics) | any campaign whose history holds a list, including the default empty one: the entry is lost and every run returns the same id | write a new array (or mark the field changed) so the entry is stored | medium, not executed | AiController.OptimizationLostAsWritten | AiController.OptimizationIdIndexesEntry |
| controllers/campaignController.js:17 | the search condition uses `Op`, which the controller never imports | any request with a non-empty `search` throws and answers 500 | import `Op` so the title and Facebook-id search runs | high, not executed | Campaigns.SearchAlwaysFailsAsWritten | Campaigns.SearchFindsMatches |
| services/webhookService.js:251 | the conversion is sent only when `user.facebookPixelId` is set, but the User model (config/database.js:23-65) has no such column | any order from a user connected to Facebook sends no conversion | read a stored pixel id | high, not executed | Webhooks.ConversionNeverSentAsWritten | Webhooks.ConversionSentWithPixel |
| app.js:428-446 | the webhook routes destructure the handlers from the service instance and call them detached, so `this` is undefined and the first `this.verifyShopifyWebhook`/`this.verifyFacebookWebhook` call throws inside the handler's `try` | every webhook request, signed or not, answers 500 | call the handlers on the service (`webhookService.handleOrderWebhook(ctx)`) | high, not executed | Webhooks.RoutesAlwaysFailAsWritten | Webhooks.BoundRoutesVerify |
| app.js:363-367 | the analytics routes pass the controller's methods detached, and each handler's first step calls a helper through `this` (for example `this.getPeriodData`, `this.prepareExportData`), which is undefined in class code | any signed-in request to the overview or the export, whatever its format, answers 500 | register bound methods (`ctx => analyticsController.overview(ctx)`) | high, not executed | Analytics.AnalyticsRoutesFailAsWritten | Analytics.BoundAnalyticsRoutesServe |
| middleware/performance.js:28-34 | `resourceHints` replaces `Link`, and it is registered before `preloadCritical` (app.js:114-115), so it runs after it on the way out | any HTML response loses the preload links | keep both the preload links and the preconnect hints | medium, not executed | Performance.PreloadLostAsWritten | Performance.MergedLinksKeepBoth |
| app.js:273 | the view data passes `process: { env: { SHOPIFY_API_KEY } }`, but the file declares no `SHOPIFY_API_KEY` (the environment destructuring at lines 87-92 names only `NODE_ENV`, `PORT`, `SESSION_SECRET` and `HOST`), so the read throws a ReferenceError inside the `try` | any request for an installed shop answers 500 'Failed to load app' | read `process.env.SHOPIFY_API_KEY` | high, not executed | AppRoutes.AppNeverRendersAsWritten | AppRoutes.AppShowsStoredUser |

=== FILE: ai_controller.dfy ===
/** The AI controller: the product-id gate shared by the generation
    endpoints, the creative count cap, the optimization-history append, the
    budget-recommendation inputs, generation history paging and previews,
    and rating. The AI service's answers and the database lookups are
    inputs. */
module AiController {
  import opened Wrappers
  import opened Strings
  import opened Schema
  import Numeric
  import Metrics
  import AiService
  import Campaigns

  // The product gate

  /** How a generation endpoint answers before generating: 400 without a
      product id (no lookup made), 500 when the product lookup throws, else
      the product. The lookup returns the product or throws (a product the
      shop lacks is a failed request), so the controller's 404 branch for a
      falsy product is never taken and has no case here. */
  datatype Gate<P> = Missing | LookupFailed(error: string) | Found(product: P)

  function Status<P>(g: Gate<P>): int {
    match g
    case Missing => 400
    case LookupFailed(_) => 500
    case Found(_) => 200
  }

  /** The lookup is consulted only for a non-empty product id, and its
      outcome, product or error, is passed on. */
  function ProductGate<P>(productId: Option<string>, lookup: string -> Result<P>): (g: Gate<P>)
    ensures productId.None? || productId.value == "" ==> g == Missing
    ensures productId.Some? && productId.value != "" && lookup(productId.value).Success? ==>
      g == Found(lookup(productId.value).value)
    ensures productId.Some? && productId.value != "" && lookup(productId.value).Failure? ==>
      g == LookupFailed(lookup(productId.value).error)
    ensures Status(g) != 404
  {
    if productId.None? || productId.value == "" then Missing
    else
      match lookup(productId.value)
      case Failure(e) => LookupFailed(e)
      case Success(p) => Found(p)
  }

  /** Without a product id the answer does not depend on the shop at all. */
  lemma GateIgnoresLookupWithoutId<P>(productId: Option<string>, l1: string -> Result<P>,
                                      l2: string -> Result<P>)
    requires productId.None? || productId.value == ""
    ensures ProductGate(productId, l1) == ProductGate(productId, l2)
    ensures Status(ProductGate(productId, l1)) == 400
  {
  }

  // Creatives

  const DefaultCreativeCount: int := 5

  /** `creatives.slice(0, count)`: a negative count counts back from the
      end. */
  function Slice<T(==)>(xs: seq<T>, count: int): (r: seq<T>)
    ensures count >= 0 ==> |r| == if count < |xs| then count else |xs|
    ensures count < 0 ==> |r| == if |xs| + count > 0 then |xs| + count else 0
    ensures IsPrefix(r, xs)
  {
    var end := if count >= 0 then (if count < |xs| then count else |xs|)
               else (if |xs| + count > 0 then |xs| + count else 0);
    xs[..end]
  }

  datatype CreativesReply = CreativesReply(creatives: seq<AiService.Creative>, excludedCount: nat, generated: nat)

  /** `generateCreatives` after the gate: the existing creatives are looked
      up (by campaign id alone) only when excluding them and a campaign id is
      given; at most `count` of the AI's creatives are returned, and the
      message counts all of them. */
  function GenerateCreatives(count: int, excludeExisting: bool, campaignId: Option<int>,
                             creativesOf: int -> seq<string>, generated: seq<AiService.Creative>): (r: CreativesReply)
    ensures count >= 0 ==> |r.creatives| <= count
    ensures IsPrefix(r.creatives, generated)
    ensures 0 <= count <= |generated| ==> r.creatives == generated[..count]
    ensures count >= |generated| ==> r.creatives == generated
    ensures r.generated == |generated|
    ensures r.excludedCount == (if excludeExisting && campaignId.Some? then |creativesOf(campaignId.value)| else 0)
  {
    var existing := if excludeExisting && campaignId.Some? then creativesOf(campaignId.value) else [];
    CreativesReply(Slice(generated, count), |existing|, |generated|)
  }

  /** With the default count, a model answer of any length yields at most
      five creatives, and exactly the first five when it gave more. */
  lemma DefaultCountCaps(generated: seq<AiService.Creative>, creativesOf: int -> seq<string>)
    ensures var r := GenerateCreatives(DefaultCreativeCount, false, None, creativesOf, generated);
      |r.creatives| <= 5 && (|generated| >= 5 ==> r.creatives == generated[..5])
  {
  }

  // Optimization history

  datatype HistoryEntry = HistoryEntry(kind: string, timestamp: int, analysis: AiService.Analysis, applied: bool)

  datatype AiCampaign = AiCampaign(userId: int, aiOptimizations: Option<seq<HistoryEntry>>, lastOptimizedAt: Option<int>)

  datatype OptimizeReply = OptimizeReply(status: int, campaigns: map<int, AiCampaign>, optimizationId: int)

  /** `optimizeCampaign`: 400 without a campaign id, 404 for a campaign the
      user does not own; otherwise exactly one unapplied analysis entry is
      appended and its index returned. */
  function OptimizeCampaign(campaigns: map<int, AiCampaign>, campaignId: Option<int>, userId: int,
                            analysis: AiService.Analysis, now: int): (r: OptimizeReply)
    ensures campaignId.None? ==> r.status == 400 && r.campaigns == campaigns
    ensures campaignId.Some? && !(campaignId.value in campaigns && campaigns[campaignId.value].userId == userId)
      ==> r.status == 404 && r.campaigns == campaigns
    ensures r.status == 200 ==> (campaignId.Some? && campaignId.value in campaigns && campaignId.value in r.campaigns
      && var before := campaigns[campaignId.value].aiOptimizations.GetOr([]);
         var after := r.campaigns[campaignId.value].aiOptimizations;
         after == Some(before + [HistoryEntry("performance_analysis", now, analysis, false)])
         && r.optimizationId == |before|
         && r.campaigns[campaignId.value].lastOptimizedAt == Some(now)
         && r.campaigns == campaigns[campaignId.value := r.campaigns[campaignId.value]])
  {
    if campaignId.None? then OptimizeReply(400, campaigns, -1)
    else
      var id := campaignId.value;
      if !(id in campaigns && campaigns[id].userId == userId) then OptimizeReply(404, campaigns, -1)
      else
        var c := campaigns[id];
        var history := c.aiOptimizations.GetOr([]) + [HistoryEntry("performance_analysis", now, analysis, false)];
        OptimizeReply(200, campaigns[id := c.(aiOptimizations := Some(history), lastOptimizedAt := Some(now))],
                      |history| - 1)
  }

  /** The returned id points at the entry just added, and two runs add two
      entries with consecutive ids. */
  lemma OptimizationIdIndexesEntry(campaigns: map<int, AiCampaign>, id: int, userId: int,
                                   a1: AiService.Analysis, a2: AiService.Analysis, t1: int, t2: int)
    requires id in campaigns && campaigns[id].userId == userId
    ensures var r1 := OptimizeCampaign(campaigns, Some(id), userId, a1, t1);
      var r2 := OptimizeCampaign(r1.campaigns, Some(id), userId, a2, t2);
      r1.status == 200 && r2.status == 200
      && r2.optimizationId == r1.optimizationId + 1
      && r2.campaigns[id].aiOptimizations.value[r1.optimizationId].analysis == a1
      && r2.campaigns[id].aiOptimizations.value[r2.optimizationId].analysis == a2
  {
  }

  /** `optimizeCampaign` as written: the entry is pushed onto the loaded
      array in place and that same array is handed to `update`. Sequelize
      writes a JSON column only when the new value differs (deep equality)
      from the one the instance holds, and an array compared with itself
      never differs, so a stored list is left as it was; only a null column,
      replaced by a fresh array, is written. The reply is the same as the
      corrected one. */
  function OptimizeCampaignAsWritten(campaigns: map<int, AiCampaign>, campaignId: Option<int>, userId: int,
                                     analysis: AiService.Analysis, now: int): (r: OptimizeReply)
    ensures r.status == OptimizeCampaign(campaigns, campaignId, userId, analysis, now).status
    ensures r.optimizationId == OptimizeCampaign(campaigns, campaignId, userId, analysis, now).optimizationId
    ensures r.status == 200 && campaigns[campaignId.value].aiOptimizations.Some? ==>
      r.campaigns == campaigns[campaignId.value := campaigns[campaignId.value].(lastOptimizedAt := Some(now))]
    ensures r.status == 200 && campaigns[campaignId.value].aiOptimizations.None? ==>
      r.campaigns == OptimizeCampaign(campaigns, campaignId, userId, analysis, now).campaigns
  {
    if campaignId.None? then OptimizeReply(400, campaigns, -1)
    else
      var id := campaignId.value;
      if !(id in campaigns && campaigns[id].userId == userId) then OptimizeReply(404, campaigns, -1)
      else
        var c := campaigns[id];
        var history := c.aiOptimizations.GetOr([]) + [HistoryEntry("performance_analysis", now, analysis, false)];
        var stored := if c.aiOptimizations.Some? then c.aiOptimizations else Some(history);
        OptimizeReply(200, campaigns[id := c.(aiOptimizations := stored, lastOptimizedAt := Some(now))],
                      |history| - 1)
  }

  /** As written, a campaign whose history column holds a list (the column
      defaults to the empty one) never gains an entry: two runs leave the
      list as it was and return the same id, which indexes no stored entry. */
  lemma OptimizationLostAsWritten(campaigns: map<int, AiCampaign>, id: int, userId: int,
                                  a1: AiService.Analysis, a2: AiService.Analysis, t1: int, t2: int)
    requires id in campaigns && campaigns[id].userId == userId
    requires campaigns[id].aiOptimizations.Some?
    ensures var r1 := OptimizeCampaignAsWritten(campaigns, Some(id), userId, a1, t1);
      var r2 := OptimizeCampaignAsWritten(r1.campaigns, Some(id), userId, a2, t2);
      r1.status == 200 && r2.status == 200
      && r2.campaigns[id].aiOptimizations == campaigns[id].aiOptimizations
      && r2.optimizationId == r1.optimizationId == |campaigns[id].aiOptimizations.value|
  {
  }

  // Budget recommendations

  datatype CampaignFacts = CampaignFacts(budget: Option<real>, objective: string, targetRoas: real, runningDays: int)

  datatype PerformanceFacts = PerformanceFacts(roas: real, dailySpend: real, conversionRate: real, cpc: real, ctr: real)

  const NoPerformance := PerformanceFacts(0.0, 0.0, 0.0, 0.0, 0.0)

  /** An owned campaign found by id, with its samples newest first. */
  datatype FoundCampaign = FoundCampaign(budget: real, objective: string, createdAt: int, newestFirst: seq<Sample>)

  const RecentSamples: nat := 7

  const DayMs: int := 24 * 60 * 60 * 1000

  /** The figures of the last (up to) seven samples; zero without samples. */
  function RecentPerformance(newestFirst: seq<Sample>): (r: PerformanceFacts)
    ensures |newestFirst| == 0 ==> r == NoPerformance
    ensures |newestFirst| > 0 ==> var n := if |newestFirst| < RecentSamples then |newestFirst| else RecentSamples;
      var t := Metrics.Sum(newestFirst[..n]);
      r.dailySpend * n as real == t.spend
      && (t.spend > 0.0 ==> r.roas * t.spend == t.revenue) && (t.spend <= 0.0 ==> r.roas == 0.0)
      && (t.clicks > 0 ==> r.cpc * t.clicks as real == t.spend) && (t.clicks <= 0 ==> r.cpc == 0.0 && r.conversionRate == 0.0)
      && (t.impressions <= 0 ==> r.ctr == 0.0)
      && (t.clicks > 0 ==> r.conversionRate * t.clicks as real == t.conversions as real * 100.0)
      && (t.impressions > 0 ==> r.ctr * t.impressions as real == t.clicks as real * 100.0)
  {
    if |newestFirst| == 0 then NoPerformance
    else
      var n := if |newestFirst| < RecentSamples then |newestFirst| else RecentSamples;
      var t := Metrics.Sum(newestFirst[..n]);
      PerformanceFacts(
        Numeric.Ratio(t.revenue, t.spend),
        t.spend / n as real,
        Numeric.Percent(t.conversions as real, t.clicks as real),
        Numeric.Ratio(t.spend, t.clicks as real),
        Numeric.Percent(t.clicks as real, t.impressions as real))
  }

  /** `budgetRecommendations`' inputs to the AI: the request's figures with
      their defaults (a 3.0 target and seven running days), replaced by the
      campaign's own when an owned campaign is found. */
  function BudgetInputs(currentBudget: Option<real>, targetRoas: Option<real>, objective: Option<string>,
                        found: Option<FoundCampaign>, now: int): (r: (CampaignFacts, PerformanceFacts))
    ensures found.None? ==> r.0 == CampaignFacts(currentBudget, objective.GetOr("CONVERSIONS"), targetRoas.GetOr(3.0), 7)
    ensures found.None? ==> r.1 == NoPerformance
    ensures found.Some? ==> r.0.budget == Some(found.value.budget) && r.0.objective == found.value.objective
    ensures found.Some? ==> r.0.runningDays == Numeric.Ceil((now - found.value.createdAt) as real / DayMs as real)
    ensures found.Some? ==> r.1 == RecentPerformance(found.value.newestFirst)
    ensures r.0.targetRoas == targetRoas.GetOr(3.0)
  {
    var base := CampaignFacts(currentBudget, objective.GetOr("CONVERSIONS"), targetRoas.GetOr(3.0), 7);
    match found
    case None => (base, NoPerformance)
    case Some(c) =>
      (base.(budget := Some(c.budget), objective := c.objective,
             runningDays := Numeric.Ceil((now - c.createdAt) as real / DayMs as real)),
       RecentPerformance(c.newestFirst))
  }

  /** Over a window of at most seven samples the figures are the optimizer's
      own rates, and the daily spend is the mean spend per sample. */
  lemma RecentAgreesWithOptimizer(newestFirst: seq<Sample>)
    requires 0 < |newestFirst| <= RecentSamples
    ensures var r := RecentPerformance(newestFirst); var m := Metrics.Aggregate(newestFirst);
      r.roas == m.roas && r.cpc == m.cpc && r.ctr == m.ctr && r.conversionRate == m.conversionRate
      && r.dailySpend * |newestFirst| as real == m.spend
  {
    assert newestFirst[..|newestFirst|] == newestFirst;
  }

  // Generation history

  /** What a stored generation holds, as far as its preview looks. */
  datatype Content = Content(creatives: Option<nat>, audiences: Option<nat>, campaign: bool)

  /** `getContentPreview`: the first matching case in order. */
  function ContentPreview(content: Option<Content>): (r: string)
    ensures content.None? ==> r == "No content"
    ensures content.Some? && content.value.creatives.Some? && content.value.creatives.value > 0
      ==> r == NatToString(content.value.creatives.value) + " ad creatives"
    ensures content.Some? && !(content.value.creatives.Some? && content.value.creatives.value > 0)
      && content.value.audiences.Some? && content.value.audiences.value > 0
      ==> r == NatToString(content.value.audiences.value) + " audience suggestions"
    ensures content.Some? && !(content.value.creatives.Some? && content.value.creatives.value > 0)
      && !(content.value.audiences.Some? && content.value.audiences.value > 0)
      ==> r == (if content.value.campaign then "Campaign strategy" else "AI generated content")
  {
    match content
    case None => "No content"
    case Some(c) =>
      if c.creatives.Some? && c.creatives.value > 0 then NatToString(c.creatives.value) + " ad creatives"
      else if c.audiences.Some? && c.audiences.value > 0 then NatToString(c.audiences.value) + " audience suggestions"
      else if c.campaign then "Campaign strategy"
      else "AI generated content"
  }

  /** The preview tells which case applied: only creatives end in ' ad
      creatives', only audiences in ' audience suggestions', and the count
      in front reads back as the number. */
  lemma PreviewIdentifiesCase(content: Option<Content>)
    ensures IsSuffix(" ad creatives", ContentPreview(content))
      <==> content.Some? && content.value.creatives.Some? && content.value.creatives.value > 0
    ensures IsSuffix(" audience suggestions", ContentPreview(content))
      <==> (content.Some? && !(content.value.creatives.Some? && content.value.creatives.value > 0)
            && content.value.audiences.Some? && content.value.audiences.value > 0)
  {
    var r := ContentPreview(content);
    if content.Some? && content.value.creatives.Some? && content.value.creatives.value > 0 {
      var d := NatToString(content.value.creatives.value);
      assert r[|r| - 13..] == " ad creatives";
      assert |r| < 21 || r[|r| - 21..] != " audience suggestions" by {
        if |r| >= 21 {
          assert r[|r| - 1] == 's' && r[|r| - 3] == 'v';
          assert " audience suggestions"[18] == 'o';
        }
      }
    } else if content.Some? && content.value.audiences.Some? && content.value.audiences.value > 0 {
      var d := NatToString(content.value.audiences.value);
      assert r[|r| - 21..] == " audience suggestions";
      assert r[|r| - 13..] != " ad creatives" by {
        assert r[|r| - 3] == 'o';
      }
    }
  }

  /** One page of a user's generations, newest first: 20 per page by
      default, counted and cut as the campaign list is. */
  const DefaultHistoryPageSize: int := 20

  datatype HistoryItem = HistoryItem(productId: string, preview: string)

  function HistoryPage(newestFirst: seq<(string, Option<Content>)>, page: int, limit: int): (r: Result<(seq<HistoryItem>, Option<int>)>)
    ensures r.Failure? <==> Campaigns.Offset(page, limit) < 0 || limit < 0
    ensures r.Success? ==> |r.value.0| <= limit && r.value.1 == Campaigns.Pages(|newestFirst|, limit)
    ensures r.Success? ==> var rows := Campaigns.PageRows(newestFirst, page, limit).value;
      |r.value.0| == |rows|
      && forall i :: 0 <= i < |rows| ==> r.value.0[i] == HistoryItem(rows[i].0, ContentPreview(rows[i].1))
  {
    var rows :- Campaigns.PageRows(newestFirst, page, limit);
    Success((seq(|rows|, i requires 0 <= i < |rows| => HistoryItem(rows[i].0, ContentPreview(rows[i].1))),
             Campaigns.Pages(|newestFirst|, limit)))
  }

  /** Every generation is listed: generation `i` is item `i % limit` of page
      `i / limit + 1`, with its own product id and preview. */
  lemma HistoryListsEveryGeneration(newestFirst: seq<(string, Option<Content>)>, limit: int, i: int)
    requires limit > 0 && 0 <= i < |newestFirst|
    ensures var r := HistoryPage(newestFirst, i / limit + 1, limit);
      r.Success? && i % limit < |r.value.0|
      && r.value.0[i % limit] == HistoryItem(newestFirst[i].0, ContentPreview(newestFirst[i].1))
  {
    Campaigns.PageLocation(newestFirst, limit, i);
  }

  // Rating

  datatype Generation = Generation(userId: int, productId: string, content: Option<Content>,
                                   rating: Option<int>, feedback: Option<string>)

  /** A rating is accepted when present, non-zero and between 1 and 5. */
  predicate ValidRating(rating: Option<real>) {
    rating.Some? && rating.value != 0.0 && 1.0 <= rating.value <= 5.0
  }

  /** `rateGeneration`: 400 for an invalid rating (before any lookup), 404
      for a generation the user does not own; otherwise the whole part of the
      rating and the feedback (empty read as null) are stored. */
  function RateGeneration(gens: map<int, Generation>, id: int, userId: int,
                          rating: Option<real>, feedback: Option<string>): (r: (int, map<int, Generation>))
    ensures !ValidRating(rating) ==> r == (400, gens)
    ensures ValidRating(rating) && !(id in gens && gens[id].userId == userId) ==> r == (404, gens)
    ensures r.0 == 200 ==> (id in gens && id in r.1 && r.1 == gens[id := r.1[id]]
      && r.1[id].rating.Some? && 1 <= r.1[id].rating.value <= 5
      && r.1[id].rating.value as real <= rating.value < r.1[id].rating.value as real + 1.0
      && r.1[id].(rating := gens[id].rating, feedback := gens[id].feedback) == gens[id])
    ensures ValidRating(rating) && id in gens && gens[id].userId == userId ==> (r.0 == 200
      && r.1[id].rating == Some(rating.value.Floor)
      && r.1[id].feedback == (if feedback.Some? && feedback.value != "" then feedback else None))
  {
    if !ValidRating(rating) then (400, gens)
    else if !(id in gens && gens[id].userId == userId) then (404, gens)
    else
      var fb := if feedback.Some? && feedback.value != "" then feedback else None;
      (200, gens[id := gens[id].(rating := Some(rating.value.Floor), feedback := fb)])
  }

  /** Reading a rating back: a valid rating on an owned generation is
      stored, a second identical request changes nothing, and no other user
      can rate or see the change. */
  lemma RatingReadBack(gens: map<int, Generation>, id: int, userId: int, other: int,
                       rating: Option<real>, feedback: Option<string>)
    requires ValidRating(rating) && id in gens && gens[id].userId == userId && other != userId
    ensures var r := RateGeneration(gens, id, userId, rating, feedback);
      r.0 == 200
      && r.1[id].rating.value == rating.value.Floor
      && RateGeneration(r.1, id, userId, rating, feedback) == r
      && RateGeneration(r.1, id, other, rating, feedback) == (404, r.1)
      && r.1[id].userId == userId && r.1[id].content == gens[id].content
  {
    var r := RateGeneration(gens, id, userId, rating, feedback);
    var again := RateGeneration(r.1, id, userId, rating, feedback);
    assert again.1[id] == r.1[id];
    assert again.1 == r.1;
  }
}

=== FILE: ai_service.dfy ===
/** The AI service's deterministic parts: pulling a JSON fragment out of the
    model's free text, falling back to a fixed answer whenever the call, the
    extraction or the parse fails, the fallback answers themselves, the
    metrics the performance analysis computes before prompting, and the
    product facts the prompts quote. The model call is a `Result` reply and
    `JSON.parse` a function parameter. */
module AiService {
  import opened Wrappers
  import opened Strings
  import opened Schema
  import Numeric
  import Metrics
  import ProductSync

  // Extracting a JSON fragment

  /** `s[i]` is the first `c` in `s`. */
  predicate FirstAt(s: string, c: char, i: int) {
    0 <= i < |s| && s[i] == c && forall k :: 0 <= k < i ==> s[k] != c
  }

  /** `s[j]` is the last `c` in `s`. */
  predicate LastAt(s: string, c: char, j: int) {
    0 <= j < |s| && s[j] == c && forall k :: j < k < |s| ==> s[k] != c
  }

  /** The index of the first `c` in `s`, or -1 when there is none. */
  function FirstIndex(s: string, c: char): (r: int)
    ensures r == -1 || FirstAt(s, c, r)
    ensures r == -1 ==> forall k :: 0 <= k < |s| ==> s[k] != c
    decreases |s|
  {
    if |s| == 0 then -1
    else if s[0] == c then 0
    else
      var r := FirstIndex(s[1..], c);
      assert forall k :: 1 <= k < |s| ==> s[k] == s[1..][k - 1];
      if r == -1 then -1 else r + 1
  }

  /** The index of the last `c` in `s`, or -1 when there is none. */
  function LastIndex(s: string, c: char): (r: int)
    ensures r == -1 || LastAt(s, c, r)
    ensures r == -1 ==> forall k :: 0 <= k < |s| ==> s[k] != c
    decreases |s|
  {
    if |s| == 0 then -1
    else if s[|s| - 1] == c then |s| - 1
    else LastIndex(s[..|s| - 1], c)
  }

  /** `text.match(/\{[\s\S]*\}/)` with `open`, `close` for the braces: the
      greedy match runs from the first `open` to the last `close`, and there is
      a match exactly when some `open` comes before some `close`. */
  function ExtractBetween(text: string, open: char, close: char): (r: Option<string>)
    ensures r.Some? <==> exists a, b :: 0 <= a < b < |text| && text[a] == open && text[b] == close
    ensures r.Some? ==> exists i, j :: (FirstAt(text, open, i) && LastAt(text, close, j)
                                        && i < j && r.value == text[i..j + 1])
    ensures r.Some? ==> |r.value| >= 2 && r.value[0] == open && r.value[|r.value| - 1] == close
  {
    var i := FirstIndex(text, open);
    var j := LastIndex(text, close);
    if 0 <= i < j then Some(text[i..j + 1]) else None
  }

  /** The object variant, `/\{[\s\S]*\}/`. */
  function ExtractObject(text: string): Option<string> {
    ExtractBetween(text, '{', '}')
  }

  /** The array variant, `/\[[\s\S]*\]/`. */
  function ExtractArray(text: string): Option<string> {
    ExtractBetween(text, '[', ']')
  }

  /** A reply that wraps one fragment in prose with no opening brace before
      it and no closing brace after it yields exactly that fragment. */
  lemma ExtractFramed(before: string, body: string, after: string, open: char, close: char)
    requires |body| >= 2 && body[0] == open && body[|body| - 1] == close
    requires open !in before && close !in after
    ensures ExtractBetween(before + body + after, open, close) == Some(body)
  {
    var t := before + body + after;
    var i := |before|;
    var j := |before| + |body| - 1;
    assert forall k :: 0 <= k < i ==> t[k] == before[k];
    assert forall k :: j < k < |t| ==> t[k] == after[k - j - 1];
    assert FirstAt(t, open, i);
    assert LastAt(t, close, j);
    assert t[i..j + 1] == body;
  }

  /** One generation call: the reply text, the fragment extraction and the
      parse each may fail, and any failure yields the fallback instead of an
      error. */
  function Generate<T>(reply: Result<string>, extract: string -> Option<string>,
                       parse: string -> Option<T>, fallback: T): (r: T)
    ensures reply.Failure? ==> r == fallback
    ensures reply.Success? && extract(reply.value).None? ==> r == fallback
    ensures reply.Success? && extract(reply.value).Some? ==>
      r == parse(extract(reply.value).value).GetOr(fallback)
  {
    match reply
    case Failure(_) => fallback
    case Success(text) =>
      match extract(text)
      case None => fallback
      case Some(fragment) => parse(fragment).GetOr(fallback)
  }

  /** Every answer is either a parse of a fragment of the reply or the
      fallback. */
  lemma GenerateIsParsedOrFallback<T>(reply: Result<string>, extract: string -> Option<string>,
                                      parse: string -> Option<T>, fallback: T)
    ensures var r := Generate(reply, extract, parse, fallback);
      r == fallback || (reply.Success? && extract(reply.value).Some?
                        && parse(extract(reply.value).value) == Some(r))
  {
  }

  // Product facts quoted in the prompts

  /** The prompts' reading of a product. */
  datatype ProductFacts = ProductFacts(
    title: string,
    bodyHtml: Option<string>,
    firstPrice: Option<string>,
    productType: Option<string>,
    vendor: Option<string>,
    tags: Option<string>)

  /** `body_html?.replace(/<[^>]*>/g, '') || 'No description'`. */
  function PromptDescription(bodyHtml: Option<string>): (r: string)
    ensures r != "" && ProductSync.TagFree(r)
    ensures bodyHtml.Some? && ProductSync.RemoveTags(bodyHtml.value) != "" ==>
      r == ProductSync.RemoveTags(bodyHtml.value)
    ensures bodyHtml.None? ==> r == "No description"
  {
    if bodyHtml.Some? && ProductSync.RemoveTags(bodyHtml.value) != "" then
      ProductSync.RemoveTags(bodyHtml.value)
    else
      assert ProductSync.TagFree("No description");
      "No description"
  }

  /** The defaults the prompts print for missing product facts. */
  function PromptFields(p: ProductFacts): (r: seq<string>)
    ensures |r| == 5
    ensures forall k :: 0 <= k < 5 ==> r[k] != ""
    ensures p.productType.None? ==> r[2] == "General"
    ensures p.vendor.None? ==> r[3] == "Unknown"
  {
    [PromptDescription(p.bodyHtml),
     Schema.OrText(p.firstPrice, "N/A"),
     Schema.OrText(p.productType, "General"),
     Schema.OrText(p.vendor, "Unknown"),
     Schema.OrText(p.tags, "None")]
  }

  /** `existingCreatives.map(c => c.angle || '').join(', ')`. */
  function ExistingAngles(angles: seq<Option<string>>): (r: string)
    ensures |angles| == 0 ==> r == ""
    ensures |angles| == 1 ==> r == Schema.OrText(angles[0], "")
  {
    Join(seq(|angles|, i requires 0 <= i < |angles| => Schema.OrText(angles[i], "")), ", ")
  }

  /** Every existing angle appears in the joined list, in order, each
      separated from the next by ", ". */
  lemma {:induction false} ExistingAnglesSplit(angles: seq<Option<string>>)
    requires |angles| >= 2
    ensures ExistingAngles(angles) == Schema.OrText(angles[0], "") + ", " + ExistingAngles(angles[1..])
  {
    var xs := seq(|angles|, i requires 0 <= i < |angles| => Schema.OrText(angles[i], ""));
    var ys := seq(|angles[1..]|, i requires 0 <= i < |angles[1..]| => Schema.OrText(angles[1..][i], ""));
    assert xs[1..] == ys;
  }

  // Fallback answers

  const HeadlineLimit: nat := 40

  /** `title.substring(0, 40)`. */
  function Headline(title: string): (r: string)
    ensures |r| <= HeadlineLimit
    ensures IsPrefix(r, title)
    ensures |title| <= HeadlineLimit ==> r == title
    ensures |title| > HeadlineLimit ==> |r| == HeadlineLimit
  {
    if |title| <= HeadlineLimit then title else title[..HeadlineLimit]
  }

  datatype Creative = Creative(
    headline: string,
    primaryText: string,
    description: string,
    cta: string,
    angle: string)

  /** The strategy's fallback: the conversions objective and one
      benefit-focused creative. */
  datatype Strategy = Strategy(objective: string, audienceCount: nat, creatives: seq<Creative>)

  function FallbackStrategy(title: string): (r: Strategy)
    ensures r.objective == "CONVERSIONS" && r.audienceCount == 1 && |r.creatives| == 1
    ensures IsPrefix(r.creatives[0].headline, title) && |r.creatives[0].headline| <= HeadlineLimit
    ensures r.creatives[0].cta == "SHOP_NOW"
  {
    Strategy("CONVERSIONS", 1,
      [Creative(Headline(title), "Discover " + title + " - Limited time offer!",
                "Shop now and save!", "SHOP_NOW", "benefit-focused")])
  }

  /** The creatives' fallback: one transformation-angle creative. */
  function FallbackCreatives(title: string): (r: seq<Creative>)
    ensures |r| == 1
    ensures IsPrefix(r[0].headline, title) && |r[0].headline| <= HeadlineLimit
    ensures r[0].cta == "SHOP_NOW" && r[0].angle == "transformation"
  {
    [Creative(Headline(title), "Transform your life with " + title + "!",
              "Limited time offer", "SHOP_NOW", "transformation")]
  }

  /** An audience suggestion, reduced to its name and age range. */
  datatype Audience = Audience(name: string, kind: string, ageMin: int, ageMax: int)

  function FallbackAudiences(): (r: seq<Audience>)
    ensures |r| == 1 && r[0].ageMin == 25 && r[0].ageMax == 55
  {
    [Audience("General Interest Audience", "interest", 25, 55)]
  }

  /** The performance analysis, reduced to its headline figures. */
  datatype Analysis = Analysis(health: string, score: int, recommendations: nat, nextSteps: nat)

  function FallbackAnalysis(): (r: Analysis)
    ensures r.health == "average" && r.score == 50
    ensures 0 <= r.score <= 100
  {
    Analysis("average", 50, 1, 2)
  }

  datatype BudgetAdvice = BudgetAdvice(performance: string, amount: real, changePercentage: real, risk: string)

  /** Keep the budget: 50 with no change, low risk. */
  function FallbackBudget(): (r: BudgetAdvice)
    ensures r.amount == 50.0 && r.changePercentage == 0.0 && r.performance == "meeting_goals"
  {
    BudgetAdvice("meeting_goals", 50.0, 0.0, "low")
  }

  /** The fallback creatives' headlines are never longer than the limit and
      always start the title, whatever the title. */
  lemma FallbackHeadlines(title: string)
    ensures forall c :: c in FallbackCreatives(title) ==> |c.headline| <= HeadlineLimit && IsPrefix(c.headline, title)
    ensures forall c :: c in FallbackStrategy(title).creatives ==> |c.headline| <= HeadlineLimit && IsPrefix(c.headline, title)
  {
  }

  // Performance analysis

  const AnalysisWindow: nat := 30

  /** The figures the analysis prompt quotes. */
  datatype Figures = Figures(
    spend: real,
    revenue: real,
    ctr: real,
    cpc: real,
    conversionRate: real,
    roas: real,
    conversions: int)

  /** The 30 most recent samples (the query orders newest first), summed with
      null columns as 0, and each rate 0 when its denominator is 0. */
  function AnalysisFigures(newestFirst: seq<Sample>): (r: Figures)
    ensures var t := Metrics.Sum(newestFirst[..if |newestFirst| < AnalysisWindow then |newestFirst| else AnalysisWindow]);
      r.spend == t.spend && r.revenue == t.revenue && r.conversions == t.conversions
      && (t.impressions > 0 ==> r.ctr * t.impressions as real == t.clicks as real * 100.0)
      && (t.impressions <= 0 ==> r.ctr == 0.0)
      && (t.clicks > 0 ==> r.cpc * t.clicks as real == t.spend)
      && (t.clicks <= 0 ==> r.cpc == 0.0 && r.conversionRate == 0.0)
      && (t.spend > 0.0 ==> r.roas * t.spend == t.revenue)
      && (t.spend <= 0.0 ==> r.roas == 0.0)
  {
    var n := if |newestFirst| < AnalysisWindow then |newestFirst| else AnalysisWindow;
    var t := Metrics.Sum(newestFirst[..n]);
    Figures(t.spend, t.revenue,
      Numeric.Percent(t.clicks as real, t.impressions as real),
      Numeric.Ratio(t.spend, t.clicks as real),
      Numeric.Percent(t.conversions as real, t.clicks as real),
      Numeric.Ratio(t.revenue, t.spend),
      t.conversions)
  }

  /** On a non-empty window the analysis quotes the optimizer's own rates. */
  lemma AnalysisAgreesWithOptimizer(newestFirst: seq<Sample>)
    requires 0 < |newestFirst| <= AnalysisWindow
    ensures var r := AnalysisFigures(newestFirst); var m := Metrics.Aggregate(newestFirst);
      r.spend == m.spend && r.revenue == m.revenue && r.roas == m.roas && r.ctr == m.ctr
      && r.cpc == m.cpc && r.conversionRate == m.conversionRate && r.conversions == m.conversions
  {
    assert newestFirst[..|newestFirst|] == newestFirst;
  }

  /** The figures the prompt shows, and the analysis. */
  datatype CampaignAnalysis = CampaignAnalysis(figures: Option<Figures>, analysis: Analysis)

  /** `analyzeCampaignPerformance`: a missing campaign, like a failed call or
      an unreadable reply, gives the fallback analysis. The figures only
      shape the prompt, so they are returned alongside. */
  function AnalyzeCampaignPerformance(campaign: Option<seq<Sample>>, reply: Result<string>,
                                      parse: string -> Option<Analysis>): (r: CampaignAnalysis)
    ensures campaign.None? ==> r == CampaignAnalysis(None, FallbackAnalysis())
    ensures campaign.Some? ==> r.figures == Some(AnalysisFigures(campaign.value))
    ensures campaign.Some? && reply.Failure? ==> r.analysis == FallbackAnalysis()
    ensures campaign.Some? && reply.Success? && ExtractObject(reply.value).None? ==> r.analysis == FallbackAnalysis()
    ensures campaign.Some? && reply.Success? && ExtractObject(reply.value).Some? ==>
      r.analysis == parse(ExtractObject(reply.value).value).GetOr(FallbackAnalysis())
  {
    if campaign.None? then CampaignAnalysis(None, FallbackAnalysis())
    else CampaignAnalysis(Some(AnalysisFigures(campaign.value)), Generate(reply, ExtractObject, parse, FallbackAnalysis()))
  }
}

=== FILE: analytics.dfy ===
/** The analytics endpoints' arithmetic: period metrics with two-decimal
    figures and zero-guarded ratios, percentage trends against the previous
    period of the same length, the top-campaign ranking, the industry
    benchmark table, and the CSV/JSON export. The database queries are inputs
    (the samples of a window are a function of the window), and JSON text is
    supplied by the caller. */
module Analytics {
  import opened Wrappers
  import opened Strings
  import opened Schema
  import opened Numeric
  import Metrics
  import Ranking
  import opened Http

  // Period metrics

  /** `calculateMetrics`, with each `toFixed(2)` figure read back as a
      number. */
  datatype PeriodMetrics = PeriodMetrics(
    spend: real,
    revenue: real,
    roas: real,
    ctr: real,
    cpc: real,
    conversionRate: real,
    conversions: int,
    clicks: int,
    impressions: int)

  /** Sums over the samples (null columns as 0) and the four ratios, each
      '0.00' when its denominator is not positive, all to two decimals. */
  function CalculateMetrics(ps: seq<Sample>): (m: PeriodMetrics)
    ensures var t := Metrics.Sum(ps);
      m.conversions == t.conversions && m.clicks == t.clicks && m.impressions == t.impressions
      && t.spend - 0.005 < m.spend <= t.spend + 0.005
      && t.revenue - 0.005 < m.revenue <= t.revenue + 0.005
      && (t.spend <= 0.0 ==> m.roas == 0.0)
      && (t.impressions <= 0 ==> m.ctr == 0.0)
      && (t.clicks <= 0 ==> m.cpc == 0.0 && m.conversionRate == 0.0)
      && (t.spend > 0.0 ==> t.revenue / t.spend - 0.005 < m.roas <= t.revenue / t.spend + 0.005)
      && (t.clicks > 0 ==> t.spend / t.clicks as real - 0.005 < m.cpc <= t.spend / t.clicks as real + 0.005)
    ensures IsCents(m.spend) && IsCents(m.revenue) && IsCents(m.roas)
    ensures IsCents(m.ctr) && IsCents(m.cpc) && IsCents(m.conversionRate)
  {
    var t := Metrics.Sum(ps);
    RoundCentsOfCents(0);
    PeriodMetrics(
      RoundCents(t.spend), RoundCents(t.revenue),
      RoundCents(Ratio(t.revenue, t.spend)),
      RoundCents(Percent(t.clicks as real, t.impressions as real)),
      RoundCents(Ratio(t.spend, t.clicks as real)),
      RoundCents(Percent(t.conversions as real, t.clicks as real)),
      t.conversions, t.clicks, t.impressions)
  }

  /** The reported figures are the optimizer's aggregate rounded to cents, on
      every list of samples, the empty one included. */
  lemma MetricsAgreeWithOptimizer(ps: seq<Sample>)
    ensures var m := CalculateMetrics(ps); var a := Metrics.Aggregate(ps);
      m.spend == RoundCents(a.spend) && m.revenue == RoundCents(a.revenue)
      && m.roas == RoundCents(a.roas) && m.ctr == RoundCents(a.ctr)
      && m.cpc == RoundCents(a.cpc) && m.conversionRate == RoundCents(a.conversionRate)
      && m.conversions == a.conversions && m.clicks == a.clicks && m.impressions == a.impressions
  {
    if |ps| == 0 {
      assert Metrics.Sum(ps) == Metrics.ZeroTotals;
    }
  }

  // Trends

  /** `calculateChange`: 100 when growing from 0, 0 when staying at or
      falling to 0 from 0, else the percentage change to one decimal. */
  function Change(curr: real, prev: real): (r: real)
    ensures prev == 0.0 ==> (r == 100.0 <==> curr > 0.0) && (r == 0.0 <==> curr <= 0.0)
    ensures prev != 0.0 ==> (curr - prev) / prev * 100.0 - 0.05 < r <= (curr - prev) / prev * 100.0 + 0.05
  {
    if prev == 0.0 then (if curr > 0.0 then 100.0 else 0.0)
    else RoundTenths((curr - prev) / prev * 100.0)
  }

  /** From a positive base the reported change has the sign of the actual
      change, and no change reads as 0. */
  lemma ChangeFollowsDirection(curr: real, prev: real)
    requires prev > 0.0
    ensures curr >= prev ==> Change(curr, prev) >= 0.0
    ensures curr <= prev ==> Change(curr, prev) <= 0.0
    ensures curr == prev ==> Change(curr, prev) == 0.0
  {
    var x := (curr - prev) / prev * 100.0;
    if curr >= prev {
      assert x >= 0.0;
      assert Round(x * 10.0) >= 0;
    }
    if curr <= prev {
      assert x <= 0.0;
      assert (x * 10.0 + 0.5).Floor <= 0;
    }
  }

  datatype Trends = Trends(spend: real, revenue: real, roas: real, ctr: real, conversions: real)

  /** `calculateTrends`: nothing without a previous period; otherwise the
      change of each figure as reported (so of the two-decimal values). */
  function CalculateTrends(current: PeriodMetrics, previous: Option<PeriodMetrics>): (r: Option<Trends>)
    ensures r.None? <==> previous.None?
    ensures r.Some? ==> (r.value.spend == Change(current.spend, previous.value.spend)
                         && r.value.revenue == Change(current.revenue, previous.value.revenue)
                         && r.value.roas == Change(current.roas, previous.value.roas)
                         && r.value.ctr == Change(current.ctr, previous.value.ctr)
                         && r.value.conversions == Change(current.conversions as real, previous.value.conversions as real))
  {
    match previous
    case None => None
    case Some(p) =>
      Some(Trends(Change(current.spend, p.spend), Change(current.revenue, p.revenue),
                  Change(current.roas, p.roas), Change(current.ctr, p.ctr),
                  Change(current.conversions as real, p.conversions as real)))
  }

  /** Comparing a period with itself reports no change in any figure. */
  lemma TrendsOfSamePeriod(m: PeriodMetrics)
    requires m.spend >= 0.0 && m.revenue >= 0.0 && m.roas >= 0.0 && m.ctr >= 0.0 && m.conversions >= 0
    ensures CalculateTrends(m, Some(m)) == Some(Trends(0.0, 0.0, 0.0, 0.0, 0.0))
  {
    if m.spend > 0.0 { ChangeFollowsDirection(m.spend, m.spend); }
    if m.revenue > 0.0 { ChangeFollowsDirection(m.revenue, m.revenue); }
    if m.roas > 0.0 { ChangeFollowsDirection(m.roas, m.roas); }
    if m.ctr > 0.0 { ChangeFollowsDirection(m.ctr, m.ctr); }
    if m.conversions > 0 { ChangeFollowsDirection(m.conversions as real, m.conversions as real); }
  }

  // Reporting windows

  const DayMs: int := 24 * 60 * 60 * 1000

  /** A closed interval of milliseconds, as `Op.between` reads it. */
  datatype Window = Window(start: int, end: int)

  predicate InWindow(t: int, w: Window) {
    w.start <= t <= w.end
  }

  /** The last `days` days up to `now`. */
  function CurrentWindow(now: int, days: int): (w: Window)
    ensures w.end == now && w.end - w.start == days * DayMs
  {
    Window(now - days * DayMs, now)
  }

  /** The comparison period: ends 1 ms before the current one starts and
      spans the same number of days. */
  function PreviousWindow(current: Window, days: int): (w: Window)
    ensures w.end < current.start
    ensures w.end - w.start == days * DayMs
  {
    var end := current.start - 1;
    Window(end - days * DayMs, end)
  }

  /** The two periods of equal length are disjoint and leave no millisecond
      between them uncovered. */
  lemma WindowsTile(now: int, days: int, t: int)
    requires days >= 0
    ensures var cur := CurrentWindow(now, days); var prev := PreviousWindow(cur, days);
      (prev.end - prev.start == cur.end - cur.start)
      && !(InWindow(t, prev) && InWindow(t, cur))
      && (prev.start <= t <= cur.end ==> InWindow(t, prev) || InWindow(t, cur))
  {
  }

  datatype Overview = Overview(current: PeriodMetrics, trends: Option<Trends>)

  /** The overview: the current window's metrics, and trends only when the
      comparison is with the previous period. */
  function OverviewOf(now: int, days: int, compareWith: string, samplesIn: Window -> seq<Sample>): (r: Overview)
    ensures r.current == CalculateMetrics(samplesIn(CurrentWindow(now, days)))
    ensures r.trends.Some? <==> compareWith == "previous"
    ensures compareWith == "previous" ==>
      r.trends == CalculateTrends(r.current,
                    Some(CalculateMetrics(samplesIn(PreviousWindow(CurrentWindow(now, days), days)))))
  {
    var cur := CurrentWindow(now, days);
    var current := CalculateMetrics(samplesIn(cur));
    var previous := if compareWith == "previous"
      then Some(CalculateMetrics(samplesIn(PreviousWindow(cur, days))))
      else None;
    Overview(current, CalculateTrends(current, previous))
  }

  // Top campaigns

  datatype CampaignPerformance = CampaignPerformance(
    id: int, productTitle: string, status: string, performances: seq<Sample>)

  datatype RankedCampaign = RankedCampaign(
    id: int, productTitle: string, status: string, metrics: PeriodMetrics)

  function RankedOf(c: CampaignPerformance): RankedCampaign {
    RankedCampaign(c.id, c.productTitle, c.status, CalculateMetrics(c.performances))
  }

  /** The sort key: the reported two-decimal ROAS. */
  function RoasOf(r: RankedCampaign): real {
    r.metrics.roas
  }

  const DefaultTopLimit: nat := 5

  /** Every campaign with its window metrics, in query order. */
  function RankedAll(cs: seq<CampaignPerformance>): (r: seq<RankedCampaign>)
    ensures |r| == |cs|
    ensures forall i :: 0 <= i < |cs| ==> r[i] == RankedOf(cs[i])
  {
    seq(|cs|, i requires 0 <= i < |cs| => RankedOf(cs[i]))
  }

  /** `getTopCampaigns`: each campaign's window metrics, highest ROAS first,
      at most `limit`, none left out ranking above one kept. */
  function TopCampaigns(cs: seq<CampaignPerformance>, limit: nat): (r: seq<RankedCampaign>)
    ensures |r| == Ranking.Min(|cs|, limit)
    ensures Ranking.SortedDesc(r, RoasOf)
    ensures multiset(r) <= multiset(RankedAll(cs))
    ensures forall x :: x in r ==> exists c :: c in cs && x == RankedOf(c)
    ensures forall x, y :: (x in r && y in multiset(RankedAll(cs)) - multiset(r)) ==> RoasOf(x) >= RoasOf(y)
  {
    var all := RankedAll(cs);
    var r := Ranking.Top(all, RoasOf, limit);
    forall x | x in r ensures exists c :: c in cs && x == RankedOf(c) {
      assert x in multiset(r);
      assert x in multiset(all);
      var i :| 0 <= i < |all| && all[i] == x;
      assert cs[i] in cs;
    }
    r
  }

  // Benchmarks

  datatype Benchmark = Benchmark(good: real, average: real, poor: real)

  const RoasBenchmark := Benchmark(4.0, 2.5, 1.5)

  /** `getIndustryBenchmarks`: the table's row for the metric, the ROAS row
      for any other name. */
  function Benchmarks(metric: string): (r: Benchmark)
    ensures metric != "ctr" && metric != "cpc" && metric != "conversionRate" ==> r == RoasBenchmark
    ensures metric == "roas" ==> r == Benchmark(4.0, 2.5, 1.5)
    ensures metric == "ctr" ==> r == Benchmark(2.0, 1.2, 0.8)
    ensures metric == "cpc" ==> r == Benchmark(1.0, 2.0, 3.5)
    ensures metric == "conversionRate" ==> r == Benchmark(4.0, 2.0, 1.0)
  {
    if metric == "ctr" then Benchmark(2.0, 1.2, 0.8)
    else if metric == "cpc" then Benchmark(1.0, 2.0, 3.5)
    else if metric == "conversionRate" then Benchmark(4.0, 2.0, 1.0)
    else RoasBenchmark
  }

  /** Good beats average beats poor: higher is better for every metric but
      the cost per click, where lower is better. */
  lemma BenchmarksOrdered(metric: string)
    ensures metric == "cpc" ==> Benchmarks(metric).good < Benchmarks(metric).average < Benchmarks(metric).poor
    ensures metric != "cpc" ==> Benchmarks(metric).good > Benchmarks(metric).average > Benchmarks(metric).poor
  {
  }

  // CSV export

  /** A field value as the export sees it: plain text (`${value}`), a
      structured value with its JSON text, null or undefined. */
  datatype Value = Scalar(text: string) | Structured(json: string) | Null | Undefined

  /** An object's own keys in insertion order, with their values. */
  type Row = seq<(string, Value)>

  function Keys(row: Row): (r: seq<string>)
    ensures |r| == |row|
    ensures forall k :: 0 <= k < |row| ==> r[k] == row[k].0
  {
    seq(|row|, k requires 0 <= k < |row| => row[k].0)
  }

  /** Entry `k` is the first one under the key. */
  predicate FirstKeyAt(row: Row, key: string, k: int) {
    0 <= k < |row| && row[k].0 == key && forall j :: 0 <= j < k ==> row[j].0 != key
  }

  /** `row[key]`: the value under the key, undefined when absent. */
  function Lookup(row: Row, key: string): (r: Value)
    ensures key !in Keys(row) ==> r == Undefined
    ensures |row| > 0 && row[0].0 == key ==> r == row[0].1
    ensures forall k :: FirstKeyAt(row, key, k) ==> r == row[k].1
    decreases |row|
  {
    if |row| == 0 then Undefined
    else if row[0].0 == key then row[0].1
    else
      assert Keys(row[1..]) == Keys(row)[1..];
      Lookup(row[1..], key)
  }

  /** One cell: objects and null (whose `typeof` is 'object') as JSON, every
      other value inside double quotes, unescaped. */
  function Cell(v: Value): string {
    match v
    case Structured(json) => json
    case Null => "null"
    case Scalar(text) => "\"" + text + "\""
    case Undefined => "\"undefined\""
  }

  function Cells(row: Row, headers: seq<string>): (r: seq<string>)
    ensures |r| == |headers|
    ensures forall k :: 0 <= k < |headers| ==> r[k] == Cell(Lookup(row, headers[k]))
  {
    seq(|headers|, k requires 0 <= k < |headers| => Cell(Lookup(row, headers[k])))
  }

  /** The header line followed by one line per row. */
  function CsvLines(data: seq<Row>): (r: seq<string>)
    requires |data| > 0
    ensures |r| == |data| + 1
    ensures r[0] == Join(Keys(data[0]), ",")
    ensures forall i :: 0 <= i < |data| ==> r[i + 1] == Join(Cells(data[i], Keys(data[0])), ",")
  {
    var headers := Keys(data[0]);
    [Join(headers, ",")] + seq(|data|, i requires 0 <= i < |data| => Join(Cells(data[i], headers), ","))
  }

  /** `formatAsCSV`: '' for no rows, else the lines joined by newlines. */
  function FormatAsCsv(data: seq<Row>): (r: string)
    ensures |data| == 0 <==> r == ""
  {
    if |data| == 0 then ""
    else
      var lines := CsvLines(data);
      JoinNonEmpty(lines, "\n");
      Join(lines, "\n")
  }

  /** A join with a non-empty first element or separator is non-empty. */
  lemma JoinNonEmpty(xs: seq<string>, sep: string)
    requires |xs| >= 2 && |sep| > 0
    ensures Join(xs, sep) != ""
  {
  }

  /** Newline- and comma-free text: nothing the file's layout could mistake
      for a separator. */
  predicate Plain(s: string) {
    '\n' !in s && ',' !in s
  }

  predicate PlainValue(v: Value) {
    match v
    case Scalar(t) => Plain(t)
    case Structured(j) => Plain(j)
    case _ => true
  }

  /** Every key and every value of every row is plain. */
  predicate PlainData(data: seq<Row>) {
    forall i, k :: 0 <= i < |data| && 0 <= k < |data[i]| ==> Plain(data[i][k].0) && PlainValue(data[i][k].1)
  }

  lemma PlainLookup(row: Row, key: string)
    requires forall k :: 0 <= k < |row| ==> PlainValue(row[k].1)
    ensures Plain(Cell(Lookup(row, key)))
    decreases |row|
  {
    if |row| > 0 && row[0].0 != key {
      PlainLookup(row[1..], key);
    }
  }

  /** With plain data no line holds a newline. */
  lemma CsvLinesPlain(data: seq<Row>, j: int)
    requires |data| > 0 && PlainData(data) && 0 <= j <= |data|
    ensures '\n' !in CsvLines(data)[j]
  {
    var headers := Keys(data[0]);
    var pieces := if j == 0 then headers else Cells(data[j - 1], headers);
    forall k | 0 <= k < |pieces| ensures '\n' !in pieces[k] {
      if j > 0 {
        PlainLookup(data[j - 1], headers[k]);
      }
    }
    JoinAvoids(pieces, ",", '\n');
  }

  /** Reading the file back: with plain data, splitting at newlines gives
      the header line and one line per row. */
  lemma CsvSplitsIntoLines(data: seq<Row>)
    requires |data| > 0 && PlainData(data)
    ensures Split(FormatAsCsv(data), '\n') == CsvLines(data)
  {
    var lines := CsvLines(data);
    forall j | 0 <= j < |lines| ensures '\n' !in lines[j] {
      CsvLinesPlain(data, j);
    }
    SplitJoin(lines, '\n');
  }

  /** With plain data, splitting the header line at commas gives the keys,
      and splitting a row's line gives one cell per header, in header
      order. */
  lemma CsvLineSplitsIntoCells(data: seq<Row>, i: int)
    requires |data| > 0 && PlainData(data) && 0 <= i < |data|
    requires |data[0]| > 0
    ensures Split(CsvLines(data)[0], ',') == Keys(data[0])
    ensures Split(CsvLines(data)[i + 1], ',') == Cells(data[i], Keys(data[0]))
  {
    var headers := Keys(data[0]);
    var cells := Cells(data[i], headers);
    forall k | 0 <= k < |headers| ensures ',' !in cells[k] {
      PlainLookup(data[i], headers[k]);
    }
    SplitJoin(headers, ',');
    SplitJoin(cells, ',');
  }

  /** Joining pieces that avoid a character with a separator that avoids
      it gives text that avoids it. */
  lemma {:induction false} JoinAvoids(xs: seq<string>, sep: string, c: char)
    requires c !in sep && forall k :: 0 <= k < |xs| ==> c !in xs[k]
    ensures c !in Join(xs, sep)
    decreases |xs|
  {
    if |xs| > 1 {
      JoinAvoids(xs[1..], sep, c);
    }
  }

  // Export

  /** A campaign as the export lists it, its values already rendered. */
  datatype ExportCampaign = ExportCampaign(
    id: nat,
    productTitle: string,
    status: string,
    objective: string,
    budget: string,
    createdAtJson: string,
    creativesJson: string,
    performancesJson: string)

  /** The export object: six fixed keys, then creatives and performances
      only when asked for. */
  function ExportRow(c: ExportCampaign, includeCreatives: bool, includePerformance: bool): (r: Row)
    ensures Keys(r) == ["campaignId", "productTitle", "status", "objective", "budget", "createdAt"]
      + (if includeCreatives then ["creatives"] else [])
      + (if includePerformance then ["performances"] else [])
  {
    [("campaignId", Scalar(NatToString(c.id))), ("productTitle", Scalar(c.productTitle)),
     ("status", Scalar(c.status)), ("objective", Scalar(c.objective)),
     ("budget", Scalar(c.budget)), ("createdAt", Structured(c.createdAtJson))]
    + (if includeCreatives then [("creatives", Structured(c.creativesJson))] else [])
    + (if includePerformance then [("performances", Structured(c.performancesJson))] else [])
  }

  datatype ExportReply =
    | Download(contentType: string, filename: string, body: string)
    | ExportError(status: int, error: string)

  /** `exportData`: CSV or JSON (whose text is given), anything else a 500
      with 'Unsupported export format'. */
  function ExportData(format: string, rows: seq<Row>, json: string, startDay: string, endDay: string): (r: ExportReply)
    ensures r.ExportError? <==> format != "csv" && format != "json"
    ensures r.ExportError? ==> r == ExportError(500, "Unsupported export format")
    ensures format == "csv" ==> r.Download? && r.contentType == "text/csv" && r.body == FormatAsCsv(rows)
    ensures format == "json" ==> r.Download? && r.contentType == "application/json" && r.body == json
    ensures r.Download? ==> IsSuffix(if format == "csv" then ".csv" else ".json", r.filename)
  {
    var base := "facebook-ads-analytics-" + startDay + "-to-" + endDay;
    if format == "csv" then Download("text/csv", base + ".csv", FormatAsCsv(rows))
    else if format == "json" then Download("application/json", base + ".json", json)
    else ExportError(500, "Unsupported export format")
  }

  // Routes

  /** The message of the TypeError a detached handler throws on its first
      `this.<name>` access. */
  function DetachedError(name: string): string {
    "Cannot read properties of undefined (reading '" + name + "')"
  }

  /** The overview route's status and body. */
  datatype OverviewReply = OverviewReply(status: int, body: Result<Overview>)

  /** `GET /api/analytics/overview`: 401 without a session; otherwise the
      handler, whose first step is `this.getPeriodData`, so a detached call
      answers 500 with the TypeError's message. */
  function OverviewRoute(call: Call, signedIn: bool, now: int, days: int, compareWith: string,
                         samplesIn: Window -> seq<Sample>): (r: OverviewReply)
    ensures !signedIn ==> r == OverviewReply(401, Failure("Authentication required"))
    ensures signedIn && call == Detached ==> r == OverviewReply(500, Failure(DetachedError("getPeriodData")))
    ensures signedIn && call == Bound ==> r == OverviewReply(200, Success(OverviewOf(now, days, compareWith, samplesIn)))
  {
    if !signedIn then OverviewReply(401, Failure("Authentication required"))
    else if call == Detached then OverviewReply(500, Failure(DetachedError("getPeriodData")))
    else OverviewReply(200, Success(OverviewOf(now, days, compareWith, samplesIn)))
  }

  /** `POST /api/analytics/export`: 401 without a session; otherwise the
      handler, whose first step is `this.prepareExportData`. */
  function ExportRoute(call: Call, signedIn: bool, format: string, rows: seq<Row>, json: string,
                       startDay: string, endDay: string): (r: ExportReply)
    ensures !signedIn ==> r == ExportError(401, "Authentication required")
    ensures signedIn && call == Detached ==> r == ExportError(500, DetachedError("prepareExportData"))
    ensures signedIn && call == Bound ==> r == ExportData(format, rows, json, startDay, endDay)
  {
    if !signedIn then ExportError(401, "Authentication required")
    else if call == Detached then ExportError(500, DetachedError("prepareExportData"))
    else ExportData(format, rows, json, startDay, endDay)
  }

  /** As registered (`app.js` passes the methods detached), a signed-in
      user never gets an overview or an export, whatever the request: the
      export fails even for the CSV and JSON formats it supports. */
  lemma AnalyticsRoutesFailAsWritten(now: int, days: int, compareWith: string, samplesIn: Window -> seq<Sample>,
                                     format: string, rows: seq<Row>, json: string, startDay: string, endDay: string)
    ensures OverviewRoute(Detached, true, now, days, compareWith, samplesIn).status == 500
    ensures OverviewRoute(Detached, true, now, days, compareWith, samplesIn).body.Failure?
    ensures ExportRoute(Detached, true, format, rows, json, startDay, endDay).ExportError?
    ensures ExportRoute(Detached, true, format, rows, json, startDay, endDay).status == 500
  {
  }

  /** Called on the controller, the routes serve: the overview is the
      window's report, and a CSV or JSON export is a download of its
      format. */
  lemma BoundAnalyticsRoutesServe(now: int, days: int, compareWith: string, samplesIn: Window -> seq<Sample>,
                                  format: string, rows: seq<Row>, json: string, startDay: string, endDay: string)
    ensures OverviewRoute(Bound, true, now, days, compareWith, samplesIn).body == Success(OverviewOf(now, days, compareWith, samplesIn))
    ensures format == "csv" || format == "json" ==>
      ExportRoute(Bound, true, format, rows, json, startDay, endDay).Download?
    ensures format == "csv" ==> ExportRoute(Bound, true, format, rows, json, startDay, endDay).body == FormatAsCsv(rows)
  {
  }

  /** Reading a CSV export back: with plain values the file splits into a
      header and one line per campaign, the header is the export's keys, and
      each campaign's title sits quoted in the second column. */
  lemma ExportCsvReadsBack(cs: seq<ExportCampaign>, includeCreatives: bool, includePerformance: bool,
                           rows: seq<Row>, json: string, startDay: string, endDay: string, i: int)
    requires 0 <= i < |cs| && |rows| == |cs|
    requires forall k :: 0 <= k < |cs| ==> rows[k] == ExportRow(cs[k], includeCreatives, includePerformance)
    requires PlainData(rows)
    ensures var r := ExportData("csv", rows, json, startDay, endDay);
      var lines := Split(r.body, '\n');
      r.Download? && |lines| == |cs| + 1
      && Split(lines[0], ',') == Keys(ExportRow(cs[0], includeCreatives, includePerformance))
      && |Split(lines[i + 1], ',')| > 1 && Split(lines[i + 1], ',')[1] == "\"" + cs[i].productTitle + "\""
  {
    var r := ExportData("csv", rows, json, startDay, endDay);
    var lines := CsvLines(rows);
    assert r.body == FormatAsCsv(rows);
    CsvSplitsIntoLines(rows);
    assert Split(r.body, '\n') == lines;
    var first, row := rows[0], rows[i];
    assert first == ExportRow(cs[0], includeCreatives, includePerformance);
    assert row == ExportRow(cs[i], includeCreatives, includePerformance);
    CsvLineSplitsIntoCells(rows, i);
    ExportTitle(cs[i], cs[0], includeCreatives, includePerformance);
    assert Split(lines[i + 1], ',') == Cells(row, Keys(first));
    var cells := Cells(row, Keys(first));
    assert |cells| > 1 && cells[1] == Cell(Scalar(cs[i].productTitle));
    assert Split(Split(r.body, '\n')[i + 1], ',') == cells;
  }

  /** Under the export's header, a campaign's second cell is its title. */
  lemma ExportTitle(c: ExportCampaign, first: ExportCampaign, includeCreatives: bool, includePerformance: bool)
    ensures var headers := Keys(ExportRow(first, includeCreatives, includePerformance));
      |headers| > 1 && headers[1] == "productTitle"
      && Lookup(ExportRow(c, includeCreatives, includePerformance), headers[1]) == Scalar(c.productTitle)
  {
    var row := ExportRow(c, includeCreatives, includePerformance);
    assert row[0].0 != "productTitle" && row[1] == ("productTitle", Scalar(c.productTitle));
  }
}

=== FILE: app_routes.dfy ===
/** The application's own routes and request filters: the CORS origin
    test, the embedding headers, and the root, install and embedded-app
    routes. Rendering and URL encoding are left to the framework; replies are
    structured values. */
module AppRoutes {
  import opened Wrappers
  import opened Strings
  import Auth
  import opened Http

  /** `x || d` for an optional string. */
  function OrString(x: Option<string>, d: string): (r: string)
    ensures x.Some? && x.value != "" ==> r == x.value
    ensures x.None? || x.value == "" ==> r == d
  {
    if x.Some? && x.value != "" then x.value else d
  }

  // CORS

  /** The CORS `origin` callback: the request's origin when it mentions
      `shopify.com` (the `.myshopify.com` alternative adds nothing), else
      no origin. */
  function CorsOrigin(origin: Option<string>): (r: Option<string>)
    ensures r.Some? <==> origin.Some? && origin.value != "" && Contains(origin.value, "shopify.com")
    ensures r.Some? ==> r == origin
  {
    if origin.Some? && origin.value != ""
       && (Contains(origin.value, ".myshopify.com") || Contains(origin.value, "shopify.com"))
    then
      SuffixSubsumed(origin.value);
      origin
    else None
  }

  /** Every string containing `.myshopify.com` contains `shopify.com`. */
  lemma SuffixSubsumed(s: string)
    ensures Contains(s, ".myshopify.com") ==> Contains(s, "shopify.com")
  {
    ContainsAt(s, ".myshopify.com");
    ContainsAt(s, "shopify.com");
    if Contains(s, ".myshopify.com") {
      var i :| OccursAt(s, ".myshopify.com", i);
      assert s[i + 3..i + 14] == s[i..i + 14][3..];
      assert OccursAt(s, "shopify.com", i + 3);
    }
  }

  /** The test is a substring test, so look-alike hosts pass it too. */
  lemma CorsAcceptsLookalike()
    ensures CorsOrigin(Some("https://notshopify.com")) == Some("https://notshopify.com")
  {
    ContainsInfix("https://not", "shopify.com", "");
    assert "https://not" + "shopify.com" + "" == "https://notshopify.com";
  }

  // Embedding headers

  /** The headers the embedding filter writes or removes. */
  const Touched: set<HeaderName> := {FrameOptions, ContentSecurityPolicy, ContentTypeOptions, XssProtection, ReferrerPolicy}

  /** The frame-ancestors policy for a shop. */
  function FramePolicy(shop: string): string {
    "frame-ancestors https://" + shop + " https://admin.shopify.com https://*.shopify.com; " + PolicyRest
  }

  /** The fixed directives after `frame-ancestors`. */
  const PolicyRest: string :=
    "script-src 'self' 'unsafe-inline' 'unsafe-eval' https://cdn.shopify.com https://js.stripe.com; "
    + "style-src 'self' 'unsafe-inline' https://fonts.googleapis.com; "
    + "font-src 'self' https://fonts.gstatic.com; "
    + "img-src 'self' data: https: blob:; "
    + "connect-src 'self' https://api.shopify.com https://graph.facebook.com;"

  /** The embedding filter: the query's shop, else the session's; the frame
      blocker is removed, the policy is set only for a `.myshopify.com` shop,
      and the three security headers are always set. */
  function EmbeddingHeaders(queryShop: Option<string>, sessionShop: Option<string>, h: Headers): (r: Headers)
    ensures FrameOptions !in r
    ensures ContentTypeOptions in r && r[ContentTypeOptions] == "nosniff"
    ensures XssProtection in r && r[XssProtection] == "1; mode=block"
    ensures ReferrerPolicy in r && r[ReferrerPolicy] == "strict-origin-when-cross-origin"
    ensures var shop := if queryShop.Some? && queryShop.value != "" then queryShop else sessionShop;
      var framed := shop.Some? && shop.value != "" && Contains(shop.value, ".myshopify.com");
      (framed ==> ContentSecurityPolicy in r && r[ContentSecurityPolicy] == FramePolicy(shop.value))
      && (!framed ==> (ContentSecurityPolicy in r <==> ContentSecurityPolicy in h))
      && (!framed && ContentSecurityPolicy in h ==> r[ContentSecurityPolicy] == h[ContentSecurityPolicy])
    ensures forall k :: (k in h && k !in Touched) ==> k in r && r[k] == h[k]
  {
    var shop := if queryShop.Some? && queryShop.value != "" then queryShop else sessionShop;
    var h1 := h - {FrameOptions};
    var h2 := if shop.Some? && shop.value != "" && Contains(shop.value, ".myshopify.com")
              then h1[ContentSecurityPolicy := FramePolicy(shop.value)] else h1;
    h2[ContentTypeOptions := "nosniff"][XssProtection := "1; mode=block"]
      [ReferrerPolicy := "strict-origin-when-cross-origin"]
  }

  /** Any shop accepted by the OAuth start gets the frame policy. */
  lemma ValidShopGetsPolicy(shop: string, h: Headers)
    requires Auth.ShopPattern(shop)
    ensures ContentSecurityPolicy in EmbeddingHeaders(Some(shop), None, h)
  {
    Auth.PatternContainsSuffix(shop);
  }

  // Routes

  datatype RootReply = RenderInstall(invalid: bool, shop: string) | AuthRedirect(shop: string, host: string, embedded: string)

  /** `GET /`: without a shop the install page; an invalid shop the install
      page with an error; a valid one the OAuth start with the cleaned shop,
      the host (empty by default) and `embedded` (`1` by default). */
  function RootRoute(shop: Option<string>, host: Option<string>, embedded: Option<string>): (r: RootReply)
    ensures Auth.CheckShop(shop) == Auth.MissingShop ==> r == RenderInstall(false, "")
    ensures Auth.CheckShop(shop) == Auth.InvalidShop ==> r == RenderInstall(true, shop.value)
    ensures r.AuthRedirect? <==> Auth.CheckShop(shop).ValidShop?
    ensures r.AuthRedirect? ==> (r.shop == Auth.CheckShop(shop).shop && r.host == OrString(host, "")
      && r.embedded == OrString(embedded, "1"))
  {
    match Auth.CheckShop(shop)
    case MissingShop => RenderInstall(false, "")
    case InvalidShop => RenderInstall(true, shop.value)
    case ValidShop(clean) => AuthRedirect(clean, OrString(host, ""), OrString(embedded, "1"))
  }

  /** The shop the root route forwards is one the OAuth start accepts as it
      stands. */
  lemma RootForwardsAcceptedShop(shop: Option<string>, host: Option<string>, embedded: Option<string>)
    requires RootRoute(shop, host, embedded).AuthRedirect?
    ensures Auth.CheckShop(Some(RootRoute(shop, host, embedded).shop)) == Auth.ValidShop(RootRoute(shop, host, embedded).shop)
  {
    Auth.CheckShopIdempotent(shop);
  }

  datatype InstallReply = RedirectRoot(shop: string, host: string) | InstallPage

  /** `GET /install`: with a shop, on to the root route carrying the shop and
      the host (empty by default); without one, the install page. */
  function InstallRoute(shop: Option<string>, host: Option<string>): (r: InstallReply)
    ensures r.RedirectRoot? <==> shop.Some? && shop.value != ""
    ensures r.RedirectRoot? ==> r.shop == shop.value && r.host == OrString(host, "")
  {
    if shop.Some? && shop.value != "" then RedirectRoot(shop.value, OrString(host, "")) else InstallPage
  }

  /** Following the install redirect lands where the root route would have
      sent the original request. */
  lemma InstallThenRoot(shop: Option<string>, host: Option<string>)
    requires InstallRoute(shop, host).RedirectRoot?
    ensures var r := InstallRoute(shop, host);
      RootRoute(Some(r.shop), Some(r.host), None) == RootRoute(shop, host, None)
  {
  }

  datatype AppUser = AppUser(id: nat, shopName: Option<string>, currency: Option<string>, hasCompletedOnboarding: Option<bool>)

  /** What the view's `SHOPIFY_API_KEY` reads: the file declares no binding
      of that name (its environment destructuring names only the node
      environment, port, session secret and host), so as written the read
      throws a reference error; the evident intent is the process
      environment's value, possibly unset. */
  datatype ApiKeyRead = Undeclared | Env(value: Option<string>)

  const ApiKeyAsWritten: ApiKeyRead := Undeclared

  datatype AppView = AppView(userId: nat, shopName: string, domain: string, currency: string, onboarded: bool,
                             host: Option<string>, apiKey: Option<string>)

  datatype AppReply = ShopRequired | ToShopifyAuth(shop: string) | LoadFailed | RenderApp(view: AppView)

  /** `GET /app`: 400 without a shop, the OAuth start for an unknown shop,
      500 when the lookup throws or the view's data cannot be built;
      otherwise the app with the shop's name (the domain by default),
      currency (USD by default), onboarding flag (false by default) and API
      key. */
  function AppRoute(shop: Option<string>, host: Option<string>, lookup: Result<Option<AppUser>>,
                    key: ApiKeyRead): (r: AppReply)
    ensures r == ShopRequired <==> shop.None? || shop.value == ""
    ensures r.ToShopifyAuth? <==> shop.Some? && shop.value != "" && lookup == Success(None)
    ensures r.ToShopifyAuth? ==> r.shop == shop.value
    ensures r.RenderApp? ==> (lookup.Success? && lookup.value.Some?
      && r.view.userId == lookup.value.value.id && r.view.domain == shop.value
      && r.view.shopName == OrString(lookup.value.value.shopName, shop.value)
      && r.view.currency == OrString(lookup.value.value.currency, "USD")
      && r.view.onboarded == (lookup.value.value.hasCompletedOnboarding == Some(true)))
    ensures r.RenderApp? ==> key.Env? && r.view.host == host && r.view.apiKey == key.value
    ensures shop.Some? && shop.value != "" && lookup.Failure? ==> r == LoadFailed
    ensures shop.Some? && shop.value != "" && lookup.Success? && lookup.value.Some? ==>
      (r.RenderApp? <==> key.Env?) && (r == LoadFailed <==> key.Undeclared?)
  {
    if shop.None? || shop.value == "" then ShopRequired
    else
      match lookup
      case Failure(_) => LoadFailed
      case Success(None) => ToShopifyAuth(shop.value)
      case Success(Some(u)) =>
        if key.Undeclared? then LoadFailed
        else
          RenderApp(AppView(u.id, OrString(u.shopName, shop.value), shop.value,
                            OrString(u.currency, "USD"), u.hasCompletedOnboarding == Some(true), host, key.value))
  }

  /** As written the app never renders: every installed shop gets the load
      failure, and only the 400 and the OAuth start remain reachable. */
  lemma AppNeverRendersAsWritten(shop: Option<string>, host: Option<string>, lookup: Result<Option<AppUser>>)
    ensures !AppRoute(shop, host, lookup, ApiKeyAsWritten).RenderApp?
    ensures shop.Some? && shop.value != "" && lookup.Success? && lookup.value.Some? ==>
      AppRoute(shop, host, lookup, ApiKeyAsWritten) == LoadFailed
  {
  }

  /** With the key read from the environment, a rendered app always names
      its shop. */
  lemma AppNamesShop(shop: Option<string>, host: Option<string>, lookup: Result<Option<AppUser>>,
                     key: Option<string>)
    requires AppRoute(shop, host, lookup, Env(key)).RenderApp?
    ensures AppRoute(shop, host, lookup, Env(key)).view.shopName != ""
  {
  }

  /** With the key read from the environment, the app shows the stored user
      as stored: a user with a name, a currency and a completed onboarding
      sees exactly those, the domain is the shop asked for, and the key is
      the environment's. */
  lemma AppShowsStoredUser(u: AppUser, shop: string, host: Option<string>, key: Option<string>)
    requires shop != ""
    requires u.shopName.Some? && u.shopName.value != "" && u.currency.Some? && u.currency.value != ""
    ensures AppRoute(Some(shop), host, Success(Some(u)), Env(key))
      == RenderApp(AppView(u.id, u.shopName.value, shop, u.currency.value, u.hasCompletedOnboarding == Some(true),
                           host, key))
  {
  }
}

=== FILE: apply.dfy ===
/** Applying one proposal: the history record it leaves, the campaign fields
    it writes, the alert it raises, and the targeting age-range rewrite. Each
    external step (record insert, Facebook request, saves, alert insert) either
    succeeds or throws, as the `Steps` parameter says. */
module Apply {
  import opened Wrappers
  import opened Schema
  import opened Rules
  import Facebook
  import Metrics

  // Targeting rewrite

  function MinInt(a: int, b: int): int {
    if a <= b then a else b
  }

  function MaxInt(a: int, b: int): int {
    if a >= b then a else b
  }

  /** The age-range rewrite of a copied targeting object. Expanding raises the
      upper age by 5 (from 55 when unset) up to 65; narrowing raises the lower
      age by 2 (from 25 when unset, never below 18) and lowers the upper age
      by 2 (from 55 when unset, never below 25). */
  function RewriteTargeting(t: Targeting, d: Direction): (r: Targeting)
    ensures r.(ageMin := t.ageMin, ageMax := t.ageMax) == t
    ensures d == Expand ==> r.ageMin == t.ageMin && r.ageMax.Some?
    ensures d == Expand ==> r.ageMax.value <= 65
    ensures d == Expand && OrInt(t.ageMax, 55) <= 60 ==> r.ageMax.value == OrInt(t.ageMax, 55) + 5
    ensures d == Expand && OrInt(t.ageMax, 55) >= 60 ==> r.ageMax.value == 65
    ensures d == Narrow ==> r.ageMin.Some? && r.ageMax.Some?
    ensures d == Narrow ==> r.ageMin.value >= 18 && r.ageMin.value >= OrInt(t.ageMin, 25) + 2
    ensures d == Narrow ==> r.ageMin.value == OrInt(t.ageMin, 25) + 2 || r.ageMin.value == 18
    ensures d == Narrow ==> r.ageMax.value >= 25 && r.ageMax.value >= OrInt(t.ageMax, 55) - 2
    ensures d == Narrow ==> r.ageMax.value == OrInt(t.ageMax, 55) - 2 || r.ageMax.value == 25
  {
    match d
    case Expand => t.(ageMax := Some(MinInt(OrInt(t.ageMax, 55) + 5, 65)))
    case Narrow =>
      t.(ageMin := Some(MaxInt(OrInt(t.ageMin, 25) + 2, 18)),
         ageMax := Some(MaxInt(OrInt(t.ageMax, 55) - 2, 25)))
  }

  /** Expanding is idempotent once the upper age reaches the 65 cap. */
  lemma ExpandSettles(t: Targeting)
    ensures var once := RewriteTargeting(t, Expand);
      once.ageMax.value == 65 ==> RewriteTargeting(once, Expand) == once
  {
  }

  /** `k` successive narrowings. */
  function NarrowTimes(t: Targeting, k: nat): Targeting
    decreases k
  {
    if k == 0 then t else RewriteTargeting(NarrowTimes(t, k - 1), Narrow)
  }

  /** From an unset age range, each narrowing moves both bounds by 2, so the
      range keeps shrinking and, after eight rounds, the lower age exceeds the
      upper age: nothing in the rewrite keeps the range non-empty. */
  lemma {:induction false} NarrowDrift(t: Targeting, k: nat)
    requires t.ageMin.None? && t.ageMax.None?
    requires 1 <= k <= 15
    ensures NarrowTimes(t, k).ageMin == Some(25 + 2 * k)
    ensures NarrowTimes(t, k).ageMax == Some(55 - 2 * k)
    ensures k >= 8 ==> NarrowTimes(t, k).ageMin.value > NarrowTimes(t, k).ageMax.value
    decreases k
  {
    if k > 1 {
      NarrowDrift(t, k - 1);
    }
  }

  /** Acting on the targeting rule: an expansion keeps the lower age and
      never lowers an upper age within the cap; a narrowing strictly raises
      the lower age and strictly lowers an upper age of 27 or more. Nothing
      but the age range changes. */
  lemma TargetingRuleMovesAges(m: Metrics.Snapshot, t: Targeting)
    requires TargetingRule(m).Some?
    ensures var r := RewriteTargeting(t, TargetingRule(m).value.change.direction);
      r.(ageMin := t.ageMin, ageMax := t.ageMax) == t
      && (m.frequency > 3.0 && m.ctr < 1.5 ==>
            r.ageMin == t.ageMin && (OrInt(t.ageMax, 55) <= 65 ==> r.ageMax.value >= OrInt(t.ageMax, 55)))
      && (!(m.frequency > 3.0 && m.ctr < 1.5) ==>
            r.ageMin.value > OrInt(t.ageMin, 25)
            && (OrInt(t.ageMax, 55) >= 27 ==> r.ageMax.value < OrInt(t.ageMax, 55)))
  {
  }

  // Store and steps

  /** The in-memory campaign and the tables the apply step writes. */
  datatype Store = Store(campaign: Campaign, records: seq<OptRecord>, alerts: seq<Alert>)

  /** Which external steps succeed; a failing step throws. */
  datatype Steps = Steps(
    createOk: bool,
    remoteOk: bool,
    campaignSaveOk: bool,
    recordSaveOk: bool,
    alertOk: bool)

  /** The catch block's bulk update: every pending record of this campaign and
      kind becomes failed. */
  function MarkFailed(rs: seq<OptRecord>, campaignId: int, kind: OptimizationKind): (r: seq<OptRecord>)
    ensures |r| == |rs|
    ensures forall i :: 0 <= i < |rs| ==>
      if rs[i].campaignId == campaignId && rs[i].kind == kind && rs[i].status == Pending
      then r[i] == rs[i].(status := FailedRecord)
      else r[i] == rs[i]
  {
    seq(|rs|, i requires 0 <= i < |rs| =>
      if rs[i].campaignId == campaignId && rs[i].kind == kind && rs[i].status == Pending
      then rs[i].(status := FailedRecord) else rs[i])
  }

  /** The bulk update leaves a record that is not pending alone. */
  lemma MarkFailedAppend(rs: seq<OptRecord>, x: OptRecord, campaignId: int, kind: OptimizationKind)
    requires x.status != Pending
    ensures MarkFailed(rs + [x], campaignId, kind) == MarkFailed(rs, campaignId, kind) + [x]
  {
    assert (rs + [x])[|rs|] == x;
  }

  /** After the bulk update no pending record of that campaign and kind is
      left, and a second update changes nothing. */
  lemma MarkFailedSettles(rs: seq<OptRecord>, campaignId: int, kind: OptimizationKind)
    ensures var r := MarkFailed(rs, campaignId, kind);
      (forall i :: 0 <= i < |r| ==>
        !(r[i].campaignId == campaignId && r[i].kind == kind && r[i].status == Pending))
      && MarkFailed(r, campaignId, kind) == r
  {
  }

  /** Whether the change's Facebook step throws. Budget changes send a request
      only for a non-zero budget; a bid-strategy update builds an empty body
      and sends nothing; targeting changes make no call; the creative branch
      always fetches the product and generates creatives. */
  predicate RemoteThrows(ch: Change, remoteOk: bool) {
    match ch
    case BudgetChange(_, nb) =>
      Facebook.UpdateCampaign(Facebook.Updates(None, Some(nb), None), remoteOk).Failure?
    case BiddingChange(_, ns) =>
      Facebook.UpdateCampaign(Facebook.Updates(None, None, Some(ns)), remoteOk).Failure?
    case CreativeChange(_, _, _) => !remoteOk
    case TargetingChange(_) => false
  }

  /** The in-memory campaign after the branch assigns its field. */
  function Assign(c: Campaign, ch: Change): (r: Campaign)
    ensures ch.BudgetChange? ==> r == c.(budget := ch.newBudget)
    ensures ch.BiddingChange? ==> r == c.(bidStrategy := ch.newStrategy)
    ensures ch.TargetingChange? ==> r == c.(targeting := RewriteTargeting(c.targeting, ch.direction))
    ensures ch.CreativeChange? ==> r == c
  {
    match ch
    case BudgetChange(_, nb) => c.(budget := nb)
    case BiddingChange(_, ns) => c.(bidStrategy := ns)
    case TargetingChange(d) => c.(targeting := RewriteTargeting(c.targeting, d))
    case CreativeChange(_, _, _) => c
  }

  /** Every step up to and including the record's `applied` save succeeded. */
  predicate Succeeds(p: Proposal, s: Steps) {
    s.createOk && !RemoteThrows(p.change, s.remoteOk)
    && (p.change.CreativeChange? || s.campaignSaveOk) && s.recordSaveOk
  }

  function SuccessAlert(userId: int, campaignId: int): Alert {
    Alert(userId, Some(campaignId), OptimizationSuggestion, Medium, false)
  }

  /** Applying one proposal. The record is inserted `pending`; on success it
      is saved `applied` with the time and one medium, no-action alert
      follows; any throw, the alert insert's included, runs the bulk `failed`
      update instead and raises no alert. A record already saved `applied`
      is not pending, so the bulk update leaves it applied. */
  function ApplyProposal(st: Store, userId: int, p: Proposal, s: Steps, now: int): (r: Store)
    ensures var cid := st.campaign.id;
      var rec := OptRecord(cid, p.Kind(), Applied, Some(now), p.confidence);
      Succeeds(p, s) && s.alertOk ==> r.records == st.records + [rec]
    ensures var cid := st.campaign.id;
      var rec := OptRecord(cid, p.Kind(), Applied, Some(now), p.confidence);
      Succeeds(p, s) && !s.alertOk ==> r.records == MarkFailed(st.records, cid, p.Kind()) + [rec]
    ensures Succeeds(p, s) && s.alertOk ==>
      r.alerts == st.alerts + [SuccessAlert(userId, st.campaign.id)]
    ensures Succeeds(p, s) && !s.alertOk ==> r.alerts == st.alerts
    ensures !Succeeds(p, s) ==> r.alerts == st.alerts
    ensures !Succeeds(p, s) && !s.createOk ==>
      r.records == MarkFailed(st.records, st.campaign.id, p.Kind())
    ensures !Succeeds(p, s) && s.createOk ==>
      r.records == MarkFailed(st.records, st.campaign.id, p.Kind())
        + [OptRecord(st.campaign.id, p.Kind(), FailedRecord, None, p.confidence)]
    ensures !s.createOk || RemoteThrows(p.change, s.remoteOk) ==> r.campaign == st.campaign
    ensures s.createOk && !RemoteThrows(p.change, s.remoteOk) ==> r.campaign == Assign(st.campaign, p.change)
  {
    var cid := st.campaign.id;
    var kind := p.Kind();
    if !s.createOk then
      Store(st.campaign, MarkFailed(st.records, cid, kind), st.alerts)
    else
      var pending := OptRecord(cid, kind, Pending, None, p.confidence);
      var inserted := st.records + [pending];
      assert MarkFailed(inserted, cid, kind) == MarkFailed(st.records, cid, kind)
        + [pending.(status := FailedRecord)];
      if RemoteThrows(p.change, s.remoteOk) then
        Store(st.campaign, MarkFailed(inserted, cid, kind), st.alerts)
      else
        var c := Assign(st.campaign, p.change);
        if !(p.change.CreativeChange? || s.campaignSaveOk) || !s.recordSaveOk then
          Store(c, MarkFailed(inserted, cid, kind), st.alerts)
        else
          var applied := pending.(status := Applied, appliedAt := Some(now));
          var records := st.records + [applied];
          if s.alertOk then Store(c, records, st.alerts + [SuccessAlert(userId, cid)])
          else
            MarkFailedAppend(st.records, applied, cid, kind);
            Store(c, MarkFailed(records, cid, kind), st.alerts)
  }

  /** The budget and bid strategy are written to the campaign only after the
      Facebook step returned, and a failed apply never adds an alert or an
      `applied` record. */
  lemma ApplyOutcomes(st: Store, userId: int, p: Proposal, s: Steps, now: int)
    ensures var r := ApplyProposal(st, userId, p, s, now);
      (r.campaign.budget != st.campaign.budget ==>
        p.change.BudgetChange? && s.createOk && !RemoteThrows(p.change, s.remoteOk))
      && (r.campaign.bidStrategy != st.campaign.bidStrategy ==> p.change.BiddingChange? && s.createOk)
      && (r.campaign.targeting != st.campaign.targeting ==> p.change.TargetingChange? && s.createOk)
      && |r.alerts| <= |st.alerts| + 1
      && (|r.alerts| == |st.alerts| + 1 <==> Succeeds(p, s) && s.alertOk)
      && (!Succeeds(p, s) ==> forall i :: |st.records| <= i < |r.records| ==> r.records[i].status == FailedRecord)
  {
  }

  /** A bid-strategy change never fails at the Facebook step, because no
      request is sent; nor does a targeting change, which makes no call. */
  lemma NoRemoteFailureForBiddingOrTargeting(ch: Change, remoteOk: bool)
    requires ch.BiddingChange? || ch.TargetingChange?
    ensures !RemoteThrows(ch, remoteOk)
  {
    if ch.BiddingChange? {
      Facebook.BidStrategyNotForwarded(Facebook.Updates(None, None, Some(ch.newStrategy)));
    }
  }
}

=== FILE: auth.dfy ===
/** Authentication: the Shopify shop-domain check, the Facebook OAuth state
    round trip, and the two request gates. Redirect targets are kept as
    structured values; the OAuth libraries, the token exchange and the user
    lookups are inputs. */
module Auth {
  import opened Wrappers
  import opened Strings

  // Shop domains

  const ShopSuffix: string := ".myshopify.com"

  /** A character of `[a-zA-Z0-9\-]`. */
  predicate LabelChar(c: char) {
    ('a' <= c <= 'z') || ('A' <= c <= 'Z') || ('0' <= c <= '9') || c == '-'
  }

  /** `^[a-zA-Z0-9\-]+\.myshopify\.com$`: a non-empty run of those
      characters followed by the suffix, and nothing else. */
  predicate ShopPattern(s: string) {
    |s| > |ShopSuffix| && IsSuffix(ShopSuffix, s)
    && forall i :: 0 <= i < |s| - |ShopSuffix| ==> LabelChar(s[i])
  }

  /** `shop.toLowerCase().trim()`. */
  function CleanShop(s: string): string {
    Trim(ToLower(s))
  }

  datatype ShopCheck = MissingShop | InvalidShop | ValidShop(shop: string)

  /** The shop check of the OAuth start and of the root route: a missing or
      empty shop is rejected, then the cleaned shop must contain the suffix
      and match the pattern. */
  function CheckShop(shop: Option<string>): (r: ShopCheck)
    ensures r == MissingShop <==> shop.None? || shop.value == ""
    ensures r.ValidShop? <==> shop.Some? && shop.value != "" && ShopPattern(CleanShop(shop.value))
    ensures r.ValidShop? ==> r.shop == CleanShop(shop.value)
  {
    if shop.None? || shop.value == "" then MissingShop
    else
      var clean := CleanShop(shop.value);
      PatternContainsSuffix(clean);
      if !Contains(clean, ShopSuffix) || !ShopPattern(clean) then InvalidShop
      else ValidShop(clean)
  }

  /** The `includes` test is implied by the pattern. */
  lemma PatternContainsSuffix(s: string)
    ensures ShopPattern(s) ==> Contains(s, ShopSuffix)
  {
    if ShopPattern(s) {
      var k := |s| - |ShopSuffix|;
      assert s == s[..k] + ShopSuffix + [];
      ContainsInfix(s[..k], ShopSuffix, []);
    }
  }

  /** Lower-casing keeps the pattern's characters in the pattern. */
  lemma LowerLabel(c: char)
    ensures LabelChar(c) ==> LabelChar(LowerChar(c))
    ensures c == '.' ==> LowerChar(c) == '.'
  {
  }

  /** Trimming leaves a string alone whose ends are not blank. */
  lemma TrimUnblank(s: string)
    requires |s| > 0 && !IsSpace(s[0]) && !IsSpace(s[|s| - 1])
    ensures Trim(s) == s
  {
    assert TrimStart(s) == s;
  }

  /** Lower-casing works character by character. */
  lemma ToLowerAppend(a: string, b: string)
    ensures ToLower(a + b) == ToLower(a) + ToLower(b)
  {
  }

  /** The suffix is already lower case. */
  lemma SuffixLower()
    ensures ToLower(ShopSuffix) == ShopSuffix
  {
    forall i | 0 <= i < |ShopSuffix| ensures LowerChar(ShopSuffix[i]) == ShopSuffix[i] {
    }
  }

  /** A name of pattern characters before the suffix matches the pattern. */
  lemma PatternOfName(name: string)
    requires |name| > 0 && forall i :: 0 <= i < |name| ==> LabelChar(name[i])
    ensures ShopPattern(name + ShopSuffix)
  {
    var s := name + ShopSuffix;
    assert s[|s| - |ShopSuffix|..] == ShopSuffix;
    assert forall i :: 0 <= i < |name| ==> s[i] == name[i];
  }

  /** Any name of pattern characters followed by the suffix, in any letter
      case, is accepted as the lower-cased domain. */
  lemma AcceptsLabel(name: string)
    requires |name| > 0 && forall i :: 0 <= i < |name| ==> LabelChar(name[i])
    ensures CheckShop(Some(name + ShopSuffix)) == ValidShop(ToLower(name) + ShopSuffix)
  {
    var lname := ToLower(name);
    forall i | 0 <= i < |lname| ensures LabelChar(lname[i]) {
      LowerLabel(name[i]);
    }
    ToLowerAppend(name, ShopSuffix);
    SuffixLower();
    var l := lname + ShopSuffix;
    assert ToLower(name + ShopSuffix) == l;
    assert !IsSpace(l[0]) by { assert l[0] == lname[0]; }
    assert !IsSpace(l[|l| - 1]) by { assert l[|l| - 1] == 'm'; }
    TrimUnblank(l);
    assert CleanShop(name + ShopSuffix) == l;
    PatternOfName(lname);
  }

  /** An accepted domain is accepted again unchanged: the check is
      idempotent on its own output. */
  lemma CheckShopIdempotent(shop: Option<string>)
    requires CheckShop(shop).ValidShop?
    ensures CheckShop(Some(CheckShop(shop).shop)) == CheckShop(shop)
  {
    CleanShopFixed(shop.value);
  }

  /** Cleaning a domain that matches the pattern changes nothing. */
  lemma CleanShopFixed(x: string)
    requires ShopPattern(CleanShop(x))
    ensures CleanShop(CleanShop(x)) == CleanShop(x)
  {
    var v := CleanShop(x);
    forall i | 0 <= i < |v| ensures ToLower(v)[i] == v[i] {
      LowerIdempotentAt(x, i);
    }
    assert ToLower(v) == v;
    assert v[|v| - 1] == 'm' by { assert v[|v| - |ShopSuffix|..] == ShopSuffix; }
    assert LabelChar(v[0]);
    TrimUnblank(v);
  }

  /** A cleaned shop has no upper-case ASCII letter. */
  lemma LowerIdempotentAt(s: string, i: int)
    requires 0 <= i < |CleanShop(s)|
    ensures LowerChar(CleanShop(s)[i]) == CleanShop(s)[i]
  {
    var l := ToLower(s);
    var j :| OccursAt(l, Trim(l), j);
    assert CleanShop(s)[i] == l[j + i];
  }

  // Facebook OAuth

  /** `!ctx.session.userId`: no user, or the falsy id 0. */
  predicate SignedIn(userId: Option<nat>) {
    userId.Some? && userId.value != 0
  }

  datatype FbAuthReply = RedirectHome | Dialog(state: string)

  /** `facebookAuth`: without a session user go home; otherwise open the
      dialog with the user id as the OAuth state. */
  function FacebookAuth(userId: Option<nat>): (r: FbAuthReply)
    ensures r.RedirectHome? <==> !SignedIn(userId)
    ensures r.Dialog? ==> r.state == NatToString(userId.value)
  {
    if !SignedIn(userId) then RedirectHome else Dialog(NatToString(userId.value))
  }

  /** What the token exchange and the two Graph reads return. */
  datatype FbGrant = FbGrant(accessToken: string, facebookUserId: string, adAccounts: Option<seq<string>>)

  datatype FbUser = FbUser(id: nat, facebookAccessToken: Option<string>, facebookUserId: Option<string>,
                           facebookAdAccountId: Option<string>)

  datatype FbCallbackReply = FbFailed | FbConnected

  /** `facebookCallback`: the code, the session user and the state must all
      check out before the exchange; then the token, the Facebook user id and
      the first ad account (when there is one) are stored. A failed exchange
      or a missing user row fails. */
  function FacebookCallback(code: Option<string>, state: Option<string>, userId: Option<nat>,
                            exchange: Result<FbGrant>, user: Option<FbUser>): (r: (FbCallbackReply, Option<FbUser>))
    ensures (code.None? || code.value == "" || !SignedIn(userId) || state != Some(NatToString(userId.value)))
      ==> r == (FbFailed, None)
    ensures r.0 == FbConnected <==> (code.Some? && code.value != "" && SignedIn(userId)
      && state == Some(NatToString(userId.value)) && exchange.Success? && user.Some?)
    ensures r.0 == FbConnected ==> (r.1.Some? && r.1.value.facebookAccessToken == Some(exchange.value.accessToken)
      && r.1.value.facebookUserId == Some(exchange.value.facebookUserId)
      && r.1.value.id == user.value.id
      && (exchange.value.adAccounts.Some? && |exchange.value.adAccounts.value| > 0
          ==> r.1.value.facebookAdAccountId == Some(exchange.value.adAccounts.value[0]))
      && (exchange.value.adAccounts.None? || |exchange.value.adAccounts.value| == 0
          ==> r.1.value.facebookAdAccountId == user.value.facebookAdAccountId))
  {
    if code.None? || code.value == "" || !SignedIn(userId) || state != Some(NatToString(userId.value)) then (FbFailed, None)
    else if exchange.Failure? || user.None? then (FbFailed, None)
    else
      var g := exchange.value;
      var u := user.value.(facebookAccessToken := Some(g.accessToken), facebookUserId := Some(g.facebookUserId));
      var u' := if g.adAccounts.Some? && |g.adAccounts.value| > 0 then u.(facebookAdAccountId := Some(g.adAccounts.value[0])) else u;
      (FbConnected, Some(u'))
  }

  /** The state the dialog was opened with is accepted for the same session
      user and refused for any other. */
  lemma StateRoundTrip(u: nat, v: nat, code: string, grant: FbGrant, user: FbUser)
    requires u != 0 && v != 0 && code != ""
    ensures FacebookCallback(Some(code), Some(FacebookAuth(Some(u)).state), Some(u), Success(grant), Some(user)).0 == FbConnected
    ensures u != v ==> FacebookCallback(Some(code), Some(FacebookAuth(Some(u)).state), Some(v), Success(grant), Some(user)).0 == FbFailed
  {
    NatToStringInjective(u, v);
  }

  // Request gates

  datatype Gate<U> = Refuse(status: int) | RedirectTo(path: string) | Proceed(user: U)

  /** `requireAuth`: without a session user, 401 for JSON clients and a
      redirect home otherwise; with one, the handler runs. */
  function RequireAuth(userId: Option<nat>, acceptsJson: bool): (g: Gate<nat>)
    ensures g.Proceed? <==> SignedIn(userId)
    ensures g.Proceed? ==> g.user == userId.value
    ensures !SignedIn(userId) ==> g == if acceptsJson then Refuse(401) else RedirectTo("/")
  {
    if !SignedIn(userId) then (if acceptsJson then Refuse(401) else RedirectTo("/"))
    else Proceed(userId.value)
  }

  /** A Facebook token is set and non-empty. */
  predicate Connected(u: FbUser) {
    u.facebookAccessToken.Some? && u.facebookAccessToken.value != ""
  }

  /** `requireFacebookAuth`: the user row must exist and hold a token, else
      403 for JSON clients and a redirect to the dashboard otherwise; the
      handler receives the row. */
  function RequireFacebookAuth(user: Option<FbUser>, acceptsJson: bool): (g: Gate<FbUser>)
    ensures g.Proceed? <==> user.Some? && Connected(user.value)
    ensures g.Proceed? ==> g.user == user.value
    ensures !g.Proceed? ==> g == if acceptsJson then Refuse(403) else RedirectTo("/dashboard?error=fb_required")
  {
    if user.None? || !Connected(user.value) then
      (if acceptsJson then Refuse(403) else RedirectTo("/dashboard?error=fb_required"))
    else Proceed(user.value)
  }

  /** A user the callback connected with a non-empty token passes the
      Facebook gate. */
  lemma ConnectedUserPasses(code: Option<string>, state: Option<string>, userId: Option<nat>,
                            exchange: Result<FbGrant>, user: Option<FbUser>, acceptsJson: bool)
    requires FacebookCallback(code, state, userId, exchange, user).0 == FbConnected
    requires exchange.Success? && exchange.value.accessToken != ""
    ensures RequireFacebookAuth(FacebookCallback(code, state, userId, exchange, user).1, acceptsJson).Proceed?
  {
  }
}

=== FILE: billing.dfy ===
/** Shopify recurring billing: the charge built for a plan, the subscription
    row written around it, the callback's status mapping, the current
    subscription lookup with its free default, the access checks and the
    usage percentages. Shopify's replies and the database lookups are
    inputs. Each operation takes a `Build` saying which of the service's two
    defects (the missing model import and the misnamed token column) are
    corrected, so the service as written and as intended are the same code. */
module Billing {
  import opened Wrappers
  import opened Numeric
  import opened Subscriptions
  import opened Schema

  // The user row and its token

  /** A user row: its text columns by name. */
  datatype UserRow = UserRow(shopDomain: string, values: map<string, string>)

  /** Reading a property of a user row: a name the model does not define, a
      null and an empty string are all falsy. */
  function Attr(u: UserRow, name: string): (r: Option<string>)
    ensures r.Some? ==> name in UserColumns && r.value != ""
    ensures name !in UserColumns ==> r.None?
  {
    if name in UserColumns && name in u.values && u.values[name] != "" then Some(u.values[name])
    else None
  }

  /** The token guard as written: it reads `accessToken`, which is not a
      User column, so it rejects every user. */
  function ChargeTokenAsWritten(user: Option<UserRow>): Option<string> {
    if user.None? then None else Attr(user.value, "accessToken")
  }

  lemma ChargeTokenAsWrittenRejectsAll(user: Option<UserRow>)
    ensures ChargeTokenAsWritten(user).None?
  {
  }

  /** The guard as intended: the stored Shopify token. */
  function ChargeToken(user: Option<UserRow>): (r: Option<string>)
    ensures r.Some? <==> (user.Some? && "shopifyAccessToken" in user.value.values
      && user.value.values["shopifyAccessToken"] != "")
  {
    if user.None? then None else Attr(user.value, "shopifyAccessToken")
  }

  // The service's two defects

  /** The service with each of its two defects as written or corrected.
      `importFixed`: the `Subscription` model is really imported. As written
      it is destructured from the database module, which exports no such
      name, so every `Subscription.PLANS`, `Subscription.findOne` and
      `Subscription.create` reads a property of undefined and throws.
      `tokenFixed`: the Shopify token is read from the `shopifyAccessToken`
      column, both in the guard and in the `X-Shopify-Access-Token` header of
      every request; as written it is read from `accessToken`. */
  datatype Build = Build(importFixed: bool, tokenFixed: bool)

  const AsWritten: Build := Build(false, false)
  const Corrected: Build := Build(true, true)

  /** The message of the TypeError thrown by reading `property` of undefined. */
  function UndefinedRead(property: string): string {
    "Cannot read properties of undefined (reading '" + property + "')"
  }

  /** What the HTTP client throws when Shopify answers 401, as it does to an
      Admin API request that carries no access token. */
  const Unauthorized: string := "Request failed with status code 401"

  /** The token a build checks in the guard and sends to Shopify: none at all
      as written, the stored Shopify token once corrected. */
  function Token(b: Build, user: Option<UserRow>): (r: Option<string>)
    ensures !b.tokenFixed ==> r.None?
    ensures b.tokenFixed ==> r == ChargeToken(user)
  {
    if b.tokenFixed then ChargeToken(user) else ChargeTokenAsWritten(user)
  }

  // The charge

  /** The recurring charge sent to Shopify. */
  datatype ChargeRequest = ChargeRequest(name: string, price: real, trialDays: int)

  /** What Shopify answers: the charge id, the trial end, the URL the merchant
      confirms at. */
  datatype ChargeReply = ChargeReply(id: string, trialEndsOn: Option<int>, confirmationUrl: string)

  datatype ChargeOutcome = ChargeOutcome(request: ChargeRequest, row: Subscription, chargeId: string)

  const YearlyDiscount: real := 0.8

  /** The price sent: the plan price for a monthly charge, twelve months at
      a 20% discount for a yearly one, both to two decimals. Every cycle
      other than 'yearly' is charged monthly. */
  function ChargePrice(p: PlanName, cycle: string): (r: real)
    ensures IsCents(r)
    ensures cycle == "yearly" ==> PlanOf(p).price * 12.0 * YearlyDiscount - 0.005 < r
    ensures cycle == "yearly" ==> r <= PlanOf(p).price * 12.0 * YearlyDiscount + 0.005
  {
    if cycle == "yearly" then RoundCents(PlanOf(p).price * 12.0 * YearlyDiscount)
    else RoundCents(PlanOf(p).price)
  }

  /** A monthly charge is exactly the listed price, and the yearly prices are
      the listed ones (0, 287.90, 767.90, 1919.90). */
  lemma ChargePrices(p: PlanName, cycle: string)
    ensures cycle != "yearly" ==> ChargePrice(p, cycle) == PlanOf(p).price
    ensures cycle == "yearly" && p == Free ==> ChargePrice(p, cycle) == 0.0
    ensures cycle == "yearly" && p == Basic ==> ChargePrice(p, cycle) == 287.90
    ensures cycle == "yearly" && p == Pro ==> ChargePrice(p, cycle) == 767.90
    ensures cycle == "yearly" && p == Enterprise ==> ChargePrice(p, cycle) == 1919.90
  {
    RoundCentsOfCents(0);
    RoundCentsOfCents(2999);
    RoundCentsOfCents(7999);
    RoundCentsOfCents(19999);
    assert PlanOf(Basic).price == 2999 as real / 100.0;
    assert PlanOf(Pro).price == 7999 as real / 100.0;
    assert PlanOf(Enterprise).price == 19999 as real / 100.0;
  }

  /** The free plan has no trial; every paid plan has 14 days. */
  function TrialDays(p: PlanName): (r: int)
    ensures r == 0 <==> PlanOf(p).price == 0.0
    ensures r != 0 ==> r == 14
  {
    if p == Free then 0 else 14
  }

  function ChargeName(p: PlanName): string {
    "AI Facebook Ads Pro - " + PlanOf(p).title + " Plan"
  }

  /** The limits and features a plan grants; an unknown plan has none, and
      reading them throws, as does every read while the model is not
      imported. */
  datatype Limits = Limits(aiLimit: int, campaignsLimit: int, features: map<string, FlagValue>)

  function PlanLimits(b: Build, key: string): (r: Result<Limits>)
    ensures !b.importFixed ==> r == Failure(UndefinedRead("PLANS"))
    ensures r.Success? <==> b.importFixed && ParsePlan(key).Some?
    ensures r.Success? ==> r.value.aiLimit == PlanOf(ParsePlan(key).value).aiLimit
    ensures r.Success? ==> r.value.campaignsLimit == PlanOf(ParsePlan(key).value).campaignsLimit
    ensures r.Success? ==> r.value.features == FeatureMap(PlanOf(ParsePlan(key).value))
  {
    if !b.importFixed then Failure(UndefinedRead("PLANS"))
    else match ParsePlan(key)
      case None => Failure(UndefinedRead("aiGenerationsLimit"))
      case Some(p) => Success(Limits(PlanOf(p).aiLimit, PlanOf(p).campaignsLimit, FeatureMap(PlanOf(p))))
  }

  /** The fields a new charge writes into the user's subscription row, which
      is updated when it exists and created from the defaults otherwise. */
  function PendingRow(existing: Option<Subscription>, userId: int, p: PlanName, cycle: string,
                      reply: ChargeReply): (r: Subscription)
    ensures r.plan == p && r.status == "pending" && r.billingCycle == cycle
    ensures r.shopifyChargeId == Some(reply.id) && r.trialEndsAt == reply.trialEndsOn
    ensures r.amount == ChargePrice(p, cycle)
    ensures r.aiLimit == PlanOf(p).aiLimit && r.campaignsLimit == PlanOf(p).campaignsLimit
    ensures r.features == Some(FeatureMap(PlanOf(p)))
    ensures existing.Some? ==> (r.aiUsed == existing.value.aiUsed
      && r.campaignsCreated == existing.value.campaignsCreated
      && r.currentPeriodEnd == existing.value.currentPeriodEnd)
    ensures existing.None? ==> r.aiUsed == 0 && r.campaignsCreated == 0 && r.currentPeriodEnd.None?
  {
    var base := if existing.Some? then existing.value else NewRow(userId);
    base.(userId := userId, shopifyChargeId := Some(reply.id), plan := p, status := "pending",
          billingCycle := cycle, amount := ChargePrice(p, cycle), trialEndsAt := reply.trialEndsOn,
          aiLimit := PlanOf(p).aiLimit, campaignsLimit := PlanOf(p).campaignsLimit,
          features := Some(FeatureMap(PlanOf(p))))
  }

  const CreateFailed: string := "Failed to create subscription: "

  /** `createRecurringCharge`: the token guard, then the plan lookup, before
      anything is sent; `existing` is the user's current row and `reply` is
      Shopify's answer, None when the request throws. */
  function CreateRecurringCharge(b: Build, user: Option<UserRow>, existing: Option<Subscription>, userId: int,
                                 plan: string, cycle: string, reply: Option<ChargeReply>): (r: Result<ChargeOutcome>)
    ensures Token(b, user).None? ==> r == Failure(CreateFailed + "User not found or not authenticated")
    ensures Token(b, user).Some? && !b.importFixed ==> r == Failure(CreateFailed + UndefinedRead("PLANS"))
    ensures Token(b, user).Some? && b.importFixed && ParsePlan(plan).None? ==> r == Failure(CreateFailed + "Invalid plan")
    ensures r.Success? <==> b == Corrected && ChargeToken(user).Some? && ParsePlan(plan).Some? && reply.Some?
    ensures r.Success? ==> r.value.chargeId == reply.value.id
    ensures r.Success? ==> var p := ParsePlan(plan).value;
      r.value.request == ChargeRequest(ChargeName(p), ChargePrice(p, cycle), TrialDays(p))
      && r.value.row == PendingRow(existing, userId, p, cycle, reply.value)
  {
    if Token(b, user).None? then Failure(CreateFailed + "User not found or not authenticated")
    else if !b.importFixed then Failure(CreateFailed + UndefinedRead("PLANS"))
    else match ParsePlan(plan)
      case None => Failure(CreateFailed + "Invalid plan")
      case Some(p) =>
        if reply.None? then Failure("Failed to create subscription")
        else Success(ChargeOutcome(ChargeRequest(ChargeName(p), ChargePrice(p, cycle), TrialDays(p)),
                                   PendingRow(existing, userId, p, cycle, reply.value), reply.value.id))
  }

  /** As written every call fails at the token guard, whatever the user, plan
      or Shopify reply; with only the token corrected, a connected user's call
      fails at the plan lookup instead. */
  lemma CreateRecurringChargeAsWrittenFails(user: Option<UserRow>, existing: Option<Subscription>, userId: int,
                                            plan: string, cycle: string, reply: Option<ChargeReply>)
    ensures CreateRecurringCharge(AsWritten, user, existing, userId, plan, cycle, reply)
      == Failure(CreateFailed + "User not found or not authenticated")
    ensures ChargeToken(user).Some? ==>
      CreateRecurringCharge(Build(false, true), user, existing, userId, plan, cycle, reply)
        == Failure(CreateFailed + UndefinedRead("PLANS"))
  {
    ChargeTokenAsWrittenRejectsAll(user);
  }

  /** A connected user buying a known plan gets a pending row with that
      plan's limits, and paid plans a 14-day trial. */
  lemma CreateRecurringChargeSucceeds(u: UserRow, userId: int, p: PlanName, cycle: string, reply: ChargeReply)
    requires "shopifyAccessToken" in u.values && u.values["shopifyAccessToken"] != ""
    ensures var r := CreateRecurringCharge(Corrected, Some(u), None, userId, PlanKey(p), cycle, Some(reply));
      r.Success? && r.value.row.aiLimit == PlanOf(p).aiLimit
      && r.value.row.aiUsed == 0
      && (p != Free ==> r.value.request.trialDays == 14)
  {
  }

  // The callback

  /** The charge as the callback reads it back from Shopify. */
  datatype ChargeState = ChargeState(status: string, activatedOn: Option<int>, billingOn: Option<int>)

  function CallbackStatus(chargeStatus: string): (r: string)
    ensures chargeStatus == "accepted" ==> r == "active"
    ensures chargeStatus != "accepted" ==> r == chargeStatus
  {
    if chargeStatus == "accepted" then "active" else chargeStatus
  }

  const CallbackFailed: string := "Failed to process billing callback: "

  /** The callback: the subscription lookup, the user and row check, the
      charge read back from Shopify with the build's token (`charge` is the
      answer to an authenticated request, None when it throws), then the
      mapped status and the billing period bounds; nothing else changes. */
  function HandleBillingCallback(b: Build, user: Option<UserRow>, found: Option<Subscription>,
                                 charge: Option<ChargeState>): (r: Result<Subscription>)
    ensures !b.importFixed ==> r == Failure(CallbackFailed + UndefinedRead("findOne"))
    ensures b.importFixed && user.Some? && found.Some? && Token(b, user).None? ==>
      r == Failure(CallbackFailed + Unauthorized)
    ensures r.Success? <==> b == Corrected && user.Some? && found.Some? && ChargeToken(user).Some? && charge.Some?
    ensures r.Success? ==> r.value.(status := found.value.status,
                                    currentPeriodStart := found.value.currentPeriodStart,
                                    currentPeriodEnd := found.value.currentPeriodEnd) == found.value
    ensures r.Success? ==> (r.value.currentPeriodStart == charge.value.activatedOn
      && r.value.currentPeriodEnd == charge.value.billingOn)
  {
    if !b.importFixed then Failure(CallbackFailed + UndefinedRead("findOne"))
    else if user.None? || found.None? then Failure(CallbackFailed + "User or subscription not found")
    else if Token(b, user).None? then Failure(CallbackFailed + Unauthorized)
    else if charge.None? then Failure("Failed to process billing callback")
    else
      var c := charge.value;
      Success(found.value.(status := CallbackStatus(c.status), currentPeriodStart := c.activatedOn,
                           currentPeriodEnd := c.billingOn))
  }

  /** After the corrected callback for a connected user the subscription is
      active exactly when Shopify reported the charge accepted (or already
      active) and the billing date, if any, lies ahead. */
  lemma CallbackActivates(u: UserRow, found: Subscription, c: ChargeState, now: int)
    ensures var r := HandleBillingCallback(Corrected, Some(u), Some(found), Some(c));
      (r.Success? <==> ChargeToken(Some(u)).Some?)
      && (r.Success? ==> (IsActive(r.value, now) <==>
        (c.status == "accepted" || c.status == "active") && (c.billingOn.None? || now < c.billingOn.value)))
  {
  }

  const CancelFailed: string := "Failed to cancel subscription: "

  /** Cancelling the active subscription: the Shopify charge is deleted with
      the build's token when there is one, then the row becomes cancelled at
      `now`. `deleteOk` is whether an authenticated delete returns. */
  function CancelSubscription(b: Build, user: Option<UserRow>, active: Option<Subscription>, deleteOk: bool, now: int)
    : (r: Result<Subscription>)
    ensures !b.importFixed ==> r == Failure(CancelFailed + UndefinedRead("findOne"))
    ensures b.importFixed && user.Some? && active.Some? && active.value.shopifyChargeId.Some? && Token(b, user).None? ==>
      r == Failure(CancelFailed + Unauthorized)
    ensures r.Success? <==> (b.importFixed && user.Some? && active.Some?
      && (active.value.shopifyChargeId.None? || (Token(b, user).Some? && deleteOk)))
    ensures r.Success? ==> r.value == active.value.(status := "cancelled", cancelledAt := Some(now))
  {
    if !b.importFixed then Failure(CancelFailed + UndefinedRead("findOne"))
    else if user.None? || active.None? then Failure(CancelFailed + "Active subscription not found")
    else if active.value.shopifyChargeId.Some? && Token(b, user).None? then Failure(CancelFailed + Unauthorized)
    else if active.value.shopifyChargeId.Some? && !deleteOk then Failure("Failed to cancel subscription")
    else Success(active.value.(status := "cancelled", cancelledAt := Some(now)))
  }

  /** A cancelled subscription is inactive from then on, and the corrected
      service cancels a connected user's charged subscription exactly when
      Shopify's delete returns. */
  lemma CancelledIsInactive(b: Build, user: Option<UserRow>, active: Option<Subscription>, deleteOk: bool,
                            now: int, later: int)
    ensures var r := CancelSubscription(b, user, active, deleteOk, now);
      r.Success? ==> !IsActive(r.value, later)
    ensures active.Some? && active.value.shopifyChargeId.Some? && ChargeToken(user).Some? ==>
      (CancelSubscription(Corrected, user, active, deleteOk, now).Success? <==> deleteOk)
  {
  }

  /** With only the import corrected, the two Shopify calls made after the
      guard-free lookups still go out without a token and are refused: the
      callback always fails, and so does cancelling a charged subscription. */
  lemma ShopifyCallsNeedToken(user: UserRow, found: Subscription, charge: Option<ChargeState>,
                              deleteOk: bool, now: int)
    ensures HandleBillingCallback(Build(true, false), Some(user), Some(found), charge)
      == Failure(CallbackFailed + Unauthorized)
    ensures found.shopifyChargeId.Some? ==>
      CancelSubscription(Build(true, false), Some(user), Some(found), deleteOk, now)
        == Failure(CancelFailed + Unauthorized)
  {
  }

  // Lookups and checks

  const GetFailed: string := "Failed to get subscription: "

  /** The newest subscription row, or a new free one created active with the
      free plan's limits. `lookup` fails when the query throws, `createOk`
      says whether the insert succeeds. */
  function GetCurrentSubscription(b: Build, lookup: Result<Option<Subscription>>, userId: int, createOk: bool)
    : (r: Result<Subscription>)
    ensures !b.importFixed ==> r == Failure(GetFailed + UndefinedRead("findOne"))
    ensures b.importFixed && lookup.Failure? ==> r == Failure(GetFailed + lookup.error)
    ensures b.importFixed && lookup.Success? && lookup.value.Some? ==> r == Success(lookup.value.value)
    ensures r.Success? <==> b.importFixed && lookup.Success? && (lookup.value.Some? || createOk)
    ensures b.importFixed && lookup.Success? && lookup.value.None? && createOk ==>
      r.value == NewRow(userId).(status := "active")
  {
    if !b.importFixed then Failure(GetFailed + UndefinedRead("findOne"))
    else match lookup
      case Failure(e) => Failure(GetFailed + e)
      case Success(found) =>
        if found.Some? then Success(found.value)
        else if createOk then
          var limits := PlanLimits(b, "free").value;
          Success(NewRow(userId).(plan := Free, status := "active", aiLimit := limits.aiLimit,
                                  campaignsLimit := limits.campaignsLimit, features := Some(limits.features)))
        else Failure("Failed to get subscription")
  }

  /** A user with no subscription gets an active free plan: both quotas open,
      AI campaign generation on and every other feature off. */
  lemma DefaultSubscription(userId: int, f: string, now: int)
    ensures var r := GetCurrentSubscription(Corrected, Success(None), userId, true);
      r.Success? && r.value.plan == Free && IsActive(r.value, now)
      && CanUseAI(r.value) && CanCreateCampaign(r.value)
      && (HasFeature(r.value, f) <==> f == "aiCampaignGeneration")
  {
  }

  /** Feature access; any error reads as no access. */
  function CheckFeatureAccess(current: Result<Subscription>, f: string): (r: bool)
    ensures r <==> current.Success? && HasFeature(current.value, f)
  {
    current.Success? && HasFeature(current.value, f)
  }

  /** Quota check: 'ai' and 'campaign' consult their quota; any other kind
      and any error read as over the limit. */
  function CheckUsageLimit(current: Result<Subscription>, kind: string): (r: bool)
    ensures r ==> current.Success? && (kind == "ai" || kind == "campaign")
    ensures current.Success? && kind == "ai" ==> (r <==> CanUseAI(current.value))
    ensures current.Success? && kind == "campaign" ==> (r <==> CanCreateCampaign(current.value))
  {
    match current
    case Failure(_) => false
    case Success(s) =>
      if kind == "ai" then CanUseAI(s)
      else if kind == "campaign" then CanCreateCampaign(s)
      else false
  }

  /** A granted check stays granted only until the matching use exhausts the
      quota: after counting a use the check is the quota test on the bumped
      counter. */
  lemma CheckThenIncrement(s: Subscription, kind: string)
    requires kind == "ai" || kind == "campaign"
    ensures CheckUsageLimit(Success(IncrementUsage(s, kind)), kind) ==> CheckUsageLimit(Success(s), kind)
    ensures s.aiLimit != Unlimited && kind == "ai" && s.aiUsed + 1 == s.aiLimit ==>
      CheckUsageLimit(Success(s), kind) && !CheckUsageLimit(Success(IncrementUsage(s, kind)), kind)
  {
  }

  // Usage report

  /** The share of a quota used, as a whole percentage: 0 for the unlimited
      sentinel, None where the division by a zero limit gives no number. */
  function UsagePercent(used: int, limit: int): (r: Option<int>)
    ensures limit == Unlimited ==> r == Some(0)
    ensures r.None? <==> limit == 0
    ensures r.Some? && limit != Unlimited ==>
      (used as real / limit as real) * 100.0 - 0.5 < r.value as real <= (used as real / limit as real) * 100.0 + 0.5
  {
    if limit == Unlimited then Some(0)
    else if limit == 0 then None
    else Some(Round((used as real / limit as real) * 100.0))
  }

  /** Within a finite positive limit the percentage lies in 0..100, reaching
      100 exactly at the limit, and it never decreases as usage grows. */
  lemma UsagePercentBounds(used: int, used2: int, limit: int)
    requires limit > 0
    ensures 0 <= used <= limit ==> 0 <= UsagePercent(used, limit).value <= 100
    ensures used == limit ==> UsagePercent(used, limit) == Some(100)
    ensures used <= used2 ==> UsagePercent(used, limit).value <= UsagePercent(used2, limit).value
  {
    var x := (used as real / limit as real) * 100.0;
    var y := (used2 as real / limit as real) * 100.0;
    if 0 <= used <= limit {
      assert 0.0 <= used as real / limit as real <= 1.0;
    }
    if used == limit {
      assert used as real / limit as real == 1.0;
    }
    if used <= used2 {
      assert used as real / limit as real <= used2 as real / limit as real;
      assert x <= y;
    }
  }

  datatype UsageReport = UsageReport(
    plan: PlanName,
    planName: string,
    status: string,
    aiUsed: int,
    aiLimit: int,
    aiPercent: Option<int>,
    campaignsUsed: int,
    campaignsLimit: int,
    campaignsPercent: Option<int>,
    inTrial: bool,
    active: bool)

  /** `getUsageAnalytics`: the current subscription's error is rethrown as
      it is; the plan's name is read from the plan table. */
  function UsageAnalytics(b: Build, current: Result<Subscription>, now: int): (r: Result<UsageReport>)
    ensures current.Failure? ==> r == Failure(current.error)
    ensures r.Success? <==> b.importFixed && current.Success?
    ensures r.Success? ==> var s := current.value;
      r.value.plan == s.plan && r.value.status == s.status
      && r.value.planName == PlanOf(s.plan).title
      && r.value.aiUsed == s.aiUsed && r.value.aiLimit == s.aiLimit
      && r.value.campaignsUsed == s.campaignsCreated && r.value.campaignsLimit == s.campaignsLimit
      && r.value.aiPercent == UsagePercent(s.aiUsed, s.aiLimit)
      && r.value.campaignsPercent == UsagePercent(s.campaignsCreated, s.campaignsLimit)
      && (r.value.active <==> IsActive(s, now))
      && (r.value.inTrial <==> IsInTrial(s, now))
  {
    match current
    case Failure(e) => Failure(e)
    case Success(s) =>
      if !b.importFixed then Failure(UndefinedRead("PLANS"))
      else Success(UsageReport(s.plan, PlanOf(s.plan).title, s.status,
        s.aiUsed, s.aiLimit, UsagePercent(s.aiUsed, s.aiLimit),
        s.campaignsCreated, s.campaignsLimit, UsagePercent(s.campaignsCreated, s.campaignsLimit),
        IsInTrial(s, now), IsActive(s, now)))
  }

  /** The service as written answers nothing but errors: every entry point
      fails, whatever the database and Shopify would have answered, and both
      checks deny. */
  lemma ServiceFailsAsWritten(user: Option<UserRow>, existing: Option<Subscription>, userId: int, plan: string,
                              cycle: string, reply: Option<ChargeReply>, found: Option<Subscription>,
                              charge: Option<ChargeState>, deleteOk: bool, now: int,
                              lookup: Result<Option<Subscription>>, createOk: bool, f: string, kind: string)
    ensures CreateRecurringCharge(AsWritten, user, existing, userId, plan, cycle, reply).Failure?
    ensures HandleBillingCallback(AsWritten, user, found, charge) == Failure(CallbackFailed + UndefinedRead("findOne"))
    ensures CancelSubscription(AsWritten, user, found, deleteOk, now) == Failure(CancelFailed + UndefinedRead("findOne"))
    ensures GetCurrentSubscription(AsWritten, lookup, userId, createOk) == Failure(GetFailed + UndefinedRead("findOne"))
    ensures !CheckFeatureAccess(GetCurrentSubscription(AsWritten, lookup, userId, createOk), f)
    ensures !CheckUsageLimit(GetCurrentSubscription(AsWritten, lookup, userId, createOk), kind)
    ensures PlanLimits(AsWritten, plan).Failure?
    ensures UsageAnalytics(AsWritten, GetCurrentSubscription(AsWritten, lookup, userId, createOk), now).Failure?
  {
  }
}

=== FILE: campaigns.dfy ===
/** The campaign controller: list pagination and filtering, creation with
    its required fields and optional publishing, the whitelisted update,
    pause, resume, delete and duplicate. Campaign rows live in a map from id
    to row; a user sees only its own rows. Facebook calls are outcomes passed
    in, and their failures never undo a local change. */
module Campaigns {
  import opened Wrappers
  import opened Strings
  import opened Schema
  import Numeric

  // Rows

  /** One ad text of a campaign, as the client or the AI strategy sends it. */
  datatype ContentItem = ContentItem(
    headline: string,
    primaryTextSnake: Option<string>,
    primaryText: Option<string>,
    description: string,
    cta: Option<string>,
    callToAction: Option<string>)

  datatype CampaignRow = CampaignRow(
    userId: int,
    productId: string,
    productTitle: string,
    productHandle: Option<string>,
    objective: string,
    budget: real,
    budgetType: string,
    targeting: Targeting,
    status: CampaignStatus,
    facebookCampaignId: Option<string>,
    facebookAdSetId: Option<string>,
    facebookAdId: Option<string>,
    adContent: seq<ContentItem>,
    createdBy: string)

  datatype CreativeRow = CreativeRow(
    campaignId: int,
    headline: string,
    primaryText: Option<string>,
    description: string,
    callToAction: Option<string>,
    generatedByAI: bool,
    facebookCreativeId: Option<string>)

  datatype Store = Store(campaigns: map<int, CampaignRow>, creatives: seq<CreativeRow>)

  function StatusName(s: CampaignStatus): string {
    match s
    case Active => "active"
    case Paused => "paused"
    case Completed => "completed"
    case Failed => "failed"
    case Draft => "draft"
  }

  /** `findOne({ where: { id, userId } })`: the row only when the user owns it. */
  function Find(st: Store, id: int, userId: int): (r: Option<CampaignRow>)
    ensures r.Some? <==> id in st.campaigns && st.campaigns[id].userId == userId
    ensures r.Some? ==> r.value == st.campaigns[id]
  {
    if id in st.campaigns && st.campaigns[id].userId == userId then Some(st.campaigns[id]) else None
  }

  /** The remote campaign is touched only for an active campaign that has a
      Facebook id (update and delete). */
  predicate LiveOnFacebook(c: CampaignRow) {
    c.facebookCampaignId.Some? && c.facebookCampaignId.value != "" && c.status == Active
  }

  // Listing

  const DefaultPage: int := 1
  const DefaultPageSize: int := 10

  /** `(page - 1) * limit`. */
  function Offset(page: int, limit: int): int {
    (page - 1) * limit
  }

  /** `Math.ceil(total / limit)`; a page size of 0 gives no finite count. */
  function Pages(total: nat, limit: int): (r: Option<int>)
    ensures r.None? <==> limit == 0
    ensures limit > 0 ==> r.value >= 0 && r.value * limit >= total && (r.value > 0 ==> (r.value - 1) * limit < total)
  {
    if limit == 0 then None
    else
      CeilBounds(total, limit);
      Some(Numeric.Ceil(total as real / limit as real))
  }

  lemma CeilBounds(total: nat, limit: int)
    requires limit != 0
    ensures var p := Numeric.Ceil(total as real / limit as real);
      limit > 0 ==> p >= 0 && p * limit >= total && (p - 1) * limit < total
  {
    if limit > 0 {
      var p := Numeric.Ceil(total as real / limit as real);
      QuotientTimes(total, limit);
      CeilCovers(total, limit, p);
      CeilTight(total, limit, p - 1);
    }
  }

  /** A whole number at or above the quotient covers the total. */
  lemma CeilCovers(total: nat, limit: int, p: int)
    requires limit > 0 && total as real / limit as real <= p as real
    ensures p * limit >= total
  {
    QuotientTimes(total, limit);
    ScaleLe(total as real / limit as real, p as real, limit);
    CastMul(p, limit);
  }

  /** A whole number below the quotient falls short of the total. */
  lemma CeilTight(total: nat, limit: int, q: int)
    requires limit > 0 && q as real < total as real / limit as real
    ensures q * limit < total
  {
    QuotientTimes(total, limit);
    ScaleLt(q as real, total as real / limit as real, limit);
    CastMul(q, limit);
  }

  lemma QuotientTimes(total: nat, limit: int)
    requires limit > 0
    ensures (total as real / limit as real) * limit as real == total as real
    ensures total as real / limit as real >= 0.0
  {
  }

  lemma ScaleLe(a: real, b: real, k: int)
    requires k > 0 && a <= b
    ensures a * k as real <= b * k as real
  {
  }

  lemma ScaleLt(a: real, b: real, k: int)
    requires k > 0 && a < b
    ensures a * k as real < b * k as real
  {
  }

  lemma CastMul(a: int, b: int)
    ensures (a * b) as real == a as real * b as real
  {
  }

  /** The rows of one page; the database rejects a negative offset or limit. */
  function PageRows<T>(rows: seq<T>, page: int, limit: int): (r: Result<seq<T>>)
    ensures r.Failure? <==> Offset(page, limit) < 0 || limit < 0
    ensures r.Success? ==> |r.value| <= limit
  {
    var off := Offset(page, limit);
    if off < 0 || limit < 0 then Failure("OFFSET and LIMIT must not be negative")
    else if off >= |rows| then Success([])
    else if off + limit <= |rows| then Success(rows[off..off + limit])
    else Success(rows[off..])
  }

  /** Every row is listed exactly once: row `i` is item `i % limit` of page
      `i / limit + 1`, and that page is within the page count. */
  lemma PageLocation<T>(rows: seq<T>, limit: int, i: int)
    requires limit > 0 && 0 <= i < |rows|
    ensures var page := i / limit + 1;
      PageRows(rows, page, limit).Success?
      && i % limit < |PageRows(rows, page, limit).value|
      && PageRows(rows, page, limit).value[i % limit] == rows[i]
      && page <= Pages(|rows|, limit).value
  {
    var page := i / limit + 1;
    assert Offset(page, limit) == i / limit * limit;
    assert i / limit * limit + i % limit == i;
    var p := Pages(|rows|, limit).value;
    assert (page - 1) * limit <= i < p * limit;
    MulLess(page - 1, p, limit);
  }

  lemma MulLess(a: int, b: int, k: int)
    requires k > 0 && a * k < b * k
    ensures a < b
  {
  }

  /** A listing filter: the optional status and the optional search text. */
  datatype ListQuery = ListQuery(page: int, limit: int, status: Option<string>, search: Option<string>)

  datatype ListPage = ListPage(campaigns: seq<CampaignRow>, page: int, limit: int, total: nat, pages: Option<int>)

  /** Case-insensitive substring match, as `ILIKE '%search%'` reads plain text. */
  predicate MatchesSearch(c: CampaignRow, search: string) {
    Contains(ToLower(c.productTitle), ToLower(search))
    || (c.facebookCampaignId.Some? && Contains(ToLower(c.facebookCampaignId.value), ToLower(search)))
  }

  /** The row passes the user, status and search conditions of the query. */
  predicate Listed(c: CampaignRow, userId: int, q: ListQuery) {
    c.userId == userId
    && (q.status.None? || q.status.value == "" || StatusName(c.status) == q.status.value)
    && (q.search.None? || q.search.value == "" || MatchesSearch(c, q.search.value))
  }

  function Filter(rows: seq<CampaignRow>, userId: int, q: ListQuery): (r: seq<CampaignRow>)
    ensures |r| <= |rows|
    ensures forall c :: c in r <==> c in rows && Listed(c, userId, q)
    decreases |rows|
  {
    if |rows| == 0 then []
    else if Listed(rows[0], userId, q) then [rows[0]] + Filter(rows[1..], userId, q)
    else Filter(rows[1..], userId, q)
  }

  /** `list` with the search condition working: the user's rows (newest
      first, as queried) that match the status and search, one page of them,
      and the count of all matching rows. */
  function List(newestFirst: seq<CampaignRow>, userId: int, q: ListQuery): (r: Result<ListPage>)
    ensures r.Success? ==> forall c :: c in r.value.campaigns ==> c in newestFirst && Listed(c, userId, q)
    ensures r.Success? ==> r.value.total == |Filter(newestFirst, userId, q)| && r.value.pages == Pages(r.value.total, q.limit)
    ensures r.Failure? <==> Offset(q.page, q.limit) < 0 || q.limit < 0
    ensures r.Success? ==> (r.value.campaigns == PageRows(Filter(newestFirst, userId, q), q.page, q.limit).value
      && r.value.page == q.page && r.value.limit == q.limit)
  {
    var matching := Filter(newestFirst, userId, q);
    var rows :- PageRows(matching, q.page, q.limit);
    assert forall c :: c in rows ==> c in matching by {
      var off := Offset(q.page, q.limit);
      if off < |matching| {
        assert forall c :: c in matching[off..] ==> c in matching;
      }
    }
    Success(ListPage(rows, q.page, q.limit, |matching|, Pages(|matching|, q.limit)))
  }

  /** `list` as written: the search branch refers to a name (`Op`) that the
      controller never imports, so any non-empty search throws before the
      query and answers 500. */
  function ListAsWritten(newestFirst: seq<CampaignRow>, userId: int, q: ListQuery): (r: Result<ListPage>)
    ensures q.search.None? || q.search.value == "" ==> r == List(newestFirst, userId, q)
  {
    if q.search.Some? && q.search.value != "" then Failure("Op is not defined")
    else List(newestFirst, userId, q)
  }

  /** The search never works as written, while the corrected listing finds
      every matching row of the user on some page. */
  lemma SearchAlwaysFailsAsWritten(newestFirst: seq<CampaignRow>, userId: int, q: ListQuery)
    requires q.search.Some? && q.search.value != ""
    ensures ListAsWritten(newestFirst, userId, q).Failure?
  {
  }

  lemma SearchFindsMatches(newestFirst: seq<CampaignRow>, userId: int, q: ListQuery, c: CampaignRow)
    requires c in newestFirst && Listed(c, userId, q)
    ensures List(newestFirst, userId, q.(page := 1, limit := |newestFirst|)).Success?
    ensures c in List(newestFirst, userId, q.(page := 1, limit := |newestFirst|)).value.campaigns
  {
    var q1 := q.(page := 1, limit := |newestFirst|);
    var matching := Filter(newestFirst, userId, q1);
    assert Listed(c, userId, q1);
    assert c in matching;
    assert Offset(1, |newestFirst|) == 0;
    assert matching[0..|matching|] == matching;
  }

  // Creation

  datatype CreateRequest = CreateRequest(
    productId: Option<string>,
    productTitle: Option<string>,
    productHandle: Option<string>,
    objective: Option<string>,
    budget: Option<real>,
    budgetType: Option<string>,
    targeting: Option<Targeting>,
    useAI: bool,
    adContent: Option<seq<ContentItem>>,
    publish: bool)

  /** The parts of an AI strategy the campaign takes: its creatives and the
      first audience's targeting. */
  datatype AiPlan = AiPlan(creatives: Option<seq<ContentItem>>, firstTargeting: Option<Targeting>)

  const NoTargeting := Targeting(None, None, None, None, None, None, map[])

  /** `a || b` between two optional texts. */
  function OrElse(a: Option<string>, b: Option<string>): (r: Option<string>)
    ensures a.Some? && a.value != "" ==> r == a
    ensures (a.None? || a.value == "") ==> r == b
  {
    if a.Some? && a.value != "" then a else b
  }

  /** The creative row stored for one content item. */
  function CreativeOf(campaignId: int, item: ContentItem, byAI: bool): CreativeRow {
    CreativeRow(campaignId, item.headline, OrElse(item.primaryTextSnake, item.primaryText),
                item.description, OrElse(item.cta, item.callToAction), byAI, None)
  }

  /** All three of product id, title and a non-zero budget are present. */
  predicate HasRequiredFields(req: CreateRequest) {
    req.productId.Some? && req.productId.value != ""
    && req.productTitle.Some? && req.productTitle.value != ""
    && req.budget.Some? && req.budget.value != 0.0
  }

  datatype CreateOutcome =
    | Rejected(status: int, error: string)
    | CreateFailed(status: int, error: string)
    | Created(store: Store, id: int)

  /** The stored draft: defaults for objective and budget type, the AI's
      content and first targeting when AI is used, the client's otherwise. */
  function DraftRow(userId: int, req: CreateRequest, ai: AiPlan): (c: CampaignRow)
    requires HasRequiredFields(req)
    ensures c.status == Draft && c.facebookCampaignId.None?
    ensures c.objective == req.objective.GetOr("CONVERSIONS") && c.budgetType == req.budgetType.GetOr("daily")
    ensures c.createdBy == (if req.useAI then "ai" else "user")
    ensures !req.useAI ==> c.adContent == req.adContent.GetOr([]) && c.targeting == req.targeting.GetOr(NoTargeting)
    ensures req.useAI ==> (c.adContent == ai.creatives.GetOr([])
      && c.targeting == ai.firstTargeting.GetOr(req.targeting.GetOr(NoTargeting)))
    ensures c.userId == userId && c.productId == req.productId.value && c.productTitle == req.productTitle.value
      && c.productHandle == req.productHandle && c.budget == req.budget.value
  {
    var clientTargeting := req.targeting.GetOr(NoTargeting);
    CampaignRow(userId, req.productId.value, req.productTitle.value, req.productHandle,
      req.objective.GetOr("CONVERSIONS"), req.budget.value, req.budgetType.GetOr("daily"),
      if req.useAI then ai.firstTargeting.GetOr(clientTargeting) else clientTargeting,
      Draft, None, None, None,
      if req.useAI then ai.creatives.GetOr([]) else req.adContent.GetOr([]),
      if req.useAI then "ai" else "user")
  }

  /** `create`: 400 without the required fields; 500 when the product fetch
      throws; otherwise a draft with one creative row per content item, then,
      when publishing, 'active' with the Facebook id or 'failed' on a Facebook
      error. No other row changes. */
  function Create(st: Store, userId: int, newId: int, req: CreateRequest,
                  productFetch: Result<bool>, ai: AiPlan, facebook: Result<string>): (r: CreateOutcome)
    requires newId !in st.campaigns
    ensures !HasRequiredFields(req) ==> r == Rejected(400, "Missing required fields")
    ensures HasRequiredFields(req) && productFetch.Failure? ==> r == CreateFailed(500, productFetch.error)
    ensures HasRequiredFields(req) && productFetch.Success? ==> r.Created?
    ensures r.Created? ==> (HasRequiredFields(req) && newId in r.store.campaigns
      && r.store.campaigns[newId].(status := Draft, facebookCampaignId := None) == DraftRow(userId, req, ai))
    ensures r.Created? ==> (r.id == newId && newId in r.store.campaigns
      && r.store.campaigns == st.campaigns[newId := r.store.campaigns[newId]])
    ensures r.Created? ==> var c := r.store.campaigns[newId];
      (c.status == Draft <==> !req.publish)
      && (c.status == Active <==> req.publish && facebook.Success?)
      && (c.status == Failed <==> req.publish && facebook.Failure?)
      && (c.status == Active ==> c.facebookCampaignId == Some(facebook.value))
      && c.userId == userId
    ensures r.Created? ==> var c := r.store.campaigns[newId];
      |r.store.creatives| == |st.creatives| + |c.adContent|
      && r.store.creatives[..|st.creatives|] == st.creatives
      && forall k :: |st.creatives| <= k < |r.store.creatives| ==>
           r.store.creatives[k] == CreativeOf(newId, c.adContent[k - |st.creatives|], req.useAI)
  {
    if !HasRequiredFields(req) then Rejected(400, "Missing required fields")
    else if productFetch.Failure? then CreateFailed(500, productFetch.error)
    else
      var draft := DraftRow(userId, req, ai);
      var made := seq(|draft.adContent|, k requires 0 <= k < |draft.adContent| =>
                      CreativeOf(newId, draft.adContent[k], req.useAI));
      var c := if !req.publish then draft
               else if facebook.Success? then draft.(facebookCampaignId := Some(facebook.value), status := Active)
               else draft.(status := Failed);
      assert c.adContent == draft.adContent;
      Created(Store(st.campaigns[newId := c], st.creatives + made), newId)
  }

  // Update

  /** The request body: the five updatable fields, and everything else. */
  datatype UpdateBody = UpdateBody(
    productTitle: Option<string>,
    budget: Option<real>,
    budgetType: Option<string>,
    targeting: Option<Targeting>,
    adContent: Option<seq<ContentItem>>,
    others: map<string, string>)

  /** Copies each allowed field that the body defines. */
  function ApplyUpdate(c: CampaignRow, b: UpdateBody): (r: CampaignRow)
    ensures r.productTitle == b.productTitle.GetOr(c.productTitle)
    ensures r.budget == b.budget.GetOr(c.budget)
    ensures r.budgetType == b.budgetType.GetOr(c.budgetType)
    ensures r.targeting == b.targeting.GetOr(c.targeting)
    ensures r.adContent == b.adContent.GetOr(c.adContent)
    ensures r.(productTitle := c.productTitle, budget := c.budget, budgetType := c.budgetType,
               targeting := c.targeting, adContent := c.adContent) == c
  {
    c.(productTitle := b.productTitle.GetOr(c.productTitle),
       budget := b.budget.GetOr(c.budget),
       budgetType := b.budgetType.GetOr(c.budgetType),
       targeting := b.targeting.GetOr(c.targeting),
       adContent := b.adContent.GetOr(c.adContent))
  }

  /** What a request did: the store after it, the HTTP status, and whether
      the Facebook call was made. */
  datatype Outcome = Outcome(store: Store, status: int, remoteCall: bool)

  /** `update`: 404 for a row the user does not own; otherwise the allowed
      fields are copied and Facebook is told only about a live campaign. */
  function Update(st: Store, id: int, userId: int, b: UpdateBody): (r: Outcome)
    ensures Find(st, id, userId).None? ==> r == Outcome(st, 404, false)
    ensures Find(st, id, userId).Some? ==> (r.status == 200
      && r.store == st.(campaigns := st.campaigns[id := ApplyUpdate(st.campaigns[id], b)])
      && (r.remoteCall <==> LiveOnFacebook(st.campaigns[id])))
  {
    match Find(st, id, userId)
    case None => Outcome(st, 404, false)
    case Some(c) =>
      var u := ApplyUpdate(c, b);
      Outcome(st.(campaigns := st.campaigns[id := u]), 200, LiveOnFacebook(u))
  }

  /** An update cannot change a row's owner, status, Facebook ids, product
      or objective, ignores every field outside the allowed five, and leaves
      every other row as it was. */
  lemma UpdateProtects(st: Store, id: int, userId: int, b: UpdateBody, others: map<string, string>, other: int)
    requires id in st.campaigns
    ensures var r := Update(st, id, userId, b).store;
      id in r.campaigns
      && r.campaigns[id].userId == st.campaigns[id].userId
      && r.campaigns[id].status == st.campaigns[id].status
      && r.campaigns[id].facebookCampaignId == st.campaigns[id].facebookCampaignId
      && r.campaigns[id].productId == st.campaigns[id].productId
      && r.campaigns[id].objective == st.campaigns[id].objective
    ensures Update(st, id, userId, b.(others := others)) == Update(st, id, userId, b)
    ensures other != id && other in st.campaigns ==> Update(st, id, userId, b).store.campaigns[other] == st.campaigns[other]
    ensures Update(st, id, userId, b).store.creatives == st.creatives
  {
  }

  // Status transitions

  /** Sets the status of an owned row; the Facebook call (made when the row
      has a Facebook id) cannot prevent it. */
  function SetStatus(st: Store, id: int, userId: int, s: CampaignStatus): (r: Outcome)
    ensures Find(st, id, userId).None? ==> r == Outcome(st, 404, false)
    ensures Find(st, id, userId).Some? ==> (r.status == 200
      && r.store == st.(campaigns := st.campaigns[id := st.campaigns[id].(status := s)])
      && (r.remoteCall <==> st.campaigns[id].facebookCampaignId.Some? && st.campaigns[id].facebookCampaignId.value != ""))
  {
    match Find(st, id, userId)
    case None => Outcome(st, 404, false)
    case Some(c) =>
      Outcome(st.(campaigns := st.campaigns[id := c.(status := s)]), 200,
              c.facebookCampaignId.Some? && c.facebookCampaignId.value != "")
  }

  /** `pause`: 'paused', whatever Facebook answers. */
  function Pause(st: Store, id: int, userId: int, facebookOk: bool): (r: Outcome)
    ensures Find(st, id, userId).None? ==> r == Outcome(st, 404, false)
    ensures Find(st, id, userId).Some? ==> r.status == 200 && id in r.store.campaigns && r.store.campaigns[id].status == Paused
    ensures Find(st, id, userId).Some? ==>
      r.store == st.(campaigns := st.campaigns[id := st.campaigns[id].(status := Paused)])
      && (r.remoteCall <==> st.campaigns[id].facebookCampaignId.Some? && st.campaigns[id].facebookCampaignId.value != "")
  {
    SetStatus(st, id, userId, Paused)
  }

  /** `resume`: 'active', whatever Facebook answers. */
  function Resume(st: Store, id: int, userId: int, facebookOk: bool): (r: Outcome)
    ensures Find(st, id, userId).None? ==> r == Outcome(st, 404, false)
    ensures Find(st, id, userId).Some? ==> r.status == 200 && id in r.store.campaigns && r.store.campaigns[id].status == Active
    ensures Find(st, id, userId).Some? ==>
      r.store == st.(campaigns := st.campaigns[id := st.campaigns[id].(status := Active)])
      && (r.remoteCall <==> st.campaigns[id].facebookCampaignId.Some? && st.campaigns[id].facebookCampaignId.value != "")
  {
    SetStatus(st, id, userId, Active)
  }

  /** The Facebook outcome has no effect on either transition, and pausing
      then resuming a campaign gives back the row it had, with status
      'active'. */
  lemma PauseResume(st: Store, id: int, userId: int, ok1: bool, ok2: bool)
    requires Find(st, id, userId).Some?
    ensures Pause(st, id, userId, ok1) == Pause(st, id, userId, ok2)
    ensures Resume(st, id, userId, ok1) == Resume(st, id, userId, ok2)
    ensures Resume(Pause(st, id, userId, ok1).store, id, userId, ok2).store
      == st.(campaigns := st.campaigns[id := st.campaigns[id].(status := Active)])
  {
  }

  // Delete

  /** `delete`: 404 for a row the user does not own; otherwise the row is
      removed, with the Facebook delete attempted first only for a live
      campaign and its failure ignored. */
  function Delete(st: Store, id: int, userId: int, facebookOk: bool): (r: Outcome)
    ensures Find(st, id, userId).None? ==> r == Outcome(st, 404, false)
    ensures Find(st, id, userId).Some? ==> (r.status == 200 && id !in r.store.campaigns
      && r.store.campaigns == st.campaigns - {id}
      && (r.remoteCall <==> LiveOnFacebook(st.campaigns[id])))
  {
    match Find(st, id, userId)
    case None => Outcome(st, 404, false)
    case Some(c) => Outcome(st.(campaigns := st.campaigns - {id}), 200, LiveOnFacebook(c))
  }

  // Duplicate

  /** The copy: a draft with no Facebook ids and ' (Copy)' after the title. */
  function CopyOf(c: CampaignRow): (r: CampaignRow)
    ensures r.status == Draft && r.facebookCampaignId.None? && r.facebookAdSetId.None? && r.facebookAdId.None?
    ensures r.productTitle == c.productTitle + " (Copy)"
    ensures r.(status := c.status, facebookCampaignId := c.facebookCampaignId, facebookAdSetId := c.facebookAdSetId,
               facebookAdId := c.facebookAdId, productTitle := c.productTitle) == c
  {
    c.(status := Draft, facebookCampaignId := None, facebookAdSetId := None, facebookAdId := None,
       productTitle := c.productTitle + " (Copy)")
  }

  /** The creatives of one campaign, in stored order (`include: AdCreative`). */
  function CreativesOf(cs: seq<CreativeRow>, campaignId: int): (r: seq<CreativeRow>)
    ensures forall x :: x in r <==> x in cs && x.campaignId == campaignId
    decreases |cs|
  {
    if |cs| == 0 then []
    else if cs[0].campaignId == campaignId then [cs[0]] + CreativesOf(cs[1..], campaignId)
    else CreativesOf(cs[1..], campaignId)
  }

  /** The original's creatives, in order, repointed at the copy and without
      a Facebook creative id. */
  function CopyCreatives(cs: seq<CreativeRow>, from: int, to: int): (r: seq<CreativeRow>)
    ensures |r| <= |cs|
    ensures forall k :: 0 <= k < |r| ==> r[k].campaignId == to && r[k].facebookCreativeId.None?
    ensures forall x :: x in cs && x.campaignId == from ==> x.(campaignId := to, facebookCreativeId := None) in r
    ensures |r| == |CreativesOf(cs, from)|
    ensures forall k :: 0 <= k < |r| ==> r[k] == CreativesOf(cs, from)[k].(campaignId := to, facebookCreativeId := None)
    decreases |cs|
  {
    if |cs| == 0 then []
    else if cs[0].campaignId == from then [cs[0].(campaignId := to, facebookCreativeId := None)] + CopyCreatives(cs[1..], from, to)
    else CopyCreatives(cs[1..], from, to)
  }

  /** `duplicate`: 404 for a row the user does not own; otherwise the copy
      under a fresh id and copies of its creatives. The original is kept. */
  function Duplicate(st: Store, id: int, userId: int, newId: int): (r: Outcome)
    requires newId !in st.campaigns
    ensures Find(st, id, userId).None? ==> r == Outcome(st, 404, false)
    ensures Find(st, id, userId).Some? ==> (r.status == 200
      && r.store.campaigns == st.campaigns[newId := CopyOf(st.campaigns[id])]
      && r.store.creatives == st.creatives + CopyCreatives(st.creatives, id, newId))
  {
    match Find(st, id, userId)
    case None => Outcome(st, 404, false)
    case Some(c) =>
      Outcome(Store(st.campaigns[newId := CopyOf(c)], st.creatives + CopyCreatives(st.creatives, id, newId)), 200, false)
  }

  /** A copy is never live, so deleting or updating it never reaches
      Facebook, and publishing is needed to make it active. */
  lemma CopyIsNeverLive(c: CampaignRow)
    ensures !LiveOnFacebook(CopyOf(c))
    ensures CopyOf(c).userId == c.userId && CopyOf(c).adContent == c.adContent
  {
  }

  /** Creating and then deleting a campaign: the owner finds exactly the
      stored row, another user finds nothing, and the delete gives back the
      campaigns as they were, without a Facebook call unless publishing
      succeeded. */
  lemma {:induction false} CreateThenDelete(st: Store, userId: int, other: int, newId: int, req: CreateRequest,
                                            productFetch: Result<bool>, ai: AiPlan, facebook: Result<string>, ok: bool)
    requires newId !in st.campaigns && other != userId
    requires HasRequiredFields(req) && productFetch.Success?
    ensures var r := Create(st, userId, newId, req, productFetch, ai, facebook);
      r.Created?
      && Find(r.store, newId, userId) == Some(r.store.campaigns[newId])
      && Find(r.store, newId, other).None?
      && Delete(r.store, newId, userId, ok).store.campaigns == st.campaigns
      && (Delete(r.store, newId, userId, ok).remoteCall <==> req.publish && facebook.Success? && facebook.value != "")
  {
    var r := Create(st, userId, newId, req, productFetch, ai, facebook);
    assert r.store.campaigns - {newId} == st.campaigns;
  }

  /** The copy's creatives are the original's, one for one: copying the
      creatives of a fresh campaign into the store makes them the copy's own
      creatives, in the same order. */
  lemma {:induction false} CopiedCreativesBelongToCopy(cs: seq<CreativeRow>, from: int, to: int)
    requires from != to
    requires forall x :: x in cs ==> x.campaignId != to
    ensures CreativesOf(cs + CopyCreatives(cs, from, to), to) == CopyCreatives(cs, from, to)
  {
    CreativesOfAppend(cs, CopyCreatives(cs, from, to), to);
    CreativesOfAll(CopyCreatives(cs, from, to), to);
    assert CreativesOf(cs, to) == [] by { CreativesOfNone(cs, to); }
  }

  lemma {:induction false} CreativesOfAppend(a: seq<CreativeRow>, b: seq<CreativeRow>, id: int)
    ensures CreativesOf(a + b, id) == CreativesOf(a, id) + CreativesOf(b, id)
    decreases |a|
  {
    if |a| == 0 {
      assert a + b == b;
    } else {
      assert (a + b)[1..] == a[1..] + b;
      CreativesOfAppend(a[1..], b, id);
    }
  }

  lemma {:induction false} CreativesOfAll(a: seq<CreativeRow>, id: int)
    requires forall x :: x in a ==> x.campaignId == id
    ensures CreativesOf(a, id) == a
    decreases |a|
  {
    if |a| > 0 {
      assert forall x :: x in a[1..] ==> x in a;
      CreativesOfAll(a[1..], id);
    }
  }

  lemma {:induction false} CreativesOfNone(a: seq<CreativeRow>, id: int)
    requires forall x :: x in a ==> x.campaignId != id
    ensures CreativesOf(a, id) == []
    decreases |a|
  {
    if |a| > 0 {
      assert forall x :: x in a[1..] ==> x in a;
      CreativesOfNone(a[1..], id);
    }
  }
}

=== FILE: client_format.dfy ===
/** The browser helpers that turn data into text: notification colours and
    icons by type, and the "time ago" rendering of a timestamp. */
module ClientFormat {
  import opened Strings

  const InfoColor: string := "#4299e1"

  const InfoIcon: string := "info-circle"

  /** `getNotificationColor`: the kind's colour, the info colour for any
      other kind. */
  function Color(kind: string): (c: string)
    ensures kind !in {"success", "error", "warning"} ==> c == InfoColor
  {
    if kind == "success" then "#48bb78"
    else if kind == "error" then "#f56565"
    else if kind == "warning" then "#ed8936"
    else InfoColor
  }

  /** `getNotificationIcon`: the kind's icon, the info icon for any other
      kind. */
  function Icon(kind: string): (i: string)
    ensures kind !in {"success", "error", "warning"} ==> i == InfoIcon
  {
    if kind == "success" then "check-circle"
    else if kind == "error" then "exclamation-circle"
    else if kind == "warning" then "exclamation-triangle"
    else InfoIcon
  }

  /** The four known kinds look different from one another, in colour and
      in icon. */
  lemma KindsDistinct()
    ensures |{Color("success"), Color("error"), Color("warning"), Color("info")}| == 4
    ensures |{Icon("success"), Icon("error"), Icon("warning"), Icon("info")}| == 4
  {
  }

  // Relative time

  /** The units, each the floor of the one before divided down, as the
      source computes them from the millisecond difference. */
  datatype Units = Units(seconds: int, minutes: int, hours: int, days: int)

  function UnitsOf(diff: int): Units {
    var seconds := diff / 1000;
    var minutes := seconds / 60;
    var hours := minutes / 60;
    Units(seconds, minutes, hours, hours / 24)
  }

  /** `count unit` with a plural `s` above one, then `ago`. */
  function Ago(count: nat, unit: string): string {
    NatToString(count) + " " + unit + (if count > 1 then "s" else "") + " ago"
  }

  /** `formatRelativeTime`: the first positive unit among days, hours and
      minutes; anything under a minute, and any future time, is "Just now". */
  function RelativeTime(now: int, date: int): (r: string)
    ensures var u := UnitsOf(now - date);
      (u.days > 0 ==> r == Ago(u.days, "day"))
      && (u.days <= 0 && u.hours > 0 ==> r == Ago(u.hours, "hour"))
      && (u.days <= 0 && u.hours <= 0 && u.minutes > 0 ==> r == Ago(u.minutes, "minute"))
      && (u.minutes <= 0 ==> r == "Just now")
  {
    var u := UnitsOf(now - date);
    if u.days > 0 then Ago(u.days, "day")
    else if u.hours > 0 then Ago(u.hours, "hour")
    else if u.minutes > 0 then Ago(u.minutes, "minute")
    else "Just now"
  }

  /** Flooring twice is flooring once by the product. */
  lemma FloorDivTwice(a: int, b: int, c: int)
    requires b > 0 && c > 0
    ensures (a / b) / c == a / (b * c)
  {
    var q := a / b;
    var p := q / c;
    assert a == b * q + a % b && 0 <= a % b < b;
    assert q == c * p + q % c && 0 <= q % c < c;
    assert a == (b * c) * p + (b * (q % c) + a % b) by {
      assert b * q == b * (c * p) + b * (q % c);
    }
    var rem := b * (q % c) + a % b;
    assert 0 <= rem by {
      assert b * (q % c) >= 0;
    }
    assert rem < b * c by {
      assert q % c <= c - 1;
      assert b * (q % c) <= b * (c - 1);
    }
    DivUnique(a, b * c, p, rem);
  }

  /** The quotient is the one whose remainder lies in range. */
  lemma DivUnique(a: int, d: int, p: int, rem: int)
    requires d > 0 && a == d * p + rem && 0 <= rem < d
    ensures a / d == p
  {
    var q := a / d;
    assert d * (q - p) == rem - a % d;
    SmallMultiple(d, q - p);
  }

  lemma MulAtLeast(d: int, k: int)
    requires d > 0 && k >= 1
    ensures d * k >= d
  {
  }

  /** The only multiple of `d` strictly between `-d` and `d` is zero. */
  lemma SmallMultiple(d: int, k: int)
    requires d > 0 && -d < d * k < d
    ensures k == 0
  {
    if k >= 1 {
      MulAtLeast(d, k);
    } else if k <= -1 {
      MulAtLeast(d, -k);
    }
  }

  /** Each unit is the whole number of that unit in the difference. */
  lemma UnitsAreWhole(diff: int)
    ensures UnitsOf(diff).minutes == diff / 60000
    ensures UnitsOf(diff).hours == diff / 3600000
    ensures UnitsOf(diff).days == diff / 86400000
  {
    FloorDivTwice(diff, 1000, 60);
    FloorDivTwice(diff, 60000, 60);
    FloorDivTwice(diff, 3600000, 24);
  }

  /** "Just now" exactly when less than a whole minute has passed (or the
      time lies ahead). */
  lemma JustNowUnderAMinute(now: int, date: int)
    ensures RelativeTime(now, date) == "Just now" <==> now - date < 60000
  {
    UnitsAreWhole(now - date);
    var u := UnitsOf(now - date);
    if now - date >= 60000 {
      assert u.minutes >= 1;
      assert RelativeTime(now, date)[|RelativeTime(now, date)| - 1] == 'o';
    }
  }
}

=== FILE: cycle.dfy ===
/** The optimization cycle: the hourly run guard, the per-campaign pipeline
    (aggregate, four rules in fixed order, apply each, stamp and save), the
    loop that isolates one campaign's exception from the rest, and the daily
    alert rule. */
module Cycle {
  import opened Wrappers
  import opened Schema
  import opened Metrics
  import opened Rules
  import opened Apply

  // Run guard

  datatype Scheduler = Scheduler(isRunning: bool)

  datatype Tick = Tick(started: bool, after: Scheduler)

  /** The hourly tick: skip while a cycle is running, else start one. */
  function HourlyTick(s: Scheduler): (t: Tick)
    ensures t.started <==> !s.isRunning
    ensures t.after.isRunning
  {
    if s.isRunning then Tick(false, s) else Tick(true, Scheduler(true))
  }

  // Proposals

  function Rank(k: OptimizationKind): nat {
    match k
    case BudgetKind => 0
    case BiddingKind => 1
    case CreativeKind => 2
    case TargetingKind => 3
    case ScheduleKind => 4
  }

  /** Slot `a` of the list holds only proposals of rank `a`. */
  predicate KindsInSlots(os: seq<Option<Proposal>>) {
    forall a :: 0 <= a < |os| && os[a].Some? ==> Rank(os[a].value.Kind()) == a
  }

  /** The present values of a list of optional proposals, in order. */
  function Present(os: seq<Option<Proposal>>): (ps: seq<Proposal>)
    ensures |ps| <= |os|
    ensures forall p :: p in ps <==> Some(p) in os
    ensures KindsInSlots(os) ==> forall i :: 0 <= i < |ps| ==> Rank(ps[i].Kind()) < |os|
    ensures KindsInSlots(os) ==> forall i, j :: 0 <= i < j < |ps| ==> Rank(ps[i].Kind()) < Rank(ps[j].Kind())
    decreases |os|
  {
    if |os| == 0 then []
    else
      var init := os[..|os| - 1];
      var rest := Present(init);
      assert forall a :: 0 <= a < |os| - 1 ==> init[a] == os[a];
      assert KindsInSlots(os) ==> KindsInSlots(init);
      assert os == init + [os[|os| - 1]];
      match os[|os| - 1]
      case Some(p) => rest + [p]
      case None => rest
  }

  /** The four rules' proposals, in the order budget, bidding, creative,
      targeting, all computed before any is applied. */
  function Proposals(c: Campaign, m: Snapshot, score: Option<real>, creatives: seq<Creative>): (ps: seq<Proposal>)
    ensures |ps| <= 4
    ensures forall i, j :: 0 <= i < j < |ps| ==> Rank(ps[i].Kind()) < Rank(ps[j].Kind())
    ensures forall p :: p in ps <==>
      Some(p) in [BudgetRule(c.budget, m, score), BiddingRule(c.bidStrategy, m, score),
                  CreativeRule(creatives), TargetingRule(m)]
  {
    var os := [BudgetRule(c.budget, m, score), BiddingRule(c.bidStrategy, m, score),
               CreativeRule(creatives), TargetingRule(m)];
    assert KindsInSlots(os);
    Present(os)
  }

  // Applying a campaign's proposals

  const AllOk := Steps(true, true, true, true, true)

  /** The outcome of the `i`-th apply, all steps succeeding past the given list. */
  function StepAt(steps: seq<Steps>, i: nat): Steps {
    if i < |steps| then steps[i] else AllOk
  }

  /** Alerts raised by applying are success alerts for this campaign. */
  predicate OnlySuccessAlerts(before: seq<Alert>, after: seq<Alert>, userId: int, campaignId: int) {
    |before| <= |after| && after[..|before|] == before
    && forall i :: |before| <= i < |after| ==> after[i] == SuccessAlert(userId, campaignId)
  }

  /** Records of other campaigns are untouched and earlier records keep their place. */
  predicate OthersKept(before: seq<OptRecord>, after: seq<OptRecord>, campaignId: int) {
    |before| <= |after|
    && (forall i :: 0 <= i < |before| ==>
         after[i].campaignId == before[i].campaignId
         && (before[i].campaignId != campaignId ==> after[i] == before[i]))
    && forall i :: |before| <= i < |after| ==> after[i].campaignId == campaignId
  }

  /** Applying the proposals one after another; an apply's failure is caught
      inside it, so every proposal is attempted. */
  function ApplyAll(st: Store, userId: int, ps: seq<Proposal>, steps: seq<Steps>, now: int): (r: Store)
    ensures r.campaign.id == st.campaign.id
    ensures OnlySuccessAlerts(st.alerts, r.alerts, userId, st.campaign.id)
    ensures |r.alerts| <= |st.alerts| + |ps|
    ensures OthersKept(st.records, r.records, st.campaign.id)
    ensures |r.records| <= |st.records| + |ps|
    decreases |ps|
  {
    if |ps| == 0 then st
    else
      var mid := ApplyAll(st, userId, ps[..|ps| - 1], steps, now);
      var r := ApplyProposal(mid, userId, ps[|ps| - 1], StepAt(steps, |ps| - 1), now);
      assert r.campaign.id == mid.campaign.id by {
        assert Assign(mid.campaign, ps[|ps| - 1].change).id == mid.campaign.id;
      }
      r
  }

  /** Everything one campaign's optimization reads from outside. */
  datatype CampaignInput = CampaignInput(
    campaign: Campaign,
    samples: seq<Sample>,
    score: Option<real>,
    creatives: Option<seq<Creative>>,
    steps: seq<Steps>,
    finalSaveOk: bool)

  /** The tables the cycle writes to. */
  datatype Db = Db(records: seq<OptRecord>, alerts: seq<Alert>)

  datatype Outcome = Outcome(db: Db, campaign: Campaign, threw: bool)

  /** One campaign: fewer than two samples means nothing happens; a throwing
      creative query aborts before any write; otherwise the proposals are
      applied in order, the campaign is stamped with the time and saved. */
  function OptimizeCampaign(db: Db, input: CampaignInput, now: int): (r: Outcome)
    ensures |input.samples| < 2 ==> r == Outcome(db, input.campaign, false)
    ensures |input.samples| >= 2 && input.creatives.None? ==> r == Outcome(db, input.campaign, true)
    ensures |input.samples| >= 2 && input.creatives.Some? ==>
      r.campaign.lastOptimizedAt == Some(now) && (r.threw <==> !input.finalSaveOk)
    ensures r.campaign.id == input.campaign.id
    ensures OnlySuccessAlerts(db.alerts, r.db.alerts, input.campaign.userId, input.campaign.id)
    ensures |r.db.alerts| <= |db.alerts| + 4
    ensures OthersKept(db.records, r.db.records, input.campaign.id)
  {
    if |input.samples| < 2 then Outcome(db, input.campaign, false)
    else if input.creatives.None? then Outcome(db, input.campaign, true)
    else
      var c := input.campaign;
      var m := Aggregate(input.samples);
      var ps := Proposals(c, m, input.score, input.creatives.value);
      var st := ApplyAll(Store(c, db.records, db.alerts), c.userId, ps, input.steps, now);
      Outcome(Db(st.records, st.alerts), st.campaign.(lastOptimizedAt := Some(now)), !input.finalSaveOk)
  }

  /** The campaign as it leaves the cycle depends on its own input alone. */
  lemma CampaignIsolated(db1: Db, db2: Db, input: CampaignInput, now: int)
    ensures OptimizeCampaign(db1, input, now).campaign == OptimizeCampaign(db2, input, now).campaign
  {
    if |input.samples| >= 2 && input.creatives.Some? {
      var c := input.campaign;
      var ps := Proposals(c, Aggregate(input.samples), input.score, input.creatives.value);
      ApplyAllCampaign(Store(c, db1.records, db1.alerts), Store(c, db2.records, db2.alerts),
        c.userId, ps, input.steps, now);
    }
  }

  lemma {:induction false} ApplyAllCampaign(s1: Store, s2: Store, userId: int, ps: seq<Proposal>, steps: seq<Steps>, now: int)
    requires s1.campaign == s2.campaign
    ensures ApplyAll(s1, userId, ps, steps, now).campaign == ApplyAll(s2, userId, ps, steps, now).campaign
    decreases |ps|
  {
    if |ps| > 0 {
      ApplyAllCampaign(s1, s2, userId, ps[..|ps| - 1], steps, now);
    }
  }

  /** The campaigns the cycle selects: active and linked to Facebook. */
  predicate Eligible(c: Campaign) {
    c.status == Active && c.facebookCampaignId.Some?
  }

  /** The campaign as one turn of the cycle leaves it. */
  function CycleCampaign(db: Db, input: CampaignInput, now: int): Campaign {
    if Eligible(input.campaign) then OptimizeCampaign(db, input, now).campaign else input.campaign
  }

  /** The tables after one turn of the cycle. */
  function CycleStep(cur: Db, input: CampaignInput, now: int): Db {
    if Eligible(input.campaign) then OptimizeCampaign(cur, input, now).db else cur
  }

  /** The tables after the cycle has visited `inputs` in order, each
      campaign optimized against what the ones before it wrote. */
  function CycleDb(db: Db, inputs: seq<CampaignInput>, now: int): (r: Db)
    ensures |db.alerts| <= |r.alerts| && r.alerts[..|db.alerts|] == db.alerts
    ensures |db.records| <= |r.records|
    ensures forall i :: 0 <= i < |db.records| ==> r.records[i].campaignId == db.records[i].campaignId
    decreases |inputs|
  {
    if |inputs| == 0 then db
    else
      var mid := CycleDb(db, inputs[..|inputs| - 1], now);
      var r := CycleStep(mid, inputs[|inputs| - 1], now);
      assert r.alerts[..|db.alerts|] == db.alerts by {
        assert r.alerts[..|mid.alerts|][..|db.alerts|] == mid.alerts[..|db.alerts|];
      }
      r
  }

  /** Whether optimizing this campaign throws out of its pipeline: with at
      least two samples, the creative query or the final save fails. */
  predicate Throws(input: CampaignInput) {
    |input.samples| >= 2 && (input.creatives.None? || !input.finalSaveOk)
  }

  /** The number of eligible campaigns whose optimization throws. */
  function CycleFailures(inputs: seq<CampaignInput>): (r: nat)
    ensures r <= |inputs|
    decreases |inputs|
  {
    if |inputs| == 0 then 0
    else
      var last := inputs[|inputs| - 1];
      CycleFailures(inputs[..|inputs| - 1]) + (if Eligible(last.campaign) && Throws(last) then 1 else 0)
  }

  /** The cycle writes no record of a campaign it does not optimize: a record
      of such a campaign keeps its place and its contents. */
  lemma {:induction false} CycleKeepsOthers(db: Db, inputs: seq<CampaignInput>, now: int, id: int)
    requires forall k :: 0 <= k < |inputs| && Eligible(inputs[k].campaign) ==> inputs[k].campaign.id != id
    ensures forall i :: 0 <= i < |db.records| && db.records[i].campaignId == id ==>
      CycleDb(db, inputs, now).records[i] == db.records[i]
    decreases |inputs|
  {
    if |inputs| > 0 {
      var init := inputs[..|inputs| - 1];
      var last := inputs[|inputs| - 1];
      assert forall k :: 0 <= k < |init| ==> init[k] == inputs[k];
      CycleKeepsOthers(db, init, now, id);
      var mid := CycleDb(db, init, now);
      if Eligible(last.campaign) {
        var out := OptimizeCampaign(mid, last, now).db;
        assert OthersKept(mid.records, out.records, last.campaign.id);
        forall i | 0 <= i < |db.records| && db.records[i].campaignId == id
          ensures out.records[i] == db.records[i]
        {
          assert mid.records[i].campaignId == id;
        }
      }
    }
  }

  datatype CycleResult = CycleResult(sched: Scheduler, db: Db, campaigns: seq<Campaign>, failures: nat)

  /** One optimization cycle over the fetched campaigns (`None` when the
      query itself throws). Every eligible campaign is optimized, in order,
      whatever happened to the ones before it, and the guard is cleared on
      every path. */
  method RunCycle(db: Db, fetched: Option<seq<CampaignInput>>, now: int) returns (r: CycleResult)
    ensures r.sched == Scheduler(false)
    ensures fetched.None? ==> r.db == db && r.campaigns == [] && r.failures == 0
    ensures fetched.Some? ==> |r.campaigns| == |fetched.value|
    ensures fetched.Some? ==> forall k :: 0 <= k < |fetched.value| ==>
      if Eligible(fetched.value[k].campaign)
      then r.campaigns[k] == OptimizeCampaign(db, fetched.value[k], now).campaign
      else r.campaigns[k] == fetched.value[k].campaign
    ensures fetched.Some? ==> r.db == CycleDb(db, fetched.value, now)
    ensures fetched.Some? ==> r.failures == CycleFailures(fetched.value)
    ensures |db.alerts| <= |r.db.alerts| && r.db.alerts[..|db.alerts|] == db.alerts
  {
    if fetched.None? {
      return CycleResult(Scheduler(false), db, [], 0);
    }
    var inputs := fetched.value;
    var cur := db;
    var out: seq<Campaign> := [];
    var failures: nat := 0;
    var i := 0;
    while i < |inputs|
      invariant 0 <= i <= |inputs|
      invariant |out| == i
      invariant failures == CycleFailures(inputs[..i])
      invariant cur == CycleDb(db, inputs[..i], now)
      invariant forall k :: 0 <= k < i ==> out[k] == CycleCampaign(db, inputs[k], now)
    {
      var input := inputs[i];
      var next := input.campaign;
      ghost var seen := inputs[..i + 1];
      assert seen[..i] == inputs[..i] && seen[i] == input;
      if Eligible(input.campaign) {
        var o := OptimizeCampaign(cur, input, now);
        CampaignIsolated(cur, db, input, now);
        assert o.threw == Throws(input);
        if o.threw {
          failures := failures + 1;
        }
        cur := o.db;
        next := o.campaign;
      }
      assert cur == CycleDb(db, seen, now);
      assert failures == CycleFailures(seen);
      assert next == CycleCampaign(db, input, now);
      out := out + [next];
      i := i + 1;
    }
    assert inputs[..i] == inputs;
    r := CycleResult(Scheduler(false), cur, out, failures);
  }

  // Daily alerts

  const LowRoasThreshold: real := 2.0
  const LowRoasMinSpend: real := 50.0
  const DefaultSpendThreshold: real := 1000.0

  function HighSpendAlert(userId: int): Alert {
    Alert(userId, None, BudgetExceeded, High, true)
  }

  function LowRoasAlert(userId: int): Alert {
    Alert(userId, None, LowPerformance, Medium, true)
  }

  /** The high-spend test as written: `spend > threshold || 1000` parses as
      `(spend > threshold) || 1000`, and the literal 1000 is truthy. */
  function HighSpendAsWritten(spend: real, threshold: Option<real>): bool {
    var compared := threshold.Some? && spend > threshold.value;
    var fallback: int := 1000;
    compared || fallback != 0
  }

  /** As written, the high-spend alert fires for every spend. */
  lemma HighSpendAlwaysFires(spend: real, threshold: Option<real>)
    ensures HighSpendAsWritten(spend, threshold)
  {
  }

  /** The evident intent: compare against the user's threshold, or 1000 when
      none is set. */
  function HighSpend(spend: real, threshold: Option<real>): (fires: bool)
    ensures fires <==> spend > OrReal(threshold, DefaultSpendThreshold)
    ensures threshold.None? ==> (fires <==> spend > 1000.0)
  {
    spend > OrReal(threshold, DefaultSpendThreshold)
  }

  /** Low ROAS: below 2x on more than 50 spent. */
  predicate LowRoas(m: Snapshot) {
    m.roas < LowRoasThreshold && m.spend > LowRoasMinSpend
  }

  /** The daily alerts for one user's account metrics, high spend first. */
  function PerformanceAlerts(userId: int, threshold: Option<real>, m: Snapshot): (r: seq<Alert>)
    ensures HighSpendAlert(userId) in r <==> m.spend > OrReal(threshold, DefaultSpendThreshold)
    ensures LowRoasAlert(userId) in r <==> m.roas < 2.0 && m.spend > 50.0
    ensures |r| <= 2 && forall a :: a in r ==> a == HighSpendAlert(userId) || a == LowRoasAlert(userId)
    ensures forall a :: a in r ==> a.actionRequired
  {
    (if HighSpend(m.spend, threshold) then [HighSpendAlert(userId)] else [])
    + (if LowRoas(m) then [LowRoasAlert(userId)] else [])
  }

  /** The same alerts with the high-spend test as written. */
  function PerformanceAlertsAsWritten(userId: int, threshold: Option<real>, m: Snapshot): (r: seq<Alert>)
    ensures |r| >= 1 && r[0] == HighSpendAlert(userId)
    ensures LowRoasAlert(userId) in r <==> m.roas < 2.0 && m.spend > 50.0
  {
    (if HighSpendAsWritten(m.spend, threshold) then [HighSpendAlert(userId)] else [])
    + (if LowRoas(m) then [LowRoasAlert(userId)] else [])
  }

  /** An active user with the recent samples of each active campaign. */
  datatype UserRow = UserRow(userId: int, budgetAlertThreshold: Option<real>, campaigns: seq<seq<Sample>>)

  /** The alerts one user's account metrics raise under a given alert rule. */
  function UserAlerts(u: UserRow, rule: (int, Option<real>, Snapshot) -> seq<Alert>): seq<Alert> {
    if |u.campaigns| == 0 then [] else rule(u.userId, u.budgetAlertThreshold, AccountMetrics(u.campaigns))
  }

  /** The daily analysis under a given alert rule: users without active
      campaigns are skipped, the others get the rule's alerts for their pooled
      account metrics, user after user. */
  function DailyAnalysisBy(users: seq<UserRow>, rule: (int, Option<real>, Snapshot) -> seq<Alert>): (r: seq<Alert>)
    ensures forall a :: a in r <==> exists u :: u in users && |u.campaigns| > 0 && a in UserAlerts(u, rule)
    decreases |users|
  {
    if |users| == 0 then []
    else
      var init := users[..|users| - 1];
      var rest := DailyAnalysisBy(init, rule);
      var u := users[|users| - 1];
      assert users == init + [u];
      rest + UserAlerts(u, rule)
  }

  /** `runDailyAnalysis` as written: it calls the as-written alert rule, so
      every user with an active campaign gets the high-spend alert, whatever
      was spent. */
  function DailyAnalysisAsWritten(users: seq<UserRow>): (r: seq<Alert>)
    ensures forall id :: HighSpendAlert(id) in r <==>
      exists u :: u in users && |u.campaigns| > 0 && u.userId == id
    ensures forall id :: LowRoasAlert(id) in r <==>
      exists u :: u in users && |u.campaigns| > 0 && u.userId == id && LowRoas(AccountMetrics(u.campaigns))
  {
    forall u | u in users {
      AsWrittenUserAlerts(u);
    }
    DailyAnalysisBy(users, PerformanceAlertsAsWritten)
  }

  /** One user's as-written alerts: the high-spend alert whenever the user
      has an active campaign, and only that user's alerts. */
  lemma AsWrittenUserAlerts(u: UserRow)
    ensures forall id :: HighSpendAlert(id) in UserAlerts(u, PerformanceAlertsAsWritten) <==>
      |u.campaigns| > 0 && u.userId == id
    ensures forall id :: LowRoasAlert(id) in UserAlerts(u, PerformanceAlertsAsWritten) <==>
      |u.campaigns| > 0 && u.userId == id && LowRoas(AccountMetrics(u.campaigns))
  {
    if |u.campaigns| > 0 {
      var m := AccountMetrics(u.campaigns);
      HighSpendAlwaysFires(m.spend, u.budgetAlertThreshold);
      var l := PerformanceAlertsAsWritten(u.userId, u.budgetAlertThreshold, m);
      assert l == [HighSpendAlert(u.userId)] + (if LowRoas(m) then [LowRoasAlert(u.userId)] else []);
    }
  }

  /** The daily analysis with the corrected high-spend test: the high-spend
      alert iff the account spent more than the user's threshold (1000 by
      default), the low-ROAS alert iff ROAS is below 2 on more than 50 spent,
      and nothing for a user without active campaigns. */
  function DailyAnalysis(users: seq<UserRow>): (r: seq<Alert>)
    ensures forall id :: HighSpendAlert(id) in r <==>
      exists u :: u in users && |u.campaigns| > 0 && u.userId == id
        && AccountMetrics(u.campaigns).spend > OrReal(u.budgetAlertThreshold, DefaultSpendThreshold)
    ensures forall id :: LowRoasAlert(id) in r <==>
      exists u :: u in users && |u.campaigns| > 0 && u.userId == id && LowRoas(AccountMetrics(u.campaigns))
    ensures forall a :: a in r ==> a.actionRequired
  {
    DailyAnalysisBy(users, PerformanceAlerts)
  }

  /** The corrected analysis raises a subset of the as-written alerts: the
      fix only withdraws high-spend alerts. */
  lemma CorrectedDailyWithdrawsOnly(users: seq<UserRow>)
    ensures forall a :: a in DailyAnalysis(users) ==> a in DailyAnalysisAsWritten(users)
  {
    forall a | a in DailyAnalysis(users) ensures a in DailyAnalysisAsWritten(users) {
      var u :| u in users && |u.campaigns| > 0 && a in UserAlerts(u, PerformanceAlerts);
      assert a in UserAlerts(u, PerformanceAlertsAsWritten);
    }
  }
}

=== FILE: dashboard.dfy ===
/** The dashboard overview: account totals over the last thirty days of
    every campaign's samples, the campaign counts, and the five campaigns
    with the best recent ROAS. */
module Dashboard {
  import opened Wrappers
  import opened Schema
  import Numeric
  import Metrics
  import Ranking

  const DayMs: int := 24 * 60 * 60 * 1000

  const WindowDays: int := 30

  /** The first instant still counted as recent. */
  function Cutoff(now: int): int {
    now - WindowDays * DayMs
  }

  /** A campaign with its (possibly missing) performance rows. */
  datatype DashCampaign = DashCampaign(id: int, status: CampaignStatus, performances: Option<seq<Sample>>)

  /** The samples taken at or after the cutoff, in their order. */
  function Recent(ps: seq<Sample>, cutoff: int): (r: seq<Sample>)
    ensures forall k :: 0 <= k < |r| ==> r[k].createdAt >= cutoff
    ensures forall p :: p in ps ==> (p in r <==> p.createdAt >= cutoff)
    ensures forall p :: p in r ==> p in ps
    decreases |ps|
  {
    if |ps| == 0 then []
    else
      var rest := Recent(ps[..|ps| - 1], cutoff);
      assert ps == ps[..|ps| - 1] + [ps[|ps| - 1]];
      if ps[|ps| - 1].createdAt >= cutoff then rest + [ps[|ps| - 1]] else rest
  }

  /** Samples that are all recent are kept whole. */
  lemma {:induction false} RecentKeepsAllRecent(ps: seq<Sample>, cutoff: int)
    requires forall k :: 0 <= k < |ps| ==> ps[k].createdAt >= cutoff
    ensures Recent(ps, cutoff) == ps
    decreases |ps|
  {
    if |ps| > 0 {
      RecentKeepsAllRecent(ps[..|ps| - 1], cutoff);
      assert ps == ps[..|ps| - 1] + [ps[|ps| - 1]];
    }
  }

  /** Filtering commutes with concatenation, so the kept samples keep their
      order and their repeats: with the two lemmas around it this pins
      `Recent` down as the order-preserving filter. */
  lemma {:induction false} RecentSplit(a: seq<Sample>, b: seq<Sample>, cutoff: int)
    ensures Recent(a + b, cutoff) == Recent(a, cutoff) + Recent(b, cutoff)
    decreases |b|
  {
    if |b| > 0 {
      var init := b[..|b| - 1];
      RecentSplit(a, init, cutoff);
      assert (a + b)[..|a + b| - 1] == a + init;
    } else {
      assert a + b == a;
    }
  }

  /** Samples that are all older than the cutoff are all dropped. */
  lemma {:induction false} RecentDropsAllOld(ps: seq<Sample>, cutoff: int)
    requires forall k :: 0 <= k < |ps| ==> ps[k].createdAt < cutoff
    ensures Recent(ps, cutoff) == []
    decreases |ps|
  {
    if |ps| > 0 {
      RecentDropsAllOld(ps[..|ps| - 1], cutoff);
    }
  }

  function RecentOf(c: DashCampaign, cutoff: int): seq<Sample> {
    Recent(c.performances.GetOr([]), cutoff)
  }

  /** Each campaign's recent samples, in campaign order. */
  function RecentGroups(cs: seq<DashCampaign>, cutoff: int): (r: seq<seq<Sample>>)
    ensures |r| == |cs|
    ensures forall i :: 0 <= i < |cs| ==> r[i] == RecentOf(cs[i], cutoff)
  {
    seq(|cs|, i requires 0 <= i < |cs| => RecentOf(cs[i], cutoff))
  }

  /** How many campaigns are active. */
  function ActiveCount(cs: seq<DashCampaign>): (n: nat)
    ensures n <= |cs|
    decreases |cs|
  {
    if |cs| == 0 then 0
    else ActiveCount(cs[..|cs| - 1]) + (if cs[|cs| - 1].status == Active then 1 else 0)
  }

  /** The count is the number of active positions: all of them exactly when
      every campaign is active, none when none is. */
  lemma {:induction false} ActiveCountBounds(cs: seq<DashCampaign>)
    ensures ActiveCount(cs) == |cs| <==> forall i :: 0 <= i < |cs| ==> cs[i].status == Active
    ensures ActiveCount(cs) == 0 <==> forall i :: 0 <= i < |cs| ==> cs[i].status != Active
    decreases |cs|
  {
    if |cs| > 0 {
      ActiveCountBounds(cs[..|cs| - 1]);
      assert forall i :: 0 <= i < |cs| - 1 ==> cs[..|cs| - 1][i] == cs[i];
    }
  }

  /** The overview figures as rendered (two decimals for money and rates). */
  datatype OverviewFigures = OverviewFigures(
    totalCampaigns: nat,
    activeCampaigns: nat,
    totalSpend: real,
    totalRevenue: real,
    roas: real,
    ctr: real,
    conversionRate: real,
    totalConversions: int)

  /** `overview`: totals over every campaign's recent samples; each rate is 0
      when its denominator is 0. */
  function Overview(cs: seq<DashCampaign>, now: int): (r: OverviewFigures)
    ensures r.totalCampaigns == |cs| && r.activeCampaigns == ActiveCount(cs)
    ensures var t := Metrics.GroupTotals(RecentGroups(cs, Cutoff(now)));
      r.totalSpend == Numeric.RoundCents(t.spend) && r.totalRevenue == Numeric.RoundCents(t.revenue)
      && r.totalConversions == t.conversions
      && (t.spend <= 0.0 ==> r.roas == 0.0)
      && (t.impressions <= 0 ==> r.ctr == 0.0)
      && (t.clicks <= 0 ==> r.conversionRate == 0.0)
  {
    var t := Metrics.GroupTotals(RecentGroups(cs, Cutoff(now)));
    OverviewFigures(
      |cs|, ActiveCount(cs),
      Numeric.RoundCents(t.spend), Numeric.RoundCents(t.revenue),
      Numeric.RoundCents(Numeric.Ratio(t.revenue, t.spend)),
      Numeric.RoundCents(Numeric.Percent(t.clicks as real, t.impressions as real)),
      Numeric.RoundCents(Numeric.Percent(t.conversions as real, t.clicks as real)),
      t.conversions)
  }

  /** Campaign by campaign the dashboard computes the optimizer's account
      aggregate over the pooled recent samples. */
  lemma OverviewAgreesWithOptimizer(cs: seq<DashCampaign>, now: int)
    requires |Metrics.Flatten(RecentGroups(cs, Cutoff(now)))| > 0
    ensures var r := Overview(cs, now); var m := Metrics.AccountMetrics(RecentGroups(cs, Cutoff(now)));
      r.totalSpend == Numeric.RoundCents(m.spend) && r.totalRevenue == Numeric.RoundCents(m.revenue)
      && r.roas == Numeric.RoundCents(m.roas) && r.ctr == Numeric.RoundCents(m.ctr)
      && r.conversionRate == Numeric.RoundCents(m.conversionRate) && r.totalConversions == m.conversions
  {
    Metrics.AccountTotals(RecentGroups(cs, Cutoff(now)));
  }

  // Top campaigns

  datatype TopCampaign = TopCampaign(id: int, status: CampaignStatus, spend: real, revenue: real, roas: real)

  /** A campaign's own recent spend, revenue and unrounded ROAS. */
  function FiguresOf(c: DashCampaign, cutoff: int): (r: TopCampaign)
    ensures r.id == c.id && r.status == c.status
    ensures r.spend == Metrics.Sum(RecentOf(c, cutoff)).spend
    ensures r.revenue == Metrics.Sum(RecentOf(c, cutoff)).revenue
    ensures r.spend > 0.0 ==> r.roas * r.spend == r.revenue
    ensures r.spend <= 0.0 ==> r.roas == 0.0
  {
    var t := Metrics.Sum(RecentOf(c, cutoff));
    TopCampaign(c.id, c.status, t.spend, t.revenue, Numeric.Ratio(t.revenue, t.spend))
  }

  function RoasOf(t: TopCampaign): real {
    t.roas
  }

  function FiguresAll(cs: seq<DashCampaign>, cutoff: int): (r: seq<TopCampaign>)
    ensures |r| == |cs|
    ensures forall i :: 0 <= i < |cs| ==> r[i] == FiguresOf(cs[i], cutoff)
  {
    seq(|cs|, i requires 0 <= i < |cs| => FiguresOf(cs[i], cutoff))
  }

  const TopLimit: nat := 5

  /** `topCampaigns`: at most five, highest recent ROAS first, each built from
      one of the user's campaigns, none left out ranking above one kept. */
  function TopCampaigns(cs: seq<DashCampaign>, now: int): (r: seq<TopCampaign>)
    ensures |r| == Ranking.Min(|cs|, TopLimit)
    ensures Ranking.SortedDesc(r, RoasOf)
    ensures forall x :: x in r ==> exists c :: c in cs && x == FiguresOf(c, Cutoff(now))
    ensures forall x, y :: (x in r && y in multiset(FiguresAll(cs, Cutoff(now))) - multiset(r)) ==> RoasOf(x) >= RoasOf(y)
  {
    var all := FiguresAll(cs, Cutoff(now));
    var r := Ranking.Top(all, RoasOf, TopLimit);
    forall x | x in r ensures exists c :: c in cs && x == FiguresOf(c, Cutoff(now)) {
      assert x in multiset(r);
      assert x in multiset(all);
      var i :| 0 <= i < |all| && all[i] == x;
      assert cs[i] in cs;
    }
    r
  }

  /** Sum of the spends of a list of ranked campaigns. */
  function SpendOf(ts: seq<TopCampaign>): real
    decreases |ts|
  {
    if |ts| == 0 then 0.0 else SpendOf(ts[..|ts| - 1]) + ts[|ts| - 1].spend
  }

  /** The per-campaign figures use the same window as the totals: over all
      campaigns their spends add up to the overview's (unrounded) total. */
  lemma {:induction false} FiguresAddUpToTotal(cs: seq<DashCampaign>, cutoff: int)
    ensures SpendOf(FiguresAll(cs, cutoff)) == Metrics.GroupTotals(RecentGroups(cs, cutoff)).spend
    decreases |cs|
  {
    if |cs| > 0 {
      var init := cs[..|cs| - 1];
      FiguresAddUpToTotal(init, cutoff);
      assert FiguresAll(cs, cutoff)[..|cs| - 1] == FiguresAll(init, cutoff);
      assert RecentGroups(cs, cutoff)[..|cs| - 1] == RecentGroups(init, cutoff);
    }
  }
}

=== FILE: facebook.dfy ===
/** The pure parts of the Facebook Marketing API client: objective-to-goal
    mapping, the targeting spec, budgets in cents, the campaign-update payload,
    product links and the performance-sync loop. HTTP requests are outcomes
    passed in. */
module Facebook {
  import opened Wrappers
  import opened Schema
  import opened Numeric
  import opened Strings

  // Optimization goal

  const DefaultGoal: string := "OFFSITE_CONVERSIONS"

  const GoalMap: map<string, string> := map[
    "CONVERSIONS" := "OFFSITE_CONVERSIONS",
    "TRAFFIC" := "LINK_CLICKS",
    "REACH" := "REACH",
    "BRAND_AWARENESS" := "BRAND_AWARENESS",
    "VIDEO_VIEWS" := "VIDEO_VIEWS"]

  /** The ad-set optimization goal for a campaign objective. */
  function OptimizationGoal(objective: string): (g: string)
    ensures objective in GoalMap ==> g == GoalMap[objective]
    ensures objective !in GoalMap ==> g == DefaultGoal
    ensures g in GoalMap.Values
  {
    assert GoalMap["CONVERSIONS"] == DefaultGoal;
    if objective in GoalMap then GoalMap[objective] else DefaultGoal
  }

  function ObjectiveName(o: Objective): string {
    match o
    case Conversions => "CONVERSIONS"
    case Traffic => "TRAFFIC"
    case Reach => "REACH"
    case BrandAwareness => "BRAND_AWARENESS"
    case VideoViews => "VIDEO_VIEWS"
  }

  /** Every declared objective has its own goal; only traffic is renamed to
      link clicks and only conversions to offsite conversions. */
  lemma ObjectiveGoals(o: Objective)
    ensures ObjectiveName(o) in GoalMap
    ensures OptimizationGoal(ObjectiveName(o)) == DefaultGoal <==> o == Conversions
    ensures OptimizationGoal(ObjectiveName(o)) == ObjectiveName(o) <==> o !in {Conversions, Traffic}
  {
  }

  // Targeting spec

  datatype Named = Named(name: string)

  datatype TargetingSpec = TargetingSpec(
    countries: seq<string>,
    ageMin: int,
    ageMax: int,
    genders: Option<seq<int>>,
    interests: Option<seq<Named>>,
    behaviors: Option<seq<Named>>)

  function GenderCode(g: string): (c: int)
    ensures c == 1 <==> g == "male"
    ensures c == 1 || c == 2
  {
    if g == "male" then 1 else 2
  }

  function GenderCodes(gs: seq<string>): (cs: seq<int>)
    ensures |cs| == |gs| && forall i :: 0 <= i < |gs| ==> cs[i] == GenderCode(gs[i])
  {
    seq(|gs|, i requires 0 <= i < |gs| => GenderCode(gs[i]))
  }

  function Wrap(xs: seq<string>): (r: seq<Named>)
    ensures |r| == |xs| && forall i :: 0 <= i < |xs| ==> r[i] == Named(xs[i])
  {
    seq(|xs|, i requires 0 <= i < |xs| => Named(xs[i]))
  }

  /** An optional list the source includes only when present and non-empty. */
  predicate NonEmpty<T>(xs: Option<seq<T>>) {
    xs.Some? && |xs.value| > 0
  }

  /** The ad-set targeting spec built from a campaign's targeting object. */
  function FormatTargeting(t: Targeting): (s: TargetingSpec)
    ensures t.countries.None? ==> s.countries == ["US"]
    ensures t.countries.Some? ==> s.countries == t.countries.value
    ensures s.ageMin == OrInt(t.ageMin, 18) && s.ageMax == OrInt(t.ageMax, 65)
    ensures s.genders.Some? <==> NonEmpty(t.genders) && "all" !in t.genders.value
    ensures s.genders.Some? ==> |s.genders.value| == |t.genders.value|
    ensures s.genders.Some? ==> forall i :: 0 <= i < |t.genders.value| ==>
      (s.genders.value[i] == 1 <==> t.genders.value[i] == "male")
    ensures s.genders.Some? ==> forall i :: 0 <= i < |s.genders.value| ==> s.genders.value[i] in {1, 2}
    ensures s.interests.Some? <==> NonEmpty(t.interests)
    ensures s.interests.Some? ==> |s.interests.value| == |t.interests.value|
    ensures s.interests.Some? ==> forall i :: 0 <= i < |t.interests.value| ==>
      s.interests.value[i].name == t.interests.value[i]
    ensures s.behaviors.Some? <==> NonEmpty(t.behaviors)
    ensures s.behaviors.Some? ==> |s.behaviors.value| == |t.behaviors.value|
    ensures s.behaviors.Some? ==> forall i :: 0 <= i < |t.behaviors.value| ==>
      s.behaviors.value[i].name == t.behaviors.value[i]
  {
    TargetingSpec(
      if t.countries.Some? then t.countries.value else ["US"],
      OrInt(t.ageMin, 18),
      OrInt(t.ageMax, 65),
      if NonEmpty(t.genders) && "all" !in t.genders.value then Some(GenderCodes(t.genders.value)) else None,
      if NonEmpty(t.interests) then Some(Wrap(t.interests.value)) else None,
      if NonEmpty(t.behaviors) then Some(Wrap(t.behaviors.value)) else None)
  }

  function GenderName(c: int): string {
    if c == 1 then "male" else "female"
  }

  /** The gender codes lose nothing for a list of "male" and "female":
      reading the codes back gives the list. */
  lemma GendersRoundTrip(gs: seq<string>)
    requires forall i :: 0 <= i < |gs| ==> gs[i] == "male" || gs[i] == "female"
    ensures var cs := GenderCodes(gs);
      seq(|cs|, i requires 0 <= i < |cs| => GenderName(cs[i])) == gs
  {
  }

  /** Interests and behaviors are wrapped one to one and can be read back. */
  lemma WrapRoundTrip(xs: seq<string>)
    ensures var r := Wrap(xs); seq(|r|, i requires 0 <= i < |r| => r[i].name) == xs
  {
  }

  // Budgets in cents

  /** `Math.round(parseFloat(budget) * 100)`. */
  function Cents(budget: real): (c: int)
    ensures budget * 100.0 - 0.5 < c as real <= budget * 100.0 + 0.5
  {
    Round(budget * 100.0)
  }

  /** A two-decimal budget converts to cents exactly, and the cents read back
      as the rounded budget. */
  lemma CentsRoundTrip(k: int, budget: real)
    ensures Cents(k as real / 100.0) == k
    ensures Cents(budget) as real / 100.0 == RoundCents(budget)
  {
    assert (k as real / 100.0) * 100.0 == k as real;
  }

  // Campaign update

  /** The fields a caller may pass to `updateCampaign`. */
  datatype Updates = Updates(productTitle: Option<string>, budget: Option<real>, bidStrategy: Option<BidStrategy>)

  /** The request body: `name` and `daily_budget` only. */
  datatype UpdateBody = UpdateBody(name: Option<string>, dailyBudget: Option<int>) {
    predicate IsEmpty() {
      name.None? && dailyBudget.None?
    }
  }

  function UpdatePayload(u: Updates): (b: UpdateBody)
    ensures b.name.Some? <==> u.productTitle.Some? && u.productTitle.value != ""
    ensures b.name.Some? ==> b.name.value == u.productTitle.value
    ensures b.dailyBudget.Some? <==> u.budget.Some? && u.budget.value != 0.0
    ensures b.dailyBudget.Some? ==> b.dailyBudget.value == Cents(u.budget.value)
  {
    UpdateBody(
      if u.productTitle.Some? && u.productTitle.value != "" then Some(u.productTitle.value) else None,
      if u.budget.Some? && u.budget.value != 0.0 then Some(Cents(u.budget.value)) else None)
  }

  /** The bid strategy is never forwarded: an update that carries only a bid
      strategy sends nothing. */
  lemma BidStrategyNotForwarded(u: Updates)
    ensures UpdatePayload(u) == UpdatePayload(u.(bidStrategy := None))
    ensures u.productTitle.None? && u.budget.None? ==> UpdatePayload(u).IsEmpty()
  {
  }

  /** `updateCampaign`: no request for an empty body; otherwise the request's
      outcome decides. */
  function UpdateCampaign(u: Updates, requestOk: bool): (r: Result<bool>)
    ensures UpdatePayload(u).IsEmpty() ==> r == Success(true)
    ensures r.Failure? <==> !UpdatePayload(u).IsEmpty() && !requestOk
    ensures r.Success? ==> r.value
  {
    if UpdatePayload(u).IsEmpty() || requestOk then Success(true)
    else Failure("Failed to update Facebook campaign")
  }

  // Product links

  function ProductUrl(shopDomain: string, handle: string): (u: string)
    ensures IsPrefix("https://" + shopDomain + "/products/", u)
    ensures IsSuffix(handle, u)
    ensures |u| == |"https://"| + |shopDomain| + |"/products/"| + |handle|
  {
    "https://" + shopDomain + "/products/" + handle
  }

  /** Within one shop, distinct handles give distinct links. */
  lemma ProductUrlInjective(shopDomain: string, h1: string, h2: string)
    ensures ProductUrl(shopDomain, h1) == ProductUrl(shopDomain, h2) ==> h1 == h2
  {
    var p := "https://" + shopDomain + "/products/";
    if ProductUrl(shopDomain, h1) == ProductUrl(shopDomain, h2) {
      assert h1 == ProductUrl(shopDomain, h1)[|p|..];
      assert h2 == ProductUrl(shopDomain, h2)[|p|..];
    }
  }

  // Performance sync

  /** A performance response as returned: each field may be missing. */
  datatype RawPerformance = RawPerformance(
    impressions: Option<int>, clicks: Option<int>, spend: Option<real>, ctr: Option<real>,
    cpc: Option<real>, cpm: Option<real>, reach: Option<int>, frequency: Option<real>,
    conversions: Option<int>)

  datatype PerformanceRow = PerformanceRow(
    campaignId: int, impressions: int, clicks: int, spend: real, ctr: real,
    cpc: real, cpm: real, reach: int, frequency: real, conversions: int)

  /** A campaign to sync and the outcome of its insights request (`None` when
      the request threw). */
  datatype SyncInput = SyncInput(campaignId: int, facebookCampaignId: Option<string>, response: Option<RawPerformance>)

  function FormatPerformance(id: int, p: RawPerformance): (r: PerformanceRow)
    ensures r.campaignId == id
    ensures r.impressions == p.impressions.GetOr(0) && r.clicks == p.clicks.GetOr(0)
    ensures r.spend == p.spend.GetOr(0.0) && r.conversions == p.conversions.GetOr(0)
    ensures r.ctr == p.ctr.GetOr(0.0) && r.cpc == p.cpc.GetOr(0.0) && r.cpm == p.cpm.GetOr(0.0)
    ensures r.reach == p.reach.GetOr(0) && r.frequency == p.frequency.GetOr(0.0)
  {
    PerformanceRow(id, p.impressions.GetOr(0), p.clicks.GetOr(0), p.spend.GetOr(0.0),
      p.ctr.GetOr(0.0), p.cpc.GetOr(0.0), p.cpm.GetOr(0.0), p.reach.GetOr(0),
      p.frequency.GetOr(0.0), p.conversions.GetOr(0))
  }

  /** A campaign contributes a row iff it has a Facebook id and its request succeeded. */
  predicate Synced(c: SyncInput) {
    c.facebookCampaignId.Some? && c.facebookCampaignId.value != "" && c.response.Some?
  }

  /** The sync loop: skip campaigns without a Facebook id, drop those whose
      request throws, keep going either way. */
  function SyncPerformance(cs: seq<SyncInput>): (r: seq<PerformanceRow>)
    ensures |r| <= |cs|
    ensures forall k :: 0 <= k < |r| ==>
      (exists i :: 0 <= i < |cs| && Synced(cs[i])
        && r[k] == FormatPerformance(cs[i].campaignId, cs[i].response.value))
    ensures forall i :: 0 <= i < |cs| && Synced(cs[i]) ==>
      FormatPerformance(cs[i].campaignId, cs[i].response.value) in r
    ensures |cs| == 1 ==> r == if Synced(cs[0]) then [FormatPerformance(cs[0].campaignId, cs[0].response.value)] else []
    decreases |cs|
  {
    if |cs| == 0 then []
    else
      var rest := SyncPerformance(cs[..|cs| - 1]);
      var c := cs[|cs| - 1];
      assert forall i :: 0 <= i < |cs| - 1 ==> cs[..|cs| - 1][i] == cs[i];
      if Synced(c) then rest + [FormatPerformance(c.campaignId, c.response.value)] else rest
  }

  /** The rows come in campaign order: syncing two lists one after the other
      gives the rows of the first followed by those of the second. */
  lemma {:induction false} SyncPerformanceAppend(a: seq<SyncInput>, b: seq<SyncInput>)
    ensures SyncPerformance(a + b) == SyncPerformance(a) + SyncPerformance(b)
    decreases |b|
  {
    if |b| == 0 {
      assert a + b == a;
    } else {
      var init := b[..|b| - 1];
      assert (a + b)[..|a + b| - 1] == a + init;
      assert (a + b)[|a + b| - 1] == b[|b| - 1];
      SyncPerformanceAppend(a, init);
    }
  }

  /** One row per synced campaign: the count is exactly the number of
      campaigns that have an id and answered. */
  function CountSynced(cs: seq<SyncInput>): nat
    decreases |cs|
  {
    if |cs| == 0 then 0 else CountSynced(cs[..|cs| - 1]) + (if Synced(cs[|cs| - 1]) then 1 else 0)
  }

  lemma {:induction false} SyncCount(cs: seq<SyncInput>)
    ensures |SyncPerformance(cs)| == CountSynced(cs)
    decreases |cs|
  {
    if |cs| > 0 {
      SyncCount(cs[..|cs| - 1]);
    }
  }
}

=== FILE: http.dfy ===
/** Response headers as the framework keeps them: one value per name, names
    compared without regard to case, so each name the code touches is one
    constructor. */
module Http {
  datatype HeaderName =
    | FrameOptions
    | ContentSecurityPolicy
    | ContentTypeOptions
    | XssProtection
    | ReferrerPolicy
    | DnsPrefetchControl
    | PoweredBy
    | CacheControl
    | Expires
    | Link
    | ETag
    | Other(name: string)

  type Headers = map<HeaderName, string>

  /** How a route calls a controller or service method: as a method of its
      object, or detached from it (the function value alone, as a router
      receives it). A class body is strict code, so a detached method sees
      `this` as undefined and its first `this.…` access throws a TypeError. */
  datatype Call = Bound | Detached
}

=== FILE: metrics.dfy ===
/** The optimizer's metric aggregator: totals over performance samples and
    the derived rates, each guarded against a zero denominator. */
module Metrics {
  import opened Wrappers
  import opened Schema
  import opened Numeric

  /** Running totals of the summed columns. */
  datatype Totals = Totals(
    spend: real,
    revenue: real,
    clicks: int,
    impressions: int,
    conversions: int,
    frequency: real)

  /** The aggregate the rules read. */
  datatype Snapshot = Snapshot(
    spend: real,
    revenue: real,
    roas: real,
    ctr: real,
    cpc: real,
    conversionRate: real,
    conversions: int,
    impressions: int,
    clicks: int,
    frequency: real,
    daysRunning: nat)

  const ZeroTotals := Totals(0.0, 0.0, 0, 0, 0, 0.0)

  const ZeroSnapshot := Snapshot(0.0, 0.0, 0.0, 0.0, 0.0, 0.0, 0, 0, 0, 0.0, 0)

  /** One sample's contribution, with null columns read as 0. */
  function Contribution(p: Sample): Totals {
    Totals(p.spend.GetOr(0.0), p.revenue.GetOr(0.0), p.clicks.GetOr(0),
           p.impressions.GetOr(0), p.conversions.GetOr(0), p.frequency.GetOr(0.0))
  }

  function Plus(a: Totals, b: Totals): Totals {
    Totals(a.spend + b.spend, a.revenue + b.revenue, a.clicks + b.clicks,
           a.impressions + b.impressions, a.conversions + b.conversions,
           a.frequency + b.frequency)
  }

  /** The source's left-to-right reduce over the samples. */
  function Sum(ps: seq<Sample>): Totals
    decreases |ps|
  {
    if |ps| == 0 then ZeroTotals else Plus(Sum(ps[..|ps| - 1]), Contribution(ps[|ps| - 1]))
  }

  /** The aggregate of a list of samples. */
  function Aggregate(ps: seq<Sample>): (m: Snapshot)
    ensures |ps| == 0 ==> m == ZeroSnapshot
    ensures m.daysRunning == |ps|
    ensures m.spend > 0.0 ==> m.roas * m.spend == m.revenue
    ensures m.spend <= 0.0 ==> m.roas == 0.0
    ensures m.impressions > 0 ==> m.ctr * m.impressions as real == m.clicks as real * 100.0
    ensures m.impressions <= 0 ==> m.ctr == 0.0
    ensures m.clicks > 0 ==> m.cpc * m.clicks as real == m.spend
    ensures m.clicks > 0 ==> m.conversionRate * m.clicks as real == m.conversions as real * 100.0
    ensures m.clicks <= 0 ==> m.cpc == 0.0 && m.conversionRate == 0.0
    ensures |ps| > 0 ==> m.frequency * |ps| as real == Sum(ps).frequency
    ensures |ps| > 0 ==> m.spend == Sum(ps).spend && m.revenue == Sum(ps).revenue
    ensures |ps| > 0 ==> m.clicks == Sum(ps).clicks && m.impressions == Sum(ps).impressions
    ensures |ps| > 0 ==> m.conversions == Sum(ps).conversions
  {
    if |ps| == 0 then ZeroSnapshot
    else
      var t := Sum(ps);
      Snapshot(
        t.spend, t.revenue,
        Ratio(t.revenue, t.spend),
        Percent(t.clicks as real, t.impressions as real),
        Ratio(t.spend, t.clicks as real),
        Percent(t.conversions as real, t.clicks as real),
        t.conversions, t.impressions, t.clicks,
        t.frequency / |ps| as real,
        |ps|)
  }

  /** Summing a concatenation adds the parts' totals. */
  lemma {:induction false} SumAppend(a: seq<Sample>, b: seq<Sample>)
    ensures Sum(a + b) == Plus(Sum(a), Sum(b))
    decreases |b|
  {
    if |b| == 0 {
      assert a + b == a;
    } else {
      var b' := b[..|b| - 1];
      assert (a + b)[..|a + b| - 1] == a + b';
      assert (a + b)[|a + b| - 1] == b[|b| - 1];
      SumAppend(a, b');
    }
  }

  lemma SumSingle(p: Sample)
    ensures Sum([p]) == Contribution(p)
  {
    assert [p][..0] == [];
  }

  /** Removing the sample at `i` takes its contribution out of the totals. */
  lemma SumSplit(b: seq<Sample>, i: int)
    requires 0 <= i < |b|
    ensures Sum(b) == Plus(Sum(b[..i] + b[i + 1..]), Contribution(b[i]))
  {
    var x, y, p := b[..i], b[i + 1..], b[i];
    assert b == (x + [p]) + y;
    SumAppend(x + [p], y);
    SumAppend(x, [p]);
    SumSingle(p);
    SumAppend(x, y);
    PlusSwap(Sum(x), Contribution(p), Sum(y));
  }

  /** Totals may be added in any order. */
  lemma PlusSwap(a: Totals, b: Totals, c: Totals)
    ensures Plus(Plus(a, b), c) == Plus(Plus(a, c), b)
  {
  }

  /** The totals do not depend on the order the rows come back in. */
  lemma {:induction false} SumPermutation(a: seq<Sample>, b: seq<Sample>)
    requires multiset(a) == multiset(b)
    ensures Sum(a) == Sum(b)
    decreases |a|
  {
    if |a| == 0 {
      assert |b| == 0;
    } else {
      var x := a[|a| - 1];
      var a' := a[..|a| - 1];
      assert a == a' + [x];
      assert x in multiset(b);
      var i :| 0 <= i < |b| && b[i] == x;
      var b' := b[..i] + b[i + 1..];
      assert b == b[..i] + [b[i]] + b[i + 1..];
      assert multiset(b') == multiset(b) - multiset{x};
      assert multiset(a') == multiset(a) - multiset{x};
      SumPermutation(a', b');
      SumSplit(b, i);
    }
  }

  /** Hence the whole aggregate is order-independent. */
  lemma AggregatePermutation(a: seq<Sample>, b: seq<Sample>)
    requires multiset(a) == multiset(b)
    ensures Aggregate(a) == Aggregate(b)
  {
    SumPermutation(a, b);
    assert |a| == |multiset(a)| == |b|;
  }

  /** Non-negative columns give non-negative rates. */
  predicate NonNegative(p: Sample) {
    p.spend.GetOr(0.0) >= 0.0 && p.revenue.GetOr(0.0) >= 0.0 && p.clicks.GetOr(0) >= 0
    && p.impressions.GetOr(0) >= 0 && p.conversions.GetOr(0) >= 0 && p.frequency.GetOr(0.0) >= 0.0
  }

  lemma {:induction false} SumNonNegative(ps: seq<Sample>)
    requires forall i :: 0 <= i < |ps| ==> NonNegative(ps[i])
    ensures Sum(ps).spend >= 0.0 && Sum(ps).revenue >= 0.0 && Sum(ps).clicks >= 0
    ensures Sum(ps).impressions >= 0 && Sum(ps).conversions >= 0 && Sum(ps).frequency >= 0.0
    decreases |ps|
  {
    if |ps| > 0 {
      SumNonNegative(ps[..|ps| - 1]);
      assert NonNegative(ps[|ps| - 1]);
    }
  }

  lemma AggregateNonNegative(ps: seq<Sample>)
    requires forall i :: 0 <= i < |ps| ==> NonNegative(ps[i])
    ensures Aggregate(ps).roas >= 0.0 && Aggregate(ps).ctr >= 0.0
    ensures Aggregate(ps).cpc >= 0.0 && Aggregate(ps).conversionRate >= 0.0
    ensures Aggregate(ps).frequency >= 0.0
  {
    SumNonNegative(ps);
    if |ps| > 0 {
      var t := Sum(ps);
      RatioNonNegative(t.revenue, t.spend);
      RatioNonNegative(t.spend, t.clicks as real);
      RatioNonNegative(t.clicks as real, t.impressions as real);
      RatioNonNegative(t.conversions as real, t.clicks as real);
    }
  }

  /** The account view pools every campaign's samples (`flatMap`). */
  function Flatten(groups: seq<seq<Sample>>): (r: seq<Sample>)
    ensures |groups| == 0 ==> r == []
    decreases |groups|
  {
    if |groups| == 0 then [] else Flatten(groups[..|groups| - 1]) + groups[|groups| - 1]
  }

  /** Each campaign's totals added up, campaign by campaign. */
  function GroupTotals(groups: seq<seq<Sample>>): Totals
    decreases |groups|
  {
    if |groups| == 0 then ZeroTotals
    else Plus(GroupTotals(groups[..|groups| - 1]), Sum(groups[|groups| - 1]))
  }

  /** Pooling the samples first gives the same totals as adding up each
      campaign's totals. */
  lemma {:induction false} AccountTotals(groups: seq<seq<Sample>>)
    ensures Sum(Flatten(groups)) == GroupTotals(groups)
    decreases |groups|
  {
    if |groups| > 0 {
      AccountTotals(groups[..|groups| - 1]);
      SumAppend(Flatten(groups[..|groups| - 1]), groups[|groups| - 1]);
    }
  }

  /** The account-level aggregate over all campaigns' recent samples. */
  function AccountMetrics(groups: seq<seq<Sample>>): (m: Snapshot)
    ensures m.daysRunning == |Flatten(groups)|
    ensures |Flatten(groups)| > 0 ==> m.spend == GroupTotals(groups).spend
    ensures |Flatten(groups)| > 0 ==> m.revenue == GroupTotals(groups).revenue
  {
    AccountTotals(groups);
    Aggregate(Flatten(groups))
  }
}

=== FILE: numeric.dfy ===
/** Number helpers with the source's JavaScript meaning, on exact reals:
    `Math.round` rounds half up, `Math.floor`/`Math.ceil` round toward minus
    and plus infinity, and every rate the source computes guards its zero
    denominator. */
module Numeric {

  /** `Math.round(x)`: the nearest integer, halves going up. */
  function Round(x: real): (r: int)
    ensures x - 0.5 < r as real <= x + 0.5
  {
    (x + 0.5).Floor
  }

  /** `Math.ceil(x)`. */
  function Ceil(x: real): (r: int)
    ensures x <= r as real < x + 1.0
  {
    -((-x).Floor)
  }

  /** `Math.round(x * 100) / 100` (and `toFixed(2)` read back as a number). */
  function RoundCents(x: real): (r: real)
    ensures x - 0.005 < r <= x + 0.005
    ensures IsCents(r)
  {
    var k := Round(x * 100.0);
    assert k as real / 100.0 == k as real / 100.0;
    k as real / 100.0
  }

  /** `toFixed(1)` read back as a number. */
  function RoundTenths(x: real): (r: real)
    ensures x - 0.05 < r <= x + 0.05
  {
    Round(x * 10.0) as real / 10.0
  }

  /** A value with at most two decimals, as a DECIMAL(10,2) column holds. */
  ghost predicate IsCents(x: real) {
    exists k: int {:trigger k as real / 100.0} :: x == k as real / 100.0
  }

  /** Rounding a value that already has two decimals changes nothing. */
  lemma RoundCentsOfCents(k: int)
    ensures RoundCents(k as real / 100.0) == k as real / 100.0
  {
    assert (k as real / 100.0) * 100.0 == k as real;
    assert Round(k as real) == k;
  }

  /** Rounding a two-decimal value gives it back. */
  lemma RoundCentsFixesCents(x: real)
    ensures IsCents(x) ==> RoundCents(x) == x
  {
    if IsCents(x) {
      var k: int :| x == k as real / 100.0;
      RoundCentsOfCents(k);
    }
  }

  /** Rounding to cents preserves order. */
  lemma RoundCentsMonotone(x: real, y: real)
    ensures x <= y ==> RoundCents(x) <= RoundCents(y)
  {
    if x <= y {
      assert x * 100.0 + 0.5 <= y * 100.0 + 0.5;
      assert (x * 100.0 + 0.5).Floor <= (y * 100.0 + 0.5).Floor;
    }
  }

  function MinReal(a: real, b: real): (r: real)
    ensures r <= a && r <= b && (r == a || r == b)
  {
    if a <= b then a else b
  }

  /** `num / den`, or 0 when `den` is not positive (the source's `den > 0 ? … : 0`). */
  function Ratio(num: real, den: real): (r: real)
    ensures den > 0.0 ==> r * den == num
    ensures den <= 0.0 ==> r == 0.0
  {
    if den > 0.0 then num / den else 0.0
  }

  /** A percentage `num / den * 100`, or 0 when `den` is not positive. */
  function Percent(num: real, den: real): (r: real)
    ensures den > 0.0 ==> r * den == num * 100.0
    ensures den <= 0.0 ==> r == 0.0
  {
    if den > 0.0 then num / den * 100.0 else 0.0
  }

  lemma RatioNonNegative(num: real, den: real)
    requires num >= 0.0
    ensures Ratio(num, den) >= 0.0 && Percent(num, den) >= 0.0
  {
  }
}

=== FILE: performance.dfy ===
/** The response middleware: cache headers by path, the security headers,
    the ETag check, the preload and preconnect `Link` headers, and the HTML
    minifier. Each acts on the response after the inner handlers have run;
    the clock, date formatting and the body hash are inputs. */
module Performance {
  import opened Wrappers
  import opened Strings
  import opened Http

  // Cache control

  /** The extensions of `/\.(js|css|png|jpg|jpeg|gif|ico|svg|woff|woff2|ttf|eot)$/`. */
  const AssetExtensions: seq<string> := ["js", "css", "png", "jpg", "jpeg", "gif", "ico", "svg", "woff", "woff2", "ttf", "eot"]

  /** The path ends in `.` and one of the asset extensions. */
  predicate IsAsset(path: string) {
    exists k :: 0 <= k < |AssetExtensions| && IsSuffix("." + AssetExtensions[k], path)
  }

  /** How long a response may be cached, and until when when that is stated. */
  datatype CacheDecision = CacheDecision(maxAge: nat, expiresAt: Option<int>)

  /** `cacheControl(maxAge)`: assets for a day's worth of `maxAge` (with an
      `Expires` time), API responses for 300 seconds, pages for `maxAge`; the
      asset test comes first. */
  function CachePolicy(path: string, maxAge: nat, now: int): (d: CacheDecision)
    ensures IsAsset(path) ==> d == CacheDecision(maxAge * 24, Some(now + maxAge * 24 * 1000))
    ensures !IsAsset(path) && IsPrefix("/api/", path) ==> d == CacheDecision(300, None)
    ensures !IsAsset(path) && !IsPrefix("/api/", path) ==> d == CacheDecision(maxAge, None)
  {
    if IsAsset(path) then CacheDecision(maxAge * 24, Some(now + maxAge * 24 * 1000))
    else if IsPrefix("/api/", path) then CacheDecision(300, None)
    else CacheDecision(maxAge, None)
  }

  /** Writes the decision: `Cache-Control` always, `Expires` for assets,
      every other header untouched. */
  function ApplyCache(h: Headers, d: CacheDecision, httpDate: int -> string): (r: Headers)
    ensures CacheControl in r && r[CacheControl] == "public, max-age=" + NatToString(d.maxAge)
    ensures d.expiresAt.Some? ==> Expires in r && r[Expires] == httpDate(d.expiresAt.value)
    ensures forall k :: k in h && k != CacheControl && k != Expires ==> k in r && r[k] == h[k]
  {
    var h1 := h[CacheControl := "public, max-age=" + NatToString(d.maxAge)];
    if d.expiresAt.Some? then h1[Expires := httpDate(d.expiresAt.value)] else h1
  }

  /** A script under `/api/` is still an asset: the extension test wins. */
  lemma AssetTestWins(name: string, maxAge: nat, now: int)
    ensures CachePolicy("/api/" + name + ".js", maxAge, now).maxAge == maxAge * 24
  {
    var p := "/api/" + name + ".js";
    assert p[|p| - 3..] == ".js";
    assert IsSuffix("." + AssetExtensions[0], p);
  }

  /** An API path without an asset extension is cached for five minutes
      whatever the default. */
  lemma ApiPathsShortLived(name: string, maxAge: nat, now: int)
    requires !IsAsset("/api/" + name)
    ensures CachePolicy("/api/" + name, maxAge, now) == CacheDecision(300, None)
  {
    assert ("/api/" + name)[..5] == "/api/";
  }

  // Security headers

  /** The headers the security filter writes or removes. */
  const SecurityTouched: set<HeaderName> := {PoweredBy, ContentTypeOptions, XssProtection, ReferrerPolicy, DnsPrefetchControl}

  /** `securityHeaders`: the three protective headers and DNS prefetching
      set, `X-Powered-By` removed, every other header untouched. */
  function SecurityHeaders(h: Headers): (r: Headers)
    ensures PoweredBy !in r
    ensures ContentTypeOptions in r && r[ContentTypeOptions] == "nosniff"
    ensures XssProtection in r && r[XssProtection] == "1; mode=block"
    ensures ReferrerPolicy in r && r[ReferrerPolicy] == "strict-origin-when-cross-origin"
    ensures DnsPrefetchControl in r && r[DnsPrefetchControl] == "on"
    ensures forall k :: k in h && k !in SecurityTouched ==> k in r && r[k] == h[k]
    ensures forall k :: k in r ==> k in h || k in SecurityTouched
  {
    (h[ContentTypeOptions := "nosniff"][XssProtection := "1; mode=block"]
      [ReferrerPolicy := "strict-origin-when-cross-origin"][DnsPrefetchControl := "on"]) - {PoweredBy}
  }

  /** Applying the security headers twice is applying them once. */
  lemma SecurityHeadersIdempotent(h: Headers)
    ensures SecurityHeaders(SecurityHeaders(h)) == SecurityHeaders(h)
  {
  }

  // ETag

  datatype Response = Response(status: int, body: Option<string>, headers: Headers)

  /** `"` + hash + `"`. */
  function Quoted(hash: string): string {
    "\"" + hash + "\""
  }

  /** `etag`: a 200 response with a body gets the quoted hash of its body;
      when the request already holds that tag the answer becomes 304 with no
      body. Anything else passes through. */
  function ETagged(resp: Response, ifNoneMatch: Option<string>, hash: string -> string): (r: Response)
    ensures !(resp.body.Some? && resp.body.value != "" && resp.status == 200) ==> r == resp
    ensures resp.body.Some? && resp.body.value != "" && resp.status == 200 ==>
      (ETag in r.headers && r.headers[ETag] == Quoted(hash(resp.body.value))
       && (r.status == 304 <==> ifNoneMatch == Some(Quoted(hash(resp.body.value))))
       && (r.status == 304 ==> r.body.None?)
       && (r.status != 304 ==> r.status == 200 && r.body == resp.body))
  {
    if resp.body.Some? && resp.body.value != "" && resp.status == 200 then
      var tag := Quoted(hash(resp.body.value));
      var h := resp.headers[ETag := tag];
      if ifNoneMatch == Some(tag) then Response(304, None, h) else Response(200, resp.body, h)
    else resp
  }

  /** A client that sends back the tag it was given gets 304 for the same
      body. */
  lemma ETagRoundTrip(resp: Response, hash: string -> string)
    requires resp.body.Some? && resp.body.value != "" && resp.status == 200
    ensures ETagged(resp, Some(ETagged(resp, None, hash).headers[ETag]), hash).status == 304
  {
  }

  // Link headers

  predicate IsHtml(contentType: Option<string>) {
    contentType.Some? && contentType.value != "" && Contains(contentType.value, "html")
  }

  const PreloadLinks: string :=
    "</css/app.css>; rel=preload; as=style, </js/app.js>; rel=preload; as=script, "
    + "<https://fonts.googleapis.com/css2?family=Inter:wght@300;400;500;600;700;800&display=swap>; rel=preload; as=style"

  const PreconnectHints: string :=
    "<https://fonts.googleapis.com>; rel=preconnect, <https://fonts.gstatic.com>; rel=preconnect; crossorigin, "
    + "<https://unpkg.com>; rel=preconnect, <https://graph.facebook.com>; rel=preconnect, "
    + "<https://connect.facebook.net>; rel=preconnect"

  /** `preloadCritical`: for HTML, the preload links after the existing
      `Link` value (joined by `, `), or alone. `ctx.get` reads the request's
      headers, so the existing value is the request's `Link`, and a `Link`
      the response already carried is overwritten. */
  function Preload(contentType: Option<string>, requestLink: Option<string>, h: Headers): (r: Headers)
    ensures !IsHtml(contentType) ==> r == h
    ensures IsHtml(contentType) ==> Link in r && IsSuffix(PreloadLinks, r[Link])
    ensures IsHtml(contentType) && requestLink.Some? && requestLink.value != "" ==>
      r[Link] == requestLink.value + ", " + PreloadLinks
    ensures IsHtml(contentType) && (requestLink.None? || requestLink.value == "") ==> r[Link] == PreloadLinks
    ensures forall k :: k in h && k != Link ==> k in r && r[k] == h[k]
  {
    if !IsHtml(contentType) then h
    else
      var existing := if requestLink.Some? then requestLink.value else "";
      h[Link := if existing != "" then existing + ", " + PreloadLinks else PreloadLinks]
  }

  /** A `Link` set by an inner handler does not survive the preloads: only
      the request's value is merged. */
  lemma PreloadIgnoresResponseLink(contentType: Option<string>, h: Headers)
    requires IsHtml(contentType) && Link in h
    ensures Preload(contentType, None, h)[Link] == PreloadLinks
  {
  }

  /** `resourceHints` as written: for HTML, `Link` is replaced by the
      preconnect hints. */
  function ResourceHintsAsWritten(contentType: Option<string>, h: Headers): (r: Headers)
    ensures !IsHtml(contentType) ==> r == h
    ensures IsHtml(contentType) ==> Link in r && r[Link] == PreconnectHints
  {
    if IsHtml(contentType) then h[Link := PreconnectHints] else h
  }

  /** The hints are registered outside the preloads, so they run after them
      on the way out and overwrite them: an HTML response never carries the
      preload links. */
  lemma PreloadLostAsWritten(contentType: Option<string>, requestLink: Option<string>, h: Headers)
    requires IsHtml(contentType)
    ensures var r := ResourceHintsAsWritten(contentType, Preload(contentType, requestLink, h));
      Link in r && r[Link] == PreconnectHints && !IsSuffix(PreloadLinks, r[Link])
  {
    var r := ResourceHintsAsWritten(contentType, Preload(contentType, requestLink, h));
    assert |PreconnectHints| < |PreloadLinks| || PreconnectHints[|PreconnectHints| - 1] != PreloadLinks[|PreloadLinks| - 1];
  }

  /** `resourceHints` merging like the preloads: the hints after any
      existing value. */
  function ResourceHints(contentType: Option<string>, h: Headers): (r: Headers)
    ensures !IsHtml(contentType) ==> r == h
    ensures IsHtml(contentType) ==> Link in r && IsSuffix(PreconnectHints, r[Link])
    ensures IsHtml(contentType) && Link in h && h[Link] != "" ==> r[Link] == h[Link] + ", " + PreconnectHints
  {
    if !IsHtml(contentType) then h
    else
      var existing := if Link in h then h[Link] else "";
      h[Link := if existing != "" then existing + ", " + PreconnectHints else PreconnectHints]
  }

  /** With merging, an HTML response carries the preload links first and the
      hints after them. */
  lemma MergedLinksKeepBoth(contentType: Option<string>, h: Headers)
    requires IsHtml(contentType)
    ensures ResourceHints(contentType, Preload(contentType, None, h))[Link] == PreloadLinks + ", " + PreconnectHints
  {
  }

  // HTML minifier

  /** The text with every whitespace character removed. */
  function NonSpace(s: string): (r: string)
    ensures |r| <= |s|
    decreases |s|
  {
    if |s| == 0 then "" else (if IsSpace(s[0]) then "" else [s[0]]) + NonSpace(s[1..])
  }

  lemma {:induction false} NonSpaceAppend(a: string, b: string)
    ensures NonSpace(a + b) == NonSpace(a) + NonSpace(b)
    decreases |a|
  {
    if |a| > 0 {
      assert (a + b)[0] == a[0];
      assert (a + b)[1..] == a[1..] + b;
      NonSpaceAppend(a[1..], b);
    } else {
      assert a + b == b;
    }
  }

  lemma {:induction false} NonSpaceOfBlank(s: string)
    requires forall i :: 0 <= i < |s| ==> IsSpace(s[i])
    ensures NonSpace(s) == ""
    decreases |s|
  {
    if |s| > 0 {
      NonSpaceOfBlank(s[1..]);
    }
  }

  /** Trimming removes whitespace only. */
  lemma TrimKeepsText(s: string)
    ensures NonSpace(Trim(s)) == NonSpace(s)
  {
    TrimStartKeepsText(s);
    TrimEndKeepsText(TrimStart(s));
  }

  lemma TrimStartKeepsText(s: string)
    ensures NonSpace(TrimStart(s)) == NonSpace(s)
  {
    var t := TrimStart(s);
    var k := |s| - |t|;
    assert s == s[..k] + t;
    NonSpaceAppend(s[..k], t);
    NonSpaceOfBlank(s[..k]);
  }

  lemma TrimEndKeepsText(t: string)
    ensures NonSpace(TrimEnd(t)) == NonSpace(t)
  {
    var u := TrimEnd(t);
    var tail := t[|u|..];
    assert t == u + tail;
    NonSpaceAppend(u, tail);
    assert forall i :: 0 <= i < |tail| ==> tail[i] == t[|u| + i];
    NonSpaceOfBlank(tail);
  }

  /** Dropping a leading space drops nothing from what trimming keeps. */
  lemma TrimStartSkips(s: string)
    requires |s| > 0 && IsSpace(s[0])
    ensures |TrimStart(s)| < |s|
    ensures NonSpace(TrimStart(s)) == NonSpace(s)
  {
    TrimStartKeepsText(s);
  }

  /** `.replace(/\s+/g, ' ')`: every run of whitespace becomes one space. */
  function Collapse(s: string): (r: string)
    ensures NonSpace(r) == NonSpace(s)
    ensures |s| > 0 && !IsSpace(s[0]) ==> |r| > 0 && r[0] == s[0]
    ensures |s| > 0 && IsSpace(s[0]) ==> |r| > 0 && r[0] == ' '
    ensures forall i :: 0 <= i < |r| && IsSpace(r[i]) ==> r[i] == ' '
    ensures forall i :: 0 <= i < |r| - 1 ==> !(IsSpace(r[i]) && IsSpace(r[i + 1]))
    decreases |s|
  {
    if |s| == 0 then ""
    else if IsSpace(s[0]) then
      TrimStartSkips(s);
      var t := TrimStart(s);
      var c := Collapse(t);
      ConsText(' ', c);
      [' '] + c
    else
      var c := Collapse(s[1..]);
      ConsText(s[0], c);
      assert NonSpace(s) == [s[0]] + NonSpace(s[1..]);
      [s[0]] + c
  }

  /** Putting one character in front of a text. */
  lemma ConsText(x: char, c: string)
    ensures NonSpace([x] + c) == (if IsSpace(x) then "" else [x]) + NonSpace(c)
    ensures forall i :: 1 <= i < |[x] + c| ==> ([x] + c)[i] == c[i - 1]
  {
    assert ([x] + c)[1..] == c;
  }

  /** `.replace(/>\s+</g, '><')` on collapsed text, left to right. */
  function DropTagGaps(s: string): (r: string)
    ensures NonSpace(r) == NonSpace(s)
    decreases |s|
  {
    if |s| >= 3 && s[0] == '>' && IsSpace(s[1]) && s[2] == '<' then
      var rest := DropTagGaps(s[3..]);
      assert s == s[..3] + s[3..];
      NonSpaceAppend(s[..3], s[3..]);
      NonSpaceAppend("><", rest);
      assert NonSpace(s[..3]) == "><" by {
        assert s[..3][1..][1..] == "<";
        assert NonSpace(s[..3][1..][1..]) == "<";
      }
      assert NonSpace("><") == "><" by {
        assert "><"[1..] == "<";
        assert NonSpace("<") == "<";
      }
      "><" + rest
    else if |s| == 0 then ""
    else [s[0]] + DropTagGaps(s[1..])
  }

  /** `contentOptimization`: in production, an HTML response with a body is
      collapsed, stripped between tags and trimmed; otherwise it is left as
      it is. */
  function Minify(production: bool, contentType: Option<string>, body: Option<string>): (r: Option<string>)
    ensures !(production && IsHtml(contentType) && body.Some? && body.value != "") ==> r == body
    ensures production && IsHtml(contentType) && body.Some? && body.value != "" ==>
      r == Some(Trim(DropTagGaps(Collapse(body.value))))
  {
    if production && IsHtml(contentType) && body.Some? && body.value != "" then
      Some(Trim(DropTagGaps(Collapse(body.value))))
    else body
  }

  /** Minifying changes whitespace only, and leaves no whitespace at either
      end. */
  lemma MinifyKeepsText(production: bool, contentType: Option<string>, body: Option<string>)
    requires body.Some?
    ensures Minify(production, contentType, body).Some?
    ensures NonSpace(Minify(production, contentType, body).value) == NonSpace(body.value)
    ensures production && IsHtml(contentType) && body.value != "" ==> var m := Minify(production, contentType, body).value;
      |m| > 0 ==> !IsSpace(m[0]) && !IsSpace(m[|m| - 1])
  {
    TrimKeepsText(DropTagGaps(Collapse(body.value)));
  }
}

=== FILE: product_sync.dfy ===
/** Shopify-to-Facebook catalog sync: the active-product filter, the catalog
    lookup, batching into slices of 50, the per-batch result mapping, and the
    feed item built from a product (HTML stripping, category lookup). The
    Shopify fetch, the catalog creation and the batch request are inputs. */
module ProductSync {
  import opened Wrappers
  import opened Strings
  import opened Schema

  // Products and the syncing user

  datatype Variant = Variant(price: Option<string>, inventory: Option<int>)

  datatype Product = Product(
    id: nat,
    title: string,
    bodyHtml: Option<string>,
    vendor: Option<string>,
    productType: Option<string>,
    tags: Option<string>,
    handle: string,
    imageSrcs: seq<Option<string>>,
    variants: seq<Variant>,
    status: string)

  datatype SyncUser = SyncUser(
    shopDomain: string,
    shopName: Option<string>,
    currency: Option<string>,
    facebookAccessToken: Option<string>,
    shopifyAccessToken: Option<string>,
    facebookAdAccountId: Option<string>,
    facebookCatalogId: Option<string>,
    hasCompletedOnboarding: bool)

  /** The products the sync keeps: those whose status is 'active', in order. */
  function ActiveOnly(ps: seq<Product>): (r: seq<Product>)
    ensures |r| <= |ps|
    ensures forall i :: 0 <= i < |r| ==> r[i].status == "active"
    ensures forall p :: p in r <==> p in ps && p.status == "active"
    decreases |ps|
  {
    if |ps| == 0 then []
    else if ps[0].status == "active" then [ps[0]] + ActiveOnly(ps[1..])
    else ActiveOnly(ps[1..])
  }

  // HTML stripping

  /** No '<' is followed, anywhere later, by a '>': nothing matching
      `<[^>]*>` is left. */
  predicate TagFree(s: string) {
    forall i, j :: 0 <= i < j < |s| && s[i] == '<' ==> s[j] != '>'
  }

  /** `s.replace(/<[^>]*>/g, '')`: a '<' with a '>' somewhere after it starts
      a tag running to the first such '>'; a '<' with none after it is
      ordinary text. */
  function RemoveTags(s: string): (r: string)
    ensures |r| <= |s|
    ensures forall c :: c in r ==> c in s
    ensures TagFree(r)
    decreases |s|
  {
    if |s| == 0 then ""
    else if s[0] == '<' && '>' in s then
      var k := |BeforeFirst(s, '>')|;
      RemoveTags(s[k + 1..])
    else
      var rest := RemoveTags(s[1..]);
      assert forall c :: c in rest ==> c in s[1..];
      [s[0]] + rest
  }

  /** Text without tags passes through unchanged, so stripping twice is the
      same as stripping once. */
  lemma {:induction false} RemoveTagsKeepsTagFree(s: string)
    requires TagFree(s)
    ensures RemoveTags(s) == s
    decreases |s|
  {
    if |s| > 0 {
      if s[0] == '<' {
        assert forall j :: 0 < j < |s| ==> s[j] != '>';
      }
      assert TagFree(s[1..]) by {
        forall i, j | 0 <= i < j < |s[1..]| && s[1..][i] == '<'
          ensures s[1..][j] != '>'
        {
          assert s[i + 1] == '<';
        }
      }
      RemoveTagsKeepsTagFree(s[1..]);
    }
  }

  /** A tag is removed whole: text without '<', then a '<' whose next '>'
      closes it, keeps the text and drops everything through that '>'. */
  lemma {:induction false} RemoveTagsDropsTag(plain: string, inner: string, rest: string)
    requires '<' !in plain && '>' !in inner
    ensures RemoveTags(plain + ['<'] + inner + ['>'] + rest) == plain + RemoveTags(rest)
    decreases |plain|
  {
    var s := plain + ['<'] + inner + ['>'] + rest;
    if |plain| == 0 {
      assert s == ['<'] + inner + ['>'] + rest;
      assert s[1 + |inner|] == '>';
      BeforeFirstSeparated(['<'] + inner, '>', rest);
      assert s == (['<'] + inner) + ['>'] + rest;
      assert s[|['<'] + inner| + 1..] == rest;
    } else {
      assert s[0] == plain[0] && s[0] != '<';
      assert s[1..] == plain[1..] + ['<'] + inner + ['>'] + rest;
      RemoveTagsDropsTag(plain[1..], inner, rest);
      assert plain == [plain[0]] + plain[1..];
    }
  }

  lemma RemoveTagsIdempotent(s: string)
    ensures RemoveTags(RemoveTags(s)) == RemoveTags(s)
  {
    RemoveTagsKeepsTagFree(RemoveTags(s));
  }

  const DescriptionLimit: nat := 5000

  /** Falsy input gives ''; otherwise tags are removed, the rest trimmed and
      cut to 5000 characters. */
  function StripHtml(html: Option<string>): (r: string)
    ensures |r| <= DescriptionLimit
    ensures html.None? || html.value == "" ==> r == ""
    ensures TagFree(r)
    ensures |r| > 0 ==> !IsSpace(r[0])
    ensures html.Some? && html.value != "" ==> (var t := Trim(RemoveTags(html.value));
      IsPrefix(r, t) && |r| == if |t| <= DescriptionLimit then |t| else DescriptionLimit)
  {
    if html.None? || html.value == "" then ""
    else
      var t := Trim(RemoveTags(html.value));
      TrimTagFree(RemoveTags(html.value));
      var n := if |t| <= DescriptionLimit then |t| else DescriptionLimit;
      assert forall i, j :: 0 <= i < j < n && t[..n][i] == '<' ==> t[i] == '<' && t[..n][j] == t[j];
      t[..n]
  }

  /** Trimming keeps a string tag-free, since it keeps a contiguous piece. */
  lemma TrimTagFree(s: string)
    requires TagFree(s)
    ensures TagFree(Trim(s))
  {
    var t := Trim(s);
    var k :| OccursAt(s, t, k);
    forall i, j | 0 <= i < j < |t| && t[i] == '<'
      ensures t[j] != '>'
    {
      assert s[k..k + |t|][i] == t[i] && s[k..k + |t|][j] == t[j];
      assert s[k + i] == '<';
    }
  }

  // Category lookup

  /** The category table, in the order it is searched. */
  const CategoryTable: seq<(string, string)> := [
    ("clothing", "Apparel & Accessories"),
    ("shoes", "Apparel & Accessories > Shoes"),
    ("electronics", "Electronics"),
    ("home", "Home & Garden"),
    ("beauty", "Health & Beauty"),
    ("jewelry", "Apparel & Accessories > Jewelry"),
    ("sports", "Sporting Goods"),
    ("toys", "Toys & Games"),
    ("books", "Media > Books"),
    ("food", "Food, Beverages & Tobacco")]

  const DefaultCategory := "General"

  /** The position of the first key of `table` that occurs in `t`. */
  function FirstKeyIn(t: string, table: seq<(string, string)>): (r: Option<nat>)
    ensures r.Some? ==> r.value < |table| && Contains(t, table[r.value].0)
    ensures r.Some? ==> forall k :: 0 <= k < r.value ==> !Contains(t, table[k].0)
    ensures r.None? ==> forall k :: 0 <= k < |table| ==> !Contains(t, table[k].0)
    decreases |table|
  {
    if |table| == 0 then None
    else if Contains(t, table[0].0) then Some(0)
    else
      match FirstKeyIn(t, table[1..])
      case None => None
      case Some(k) => Some(k + 1)
  }

  /** The lower-cased type is looked up key by key; the first key it contains
      gives the category, and none gives 'General'. */
  function MapProductType(productType: Option<string>): (r: string)
    ensures var t := ToLower(productType.GetOr(""));
      (exists k :: 0 <= k < |CategoryTable| && Contains(t, CategoryTable[k].0)
        && r == CategoryTable[k].1
        && forall k' :: 0 <= k' < k ==> !Contains(t, CategoryTable[k'].0))
      || (r == DefaultCategory && forall k :: 0 <= k < |CategoryTable| ==> !Contains(t, CategoryTable[k].0))
  {
    var t := ToLower(productType.GetOr(""));
    match FirstKeyIn(t, CategoryTable)
    case None => DefaultCategory
    case Some(k) => CategoryTable[k].1
  }

  // Feed item

  datatype FeedItem = FeedItem(
    id: string,
    name: string,
    description: string,
    availability: string,
    condition: string,
    price: string,
    link: string,
    imageLink: string,
    brand: string,
    googleCategory: string,
    customLabel0: string,
    customLabel1: string,
    inventory: int)

  function FeedId(id: nat): string {
    "shopify_" + NatToString(id)
  }

  /** Distinct products get distinct feed ids. */
  lemma FeedIdInjective(a: nat, b: nat)
    ensures FeedId(a) == FeedId(b) ==> a == b
  {
    if FeedId(a) == FeedId(b) {
      assert NatToString(a) == FeedId(a)[8..];
      assert NatToString(b) == FeedId(b)[8..];
      NatToStringInjective(a, b);
    }
  }

  /** The first comma-separated tag, trimmed; '' without tags. */
  function FirstTag(tags: Option<string>): (r: string)
    ensures ',' !in r
    ensures tags.None? ==> r == ""
    ensures tags.Some? ==> r == Trim(BeforeFirst(tags.value, ','))
  {
    if tags.None? then ""
    else
      var head := BeforeFirst(tags.value, ',');
      var t := Trim(head);
      var k :| OccursAt(head, t, k);
      assert forall c :: c in t ==> c in head;
      t
  }

  /** The label is the first tag of the list, trimmed, whatever follows it;
      a list without commas is one tag. */
  lemma FirstTagOfList(first: string, rest: string)
    requires ',' !in first
    ensures FirstTag(Some(first + "," + rest)) == Trim(first)
    ensures FirstTag(Some(first)) == Trim(first)
  {
    BeforeFirstSeparated(first, ',', rest);
    assert first + "," + rest == first + [','] + rest;
    var b := BeforeFirst(first, ',');
    assert b == first[..|b|] == first;
  }

  /** The first variant's stock, 0 without variants or a count. */
  function Stock(p: Product): (r: int)
    ensures r > 0 <==> |p.variants| > 0 && p.variants[0].inventory.Some? && p.variants[0].inventory.value > 0
    ensures |p.variants| == 0 ==> r == 0
    ensures |p.variants| > 0 ==> r == p.variants[0].inventory.GetOr(0)
  {
    if |p.variants| > 0 then p.variants[0].inventory.GetOr(0) else 0
  }

  function PriceText(p: Product, u: SyncUser): string {
    (if |p.variants| > 0 then OrText(p.variants[0].price, "0") else "0") + " " + OrText(u.currency, "USD")
  }

  function ImageLink(p: Product): (r: string)
    ensures |p.imageSrcs| == 0 ==> r == ""
    ensures |p.imageSrcs| > 0 && p.imageSrcs[0].Some? ==> r == p.imageSrcs[0].value
    ensures |p.imageSrcs| > 0 && p.imageSrcs[0].None? ==> r == ""
  {
    if |p.imageSrcs| > 0 then OrText(p.imageSrcs[0], "") else ""
  }

  /** The body text, or the title when there is none, stripped of tags. */
  function Description(p: Product): (r: string)
    ensures TagFree(r) && |r| <= DescriptionLimit
    ensures p.bodyHtml.Some? && p.bodyHtml.value != "" ==> r == StripHtml(p.bodyHtml)
    ensures (p.bodyHtml.None? || p.bodyHtml.value == "") ==> r == StripHtml(Some(p.title))
  {
    StripHtml(Some(OrText(p.bodyHtml, p.title)))
  }

  /** A product as a catalog item: the first variant gives price, stock and
      inventory, the first image the image link. */
  function FormatProduct(p: Product, u: SyncUser): (r: FeedItem)
    ensures r.id == FeedId(p.id) && r.name == p.title && r.condition == "new"
    ensures r.availability == "in stock" <==>
      |p.variants| > 0 && p.variants[0].inventory.Some? && p.variants[0].inventory.value > 0
    ensures r.availability != "in stock" ==> r.availability == "out of stock"
    ensures r.link == "https://" + u.shopDomain + "/products/" + p.handle
    ensures TagFree(r.description) && |r.description| <= DescriptionLimit
    ensures r.googleCategory == MapProductType(p.productType)
    ensures r.customLabel0 == OrText(p.productType, DefaultCategory)
    ensures ',' !in r.customLabel1
    ensures r.brand == OrText(p.vendor, OrText(u.shopName, u.shopDomain))
    ensures |p.variants| == 0 ==> r.inventory == 0 && r.availability == "out of stock"
    ensures |p.imageSrcs| == 0 ==> r.imageLink == ""
    ensures r.description == Description(p) && r.imageLink == ImageLink(p)
    ensures r.inventory == Stock(p) && r.customLabel1 == FirstTag(p.tags)
    ensures r.price == (if |p.variants| > 0 then OrText(p.variants[0].price, "0") else "0") + " " + OrText(u.currency, "USD")
  {
    var stock := Stock(p);
    FeedItem(
      FeedId(p.id),
      p.title,
      Description(p),
      if stock > 0 then "in stock" else "out of stock",
      "new",
      PriceText(p, u),
      "https://" + u.shopDomain + "/products/" + p.handle,
      ImageLink(p),
      OrText(p.vendor, OrText(u.shopName, u.shopDomain)),
      MapProductType(p.productType),
      OrText(p.productType, DefaultCategory),
      FirstTag(p.tags),
      stock)
  }

  /** Reading a feed item back: its id names the product, its link ends in
      the product's handle, and its stock, availability and inventory agree
      with the first variant's count. */
  lemma FeedItemIdentifiesProduct(p: Product, q: Product, u: SyncUser)
    ensures FormatProduct(p, u).id == FormatProduct(q, u).id ==> p.id == q.id
    ensures var prefix := "https://" + u.shopDomain + "/products/";
      FormatProduct(p, u).link[|prefix|..] == p.handle
    ensures |p.variants| > 0 && p.variants[0].inventory.Some? && p.variants[0].inventory.value > 0 ==>
      FormatProduct(p, u).availability == "in stock" && FormatProduct(p, u).inventory == p.variants[0].inventory.value
  {
    FeedIdInjective(p.id, q.id);
  }

  // Batching

  const BatchSize: nat := 50

  function Concat<T>(xss: seq<seq<T>>): seq<T>
    decreases |xss|
  {
    if |xss| == 0 then [] else xss[0] + Concat(xss[1..])
  }

  /** Consecutive slices of at most `n`, every one but the last full, which
      put back together give the input. */
  function Chunks<T>(xs: seq<T>, n: nat): (r: seq<seq<T>>)
    requires n > 0
    ensures forall i :: 0 <= i < |r| ==> 0 < |r[i]| <= n
    ensures forall i :: 0 <= i < |r| - 1 ==> |r[i]| == n
    ensures Concat(r) == xs
    decreases |xs|
  {
    if |xs| == 0 then []
    else if |xs| <= n then
      assert Concat([xs]) == xs + Concat<T>([]);
      [xs]
    else
      var rest := Chunks(xs[n..], n);
      assert ([xs[..n]] + rest)[1..] == rest;
      assert xs == xs[..n] + xs[n..];
      [xs[..n]] + rest
  }

  /** Fifty products make one batch, fifty-one make two. */
  lemma ChunkCounts<T>(xs: seq<T>)
    ensures |xs| == 0 ==> |Chunks(xs, BatchSize)| == 0
    ensures 0 < |xs| <= BatchSize ==> Chunks(xs, BatchSize) == [xs]
    ensures |xs| == BatchSize + 1 ==> |Chunks(xs, BatchSize)| == 2
  {
    if |xs| == BatchSize + 1 {
      assert |xs[BatchSize..]| == 1;
    }
  }

  // Batch results

  /** One entry of Facebook's batch answer. */
  datatype EntryReply = EntryReply(code: int, bodyId: Option<string>, errorMessage: Option<string>)

  datatype SyncResult = SyncResult(shopifyId: nat, facebookId: Option<string>, success: bool, error: Option<string>)

  const MissingProductError := "Cannot read properties of undefined (reading 'id')"

  /** The results of one batch. A thrown request gives one failure per
      product. Otherwise entry `i` is reported for product `i`, successful
      iff its code is 200; an answer longer than the batch reads past the
      products, throws, and also ends as one failure per product. */
  function SyncProductBatch(batch: seq<Product>, reply: Result<seq<EntryReply>>): (r: seq<SyncResult>)
    ensures reply.Failure? ==> r == AllFailed(batch, reply.error)
    ensures reply.Success? && |reply.value| <= |batch| ==> |r| == |reply.value|
    ensures reply.Success? && |reply.value| <= |batch| ==>
      forall i :: 0 <= i < |r| ==> (r[i].shopifyId == batch[i].id
        && (r[i].success <==> reply.value[i].code == 200)
        && r[i].facebookId == reply.value[i].bodyId)
    ensures reply.Success? && |reply.value| > |batch| ==> r == AllFailed(batch, MissingProductError)
  {
    match reply
    case Failure(e) => AllFailed(batch, e)
    case Success(rs) =>
      if |rs| > |batch| then AllFailed(batch, MissingProductError)
      else Mapped(batch, rs)
  }

  function Mapped(batch: seq<Product>, rs: seq<EntryReply>): (r: seq<SyncResult>)
    requires |rs| <= |batch|
    ensures |r| == |rs|
    ensures forall i :: 0 <= i < |r| ==>
      r[i] == SyncResult(batch[i].id, rs[i].bodyId, rs[i].code == 200, rs[i].errorMessage)
  {
    seq(|rs|, i requires 0 <= i < |rs| =>
      SyncResult(batch[i].id, rs[i].bodyId, rs[i].code == 200, rs[i].errorMessage))
  }

  function AllFailed(batch: seq<Product>, e: string): (r: seq<SyncResult>)
    ensures |r| == |batch|
    ensures forall i :: 0 <= i < |r| ==> r[i] == SyncResult(batch[i].id, None, false, Some(e))
  {
    seq(|batch|, i requires 0 <= i < |batch| => SyncResult(batch[i].id, None, false, Some(e)))
  }

  /** The ids a list of results reports, in order. */
  function ResultIds(rs: seq<SyncResult>): (r: seq<nat>)
    ensures |r| == |rs| && forall i :: 0 <= i < |rs| ==> r[i] == rs[i].shopifyId
  {
    seq(|rs|, i requires 0 <= i < |rs| => rs[i].shopifyId)
  }

  function ProductIds(ps: seq<Product>): (r: seq<nat>)
    ensures |r| == |ps| && forall i :: 0 <= i < |ps| ==> r[i] == ps[i].id
  {
    seq(|ps|, i requires 0 <= i < |ps| => ps[i].id)
  }

  /** A batch answer that has one entry per product, or none at all. */
  predicate WellSized(batch: seq<Product>, reply: Result<seq<EntryReply>>) {
    reply.Failure? || |reply.value| == |batch|
  }

  /** The batches one after another, results concatenated in batch order. */
  function SyncBatches(batches: seq<seq<Product>>, reply: seq<Product> -> Result<seq<EntryReply>>)
    : seq<SyncResult>
    decreases |batches|
  {
    if |batches| == 0 then []
    else SyncProductBatch(batches[0], reply(batches[0])) + SyncBatches(batches[1..], reply)
  }

  function SyncProductsToCatalog(products: seq<Product>, reply: seq<Product> -> Result<seq<EntryReply>>)
    : seq<SyncResult>
  {
    SyncBatches(Chunks(products, BatchSize), reply)
  }

  lemma ProductIdsConcat(a: seq<Product>, b: seq<Product>)
    ensures ProductIds(a + b) == ProductIds(a) + ProductIds(b)
  {
  }

  /** When every batch answer is a thrown request or one entry per product,
      the results report every product exactly once, in the input order. */
  lemma {:induction false} SyncBatchesReportsAll(batches: seq<seq<Product>>,
                                                reply: seq<Product> -> Result<seq<EntryReply>>)
    requires forall i :: 0 <= i < |batches| ==> WellSized(batches[i], reply(batches[i]))
    ensures ResultIds(SyncBatches(batches, reply)) == ProductIds(Concat(batches))
    decreases |batches|
  {
    if |batches| > 0 {
      var b := batches[0];
      assert WellSized(b, reply(b));
      SyncBatchesReportsAll(batches[1..], reply);
      var head := SyncProductBatch(b, reply(b));
      var tail := SyncBatches(batches[1..], reply);
      assert ResultIds(head + tail) == ResultIds(head) + ResultIds(tail);
      assert ResultIds(head) == ProductIds(b);
      ProductIdsConcat(b, Concat(batches[1..]));
    }
  }

  lemma SyncReportsEveryProduct(products: seq<Product>, reply: seq<Product> -> Result<seq<EntryReply>>)
    requires forall b :: WellSized(b, reply(b))
    ensures ResultIds(SyncProductsToCatalog(products, reply)) == ProductIds(products)
  {
    var bs := Chunks(products, BatchSize);
    SyncBatchesReportsAll(bs, reply);
  }

  // Catalog and the whole sync

  function CatalogName(u: SyncUser): string {
    OrText(u.shopName, u.shopDomain) + " - Product Catalog"
  }

  /** The stored catalog when there is one (no request is made); otherwise
      the one created, whose failure is reported. */
  function EnsureFacebookCatalog(u: SyncUser, created: Result<string>): (r: Result<string>)
    ensures u.facebookCatalogId.Some? && u.facebookCatalogId.value != "" ==>
      r == Success(u.facebookCatalogId.value)
    ensures (u.facebookCatalogId.None? || u.facebookCatalogId.value == "") ==>
      (r.Success? <==> created.Success?) && (r.Success? ==> r.value == created.value)
  {
    if u.facebookCatalogId.Some? && u.facebookCatalogId.value != "" then Success(u.facebookCatalogId.value)
    else if created.Success? then created
    else Failure("Failed to create Facebook catalog")
  }

  datatype SyncSummary = SyncSummary(catalogId: string, syncedProducts: nat, results: seq<SyncResult>, user: SyncUser)

  /** The full sync: token check, fetch and active filter, catalog, batches,
      then the user is marked onboarded with the catalog id. `fetched`,
      `created`, `reply` and `save` are the outcomes of the remote and
      database steps; a failing save's own error is rethrown. */
  function SyncProductsToFacebook(user: Option<SyncUser>, fetched: Result<seq<Product>>, created: Result<string>,
                                  reply: seq<Product> -> Result<seq<EntryReply>>, save: Result<()>)
    : (r: Result<SyncSummary>)
    ensures (user.None? || OrText(user.value.facebookAccessToken, "") == ""
             || OrText(user.value.shopifyAccessToken, "") == "") ==>
      r == Failure("Missing required authentication tokens")
    ensures r.Success? ==> fetched.Success? && save.Success?
    ensures r.Success? ==> r.value.syncedProducts == |r.value.results|
    ensures r.Success? ==> r.value.user == user.value.(hasCompletedOnboarding := true,
                                                      facebookCatalogId := Some(r.value.catalogId))
    ensures r.Success? ==> r.value.results == SyncProductsToCatalog(ActiveOnly(fetched.value), reply)
    ensures user.Some? && OrText(user.value.facebookAccessToken, "") != "" && OrText(user.value.shopifyAccessToken, "") != ""
      ==> (fetched.Failure? ==> r == Failure("Failed to fetch products from Shopify"))
          && (fetched.Success? && EnsureFacebookCatalog(user.value, created).Failure?
              ==> r == Failure(EnsureFacebookCatalog(user.value, created).error))
          && (fetched.Success? && EnsureFacebookCatalog(user.value, created).Success? && save.Failure?
              ==> r == Failure(save.error))
          && (fetched.Success? && EnsureFacebookCatalog(user.value, created).Success? && save.Success?
              ==> r.Success? && r.value.catalogId == EnsureFacebookCatalog(user.value, created).value)
  {
    if user.None? || OrText(user.value.facebookAccessToken, "") == ""
       || OrText(user.value.shopifyAccessToken, "") == "" then
      Failure("Missing required authentication tokens")
    else if fetched.Failure? then Failure("Failed to fetch products from Shopify")
    else
      var u := user.value;
      match EnsureFacebookCatalog(u, created)
      case Failure(e) => Failure(e)
      case Success(catalogId) =>
        var results := SyncProductsToCatalog(ActiveOnly(fetched.value), reply);
        if save.Failure? then Failure(save.error)
        else Success(SyncSummary(catalogId, |results|, results,
                                 u.(hasCompletedOnboarding := true, facebookCatalogId := Some(catalogId))))
  }

  /** A created catalog is kept: once its id is stored, the next lookup
      returns it again whatever a new creation would answer. */
  lemma CatalogReused(u: SyncUser, first: Result<string>, later: Result<string>)
    requires EnsureFacebookCatalog(u, first).Success? && EnsureFacebookCatalog(u, first).value != ""
    ensures var id := EnsureFacebookCatalog(u, first).value;
      EnsureFacebookCatalog(u.(facebookCatalogId := Some(id)), later) == Success(id)
  {
  }

  /** A second sync after a successful one reuses the catalog the first
      stored, and reports the same results for the same products. */
  lemma ResyncKeepsCatalog(user: SyncUser, fetched: Result<seq<Product>>, created: Result<string>,
                           created2: Result<string>, reply: seq<Product> -> Result<seq<EntryReply>>)
    requires OrText(user.facebookAccessToken, "") != "" && OrText(user.shopifyAccessToken, "") != ""
    requires fetched.Success?
    requires EnsureFacebookCatalog(user, created).Success? && EnsureFacebookCatalog(user, created).value != ""
    ensures SyncProductsToFacebook(Some(user), fetched, created, reply, Success(())).Success?
    ensures var first := SyncProductsToFacebook(Some(user), fetched, created, reply, Success(()));
      var again := SyncProductsToFacebook(Some(first.value.user), fetched, created2, reply, Success(()));
      first.Success? && again.Success? && again.value.catalogId == first.value.catalogId
      && again.value.results == first.value.results && again.value.user == first.value.user
  {
  }
}

=== FILE: ranking.dfy ===
/** Ranking by a numeric key, highest first, as the source does with
    `list.sort((a, b) => key(b) - key(a)).slice(0, limit)`. JavaScript's sort
    is stable, so elements with equal keys keep their input order; the
    insertion below puts an element before every later one with an equal
    key. */
module Ranking {

  /** Keys never increase along `xs`. */
  predicate SortedDesc<T>(xs: seq<T>, key: T -> real) {
    forall i, j :: 0 <= i < j < |xs| ==> key(xs[i]) >= key(xs[j])
  }

  /** Prepending a key no smaller than the current head keeps the order. */
  lemma SortedCons<T>(h: T, t: seq<T>, key: T -> real)
    requires SortedDesc(t, key)
    requires |t| > 0 ==> key(h) >= key(t[0])
    ensures SortedDesc([h] + t, key)
  {
    forall i, j | 0 <= i < j < |[h] + t| ensures key(([h] + t)[i]) >= key(([h] + t)[j]) {
      if i == 0 {
        assert ([h] + t)[j] == t[j - 1];
        assert key(t[0]) >= key(t[j - 1]) || j - 1 == 0;
      } else {
        assert ([h] + t)[i] == t[i - 1] && ([h] + t)[j] == t[j - 1];
      }
    }
  }

  /** Puts `x` in front of the first element whose key is not above its own. */
  function Insert<T(==)>(x: T, xs: seq<T>, key: T -> real): (r: seq<T>)
    requires SortedDesc(xs, key)
    ensures |r| == |xs| + 1
    ensures multiset(r) == multiset(xs) + multiset{x}
    ensures SortedDesc(r, key)
    ensures r[0] == x || (|xs| > 0 && r[0] == xs[0])
    decreases |xs|
  {
    if |xs| == 0 || key(xs[0]) <= key(x) then
      SortedCons(x, xs, key);
      [x] + xs
    else
      assert SortedDesc(xs[1..], key) by {
        forall i, j | 0 <= i < j < |xs[1..]| ensures key(xs[1..][i]) >= key(xs[1..][j]) {
          assert xs[1..][i] == xs[i + 1] && xs[1..][j] == xs[j + 1];
        }
      }
      var rest := Insert(x, xs[1..], key);
      assert |xs| > 1 ==> key(xs[0]) >= key(xs[1]);
      SortedCons(xs[0], rest, key);
      assert xs == [xs[0]] + xs[1..];
      [xs[0]] + rest
  }

  /** A stable sort, highest key first. */
  function SortDesc<T(==)>(xs: seq<T>, key: T -> real): (r: seq<T>)
    ensures |r| == |xs|
    ensures multiset(r) == multiset(xs)
    ensures SortedDesc(r, key)
    decreases |xs|
  {
    if |xs| == 0 then []
    else
      assert xs == [xs[0]] + xs[1..];
      Insert(xs[0], SortDesc(xs[1..], key), key)
  }

  function Min(a: nat, b: nat): nat {
    if a <= b then a else b
  }

  /** Cutting a ranking after `n` elements: the head is still ranked and
      every element of the tail ranks no higher than any of the head. */
  lemma CutRanking<T>(s: seq<T>, key: T -> real, n: nat)
    requires SortedDesc(s, key) && n <= |s|
    ensures SortedDesc(s[..n], key)
    ensures multiset(s[..n]) <= multiset(s)
    ensures forall y, z :: y in s[..n] && z in multiset(s) - multiset(s[..n]) ==> key(y) >= key(z)
  {
    assert s == s[..n] + s[n..];
    assert multiset(s) == multiset(s[..n]) + multiset(s[n..]);
    assert multiset(s) - multiset(s[..n]) == multiset(s[n..]);
    forall y, z | y in s[..n] && z in multiset(s) - multiset(s[..n]) ensures key(y) >= key(z) {
      assert z in s[n..];
      var i :| 0 <= i < n && s[..n][i] == y;
      var j :| 0 <= j < |s| - n && s[n..][j] == z;
      assert s[i] == y && s[n + j] == z;
    }
    assert SortedDesc(s[..n], key) by {
      forall i, j | 0 <= i < j < n ensures key(s[..n][i]) >= key(s[..n][j]) {
        assert s[..n][i] == s[i] && s[..n][j] == s[j];
      }
    }
  }

  /** The first `limit` of the ranking: as many as there are, at most
      `limit`, highest first, and no element left out ranks above one kept. */
  function Top<T(==)>(xs: seq<T>, key: T -> real, limit: nat): (r: seq<T>)
    ensures |r| == Min(|xs|, limit)
    ensures SortedDesc(r, key)
    ensures multiset(r) <= multiset(xs)
    ensures forall y, z :: y in r && z in multiset(xs) - multiset(r) ==> key(y) >= key(z)
  {
    var s := SortDesc(xs, key);
    CutRanking(s, key, Min(|xs|, limit));
    s[..Min(|xs|, limit)]
  }
}

=== FILE: rules.dfy ===
/** The optimizer's four decision rules. Each reads the aggregate of a
    campaign's recent samples and proposes at most one change. */
module Rules {
  import opened Wrappers
  import opened Schema
  import opened Numeric
  import opened Metrics

  const IncreaseRoas: real := 4.0
  const IncreaseMinDays: nat := 3
  const DecreaseRoas: real := 1.5
  const DecreaseMinDays: nat := 2
  const MaxIncrease: real := 0.5
  const MaxDecrease: real := 0.3
  const CpcThreshold: real := 3.0
  const CtrThreshold: real := 1.0
  const ConversionRateThreshold: real := 1.0
  const CreativeShare: real := 0.8
  const MinImpressions: int := 1000

  datatype Direction = Expand | Narrow

  datatype Change =
    | BudgetChange(oldBudget: real, newBudget: real)
    | BiddingChange(oldStrategy: BidStrategy, newStrategy: BidStrategy)
    | CreativeChange(activeCreatives: nat, pauseIds: seq<int>, generateNew: bool)
    | TargetingChange(direction: Direction)

  /** A proposed optimization; the human-readable reason text is not modelled. */
  datatype Proposal = Proposal(change: Change, confidence: real) {
    function Kind(): OptimizationKind {
      match change
      case BudgetChange(_, _) => BudgetKind
      case BiddingChange(_, _) => BiddingKind
      case CreativeChange(_, _, _) => CreativeKind
      case TargetingChange(_) => TargetingKind
    }
  }

  // Budget

  predicate IncreaseFires(m: Snapshot) {
    m.roas >= IncreaseRoas && m.daysRunning >= IncreaseMinDays
  }

  /** The decrease branch is an `else if`: it only fires when the increase does not. */
  predicate DecreaseFires(m: Snapshot) {
    !IncreaseFires(m) && m.roas <= DecreaseRoas && m.daysRunning >= DecreaseMinDays
  }

  /** The budget before rounding: raised by 10% per ROAS point above 4 (at
      most 50%), or lowered by 10% per point below 1.5 (at most 30%). */
  function BudgetTarget(budget: real, m: Snapshot): (t: real)
    ensures budget >= 0.0 ==> 0.7 * budget <= t <= 1.5 * budget
    ensures IncreaseFires(m) && budget >= 0.0 ==> t >= budget
    ensures DecreaseFires(m) && budget >= 0.0 ==> t <= budget
    ensures !IncreaseFires(m) && !DecreaseFires(m) ==> t == budget
    ensures IncreaseFires(m) && m.roas == IncreaseRoas ==> t == budget
    ensures IncreaseFires(m) && m.roas <= 9.0 ==> t == budget * (1.0 + (m.roas - IncreaseRoas) * 0.1)
    ensures IncreaseFires(m) && m.roas >= 9.0 ==> t == budget * 1.5
    ensures DecreaseFires(m) && m.roas >= -1.5 ==> t == budget * (1.0 - (DecreaseRoas - m.roas) * 0.1)
    ensures DecreaseFires(m) && m.roas <= -1.5 ==> t == budget * 0.7
  {
    if IncreaseFires(m) then
      var p := MinReal((m.roas - IncreaseRoas) * 0.1, MaxIncrease);
      assert 0.0 <= p <= 0.5;
      assert budget >= 0.0 ==> budget * p <= budget * 0.5;
      budget * (1.0 + p)
    else if DecreaseFires(m) then
      var p := MinReal((DecreaseRoas - m.roas) * 0.1, MaxDecrease);
      assert 0.0 <= p <= 0.3;
      assert budget >= 0.0 ==> budget * p <= budget * 0.3;
      budget * (1.0 - p)
    else budget
  }

  /** The budget rule: propose the rounded target unless it equals the
      current budget; confidence is the analysis score or 75. */
  function BudgetRule(budget: real, m: Snapshot, score: Option<real>): (r: Option<Proposal>)
    ensures r.Some? ==> r.value.change.BudgetChange? && r.value.change.oldBudget == budget
    ensures r.Some? ==> r.value.change.newBudget != budget && IsCents(r.value.change.newBudget)
    ensures r.Some? ==> r.value.confidence == OrReal(score, 75.0)
    ensures r.Some? && budget >= 0.0 ==>
      0.7 * budget - 0.005 < r.value.change.newBudget <= 1.5 * budget + 0.005
    ensures r.Some? && IsCents(budget) && budget >= 0.0 && IncreaseFires(m) ==>
      r.value.change.newBudget > budget
    ensures r.Some? && IsCents(budget) && budget >= 0.0 && DecreaseFires(m) ==>
      r.value.change.newBudget < budget
    ensures IsCents(budget) && !IncreaseFires(m) && !DecreaseFires(m) ==> r.None?
    ensures IsCents(budget) && IncreaseFires(m) && m.roas == IncreaseRoas ==> r.None?
    ensures r.None? <==> RoundCents(BudgetTarget(budget, m)) == budget
    ensures r.Some? ==> r.value.change.newBudget == RoundCents(BudgetTarget(budget, m))
  {
    var t := BudgetTarget(budget, m);
    var nb := RoundCents(t);
    RoundCentsFixesCents(budget);
    RoundCentsMonotone(t, budget);
    RoundCentsMonotone(budget, t);
    if nb != budget then Some(Proposal(BudgetChange(budget, nb), OrReal(score, 75.0))) else None
  }

  /** The signed budget change as a fraction, written piece by piece: 10% per
      ROAS point above 4 up to 50% at a ROAS of 9, or 10% per point below 1.5
      down to 30% at a ROAS of -1.5; nothing when neither branch fires. */
  function ChangeFraction(m: Snapshot): real {
    if IncreaseFires(m) then (if m.roas >= 9.0 then 0.5 else (m.roas - 4.0) * 0.1)
    else if DecreaseFires(m) then (if m.roas <= -1.5 then -0.3 else (m.roas - 1.5) * 0.1)
    else 0.0
  }

  /** The budget rule proposes the scaled budget rounded to cents, within
      half a cent of the exact value, and nothing when rounding gives the
      budget back. */
  lemma BudgetRuleFollowsFraction(budget: real, m: Snapshot, score: Option<real>)
    ensures var exact := budget * (1.0 + ChangeFraction(m));
      (BudgetRule(budget, m, score).None? <==> RoundCents(exact) == budget)
      && (BudgetRule(budget, m, score).Some? ==>
            BudgetRule(budget, m, score).value.change.newBudget == RoundCents(exact)
            && exact - 0.005 < BudgetRule(budget, m, score).value.change.newBudget <= exact + 0.005)
  {
    assert BudgetTarget(budget, m) == budget * (1.0 + ChangeFraction(m));
  }

  /** A ROAS of 5 after 3 days raises a budget of 100 to 110. */
  lemma BudgetRaiseExample(m: Snapshot)
    requires m.roas == 5.0 && m.daysRunning == 3
    ensures BudgetRule(100.0, m, None) == Some(Proposal(BudgetChange(100.0, 110.0), 75.0))
  {
    assert BudgetTarget(100.0, m) == 110.0;
    RoundCentsOfCents(11000);
  }

  /** A ROAS of 0.5 after 2 days lowers a budget of 100 to 90. */
  lemma BudgetLowerExample(m: Snapshot)
    requires m.roas == 0.5 && m.daysRunning == 2
    ensures BudgetRule(100.0, m, Some(0.0)) == Some(Proposal(BudgetChange(100.0, 90.0), 75.0))
  {
    assert BudgetTarget(100.0, m) == 90.0;
    RoundCentsOfCents(9000);
  }

  // Bidding

  /** The strategy the bidding rule picks: first match wins. */
  function BiddingChoice(current: BidStrategy, m: Snapshot): BidStrategy {
    if m.cpc > CpcThreshold && current == LowestCostWithoutCap then LowestCostWithBidCap
    else if m.conversionRate < ConversionRateThreshold && m.ctr > CtrThreshold then TargetCost
    else current
  }

  function BiddingRule(current: BidStrategy, m: Snapshot, score: Option<real>): (r: Option<Proposal>)
    ensures r.Some? <==>
      (m.cpc > CpcThreshold && current == LowestCostWithoutCap)
      || (m.conversionRate < ConversionRateThreshold && m.ctr > CtrThreshold && current != TargetCost)
    ensures r.Some? ==> r.value.change.BiddingChange? && r.value.change.oldStrategy == current
    ensures r.Some? ==> r.value.change.newStrategy != current
    ensures r.Some? ==> r.value.change.newStrategy != LowestCostWithoutCap
    ensures r.Some? && m.cpc > CpcThreshold && current == LowestCostWithoutCap ==>
      r.value.change.newStrategy == LowestCostWithBidCap
    ensures r.Some? && !(m.cpc > CpcThreshold && current == LowestCostWithoutCap) ==>
      r.value.change.newStrategy == TargetCost
    ensures r.Some? ==> r.value.confidence == OrReal(score, 70.0)
  {
    var s := BiddingChoice(current, m);
    if s != current then Some(Proposal(BiddingChange(current, s), OrReal(score, 70.0))) else None
  }

  /** The strategy after acting on the bidding rule once. */
  function BiddingStep(current: BidStrategy, m: Snapshot): BidStrategy {
    match BiddingRule(current, m, None)
    case Some(p) => p.change.newStrategy
    case None => current
  }

  /** Under unchanged metrics the bidding rule settles after at most two
      switches: without-cap, then bid-cap, then target-cost. */
  lemma BiddingSettles(current: BidStrategy, m: Snapshot)
    ensures var s2 := BiddingStep(BiddingStep(current, m), m);
      BiddingRule(s2, m, None).None?
  {
    var s1 := BiddingStep(current, m);
    if BiddingRule(s1, m, None).Some? {
      assert s1 != LowestCostWithoutCap || current == LowestCostWithoutCap;
    }
  }

  // Creatives

  /** A creative with its recent performance samples. */
  datatype Creative = Creative(id: int, samples: seq<Sample>)

  /** What the creative rule reads of one creative's aggregate. */
  datatype Score = Score(id: int, roas: real, impressions: int)

  /** A creative's score: its id, the ROAS of its summed samples (0 without
      spend) and their summed impressions. */
  function ScoreOf(c: Creative): (s: Score)
    ensures s.id == c.id
    ensures s.impressions == Sum(c.samples).impressions
    ensures Sum(c.samples).spend > 0.0 ==> s.roas * Sum(c.samples).spend == Sum(c.samples).revenue
    ensures Sum(c.samples).spend <= 0.0 ==> s.roas == 0.0
  {
    var m := Aggregate(c.samples);
    Score(c.id, m.roas, m.impressions)
  }

  function Scores(cs: seq<Creative>): (r: seq<Score>)
    ensures |r| == |cs| && forall i :: 0 <= i < |cs| ==> r[i] == ScoreOf(cs[i])
  {
    seq(|cs|, i requires 0 <= i < |cs| => ScoreOf(cs[i]))
  }

  /** The source's `reduce((sum, cp) => sum + cp.metrics.roas, 0)`. */
  function RoasSum(ss: seq<Score>): real
    decreases |ss|
  {
    if |ss| == 0 then 0.0 else RoasSum(ss[..|ss| - 1]) + ss[|ss| - 1].roas
  }

  /** 80% of the mean creative ROAS. */
  function CreativeThreshold(ss: seq<Score>): real
    requires |ss| > 0
  {
    RoasSum(ss) / |ss| as real * CreativeShare
  }

  predicate Underperforms(s: Score, threshold: real) {
    s.roas < threshold && s.impressions > MinImpressions
  }

  /** The ids of the underperforming creatives, in order. */
  function FlaggedIds(ss: seq<Score>, threshold: real): (ids: seq<int>)
    ensures |ids| <= |ss|
    ensures forall id :: id in ids <==>
      exists i :: 0 <= i < |ss| && ss[i].id == id && Underperforms(ss[i], threshold)
    decreases |ss|
  {
    if |ss| == 0 then []
    else
      var rest := FlaggedIds(ss[..|ss| - 1], threshold);
      var c := ss[|ss| - 1];
      assert forall i :: 0 <= i < |ss| - 1 ==> ss[..|ss| - 1][i] == ss[i];
      if Underperforms(c, threshold) then rest + [c.id] else rest
  }

  /** The decision over the creatives' scores: with at least two, pause every
      one whose ROAS is below 80% of the mean and that has more than 1000
      impressions, and ask for new ones; confidence is 80. */
  function DecideCreatives(ss: seq<Score>): (r: Option<Proposal>)
    ensures |ss| < 2 ==> r.None?
    ensures r.Some? <==>
      |ss| >= 2 && exists i :: 0 <= i < |ss| && Underperforms(ss[i], CreativeThreshold(ss))
    ensures r.Some? ==> r.value.confidence == 80.0 && r.value.change.CreativeChange?
    ensures r.Some? ==> r.value.change.activeCreatives == |ss| && r.value.change.generateNew
    ensures r.Some? ==> forall id :: id in r.value.change.pauseIds <==>
      exists i :: 0 <= i < |ss| && ss[i].id == id && Underperforms(ss[i], CreativeThreshold(ss))
  {
    if |ss| < 2 then None
    else
      var ids := FlaggedIds(ss, CreativeThreshold(ss));
      if |ids| > 0 then
        assert ids[0] in ids;
        Some(Proposal(CreativeChange(|ss|, ids, true), 80.0))
      else
        assert forall i :: 0 <= i < |ss| && Underperforms(ss[i], CreativeThreshold(ss)) ==>
          ss[i].id in ids;
        None
  }

  /** The creative rule over the campaign's creatives as fetched. */
  function CreativeRule(cs: seq<Creative>): (r: Option<Proposal>)
    ensures |cs| < 2 ==> r.None?
    ensures r.Some? ==> r.value.change.CreativeChange? && r.value.change.activeCreatives == |cs|
    ensures r.Some? ==> forall id :: id in r.value.change.pauseIds ==>
      exists i :: 0 <= i < |cs| && cs[i].id == id
  {
    var ss := Scores(cs);
    var r := DecideCreatives(ss);
    assert r.Some? ==> forall id :: id in r.value.change.pauseIds ==>
      exists i :: 0 <= i < |ss| && ss[i].id == id && Underperforms(ss[i], CreativeThreshold(ss));
    r
  }

  lemma {:induction false} RoasSumBelow(ss: seq<Score>, t: real)
    requires forall i :: 0 <= i < |ss| ==> ss[i].roas < t
    ensures |ss| > 0 ==> RoasSum(ss) < |ss| as real * t
    decreases |ss|
  {
    if |ss| > 1 {
      RoasSumBelow(ss[..|ss| - 1], t);
      assert (|ss| - 1) as real * t + t == |ss| as real * t;
    } else if |ss| == 1 {
      assert RoasSum(ss) == RoasSum(ss[..0]) + ss[0].roas;
    }
  }

  lemma {:induction false} RoasSumNonNegative(ss: seq<Score>)
    requires forall i :: 0 <= i < |ss| ==> ss[i].roas >= 0.0
    ensures RoasSum(ss) >= 0.0
    decreases |ss|
  {
    if |ss| > 0 {
      RoasSumNonNegative(ss[..|ss| - 1]);
    }
  }

  /** With non-negative ROAS values the rule never pauses every creative:
      no list of non-negative numbers lies entirely below 80% of its mean. */
  lemma NotAllFlagged(ss: seq<Score>)
    requires |ss| > 0
    requires forall i :: 0 <= i < |ss| ==> ss[i].roas >= 0.0
    ensures exists i :: 0 <= i < |ss| && !Underperforms(ss[i], CreativeThreshold(ss))
  {
    var total := RoasSum(ss);
    var n := |ss| as real;
    var t := CreativeThreshold(ss);
    RoasSumNonNegative(ss);
    assert n * (total / n) == total;
    assert n * t == total * CreativeShare;
    if forall i :: 0 <= i < |ss| ==> ss[i].roas < t {
      RoasSumBelow(ss, t);
    }
  }

  // Targeting

  /** The targeting rule: expand on high frequency with low CTR (confidence
      75), else narrow on good CTR with a low conversion rate (confidence 70). */
  function TargetingRule(m: Snapshot): (r: Option<Proposal>)
    ensures r.Some? <==>
      (m.frequency > 3.0 && m.ctr < 1.5) || (m.ctr > 2.0 && m.conversionRate < 1.5)
    ensures m.frequency > 3.0 && m.ctr < 1.5 ==> r == Some(Proposal(TargetingChange(Expand), 75.0))
    ensures !(m.frequency > 3.0 && m.ctr < 1.5) && m.ctr > 2.0 && m.conversionRate < 1.5 ==>
      r == Some(Proposal(TargetingChange(Narrow), 70.0))
    ensures r.Some? ==> r.value.change.TargetingChange?
  {
    if m.frequency > 3.0 && m.ctr < 1.5 then Some(Proposal(TargetingChange(Expand), 75.0))
    else if m.ctr > 2.0 && m.conversionRate < 1.5 then Some(Proposal(TargetingChange(Narrow), 70.0))
    else None
  }
}

=== FILE: schema.dfy ===
/** The persistent entities the optimizer reads and writes, with the value
    sets their columns declare. Timestamps are milliseconds since the epoch. */
module Schema {
  import opened Wrappers

  /** The text columns the User model defines. */
  const UserColumns: set<string> := {
    "shopDomain", "shopifyAccessToken", "facebookAccessToken", "facebookUserId",
    "facebookAdAccountId", "facebookCatalogId", "email", "shopName", "currency", "timezone" }

  datatype CampaignStatus = Active | Paused | Completed | Failed | Draft

  datatype Objective = Conversions | Traffic | Reach | BrandAwareness | VideoViews

  datatype BidStrategy = LowestCostWithoutCap | LowestCostWithBidCap | TargetCost

  /** The four kinds of change the optimizer proposes, plus the declared but
      unused `schedule`. */
  datatype OptimizationKind = BudgetKind | TargetingKind | CreativeKind | BiddingKind | ScheduleKind

  /** Optimization record status as the service writes it. The column's
      declared values are pending, applied and reverted; the service also
      writes `failed`, which is kept here as `FailedRecord`. */
  datatype RecordStatus = Pending | Applied | Reverted | FailedRecord

  datatype Severity = Low | Medium | High | Critical

  datatype AlertType = BudgetExceeded | LowPerformance | HighPerformance | OptimizationSuggestion | ErrorAlert

  /** A campaign's targeting object. Optional fields are absent or JavaScript
      values the source tests for truthiness; `others` holds every other key,
      which the optimizer copies unchanged. */
  datatype Targeting = Targeting(
    ageMin: Option<int>,
    ageMax: Option<int>,
    countries: Option<seq<string>>,
    genders: Option<seq<string>>,
    interests: Option<seq<string>>,
    behaviors: Option<seq<string>>,
    others: map<string, string>)

  datatype Campaign = Campaign(
    id: int,
    userId: int,
    status: CampaignStatus,
    facebookCampaignId: Option<string>,
    productId: string,
    productTitle: string,
    budget: real,
    bidStrategy: BidStrategy,
    objective: Objective,
    targeting: Targeting,
    lastOptimizedAt: Option<int>)

  /** One performance row; every numeric column may be null. */
  datatype Sample = Sample(
    spend: Option<real>,
    revenue: Option<real>,
    clicks: Option<int>,
    impressions: Option<int>,
    conversions: Option<int>,
    frequency: Option<real>,
    createdAt: int)

  /** A row of the optimization history. */
  datatype OptRecord = OptRecord(
    campaignId: int,
    kind: OptimizationKind,
    status: RecordStatus,
    appliedAt: Option<int>,
    confidence: real)

  datatype Alert = Alert(
    userId: int,
    campaignId: Option<int>,
    kind: AlertType,
    severity: Severity,
    actionRequired: bool)

  /** `x || d` for a nullable number: absent and zero are both falsy. */
  function OrInt(x: Option<int>, d: int): (r: int)
    ensures x.Some? && x.value != 0 ==> r == x.value
    ensures (x.None? || x.value == 0) ==> r == d
  {
    if x.Some? && x.value != 0 then x.value else d
  }

  /** `x || d` for a nullable real. */
  function OrReal(x: Option<real>, d: real): (r: real)
    ensures x.Some? && x.value != 0.0 ==> r == x.value
    ensures (x.None? || x.value == 0.0) ==> r == d
  {
    if x.Some? && x.value != 0.0 then x.value else d
  }

  /** `x || d` for a nullable string: absent and empty are both falsy. */
  function OrText(x: Option<string>, d: string): (r: string)
    ensures x.Some? && x.value != "" ==> r == x.value
    ensures (x.None? || x.value == "") ==> r == d
  {
    if x.Some? && x.value != "" then x.value else d
  }
}

=== FILE: shopify.dfy ===
/** The Shopify Admin API client: the token precondition every call shares,
    the connection check that reports instead of throwing, the product
    projections, and the per-product order analytics. Shopify's answers are
    inputs. */
module Shopify {
  import opened Wrappers
  import opened Numeric
  import opened Schema

  datatype ShopifyUser = ShopifyUser(shopDomain: string, shopifyAccessToken: Option<string>)

  predicate HasToken(user: Option<ShopifyUser>) {
    user.Some? && OrText(user.value.shopifyAccessToken, "") != ""
  }

  const NoToken := "Shopify access token not found"

  /** Every fetch method: without a user or token it throws before any
      request; otherwise Shopify's answer, with a failure's message prefixed
      by the method's prefix. */
  function Guarded<T>(user: Option<ShopifyUser>, reply: Result<T>, prefix: string): (r: Result<T>)
    ensures !HasToken(user) ==> r == Failure(prefix + ": " + NoToken)
    ensures HasToken(user) && reply.Success? ==> r == reply
    ensures HasToken(user) && reply.Failure? ==> r == Failure(prefix + ": " + reply.error)
  {
    if !HasToken(user) then Failure(prefix + ": " + NoToken)
    else match reply
      case Success(v) => Success(v)
      case Failure(e) => Failure(prefix + ": " + e)
  }

  datatype ShopInfo = ShopInfo(name: string, domain: string, email: string)

  datatype Connection = Connection(valid: bool, shop: Option<ShopInfo>, error: Option<string>)

  /** The connection check never throws: a missing token and a failed request
      are both reported as invalid. */
  function ValidateConnection(user: Option<ShopifyUser>, reply: Result<ShopInfo>): (r: Connection)
    ensures r.valid <==> HasToken(user) && reply.Success?
    ensures !HasToken(user) ==> r.error == Some("No access token found")
    ensures r.valid ==> r.shop == Some(reply.value) && r.error.None?
    ensures HasToken(user) && reply.Failure? ==> r.error == Some(reply.error)
  {
    if !HasToken(user) then Connection(false, None, Some("No access token found"))
    else match reply
      case Success(s) => Connection(true, Some(s), None)
      case Failure(e) => Connection(false, None, Some(e))
  }

  /** Validation agrees with the shared guard: it is valid exactly when the
      guarded fetch of the same answer succeeds. */
  lemma ValidateAgreesWithGuard(user: Option<ShopifyUser>, reply: Result<ShopInfo>)
    ensures ValidateConnection(user, reply).valid <==> Guarded(user, reply, "Failed to fetch shop information").Success?
  {
  }

  // Product projections

  datatype RawImage = RawImage(id: int, src: string, alt: Option<string>, position: int)

  datatype RawVariant = RawVariant(
    id: int, title: string, price: string, compareAtPrice: Option<string>, sku: Option<string>,
    inventory: int, weight: real)

  datatype RawProduct = RawProduct(
    id: int, title: string, handle: string, bodyHtml: Option<string>, vendor: string,
    productType: string, tags: string, status: string,
    images: seq<RawImage>, variants: seq<RawVariant>)

  datatype Image = Image(id: int, src: string, alt: Option<string>)

  datatype ListedVariant = ListedVariant(
    id: int, title: string, price: string, compareAtPrice: Option<string>, sku: Option<string>, inventory: int)

  datatype ListedProduct = ListedProduct(
    id: int, title: string, handle: string, bodyHtml: Option<string>, vendor: string,
    productType: string, tags: string, status: string, images: seq<Image>, variants: seq<ListedVariant>)

  datatype SearchVariant = SearchVariant(id: int, title: string, price: string, inventory: int)

  datatype SearchHit = SearchHit(
    id: int, title: string, handle: string, productType: string, vendor: string, tags: string,
    images: seq<RawImage>, variants: seq<SearchVariant>)

  function ImageOf(i: RawImage): Image {
    Image(i.id, i.src, i.alt)
  }

  function ListedVariantOf(v: RawVariant): ListedVariant {
    ListedVariant(v.id, v.title, v.price, v.compareAtPrice, v.sku, v.inventory)
  }

  /** The listing's projection of one product: every image and variant, in
      order. */
  function ListProduct(p: RawProduct): (r: ListedProduct)
    ensures r.id == p.id && r.title == p.title && r.handle == p.handle && r.status == p.status
    ensures |r.images| == |p.images| && forall i :: 0 <= i < |p.images| ==> r.images[i] == ImageOf(p.images[i])
    ensures |r.variants| == |p.variants|
    ensures forall i :: 0 <= i < |p.variants| ==> r.variants[i] == ListedVariantOf(p.variants[i])
  {
    ListedProduct(p.id, p.title, p.handle, p.bodyHtml, p.vendor, p.productType, p.tags, p.status,
      seq(|p.images|, i requires 0 <= i < |p.images| => ImageOf(p.images[i])),
      seq(|p.variants|, i requires 0 <= i < |p.variants| => ListedVariantOf(p.variants[i])))
  }

  /** A search hit keeps at most the first image. */
  function SearchHitOf(p: RawProduct): (r: SearchHit)
    ensures r.id == p.id && r.title == p.title && r.handle == p.handle
    ensures |r.images| <= 1
    ensures |p.images| > 0 ==> r.images == [p.images[0]]
    ensures |p.images| == 0 ==> r.images == []
    ensures |r.variants| == |p.variants|
    ensures forall i :: 0 <= i < |p.variants| ==> (r.variants[i].id == p.variants[i].id
      && r.variants[i].price == p.variants[i].price && r.variants[i].inventory == p.variants[i].inventory)
  {
    SearchHit(p.id, p.title, p.handle, p.productType, p.vendor, p.tags,
      if |p.images| == 0 then [] else p.images[..1],
      seq(|p.variants|, i requires 0 <= i < |p.variants| =>
        SearchVariant(p.variants[i].id, p.variants[i].title, p.variants[i].price, p.variants[i].inventory)))
  }

  /** The product list: one projection per product, same order. */
  function ListProducts(ps: seq<RawProduct>): (r: seq<ListedProduct>)
    ensures |r| == |ps|
    ensures forall i :: 0 <= i < |ps| ==> r[i] == ListProduct(ps[i])
  {
    seq(|ps|, i requires 0 <= i < |ps| => ListProduct(ps[i]))
  }

  function SearchProducts(ps: seq<RawProduct>): (r: seq<SearchHit>)
    ensures |r| == |ps|
    ensures forall i :: 0 <= i < |ps| ==> r[i] == SearchHitOf(ps[i])
  {
    seq(|ps|, i requires 0 <= i < |ps| => SearchHitOf(ps[i]))
  }

  /** Listing and search agree on ids, titles and the first image. */
  lemma SearchAgreesWithListing(ps: seq<RawProduct>, i: int)
    requires 0 <= i < |ps|
    ensures SearchProducts(ps)[i].id == ListProducts(ps)[i].id
    ensures |ps[i].images| > 0 ==>
      ImageOf(SearchProducts(ps)[i].images[0]) == ListProducts(ps)[i].images[0]
  {
  }

  // Product analytics

  /** A paid order's line item; ids are compared as their decimal text. */
  datatype LineItem = LineItem(productId: string, price: real, quantity: int)

  datatype Order = Order(id: int, lineItems: seq<LineItem>)

  predicate HasProduct(o: Order, pid: string) {
    exists i :: 0 <= i < |o.lineItems| && o.lineItems[i].productId == pid
  }

  /** The orders with a line item for the product, in order. */
  function ProductOrders(os: seq<Order>, pid: string): (r: seq<Order>)
    ensures |r| <= |os|
    ensures forall o :: o in r <==> o in os && HasProduct(o, pid)
    decreases |os|
  {
    if |os| == 0 then []
    else if HasProduct(os[0], pid) then [os[0]] + ProductOrders(os[1..], pid)
    else ProductOrders(os[1..], pid)
  }

  /** An order's revenue and units for the product, over matching items only. */
  function ItemsRevenue(items: seq<LineItem>, pid: string): real
    decreases |items|
  {
    if |items| == 0 then 0.0
    else
      var own := if items[0].productId == pid then items[0].price * items[0].quantity as real else 0.0;
      own + ItemsRevenue(items[1..], pid)
  }

  function ItemsQuantity(items: seq<LineItem>, pid: string): int
    decreases |items|
  {
    if |items| == 0 then 0
    else (if items[0].productId == pid then items[0].quantity else 0) + ItemsQuantity(items[1..], pid)
  }

  function Revenue(os: seq<Order>, pid: string): real
    decreases |os|
  {
    if |os| == 0 then 0.0 else ItemsRevenue(os[0].lineItems, pid) + Revenue(os[1..], pid)
  }

  function Quantity(os: seq<Order>, pid: string): int
    decreases |os|
  {
    if |os| == 0 then 0 else ItemsQuantity(os[0].lineItems, pid) + Quantity(os[1..], pid)
  }

  /** An order without the product contributes nothing. */
  lemma {:induction false} NoMatchContributesNothing(items: seq<LineItem>, pid: string)
    requires forall i :: 0 <= i < |items| ==> items[i].productId != pid
    ensures ItemsRevenue(items, pid) == 0.0 && ItemsQuantity(items, pid) == 0
    decreases |items|
  {
    if |items| > 0 {
      NoMatchContributesNothing(items[1..], pid);
    }
  }

  /** Filtering the orders first changes neither total: they equal the sums
      over every order's matching items. */
  lemma {:induction false} FilterKeepsTotals(os: seq<Order>, pid: string)
    ensures Revenue(ProductOrders(os, pid), pid) == Revenue(os, pid)
    ensures Quantity(ProductOrders(os, pid), pid) == Quantity(os, pid)
    decreases |os|
  {
    if |os| > 0 {
      FilterKeepsTotals(os[1..], pid);
      if HasProduct(os[0], pid) {
        var r := [os[0]] + ProductOrders(os[1..], pid);
        assert r[0] == os[0] && r[1..] == ProductOrders(os[1..], pid);
      } else {
        NoMatchContributesNothing(os[0].lineItems, pid);
      }
    }
  }

  const DayMs: int := 24 * 60 * 60 * 1000
  const RecentOrdersShown: nat := 10

  datatype ProductAnalytics = ProductAnalytics(
    productId: string,
    days: int,
    startDate: int,
    endDate: int,
    totalRevenue: real,
    totalQuantitySold: int,
    totalOrders: nat,
    averageOrderValue: real,
    orders: seq<Order>)

  /** Analytics over the paid orders in the window: the matching orders,
      revenue and units from matching items only, the order count, the mean
      order value ('0.00' without orders) and the first ten orders. */
  function ProductAnalyticsOf(os: seq<Order>, pid: string, days: int, now: int): (r: ProductAnalytics)
    ensures r.endDate == now && r.startDate == now - days * DayMs
    ensures r.totalOrders == |ProductOrders(os, pid)|
    ensures r.totalRevenue == RoundCents(Revenue(os, pid))
    ensures r.totalQuantitySold == Quantity(os, pid)
    ensures r.totalOrders == 0 ==> r.averageOrderValue == 0.0
    ensures r.totalOrders > 0 ==> r.averageOrderValue == RoundCents(Revenue(os, pid) / r.totalOrders as real)
    ensures |r.orders| <= RecentOrdersShown
    ensures forall o :: o in r.orders ==> o in os && HasProduct(o, pid)
    ensures r.orders == FirstOrders(ProductOrders(os, pid))
  {
    var matching := ProductOrders(os, pid);
    FilterKeepsTotals(os, pid);
    var revenue := Revenue(matching, pid);
    ProductAnalytics(pid, days, now - days * DayMs, now,
      RoundCents(revenue), Quantity(matching, pid), |matching|,
      AverageOrderValue(revenue, |matching|), FirstOrders(matching))
  }

  /** The mean order value to cents, 0 without orders. */
  function AverageOrderValue(revenue: real, n: nat): (r: real)
    ensures n == 0 ==> r == 0.0
    ensures n > 0 ==> r == RoundCents(revenue / n as real)
  {
    if n > 0 then RoundCents(revenue / n as real) else 0.0
  }

  /** The first ten orders (all of them when there are fewer). */
  function FirstOrders(os: seq<Order>): (r: seq<Order>)
    ensures |r| == if |os| <= RecentOrdersShown then |os| else RecentOrdersShown
    ensures r == os[..|r|]
    ensures forall o :: o in r ==> o in os
  {
    if |os| <= RecentOrdersShown then os else os[..RecentOrdersShown]
  }

  function GetProductAnalytics(user: Option<ShopifyUser>, paidOrders: Result<seq<Order>>, pid: string,
                               days: int, now: int): (r: Result<ProductAnalytics>)
    ensures !HasToken(user) ==> r.Failure?
    ensures r.Success? ==> paidOrders.Success? && r.value == ProductAnalyticsOf(paidOrders.value, pid, days, now)
    ensures !HasToken(user) ==> r == Failure("Failed to fetch product analytics: " + NoToken)
    ensures HasToken(user) && paidOrders.Success? ==> r == Success(ProductAnalyticsOf(paidOrders.value, pid, days, now))
    ensures HasToken(user) && paidOrders.Failure? ==> r == Failure("Failed to fetch product analytics: " + paidOrders.error)
  {
    match Guarded(user, paidOrders, "Failed to fetch product analytics")
    case Failure(e) => Failure(e)
    case Success(os) => Success(ProductAnalyticsOf(os, pid, days, now))
  }
}

=== FILE: strings.dfy ===
/** String helpers with the JavaScript meaning the source relies on:
    whitespace as `\s` and `String.prototype.trim` see it, substring search as
    `includes`, decimal rendering of counts as template literals do. */
module Strings {

  /** JavaScript's WhiteSpace and LineTerminator code points (the `\s` class). */
  predicate IsSpace(c: char) {
    c == ' ' || ('\t' <= c <= '\r') || c == '\U{A0}' || c == '\U{1680}'
    || ('\U{2000}' <= c <= '\U{200A}') || c == '\U{2028}' || c == '\U{2029}'
    || c == '\U{202F}' || c == '\U{205F}' || c == '\U{3000}' || c == '\U{FEFF}'
  }

  predicate IsDigit(c: char) {
    '0' <= c <= '9'
  }

  predicate IsPrefix<T(==)>(p: seq<T>, s: seq<T>) {
    |p| <= |s| && s[..|p|] == p
  }

  predicate IsSuffix(p: string, s: string) {
    |p| <= |s| && s[|s| - |p|..] == p
  }

  /** `sub` occurs in `s` starting at index `i`. */
  predicate OccursAt(s: string, sub: string, i: int) {
    0 <= i <= |s| - |sub| && s[i..i + |sub|] == sub
  }

  /** `s.includes(sub)`. */
  predicate Contains(s: string, sub: string)
    decreases |s|
  {
    IsPrefix(sub, s) || (|s| > 0 && Contains(s[1..], sub))
  }

  /** The position-based reading of `Contains`. */
  lemma {:induction false} ContainsAt(s: string, sub: string)
    ensures Contains(s, sub) <==> exists i :: OccursAt(s, sub, i)
    decreases |s|
  {
    if IsPrefix(sub, s) {
      assert OccursAt(s, sub, 0);
    } else if |s| == 0 {
    } else {
      ContainsAt(s[1..], sub);
      if exists i :: OccursAt(s, sub, i) {
        var i :| OccursAt(s, sub, i);
        assert i != 0;
        assert s[1..][i - 1..i - 1 + |sub|] == s[i..i + |sub|];
        assert OccursAt(s[1..], sub, i - 1);
      }
      if exists i :: OccursAt(s[1..], sub, i) {
        var i :| OccursAt(s[1..], sub, i);
        assert s[i + 1..i + 1 + |sub|] == s[1..][i..i + |sub|];
        assert OccursAt(s, sub, i + 1);
      }
    }
  }

  /** A string containing `x + sub + y` contains `sub`. */
  lemma {:induction false} ContainsInfix(x: string, sub: string, y: string)
    ensures Contains(x + sub + y, sub)
    decreases |x|
  {
    if |x| == 0 {
      assert x + sub + y == sub + y;
      assert (sub + y)[..|sub|] == sub;
    } else {
      assert (x + sub + y)[1..] == x[1..] + sub + y;
      ContainsInfix(x[1..], sub, y);
    }
  }

  /** ASCII lower-casing of one character. */
  function LowerChar(c: char): char {
    if 'A' <= c <= 'Z' then (c as int + 32) as char else c
  }

  /** `s.toLowerCase()` restricted to ASCII letters. */
  function ToLower(s: string): (r: string)
    ensures |r| == |s|
    ensures forall i :: 0 <= i < |s| ==> r[i] == LowerChar(s[i])
  {
    seq(|s|, i requires 0 <= i < |s| => LowerChar(s[i]))
  }

  /** Drops leading whitespace. */
  function TrimStart(s: string): (r: string)
    ensures IsSuffix(r, s)
    ensures |r| > 0 ==> !IsSpace(r[0])
    ensures forall i :: 0 <= i < |s| - |r| ==> IsSpace(s[i])
    decreases |s|
  {
    if |s| > 0 && IsSpace(s[0]) then TrimStart(s[1..]) else s
  }

  /** Drops trailing whitespace. */
  function TrimEnd(s: string): (r: string)
    ensures IsPrefix(r, s)
    ensures |r| > 0 ==> !IsSpace(r[|r| - 1])
    ensures forall i :: |r| <= i < |s| ==> IsSpace(s[i])
    decreases |s|
  {
    if |s| > 0 && IsSpace(s[|s| - 1]) then TrimEnd(s[..|s| - 1]) else s
  }

  /** `s.trim()`: the longest slice of `s` without whitespace at either end. */
  function Trim(s: string): (r: string)
    ensures |r| <= |s|
    ensures |r| > 0 ==> !IsSpace(r[0]) && !IsSpace(r[|r| - 1])
    ensures exists i :: OccursAt(s, r, i)
  {
    var t := TrimStart(s);
    var r := TrimEnd(t);
    assert s[|s| - |t|..|s| - |t| + |r|] == t[..|r|] == r;
    assert OccursAt(s, r, |s| - |t|);
    r
  }

  /** `xs.join(sep)`. */
  function Join(xs: seq<string>, sep: string): string
    decreases |xs|
  {
    if |xs| == 0 then ""
    else if |xs| == 1 then xs[0]
    else xs[0] + sep + Join(xs[1..], sep)
  }

  /** The characters of `s` that are decimal digits, in order (`replace(/\D/g, '')`). */
  function DigitsOnly(s: string): (r: string)
    ensures |r| <= |s|
    ensures forall i :: 0 <= i < |r| ==> IsDigit(r[i])
    ensures forall c :: c in s && IsDigit(c) ==> c in r
    ensures forall c :: c in r ==> c in s
    decreases |s|
  {
    if |s| == 0 then ""
    else if IsDigit(s[0]) then [s[0]] + DigitsOnly(s[1..])
    else DigitsOnly(s[1..])
  }

  /** The text before the first occurrence of `sep` (the first element of `s.split(sep)`). */
  function BeforeFirst(s: string, sep: char): (r: string)
    ensures IsPrefix(r, s)
    ensures sep !in r
    ensures |r| < |s| ==> s[|r|] == sep
    ensures sep in s ==> |r| < |s|
    decreases |s|
  {
    if |s| == 0 || s[0] == sep then "" else [s[0]] + BeforeFirst(s[1..], sep)
  }

  function DigitChar(d: nat): char
    requires d < 10
  {
    ('0' as int + d) as char
  }

  /** Decimal rendering of a natural number, as `${n}` prints it. */
  function NatToString(n: nat): (r: string)
    ensures |r| >= 1
    ensures forall i :: 0 <= i < |r| ==> IsDigit(r[i])
    ensures r[0] == '0' ==> n == 0
    decreases n
  {
    if n < 10 then [DigitChar(n)] else NatToString(n / 10) + [DigitChar(n % 10)]
  }

  /** Reads a string of decimal digits back as a number. */
  function ParseDigits(s: string): nat
    requires forall i :: 0 <= i < |s| ==> IsDigit(s[i])
    decreases |s|
  {
    if |s| == 0 then 0
    else
      assert IsDigit(s[|s| - 1]);
      var d: nat := s[|s| - 1] as int - '0' as int;
      10 * ParseDigits(s[..|s| - 1]) + d
  }

  /** Reading a rendered number gives the number back. */
  lemma {:induction false} ParseNatToString(n: nat)
    ensures ParseDigits(NatToString(n)) == n
    decreases n
  {
    if n >= 10 {
      var r := NatToString(n);
      assert r[..|r| - 1] == NatToString(n / 10);
      ParseNatToString(n / 10);
    }
  }

  /** Distinct numbers render to distinct strings. */
  lemma NatToStringInjective(m: nat, n: nat)
    ensures NatToString(m) == NatToString(n) ==> m == n
  {
    ParseNatToString(m);
    ParseNatToString(n);
  }

  /** The text before `sep` in `x + [sep] + y` is `x` when `x` has no `sep`. */
  lemma {:induction false} BeforeFirstSeparated(x: string, sep: char, y: string)
    requires sep !in x
    ensures BeforeFirst(x + [sep] + y, sep) == x
    decreases |x|
  {
    if |x| > 0 {
      assert (x + [sep] + y)[1..] == x[1..] + [sep] + y;
      BeforeFirstSeparated(x[1..], sep, y);
      assert x == [x[0]] + x[1..];
    }
  }

  /** `s.split(sep)` for a one-character separator. */
  function Split(s: string, sep: char): (r: seq<string>)
    ensures |r| >= 1
    ensures forall k :: 0 <= k < |r| ==> sep !in r[k]
    decreases |s|
  {
    if sep !in s then [s]
    else
      var head := BeforeFirst(s, sep);
      [head] + Split(s[|head| + 1..], sep)
  }

  /** Splitting a joined list gives the list back when no piece holds the
      separator. */
  lemma {:induction false} SplitJoin(xs: seq<string>, sep: char)
    requires |xs| >= 1
    requires forall k :: 0 <= k < |xs| ==> sep !in xs[k]
    ensures Split(Join(xs, [sep]), sep) == xs
    decreases |xs|
  {
    if |xs| > 1 {
      var rest := Join(xs[1..], [sep]);
      assert Join(xs, [sep]) == xs[0] + [sep] + rest;
      BeforeFirstSeparated(xs[0], sep, rest);
      assert (xs[0] + [sep] + rest)[|xs[0]|] == sep;
      assert (xs[0] + [sep] + rest)[|xs[0]| + 1..] == rest;
      SplitJoin(xs[1..], sep);
      assert xs == [xs[0]] + xs[1..];
    }
  }
}

=== FILE: subscription.dfy ===
/** The subscription record: the plan table, feature flags, the two usage
    quotas with their unlimited (-1) sentinel, and the activity and trial
    tests. Times are milliseconds passed in by the caller. */
module Subscriptions {
  import opened Wrappers

  datatype PlanName = Free | Basic | Pro | Enterprise

  /** A stored feature flag: only a JSON `true` counts as enabled. */
  datatype FlagValue = Flag(on: bool) | NotBoolean

  /** One entry of the plan table. */
  datatype Plan = Plan(
    title: string,
    price: real,
    aiLimit: int,
    campaignsLimit: int,
    enabled: set<string>)

  const Unlimited: int := -1

  /** The eight feature names every plan lists. */
  const FeatureNames: set<string> := {
    "aiCampaignGeneration", "aiOptimization", "advancedAnalytics", "customAudiences",
    "bulkOperations", "apiAccess", "prioritySupport", "whiteLabel" }

  function PlanOf(p: PlanName): Plan {
    match p
    case Free => Plan("Free", 0.0, 10, 3, {"aiCampaignGeneration"})
    case Basic => Plan("Basic", 29.99, 100, 25,
      {"aiCampaignGeneration", "aiOptimization", "customAudiences"})
    case Pro => Plan("Pro", 79.99, 500, 100,
      {"aiCampaignGeneration", "aiOptimization", "advancedAnalytics", "customAudiences",
       "bulkOperations", "apiAccess", "prioritySupport"})
    case Enterprise => Plan("Enterprise", 199.99, Unlimited, Unlimited, FeatureNames)
  }

  /** The plan key as stored and as sent by a client; anything else is not a plan. */
  function PlanKey(p: PlanName): string {
    match p
    case Free => "free"
    case Basic => "basic"
    case Pro => "pro"
    case Enterprise => "enterprise"
  }

  function ParsePlan(key: string): (r: Option<PlanName>)
    ensures r.Some? ==> PlanKey(r.value) == key
    ensures forall p: PlanName :: PlanKey(p) == key ==> r == Some(p)
  {
    if key == "free" then Some(Free)
    else if key == "basic" then Some(Basic)
    else if key == "pro" then Some(Pro)
    else if key == "enterprise" then Some(Enterprise)
    else None
  }

  /** A plan's feature object: every listed name, true exactly when enabled. */
  function FeatureMap(p: Plan): (r: map<string, FlagValue>)
    ensures r.Keys == FeatureNames
    ensures forall f :: f in r ==> r[f] == Flag(f in p.enabled)
  {
    map f | f in FeatureNames :: Flag(f in p.enabled)
  }

  /** The order in which the plans are offered. */
  function Next(p: PlanName): Option<PlanName> {
    match p
    case Free => Some(Basic)
    case Basic => Some(Pro)
    case Pro => Some(Enterprise)
    case Enterprise => None
  }

  /** Moving up a plan never costs less, never lowers a finite limit (the
      unlimited sentinel counts as above every finite one), and keeps every
      enabled feature. */
  lemma PlanTableOrdered(p: PlanName)
    requires Next(p).Some?
    ensures var a := PlanOf(p); var b := PlanOf(Next(p).value);
      a.price < b.price
      && a.enabled <= b.enabled
      && (b.aiLimit == Unlimited || a.aiLimit < b.aiLimit)
      && (b.campaignsLimit == Unlimited || a.campaignsLimit < b.campaignsLimit)
  {
  }

  /** Only the enterprise plan is unlimited, and it enables every feature;
      the finite limits are positive. */
  lemma UnlimitedOnlyForEnterprise(p: PlanName)
    ensures PlanOf(p).aiLimit == Unlimited <==> p == Enterprise
    ensures PlanOf(p).campaignsLimit == Unlimited <==> p == Enterprise
    ensures p != Enterprise ==> PlanOf(p).aiLimit > 0 && PlanOf(p).campaignsLimit > 0
    ensures PlanOf(p).enabled <= FeatureNames
    ensures p == Enterprise ==> PlanOf(p).enabled == FeatureNames
  {
  }

  /** The stored subscription row. `status` is the text the billing callback
      writes, so it is kept as a string. */
  datatype Subscription = Subscription(
    userId: int,
    shopifyChargeId: Option<string>,
    plan: PlanName,
    status: string,
    billingCycle: string,
    amount: real,
    aiUsed: int,
    aiLimit: int,
    campaignsCreated: int,
    campaignsLimit: int,
    features: Option<map<string, FlagValue>>,
    trialEndsAt: Option<int>,
    currentPeriodStart: Option<int>,
    currentPeriodEnd: Option<int>,
    cancelledAt: Option<int>)

  /** A row created with only its user id: the column defaults, which are the
      free plan's limits and features with status 'pending'. */
  function NewRow(userId: int): (r: Subscription)
    ensures r.plan == Free && r.status == "pending" && r.aiUsed == 0 && r.campaignsCreated == 0
    ensures r.aiLimit == PlanOf(Free).aiLimit && r.campaignsLimit == PlanOf(Free).campaignsLimit
    ensures r.features == Some(FeatureMap(PlanOf(Free)))
  {
    Subscription(userId, None, Free, "pending", "monthly", 0.0, 0, 10, 0, 3,
      Some(FeatureMap(PlanOf(Free))), None, None, None, None)
  }

  predicate HasFeatureIn(features: Option<map<string, FlagValue>>, f: string) {
    features.Some? && f in features.value && features.value[f] == Flag(true)
  }

  predicate HasFeature(s: Subscription, f: string) {
    HasFeatureIn(s.features, f)
  }

  /** A feature is on in a plan's feature object exactly when the plan enables
      it; so moving up a plan keeps every feature on. */
  lemma PlanFeatures(p: PlanName, f: string)
    ensures HasFeatureIn(Some(FeatureMap(PlanOf(p))), f) <==> f in PlanOf(p).enabled
    ensures Next(p).Some? && HasFeatureIn(Some(FeatureMap(PlanOf(p))), f) ==>
      HasFeatureIn(Some(FeatureMap(PlanOf(Next(p).value))), f)
  {
    UnlimitedOnlyForEnterprise(p);
    if Next(p).Some? {
      PlanTableOrdered(p);
    }
  }

  /** Missing flags, non-boolean flags and a missing feature object all read
      as off. */
  lemma FeatureDefaultsOff(s: Subscription, f: string)
    ensures s.features.None? ==> !HasFeature(s, f)
    ensures s.features.Some? && f !in s.features.value ==> !HasFeature(s, f)
    ensures s.features.Some? && f in s.features.value && s.features.value[f] != Flag(true) ==> !HasFeature(s, f)
  {
  }

  predicate WithinQuota(used: int, limit: int) {
    limit == Unlimited || used < limit
  }

  predicate CanUseAI(s: Subscription) {
    WithinQuota(s.aiUsed, s.aiLimit)
  }

  predicate CanCreateCampaign(s: Subscription) {
    WithinQuota(s.campaignsCreated, s.campaignsLimit)
  }

  /** Counting one use: 'ai' bumps the generation counter, 'campaign' the
      campaign counter; any other kind is ignored. Nothing else changes. */
  function IncrementUsage(s: Subscription, kind: string): (r: Subscription)
    ensures kind == "ai" ==> r.aiUsed == s.aiUsed + 1 && r.(aiUsed := s.aiUsed) == s
    ensures kind == "campaign" ==>
      r.campaignsCreated == s.campaignsCreated + 1 && r.(campaignsCreated := s.campaignsCreated) == s
    ensures kind != "ai" && kind != "campaign" ==> r == s
  {
    if kind == "ai" then s.(aiUsed := s.aiUsed + 1)
    else if kind == "campaign" then s.(campaignsCreated := s.campaignsCreated + 1)
    else s
  }

  /** The start of a new period: both counters go back to 0, nothing else
      changes. */
  function ResetUsage(s: Subscription): (r: Subscription)
    ensures r.aiUsed == 0 && r.campaignsCreated == 0
    ensures r.(aiUsed := s.aiUsed, campaignsCreated := s.campaignsCreated) == s
  {
    s.(aiUsed := 0, campaignsCreated := 0)
  }

  /** `k` uses of one kind in a row. */
  function UseTimes(s: Subscription, kind: string, k: nat): Subscription
    decreases k
  {
    if k == 0 then s else IncrementUsage(UseTimes(s, kind, k - 1), kind)
  }

  /** After `k` AI generations the counter has moved by exactly `k` and the
      campaign counter and every other field are untouched. */
  lemma {:induction false} UseTimesCounts(s: Subscription, k: nat)
    ensures UseTimes(s, "ai", k) == s.(aiUsed := s.aiUsed + k)
    decreases k
  {
    if k > 0 {
      UseTimesCounts(s, k - 1);
    }
  }

  /** From a fresh period, AI generation stays allowed for exactly as many
      uses as the limit (forever when unlimited). */
  lemma QuotaAfterReset(s: Subscription, k: nat)
    ensures CanUseAI(UseTimes(ResetUsage(s), "ai", k)) <==> s.aiLimit == Unlimited || k < s.aiLimit
  {
    UseTimesCounts(ResetUsage(s), k);
  }

  /** Once a quota is exhausted, further uses of any kind do not reopen it. */
  lemma ExhaustedStaysExhausted(s: Subscription, kind: string)
    ensures !CanUseAI(s) ==> !CanUseAI(IncrementUsage(s, kind))
    ensures !CanCreateCampaign(s) ==> !CanCreateCampaign(IncrementUsage(s, kind))
    ensures kind != "ai" ==> (CanUseAI(IncrementUsage(s, kind)) <==> CanUseAI(s))
    ensures kind != "campaign" ==> (CanCreateCampaign(IncrementUsage(s, kind)) <==> CanCreateCampaign(s))
  {
  }

  /** A reset reopens both quotas whenever the limits are positive or
      unlimited. */
  lemma ResetReopens(s: Subscription)
    ensures CanUseAI(ResetUsage(s)) <==> s.aiLimit == Unlimited || s.aiLimit > 0
    ensures CanCreateCampaign(ResetUsage(s)) <==> s.campaignsLimit == Unlimited || s.campaignsLimit > 0
  {
  }

  /** Active means status 'active' and either no period end or a period end
      still in the future. */
  predicate IsActive(s: Subscription, now: int) {
    s.status == "active" && (s.currentPeriodEnd.None? || now < s.currentPeriodEnd.value)
  }

  predicate IsInTrial(s: Subscription, now: int) {
    s.trialEndsAt.Some? && now < s.trialEndsAt.value
  }

  /** Activity and trial are cut-offs in time: true at some moment means true
      at every earlier one, and false from the end date on. */
  lemma ActivityIsCutOff(s: Subscription, earlier: int, now: int)
    requires earlier <= now
    ensures IsActive(s, now) ==> IsActive(s, earlier)
    ensures IsInTrial(s, now) ==> IsInTrial(s, earlier)
    ensures s.currentPeriodEnd.Some? && now >= s.currentPeriodEnd.value ==> !IsActive(s, now)
    ensures s.trialEndsAt.Some? && now >= s.trialEndsAt.value ==> !IsInTrial(s, now)
    ensures s.status != "active" ==> !IsActive(s, now)
  {
  }
}

=== FILE: webhooks.dfy ===
/** Incoming webhooks: signature checks (the HMAC and SHA-256 digests are
    function parameters), app uninstall, order attribution to active
    campaigns, the Conversions API payload, and the Facebook change
    dispatch. Database lookups and writes are inputs and outputs. */
module Webhooks {
  import opened Wrappers
  import opened Strings
  import Schema
  import opened Http

  /** The status and error text a handler answers with. */
  datatype Response = Response(status: int, error: Option<string>)

  const Ok := Response(200, None)
  const Unauthorized := Response(401, Some("Unauthorized"))
  const ServerError := Response(500, Some("Internal server error"))

  // Signatures

  /** Shopify signs with the base64 HMAC of the serialised body. */
  predicate VerifyShopify(header: string, body: string, hmacBase64: string -> string) {
    hmacBase64(body) == header
  }

  /** Facebook signs with 'sha256=' followed by the hex HMAC. */
  predicate VerifyFacebook(header: string, body: string, hmacHex: string -> string) {
    header == "sha256=" + hmacHex(body)
  }

  /** A Facebook signature is accepted exactly when it carries the 'sha256='
      prefix and the rest is the digest; a bare digest is refused. */
  lemma FacebookSignatureShape(header: string, body: string, hmacHex: string -> string)
    ensures VerifyFacebook(header, body, hmacHex) <==>
      (|header| >= 7 && header[..7] == "sha256=" && header[7..] == hmacHex(body))
    ensures header == hmacHex(body) ==> !VerifyFacebook(header, body, hmacHex)
  {
    if |header| >= 7 && header[..7] == "sha256=" && header[7..] == hmacHex(body) {
      assert header == header[..7] + header[7..];
    }
  }

  // Users

  datatype WebUser = WebUser(
    id: int,
    shopDomain: string,
    isActive: bool,
    shopifyAccessToken: Option<string>,
    facebookAccessToken: Option<string>,
    facebookPixelId: Option<string>)

  predicate Present(x: Option<string>) {
    x.Some? && x.value != ""
  }

  /** App uninstall: a verified call deactivates the shop's user and drops
      its Shopify token; it answers 200 whether or not the shop is known.
      `saveOk` is whether the user's save succeeds. */
  function HandleAppUninstall(verified: bool, user: Option<WebUser>, saveOk: bool)
    : (r: (Response, Option<WebUser>))
    ensures !verified ==> r == (Unauthorized, None)
    ensures verified && user.None? ==> r == (Ok, None)
    ensures verified && user.Some? && saveOk ==>
      r == (Ok, Some(user.value.(isActive := false, shopifyAccessToken := None)))
    ensures verified && user.Some? && !saveOk ==> r == (ServerError, None)
  {
    if !verified then (Unauthorized, None)
    else if user.None? then (Ok, None)
    else if !saveOk then (ServerError, None)
    else (Ok, Some(user.value.(isActive := false, shopifyAccessToken := None)))
  }

  /** Uninstalling is idempotent: a second verified uninstall of the
      deactivated user stores the same row, and the row no longer holds a
      Shopify token for any later Shopify call. */
  lemma UninstallIdempotent(u: WebUser)
    ensures var first := HandleAppUninstall(true, Some(u), true).1;
      first.Some? && !first.value.isActive && !Present(first.value.shopifyAccessToken)
      && HandleAppUninstall(true, first, true).1 == first
      && first.value.(isActive := u.isActive, shopifyAccessToken := u.shopifyAccessToken) == u
  {
  }

  // Attribution

  datatype LineItem = LineItem(productId: string, price: real, quantity: int)

  datatype CampaignRow = CampaignRow(id: int, userId: int, productId: string, status: string)

  /** A conversion record written for one campaign. */
  datatype Attribution = Attribution(campaignId: int, conversions: int, revenue: real)

  predicate Attributable(c: CampaignRow, userId: int, productId: string) {
    c.userId == userId && c.productId == productId && c.status == "active"
  }

  /** `a` is the record crediting campaign `c` with line item `it`. */
  predicate Credits(a: Attribution, c: CampaignRow, it: LineItem, userId: int) {
    Attributable(c, userId, it.productId) && a == Attribution(c.id, it.quantity, it.price * it.quantity as real)
  }

  /** The query's result: the user's active campaigns for one product. */
  function MatchingCampaigns(cs: seq<CampaignRow>, userId: int, productId: string): (r: seq<CampaignRow>)
    ensures |r| <= |cs|
    ensures forall c :: c in r <==> c in cs && Attributable(c, userId, productId)
    decreases |cs|
  {
    if |cs| == 0 then []
    else if Attributable(cs[0], userId, productId) then [cs[0]] + MatchingCampaigns(cs[1..], userId, productId)
    else MatchingCampaigns(cs[1..], userId, productId)
  }

  function RecordsFor(item: LineItem, matching: seq<CampaignRow>): (r: seq<Attribution>)
    ensures |r| == |matching|
    ensures forall i :: 0 <= i < |r| ==>
      r[i] == Attribution(matching[i].id, item.quantity, item.price * item.quantity as real)
  {
    seq(|matching|, i requires 0 <= i < |matching| =>
      Attribution(matching[i].id, item.quantity, item.price * item.quantity as real))
  }

  /** Every record the attribution loop writes, item by item and, within an
      item, campaign by campaign. */
  function Attribute(items: seq<LineItem>, cs: seq<CampaignRow>, userId: int): seq<Attribution>
    decreases |items|
  {
    if |items| == 0 then []
    else
      var head := RecordsFor(items[0], MatchingCampaigns(cs, userId, items[0].productId));
      head + Attribute(items[1..], cs, userId)
  }

  /** How many campaigns each item is credited to, added up. */
  function CreditCount(items: seq<LineItem>, cs: seq<CampaignRow>, userId: int): nat
    decreases |items|
  {
    if |items| == 0 then 0
    else |MatchingCampaigns(cs, userId, items[0].productId)| + CreditCount(items[1..], cs, userId)
  }

  /** One record per (line item, matching campaign), each crediting a campaign
      of this user that is active and sells an ordered product, with the
      item's quantity as conversions. */
  lemma {:induction false} AttributionShape(items: seq<LineItem>, cs: seq<CampaignRow>, userId: int)
    ensures |Attribute(items, cs, userId)| == CreditCount(items, cs, userId)
    ensures forall a :: a in Attribute(items, cs, userId) ==>
      exists c, it :: c in cs && it in items && Credits(a, c, it, userId)
    decreases |items|
  {
    if |items| > 0 {
      AttributionShape(items[1..], cs, userId);
      var m := MatchingCampaigns(cs, userId, items[0].productId);
      var head := RecordsFor(items[0], m);
      var tail := Attribute(items[1..], cs, userId);
      forall a | a in head + tail
        ensures exists c, it :: c in cs && it in items && Credits(a, c, it, userId)
      {
        if a in head {
          var i :| 0 <= i < |head| && head[i] == a;
          assert m[i] in m;
          assert items[0] in items;
        } else {
          assert a in tail;
          var c, it :| c in cs && it in items[1..] && Credits(a, c, it, userId);
          assert it in items;
        }
      }
    }
  }

  /** Attribution swallows its own errors; `failAfter` is how many records
      were written before a step threw, None when nothing threw. */
  function ProcessOrderAttribution(items: Option<seq<LineItem>>, cs: seq<CampaignRow>, userId: int,
                                   failAfter: Option<nat>): (r: seq<Attribution>)
    ensures items.None? ==> r == []
    ensures failAfter.None? ==> r == Attribute(items.GetOr([]), cs, userId)
    ensures |r| <= |Attribute(items.GetOr([]), cs, userId)|
    ensures r == Attribute(items.GetOr([]), cs, userId)[..|r|]
  {
    var all := Attribute(items.GetOr([]), cs, userId);
    if failAfter.Some? && failAfter.value < |all| then all[..failAfter.value] else all
  }

  // Conversion payload

  datatype OrderBody = OrderBody(
    id: nat,
    email: Option<string>,
    firstName: Option<string>,
    lastName: Option<string>,
    phone: Option<string>,
    currency: string,
    totalPrice: real,
    lineItems: seq<LineItem>)

  datatype CustomData = CustomData(
    currency: string,
    value: real,
    orderId: string,
    contentIds: seq<string>,
    contentType: string,
    numItems: int)

  datatype ConversionEvent = ConversionEvent(
    eventName: string,
    eventTime: int,
    actionSource: string,
    eventSourceUrl: string,
    userData: map<string, string>,
    customData: CustomData)

  function TotalQuantity(items: seq<LineItem>): int
    decreases |items|
  {
    if |items| == 0 then 0 else items[0].quantity + TotalQuantity(items[1..])
  }

  /** The hashed identity fields; a falsy field is left out. */
  function UserData(o: OrderBody, sha256: string -> string): (r: map<string, string>)
    ensures "em" in r <==> Present(o.email)
    ensures "fn" in r <==> Present(o.firstName)
    ensures "ln" in r <==> Present(o.lastName)
    ensures "ph" in r <==> Present(o.phone)
    ensures r.Keys <= {"em", "fn", "ln", "ph"}
    ensures "em" in r ==> r["em"] == sha256(ToLower(o.email.value))
    ensures "ph" in r ==> r["ph"] == sha256(DigitsOnly(o.phone.value))
  {
    var em := if Present(o.email) then map["em" := sha256(ToLower(o.email.value))] else map[];
    var fn := if Present(o.firstName) then map["fn" := sha256(ToLower(o.firstName.value))] else map[];
    var ln := if Present(o.lastName) then map["ln" := sha256(ToLower(o.lastName.value))] else map[];
    var ph := if Present(o.phone) then map["ph" := sha256(DigitsOnly(o.phone.value))] else map[];
    em + fn + ln + ph
  }

  /** Two phone numbers that differ only in punctuation hash the same. */
  lemma PhoneHashIgnoresPunctuation(o: OrderBody, o2: OrderBody, sha256: string -> string)
    requires Present(o.phone) && Present(o2.phone)
    requires DigitsOnly(o.phone.value) == DigitsOnly(o2.phone.value)
    ensures UserData(o, sha256)["ph"] == UserData(o2, sha256)["ph"]
  {
  }

  function ProductIdsOf(items: seq<LineItem>): (r: seq<string>)
    ensures |r| == |items| && forall i :: 0 <= i < |items| ==> r[i] == items[i].productId
  {
    seq(|items|, i requires 0 <= i < |items| => items[i].productId)
  }

  /** The purchase event: time in whole seconds, the order's products in
      line-item order and the total quantity. */
  function ConversionPayload(shopDomain: string, o: OrderBody, nowMs: int, sha256: string -> string)
    : (r: ConversionEvent)
    ensures r.eventName == "Purchase" && r.actionSource == "website"
    ensures r.eventTime * 1000 <= nowMs < r.eventTime * 1000 + 1000
    ensures r.eventSourceUrl == "https://" + shopDomain
    ensures r.userData == UserData(o, sha256)
    ensures r.customData.orderId == NatToString(o.id)
    ensures r.customData.contentIds == ProductIdsOf(o.lineItems)
    ensures r.customData.numItems == TotalQuantity(o.lineItems)
    ensures r.customData.contentType == "product"
    ensures r.customData.currency == o.currency && r.customData.value == o.totalPrice
  {
    ConversionEvent("Purchase", nowMs / 1000, "website", "https://" + shopDomain, UserData(o, sha256),
      CustomData(o.currency, o.totalPrice, NatToString(o.id), ProductIdsOf(o.lineItems), "product",
                 TotalQuantity(o.lineItems)))
  }

  /** Item quantities add up over a split of the order. */
  lemma {:induction false} TotalQuantityAppend(a: seq<LineItem>, b: seq<LineItem>)
    ensures TotalQuantity(a + b) == TotalQuantity(a) + TotalQuantity(b)
    decreases |a|
  {
    if |a| > 0 {
      assert (a + b)[0] == a[0];
      assert (a + b)[1..] == a[1..] + b;
      TotalQuantityAppend(a[1..], b);
    } else {
      assert a + b == b;
    }
  }

  /** The user row as the database loads it. The handler reads
      `user.facebookPixelId`, but the User model defines no such column, so
      the loaded row never carries one. */
  function AsLoaded(u: WebUser): (r: WebUser)
    ensures r.(facebookPixelId := u.facebookPixelId) == u
    ensures "facebookPixelId" !in Schema.UserColumns ==> r.facebookPixelId.None?
  {
    if "facebookPixelId" in Schema.UserColumns then u else u.(facebookPixelId := None)
  }

  /** The event is sent only when the user has a pixel id. */
  function SendFacebookConversion(u: WebUser, o: OrderBody, nowMs: int, sha256: string -> string)
    : (r: Option<ConversionEvent>)
    ensures r.Some? <==> Present(u.facebookPixelId)
    ensures r.Some? ==> r.value == ConversionPayload(u.shopDomain, o, nowMs, sha256)
  {
    if Present(u.facebookPixelId) then Some(ConversionPayload(u.shopDomain, o, nowMs, sha256)) else None
  }

  datatype OrderOutcome = OrderOutcome(response: Response, records: seq<Attribution>, sent: Option<ConversionEvent>)

  /** An order webhook: 401 before any lookup when unverified, 404 for an
      unknown shop, otherwise attribution and (for a user connected to
      Facebook) the conversion, then 200. */
  function HandleOrderWebhook(verified: bool, user: Option<WebUser>, o: OrderBody, cs: seq<CampaignRow>,
                              failAfter: Option<nat>, nowMs: int, sha256: string -> string)
    : (r: OrderOutcome)
    ensures !verified ==> r == OrderOutcome(Unauthorized, [], None)
    ensures verified && user.None? ==> r == OrderOutcome(Response(404, Some("Shop not found")), [], None)
    ensures verified && user.Some? ==> r.response == Ok
    ensures verified && user.Some? ==>
      r.records == ProcessOrderAttribution(Some(o.lineItems), cs, user.value.id, failAfter)
    ensures r.sent.Some? <==> (verified && user.Some? && Present(user.value.facebookAccessToken)
      && Present(user.value.facebookPixelId))
    ensures r.sent.Some? ==> r.sent.value == ConversionPayload(user.value.shopDomain, o, nowMs, sha256)
  {
    if !verified then OrderOutcome(Unauthorized, [], None)
    else if user.None? then OrderOutcome(Response(404, Some("Shop not found")), [], None)
    else
      var u := user.value;
      var records := ProcessOrderAttribution(Some(o.lineItems), cs, u.id, failAfter);
      var sent := if Present(u.facebookAccessToken) then SendFacebookConversion(u, o, nowMs, sha256) else None;
      OrderOutcome(Ok, records, sent)
  }

  /** `handleOrderWebhook` as written: the row it reads is the loaded row,
      without a pixel id. */
  function HandleOrderWebhookAsWritten(verified: bool, user: Option<WebUser>, o: OrderBody, cs: seq<CampaignRow>,
                                       failAfter: Option<nat>, nowMs: int, sha256: string -> string)
    : (r: OrderOutcome)
    ensures var loaded := if user.Some? then Some(AsLoaded(user.value)) else None;
      r == HandleOrderWebhook(verified, loaded, o, cs, failAfter, nowMs, sha256)
  {
    HandleOrderWebhook(verified, if user.Some? then Some(AsLoaded(user.value)) else None,
                       o, cs, failAfter, nowMs, sha256)
  }

  /** As written, no conversion is ever sent, whatever the user and the
      order; the answer and the attribution are those of the intended
      handler. */
  lemma ConversionNeverSentAsWritten(verified: bool, user: Option<WebUser>, o: OrderBody, cs: seq<CampaignRow>,
                                     failAfter: Option<nat>, nowMs: int, sha256: string -> string)
    ensures HandleOrderWebhookAsWritten(verified, user, o, cs, failAfter, nowMs, sha256).sent.None?
    ensures var r := HandleOrderWebhookAsWritten(verified, user, o, cs, failAfter, nowMs, sha256);
      var intended := HandleOrderWebhook(verified, user, o, cs, failAfter, nowMs, sha256);
      r.response == intended.response && r.records == intended.records
  {
  }

  /** With a pixel id stored for the user, a verified order from a user
      connected to Facebook sends the purchase event for that order. */
  lemma ConversionSentWithPixel(user: WebUser, o: OrderBody, cs: seq<CampaignRow>,
                                failAfter: Option<nat>, nowMs: int, sha256: string -> string)
    requires Present(user.facebookAccessToken) && Present(user.facebookPixelId)
    ensures HandleOrderWebhook(true, Some(user), o, cs, failAfter, nowMs, sha256).sent
      == Some(ConversionPayload(user.shopDomain, o, nowMs, sha256))
  {
  }

  // Routes

  /* `app.js` destructures the handlers off the exported instance and calls
     them detached, so each handler's first `this.verify…` call throws inside
     its own `try`. */

  /** `POST /webhooks/shopify/app/uninstalled`. */
  function UninstallRoute(call: Call, verified: bool, user: Option<WebUser>, saveOk: bool)
    : (r: (Response, Option<WebUser>))
    ensures call == Detached ==> r == (ServerError, None)
    ensures call == Bound ==> r == HandleAppUninstall(verified, user, saveOk)
  {
    if call == Detached then (ServerError, None) else HandleAppUninstall(verified, user, saveOk)
  }

  /** `POST /webhooks/shopify/orders/create` and `/orders/updated`. */
  function OrderRoute(call: Call, verified: bool, user: Option<WebUser>, o: OrderBody, cs: seq<CampaignRow>,
                      failAfter: Option<nat>, nowMs: int, sha256: string -> string)
    : (r: OrderOutcome)
    ensures call == Detached ==> r == OrderOutcome(ServerError, [], None)
    ensures call == Bound ==> r == HandleOrderWebhookAsWritten(verified, user, o, cs, failAfter, nowMs, sha256)
  {
    if call == Detached then OrderOutcome(ServerError, [], None)
    else HandleOrderWebhookAsWritten(verified, user, o, cs, failAfter, nowMs, sha256)
  }

  /** `POST /webhooks/facebook/ads`. */
  function FacebookRoute(call: Call, verified: bool, objectKind: string, entries: Option<seq<Entry>>)
    : (r: (Response, seq<Handler>))
    ensures call == Detached ==> r == (ServerError, [])
    ensures call == Bound ==> r == HandleFacebookWebhook(verified, objectKind, entries)
  {
    if call == Detached then (ServerError, []) else HandleFacebookWebhook(verified, objectKind, entries)
  }

  /** As registered, every webhook request answers 500 before its signature
      is checked: a forged request and a genuine one are treated alike, and
      nothing is written or dispatched. */
  lemma RoutesAlwaysFailAsWritten(verified: bool, user: Option<WebUser>, saveOk: bool, o: OrderBody,
                                  cs: seq<CampaignRow>, failAfter: Option<nat>, nowMs: int,
                                  sha256: string -> string, objectKind: string, entries: Option<seq<Entry>>)
    ensures UninstallRoute(Detached, verified, user, saveOk) == (ServerError, None)
    ensures OrderRoute(Detached, verified, user, o, cs, failAfter, nowMs, sha256).response == ServerError
    ensures OrderRoute(Detached, verified, user, o, cs, failAfter, nowMs, sha256).records == []
    ensures FacebookRoute(Detached, verified, objectKind, entries) == (ServerError, [])
  {
  }

  /** Called on the service, the routes check the signature first: an
      unverified request answers 401, and a verified order from a known shop
      answers 200 with its attribution. */
  lemma BoundRoutesVerify(user: Option<WebUser>, saveOk: bool, o: OrderBody, cs: seq<CampaignRow>,
                          failAfter: Option<nat>, nowMs: int, sha256: string -> string,
                          objectKind: string, entries: Option<seq<Entry>>)
    ensures UninstallRoute(Bound, false, user, saveOk).0 == Unauthorized
    ensures OrderRoute(Bound, false, user, o, cs, failAfter, nowMs, sha256).response == Unauthorized
    ensures FacebookRoute(Bound, false, objectKind, entries).0 == Unauthorized
    ensures user.Some? ==>
      (OrderRoute(Bound, true, user, o, cs, failAfter, nowMs, sha256).response == Ok
       && OrderRoute(Bound, true, user, o, cs, failAfter, nowMs, sha256).records
          == ProcessOrderAttribution(Some(o.lineItems), cs, user.value.id, failAfter))
  {
  }

  // Facebook changes

  datatype Change = Change(field: string, value: string)

  datatype Entry = Entry(changes: Option<seq<Change>>)

  datatype Handler = AdHandler | CampaignHandler | AdSetHandler | Unhandled

  function HandlerFor(field: string): (r: Handler)
    ensures r == AdHandler <==> field == "ads"
    ensures r == CampaignHandler <==> field == "campaigns"
    ensures r == AdSetHandler <==> field == "adsets"
  {
    if field == "ads" then AdHandler
    else if field == "campaigns" then CampaignHandler
    else if field == "adsets" then AdSetHandler
    else Unhandled
  }

  function EntryHandlers(e: Entry): (r: seq<Handler>)
    ensures e.changes.None? ==> r == []
    ensures e.changes.Some? ==> (|r| == |e.changes.value|
      && forall i :: 0 <= i < |r| ==> r[i] == HandlerFor(e.changes.value[i].field))
  {
    match e.changes
    case None => []
    case Some(cs) => seq(|cs|, i requires 0 <= i < |cs| => HandlerFor(cs[i].field))
  }

  function AllHandlers(es: seq<Entry>): seq<Handler>
    decreases |es|
  {
    if |es| == 0 then [] else EntryHandlers(es[0]) + AllHandlers(es[1..])
  }

  /** A Facebook webhook: 401 when unverified; entries are dispatched, in
      order, only for page objects; a page body without entries throws. */
  function HandleFacebookWebhook(verified: bool, objectKind: string, entries: Option<seq<Entry>>)
    : (r: (Response, seq<Handler>))
    ensures !verified ==> r == (Unauthorized, [])
    ensures verified && objectKind != "page" ==> r == (Ok, [])
    ensures verified && objectKind == "page" && entries.Some? ==> r == (Ok, AllHandlers(entries.value))
    ensures verified && objectKind == "page" && entries.None? ==> r == (ServerError, [])
  {
    if !verified then (Unauthorized, [])
    else if objectKind != "page" then (Ok, [])
    else if entries.None? then (ServerError, [])
    else (Ok, AllHandlers(entries.value))
  }

  /** Dispatch count: one handler call per change of every entry that has
      changes. */
  function ChangeCount(es: seq<Entry>): nat
    decreases |es|
  {
    if |es| == 0 then 0
    else (if es[0].changes.Some? then |es[0].changes.value| else 0) + ChangeCount(es[1..])
  }

  lemma {:induction false} DispatchCount(es: seq<Entry>)
    ensures |AllHandlers(es)| == ChangeCount(es)
    decreases |es|
  {
    if |es| > 0 {
      DispatchCount(es[1..]);
    }
  }
}

=== FILE: wrappers.dfy ===
/** Failure-compatible wrappers used throughout the model: `Option` for the
    source's nullable or falsy values and `Result` for thrown errors. */
module Wrappers {

  datatype Option<+T> = None | Some(value: T) {

    predicate IsFailure() {
      None?
    }

    function PropagateFailure<U>(): Option<U>
      requires None?
    {
      None
    }

    function Extract(): T
      requires Some?
    {
      value
    }

    /** The value, or `default` when absent (the source's `x || default`
        when only absence is falsy). */
    function GetOr(default: T): T {
      match this
      case Some(v) => v
      case None => default
    }
  }

  datatype Result<+R> = Success(value: R) | Failure(error: string) {

    predicate IsFailure() {
      Failure?
    }

    function PropagateFailure<U>(): Result<U>
      requires Failure?
    {
      Failure(error)
    }

    function Extract(): R
      requires Success?
    {
      value
    }
  }
}
